=== FILE: README.md ===
# bbbeate personal web apps — a Dafny model of their logic

The repository is a set of small personal apps:

- `liste` is a to-do list kept in a GitHub Gist. Each save reads the remote list and merges it with the local one: local items win, and remote items added elsewhere (an unknown id at or above the local `nextId` watermark) are recovered. Legacy bare-array documents get a `nextId` derived on load. `src/App.jsx` is an earlier, purely local to-do list.
- `spaces` is a canvas of dated text notes kept in a Gist. It has a date picker with a calendar grid.
- `musikk` is a Rust service that syncs a Spotify library into a tracks table, with a web front end that queries it.
- `tunes` is a Spotify library browser. It collects tracks from every playlist with per-track source lists, filters, sorts and counts them, and syncs a playlist.
- `leser` is a PDF-to-chunks extractor with an interactive review tool.
- `hvaskjer` is a news reader with a Mistral-backed summary, a question box and a CORS proxy worker.
- `shared/cursor.js` is a custom mouse cursor.
- `rass/flic0.py` is a Flic button controller for Hue lights.

Each app's source file is one module; helpers shared by several apps sit in their own modules:

- `Strings`, `JsonStrings` and `JsonStringsRoundTrip` hold text helpers and the JSON codec for string arrays.
- `Sorting` is a stable sort; `Tally` does first-seen counting.
- `Batching` cuts lists into fixed-size requests.
- `UrlParams` models `URLSearchParams`.
- `Calendar` holds calendar dates.
- `Durations` formats `m:ss`.

Code that works by changing state step by step is modelled as classes with `modifies` clauses:

- the to-do session, the spaces view and the date picker;
- the library walk of `tunes` and the news feed, login and question box of `hvaskjer`;
- the cursor and the Flic light state.

Loops are methods proved against specification functions.

Clocks, randomness, the network, the DOM, files and standard input are parameters of the model: the current time, the fetched responses, and the lines typed at a prompt.

Where the code's behaviour is easy to misread, the model follows the code:

- The "skip the write" test in `liste` compares against the re-encoded parsed remote document, not against the fetched text.
- A remote read that answers not-ok is merged as the empty document `{nextId: 1, todos: []}`. A read that throws, and content that is `null` or has no `todos` list, end the save without a write.
- After a successful write the merge is adopted only when its length or `nextId` differ. `Liste.AdoptionComplete` proves this never misses a change.
- The code has no guard against overlapping saves and no buffering of edits made during a save, so neither is modelled.
- Item ids are whatever the JSON holds. Non-numbers count as 0 in the legacy maximum. The `id >= nextId` test converts the id to a number first: `"7"` counts as 7, `null` and `false` as 0, `true` as 1, `[7]` as 7, and text that is no number (`{}` included) never passes. `localIds.has` compares without conversion, so `"7"` is not the local id 7, and an array or object id is never found locally.

## Model

| member | source | states |
|---|---|---|
| Liste.LegacyMaxId | liste/src/App.jsx:9 | the fold is 0 or a numeric id of the list, at least every numeric id, and never negative (non-numbers count as 0) |
| Liste.ParseGistContent | liste/src/App.jsx:5-13 | a legacy array becomes `{nextId: LegacyMaxId + 1, todos: same array}` (nextId above every numeric id, 1 for `[]`); the current format passes through unchanged; malformed JSON is a `SyntaxError`, and `null` or a value with no `todos` list the `TypeError` its first use throws |
| Liste.Recovered | liste/src/App.jsx:191-194 | never longer than the remote list; with `RecoveredMembers` and `RecoveredAppend` it is exactly the remote items whose id is unknown locally and converts to a number at or above the local watermark, in remote order |
| Liste.RecoveredMembers | liste/src/App.jsx:194 | membership in the recovered list is the filter condition, for every item |
| Liste.RecoveredAppend | liste/src/App.jsx:194 | the filter distributes over concatenation, so recovered items keep their remote order |
| Liste.StringToNumber | liste/src/App.jsx:194 | `Number(text)` on ids: white space at the ends is ignored and all-space text is 0 (`StringToNumberOfInt` gives the digits case) |
| Liste.StringToNumberOfInt | liste/src/App.jsx:194 | the decimal text of every integer converts back to it |
| Liste.AtOrAboveCoerces | liste/src/App.jsx:194 | `id >= nextId` compares a numeric string, a one-number array, `null` and a boolean as the number each converts to |
| Liste.MergeNextId | liste/src/App.jsx:187 | the merged nextId is the maximum of the two, so at least both |
| Liste.MergeKeepsLocal | liste/src/App.jsx:192-193 | the merged list starts with the whole local list, in order |
| Liste.MergeAppendsNew | liste/src/App.jsx:192-195 | after the local list come exactly the remote items that `Set.has` does not find locally and that convert to a number at or above the watermark |
| Liste.NoResurrection | liste/src/App.jsx:189-194 | a remote item deleted locally (absent, and its id converts to no number at or above the local watermark) never reappears |
| Liste.MergeKeepsWatermark | liste/src/App.jsx:187-195 | if both documents keep their ids below their nextId, so does the merge |
| Liste.MergeSelf | liste/src/App.jsx:187-195 | merging a document with itself gives it back when no array or object id is at or above the watermark |
| Liste.ObjectIdDuplicated | liste/src/App.jsx:191-194 | an item whose id is an array or object at or above the watermark is never found by `Set.has` and is appended again |
| Liste.RemoteForSave | liste/src/App.jsx:177-184 | a not-ok reply or an empty file is `{nextId: 1, todos: []}`; a read that throws is an error; content goes through `parseGistContent`, and the result is an error exactly for a throw, malformed JSON, `null` or a value with no `todos` list |
| Liste.PlanSave | liste/src/App.jsx:164-205 | no token means no request; a thrown read, a parse error or non-document content aborts; equal documents mean no write; otherwise the merge is written and differs from the remote |
| Liste.AfterWrite | liste/src/App.jsx:221-227 | a failed write keeps the local state; a successful one adopts the merge or keeps the local state |
| Liste.AdoptionComplete | liste/src/App.jsx:223-227 | after a successful write the local state always equals the merge: the length/nextId test never skips a real change |
| Liste.SaveConverges | liste/src/App.jsx:187-204 | once the merge is adopted, saving against that remote content writes nothing (when no array or object id is at or above the watermark) |
| Liste.AddTodo | liste/src/App.jsx:235-242 | blank input changes nothing; otherwise appends `{id: nextId, thing: trimmed, done: false}`, increments nextId and clears the input |
| Liste.AddTodoKeepsWatermark | liste/src/App.jsx:235-242 | adding keeps every numeric id below nextId and never lowers nextId |
| Liste.ToggleTodo | liste/src/App.jsx:244-248 | only the item at the index flips `done`; length and all other items are unchanged |
| Liste.ToggleTwice | liste/src/App.jsx:244-248 | toggling an index twice restores the list |
| Liste.DeleteTodo | liste/src/App.jsx:250-252 | an index out of range changes nothing (`DeleteRemovesOne` states what an index in range removes) |
| Liste.DeleteRemovesOne | liste/src/App.jsx:250-252 | deleting removes one occurrence of the indexed item from the multiset and nothing else |
| Liste.TodoSession.constructor | liste/src/App.jsx:85-89 | the component starts with no todos, nextId 1 and an empty input |
| Liste.TodoSession.Load | liste/src/App.jsx:138-161 | parsed content replaces todos and nextId; missing content keeps the defaults; a failed fetch or parse sets the error |
| Liste.TodoSession.SetInput | liste/src/App.jsx:286 | only the input box changes |
| Liste.TodoSession.Add | liste/src/App.jsx:235-242 | the state becomes `AddTodo` of the old state |
| Liste.TodoSession.Toggle | liste/src/App.jsx:244-248 | todos become `ToggleTodo` of the old list; nextId unchanged |
| Liste.TodoSession.Delete | liste/src/App.jsx:250-252 | todos become `DeleteTodo` of the old list; nextId unchanged |
| Liste.TodoSession.Save | liste/src/App.jsx:163-233 | callable only after a load without error, as the save effect's guard demands; returns `PlanSave`, and the state becomes `AfterWrite` of the plan's document when it wrote; loading and error flags unchanged |
| SimpleTodo.AddTodo | src/App.jsx:8-13 | non-blank input is appended untrimmed with `completed` false and the box cleared; blank input changes nothing |
| SimpleTodo.ToggleTodo | src/App.jsx:15-19 | exactly the items with the id flip `completed`; everything else is unchanged |
| SimpleTodo.DeleteTodo | src/App.jsx:21-23 | no survivor has the id, the survivors are a sub-multiset of the input, and the length is kept exactly when no item has the id |
| SimpleTodo.DeleteTodoMembers | src/App.jsx:21-23 | an item survives iff it was there and has another id |
| SimpleTodo.DeleteTodoAppend | src/App.jsx:21-23 | the filter distributes over concatenation, so the survivors keep their order |
| SimpleTodo.DeleteAbsent | src/App.jsx:21-23 | deleting an id nobody carries leaves the list unchanged |
| SimpleTodo.ToggleTwice | src/App.jsx:15-19 | toggling an id twice restores the list |
| SimpleTodo.HandleKeyPress | src/App.jsx:25-29 | Enter is `addTodo`; any other key changes nothing |
| Spaces.FindMatch | spaces/main.js:20 | the result is the first position at or after `i` where `/spaces/` is followed by a non-slash character, and None iff there is none |
| Spaces.GetSpaceFromPath | spaces/main.js:18-22 | None iff the pattern matches nowhere; otherwise the capture of the leftmost match, non-empty and slash-free |
| Spaces.SpaceOfUrl | spaces/main.js:18-22 | a path `/spaces/<name>` with a non-empty slash-free name gives back that name |
| Spaces.SpaceFileName | spaces/main.js:502 | the file name `spaces_<name>.json` passes the space-file filter |
| Spaces.SpaceNames | spaces/main.js:48-50 | never more names than files |
| Spaces.SpaceNamesMembers | spaces/main.js:48-50 | a name is listed iff some file starting with `spaces_` and ending in `.json` yields it after the two first-occurrence removals |
| Spaces.RemovePrefix | spaces/main.js:50 | removing the first occurrence of a prefix that is there drops exactly the prefix |
| Spaces.SpaceNameRoundTrip | spaces/main.js:50 | a name without `.` survives the round trip through its file name |
| Spaces.RemoveOwnSuffix | spaces/main.js:50 | removing the first `.json` of `name.json` gives `name` when `name` holds no `.` |
| Spaces.EntryLeTotalPreorder | spaces/main.js:498 | the date comparison used by the sort is total and transitive |
| Spaces.EntryEquiv | spaces/main.js:498 | two entries compare equal exactly when their dates are equal |
| Spaces.FindEntry | spaces/main.js:183 | a found entry is in the data with that date; None means no entry has it |
| Spaces.FindEntryFirst | spaces/main.js:183 | `find` returns the first entry of the date |
| Spaces.GetDateEntry | spaces/main.js:181-185 | null when the data is not an array; otherwise an entry of that date, and None only when no entry has it |
| Spaces.GetPostCount | spaces/main.js:187-190 | the found entry's text count, and 0 when there is no entry |
| Spaces.DropDate | spaces/main.js:487 | the result keeps only entries of other dates, all from the input |
| Spaces.DropDateOnDate | spaces/main.js:487 | per date: the selected date has no entries left and every other date keeps its entries in order |
| Spaces.Rebuild | spaces/main.js:484-498 | the rebuilt array is a permutation of the filtered copy plus the new entry |
| Spaces.RebuildSorted | spaces/main.js:498 | the rebuilt array is sorted ascending by date |
| Spaces.RebuildOnDate | spaces/main.js:484-498 | the selected date has exactly one entry holding the texts when there are any, and none otherwise; every other date keeps its entries in order |
| Spaces.PostCountAfterSave | spaces/main.js:484-498 | after a save the selected date's post count is the number of saved texts |
| Spaces.OtherDatesAfterSave | spaces/main.js:484-498 | after a save every other date looks up the same entry as before |
| Spaces.Relabel | spaces/main.js:470-472 | the label becomes the entered name iff it was empty or already equal; otherwise it is kept |
| Spaces.SizeOf | spaces/main.js:477 | `parseInt(fontSize) \|\| 27`: never 0, the parsed number when it is non-zero, and 27 when parsing fails or gives 0 |
| Spaces.SizeOfPixels | spaces/main.js:477 | a size written as `<n>px` reads back as `n` |
| Spaces.RoundHeight | spaces/main.js:276 | `Math.round(height / 1.8)`: the integer nearest to `height / 1.8`, halves rounding up |
| Spaces.FontSize | spaces/main.js:274-277 | the font size always lies in [16, 69], is the rounded height when that is in range, and the nearer bound otherwise |
| Spaces.FontSizeMonotone | spaces/main.js:276 | a taller box never gets a smaller font |
| Spaces.Snapshots | spaces/main.js:465-481 | one snapshot per box, in page order |
| Spaces.Relabeled | spaces/main.js:470-472 | every box is relabelled by `Relabel` and nothing else changes |
| Spaces.RelabelAll | spaces/main.js:465-472 | the array of boxes in place becomes `Relabeled` of its old contents |
| Spaces.SpaceView.constructor | spaces/main.js:83-108 | the view starts with the given space, data and selected date |
| Spaces.SpaceView.SaveContent | spaces/main.js:460-524 | a cancelled or empty name changes nothing; otherwise the labels are relabelled, the patch holds the space's file and the rebuilt array, and the data is replaced unless the request threw |
| DatePicker.NatToString4 | spaces/datepicker.js:28 | a year from 1000 to 9999 prints as four digits |
| DatePicker.ParseIsoDate | spaces/datepicker.js:158 | a parsed date is a valid calendar date whose text has the `YYYY-MM-DD` shape |
| DatePicker.FormatParseRoundTrip | spaces/datepicker.js:27-32 | parsing `formatDate(d)` gives `d` back for four-digit years |
| DatePicker.ParseParts | spaces/datepicker.js:158 | `Y-M-D` with four, two and two digits parses to the date those digits denote when it exists |
| DatePicker.ParseAt | spaces/datepicker.js:158 | a ten-character text with dashes at 4 and 7 parses to the date of its digit runs |
| DatePicker.IsoParts | spaces/datepicker.js:27-32 | the pieces of `Y-M-D` sit at positions 0, 5 and 8 |
| DatePicker.ValueRoundTrip | spaces/datepicker.js:156-161 | `setValue(getValue())` keeps the selected date when its year has four digits |
| DatePicker.FormatInjective | spaces/datepicker.js:27-32 | two four-digit-year dates format equally iff they are equal |
| DatePicker.JsSetMonth | spaces/datepicker.js:103-105 | `setMonth` as written always gives a valid date |
| DatePicker.JsSetMonthSkips | spaces/datepicker.js:103-105 | "prev" from 31 March 2023 stays in March, and "next" from 31 January 2023 lands on 3 March |
| DatePicker.ShiftMonth | spaces/datepicker.js:102-106 | the shown month moves by exactly `delta` months, on day 1 |
| DatePicker.NextThenPrev | spaces/datepicker.js:102-106 | "next" then "prev" shows the month shown before |
| DatePicker.PrevDay | spaces/datepicker.js:56 | the day before is valid, and the next day of it is the original date |
| DatePicker.LastDayOfMonth | spaces/datepicker.js:56 | day 0 of the next month is the last day of this month |
| DatePicker.UtcParsedLocal | spaces/datepicker.js:114 | `new Date("YYYY-MM-DD")` read back in local time fails exactly when the text does not parse, and otherwise is a valid date |
| DatePicker.UtcParseShiftsDay | spaces/datepicker.js:114-118 | five hours west of UTC, clicking 5 March 2024 selects 4 March |
| DatePicker.StartDay | spaces/datepicker.js:57 | `getDay() \|\| 7` is between 1 and 7, so there are 0 to 6 leading empty cells |
| DatePicker.StartDayColumn | spaces/datepicker.js:57-77 | the empty cells put the 1st under its own weekday heading (Monday first) |
| DatePicker.DayCell | spaces/datepicker.js:81-92 | the cell carries the day and its date; `selected` iff the date equals the formatted selection, `today` iff it is today, `has-posts` iff its count is positive |
| DatePicker.SelectedIffSameDate | spaces/datepicker.js:83-88 | with four-digit years a day is selected iff it is the selected date |
| DatePicker.InvalidSelectsNothing | spaces/datepicker.js:83-88 | an `Invalid Date` selection marks no day |
| DatePicker.Picker.constructor | spaces/datepicker.js:6-9 | both dates start at now and the drop-down is closed |
| DatePicker.Picker.Open | spaces/datepicker.js:124-128 | opens, nothing else changes |
| DatePicker.Picker.Close | spaces/datepicker.js:130-133 | closes, nothing else changes |
| DatePicker.Picker.Toggle | spaces/datepicker.js:135-138 | flips open and closed, nothing else changes |
| DatePicker.Picker.GetValue | spaces/datepicker.js:156 | the formatted selection, which parses back to the selected date for four-digit years |
| DatePicker.Picker.SetValue | spaces/datepicker.js:157-161 | the selected date and the shown month both become the date the text names, parsed as a local date (the corrected parse of the second Finding) |
| DatePicker.Picker.SelectDay | spaces/datepicker.js:111-119 | a day click selects and shows the clicked date (the corrected parse of the second Finding), closes, and reports the new value |
| DatePicker.Picker.Navigate | spaces/datepicker.js:100-108 | with the corrected month move of the first Finding, prev/next move the shown month by exactly one and change nothing else |
| DatePicker.Picker.RenderCalendar | spaces/datepicker.js:52-93 | `startDay - 1` empty cells, then exactly one cell per day 1 to the last day of the month |
| DatePicker.DayCells | spaces/datepicker.js:80-93 | one cell per day of the month, cell `d - 1` being day `d` |
| DatePicker.GridColumn | spaces/datepicker.js:57-93 | day `d` lands in the column of its own weekday, Monday first |
| Calendar.DaysInMonth | spaces/datepicker.js:56 | every month has 28 to 31 days |
| Calendar.DaysBeforeNextMonth | spaces/datepicker.js:56 | the month table is the running total of month lengths |
| Calendar.DaysBeforeYearClosed | spaces/datepicker.js:55 | the year-by-year day count equals the Gregorian closed form |
| Calendar.MonthsFillYear | spaces/datepicker.js:55 | the months of a year add up to its length |
| Calendar.NextDay | spaces/datepicker.js:81 | the next day is a valid date |
| Calendar.NextDayNumber | spaces/datepicker.js:57 | consecutive dates have consecutive day numbers and weekdays |
| Calendar.NewYear2024IsMonday | spaces/datepicker.js:57 | the day numbering puts 1 January 2024 on a Monday |
| Calendar.WeekdayInMonth | spaces/datepicker.js:57-81 | day `k` of a month falls `k - 1` weekdays after the 1st |
| MusikkDb.Coalesce | musikk/src/db.rs:122-141 | `COALESCE(?, column)`: the incoming value when present, else the stored one |
| MusikkDb.Upserted | musikk/src/db.rs:115-211 | the row keeps the id; `name`, `sources` and `unavailable` are overwritten unconditionally; `last_seen` and `updated` are now; `first_seen` is now on insert and kept on update |
| MusikkDb.UpdateKeepsStored | musikk/src/db.rs:121-141 | on update a stored value survives an incoming NULL and a non-NULL incoming value replaces it (artists, recco id, popularity, features) |
| MusikkDb.TempoNeverLost | musikk/src/db.rs:131 | once stored, a tempo is never lost by a later upsert |
| MusikkDb.UpsertIdempotent | musikk/src/db.rs:115-211 | upserting the same track twice at the same moment leaves the row the first upsert left |
| MusikkDb.SortColumn | musikk/src/db.rs:277-285 | the sort column is always whitelisted: the requested one when whitelisted, otherwise `name` |
| MusikkDb.Limit | musikk/src/db.rs:288 | the limit is at most 1000, 100 by default, and the request itself when it does not exceed 1000 |
| MusikkDb.ClausesAppend | musikk/src/db.rs:234-275 | appending a clause appends its text and its parameters |
| MusikkDb.SelectsAppend | musikk/src/db.rs:234-275 | a row passes the longer WHERE iff it passes the old one and the new clause |
| MusikkDb.SelectsAppendAll | musikk/src/db.rs:234-275 | the same, for every row |
| MusikkDb.PushClause | musikk/src/db.rs:234-275 | the statement text and the parameter list grow together, and the selected rows are those that also satisfy the clause |
| MusikkDb.PushBound | musikk/src/db.rs:234-265 | an optional lower and upper bound on a column adds an inclusive range test exactly when present |
| MusikkDb.BuildQuery | musikk/src/db.rs:230-275 | the statement and parameters match, and the WHERE selects exactly the available rows in every requested range, with the given key and matching the search |
| MusikkDb.PushBounds | musikk/src/db.rs:234-265 | the four feature ranges, in the statement's order, select exactly the rows in all present ranges |
| MusikkDb.NeverUnavailable | musikk/src/db.rs:231 | no filter selects an unavailable row |
| MusikkDb.SqlLeTotal | musikk/src/db.rs:286 | SQLite's value order is total |
| MusikkDb.SqlLeTransitive | musikk/src/db.rs:286 | SQLite's value order is transitive |
| MusikkDb.DescendingTotalPreorder | musikk/src/db.rs:286 | `ORDER BY col DESC` is a total preorder on rows |
| MusikkDb.ByColumnTotalPreorder | musikk/src/db.rs:286 | the same order on rows with their keys is a total preorder |
| MusikkDb.TopRows | musikk/src/db.rs:286-289 | the first rows of the sorted selection have distinct keys, stay sorted, and come before every selected row left out |
| MusikkDb.KeptRows | musikk/src/db.rs:286-289 | the rows kept under the limit have distinct keys, are the table's wanted tracks, and stay sorted |
| MusikkDb.LeftOutRows | musikk/src/db.rs:286-289 | every wanted track left out by the limit sorts after every row kept; with no cut, every wanted track is kept |
| MusikkDb.LikeAnything | musikk/src/db.rs:272 | `%` matches every text |
| MusikkDb.LikePrefix | musikk/src/db.rs:272 | `s%` matches iff `s` is a prefix, ASCII case ignored, for wildcard-free `s` |
| MusikkDb.LikeInfix | musikk/src/db.rs:272 | `%s%` matches iff `s` occurs in the text, ASCII case ignored, for wildcard-free `s` |
| MusikkDb.SearchMeansSubstring | musikk/src/db.rs:270-275 | a wildcard-free search selects exactly the rows whose name or artists contain it, ASCII case ignored |
| MusikkDb.TrackDb.constructor | musikk/src/db.rs:57-61 | a fresh database has no tracks, no config and no sync log |
| MusikkDb.TrackDb.GetConfig | musikk/src/db.rs:63-68 | the stored value, and nothing for an unknown key |
| MusikkDb.TrackDb.SetConfig | musikk/src/db.rs:70-76 | afterwards `get_config(key)` is the value, every other key reads as before, and the tracks are untouched |
| MusikkDb.TrackDb.GetTrack | musikk/src/db.rs:78-113 | the row stored under the id, or nothing |
| MusikkDb.TrackDb.UpsertTrack | musikk/src/db.rs:115-211 | returns true iff no row had the id; afterwards exactly that id's row is `Upserted`, the set of ids gains it, and all other rows are untouched |
| MusikkDb.TrackDb.QueryTracks | musikk/src/db.rs:230-326 | distinct stored rows the filter selects, sorted descending on the sort column, no more than the limit, every selected row when the limit does not cut, and otherwise the top rows: a selected row left out sorts after every row returned |
| MusikkDb.TrackDb.MissingFeatures | musikk/src/db.rs:402-408 | exactly the available rows whose tempo is NULL |
| MusikkDb.TrackDb.StartSyncLog | musikk/src/db.rs:377-384 | appends a row with zero counts and returns its rowid |
| MusikkDb.TrackDb.FinishSyncLog | musikk/src/db.rs:386-400 | fills in the row with that id and nothing else; an unknown id updates nothing |
| MusikkDb.UpsertAndMissingFeatures | musikk/src/db.rs:402-408 | after an upsert that brings a tempo the track no longer misses features; one without a tempo keeps the stored tempo |
| MusikkSync.MergeSource | musikk/src/sync.rs:296-306 | `merge_source` changes nothing but the `sources` column |
| MusikkSync.MergeSourceList | musikk/src/sync.rs:296-306 | the decoded list grows by `source` exactly when it was missing; absent or unparseable text starts from the empty list |
| MusikkSync.MergeSourceDistinct | musikk/src/sync.rs:302-305 | a duplicate-free list stays duplicate-free and then contains `source` |
| MusikkSync.NewTrack | musikk/src/sync.rs:44-70 | a fresh track has the id, no sources and no features |
| MusikkSync.Owned | musikk/src/sync.rs:116 | exactly the playlists owned by the user, in order |
| MusikkSync.CollectSnoc | musikk/src/sync.rs:44 | the map after one more sighting is one `entry().or_insert_with` plus merge step on the map before |
| MusikkSync.MergeSourceOnlySources | musikk/src/sync.rs:296-306 | `merge_source` touches only the sources column, for every track |
| MusikkSync.CollectKeysWith | musikk/src/sync.rs:31-165 | for any merge that only touches sources, the map holds exactly the ids seen, each stored under its own id |
| MusikkSync.CollectKeys | musikk/src/sync.rs:31-165 | the built map holds one entry per id that appears, stored under that id |
| MusikkSync.CollectFirstWinsWith | musikk/src/sync.rs:31-165 | with any sources-only merge, a track keeps the metadata of its first sighting |
| MusikkSync.CollectFirstWins | musikk/src/sync.rs:31-165 | first occurrence wins (liked, then albums, then playlists); later sightings only add their labels |
| MusikkSync.CollectSources | musikk/src/sync.rs:296-306 | a collected track's sources are its labels without repeats, in first-seen order, hence duplicate-free |
| MusikkSync.NoLabels | musikk/src/sync.rs:31-165 | an id no sighting carries has no labels |
| MusikkSync.Prepared | musikk/src/sync.rs:247-281 | a found Reccobeats id is recorded; fetched features replace the track's; otherwise a stored row's recco id and features are copied in; nothing else changes |
| MusikkSync.CoalesceFeaturesSelf | musikk/src/db.rs:130-141 | COALESCE of features with themselves changes nothing |
| MusikkSync.SyncKeepsFeatures | musikk/src/sync.rs:252-283 | the saved row holds the fetched features over the stored ones, or the stored features and recco id unchanged, so a sync never loses stored features |
| MusikkSync.LookupReccoIds | musikk/src/sync.rs:198-219 | the ids go out in batches of 40 covering all of them in order, and the map is built from the replies of the batches that succeeded |
| MusikkSync.FetchFeatures | musikk/src/sync.rs:222-237 | a track has fetched features iff Reccobeats knows it and its features request gave some; failures are skipped |
| MusikkSync.Add | musikk/src/sync.rs:44-71 | one sighting extends the map as `Collect` prescribes |
| MusikkSync.AddLiked | musikk/src/sync.rs:37-72 | the liked-songs loop adds the liked sightings, skipping local files |
| MusikkSync.AddAlbum | musikk/src/sync.rs:80-110 | one album's tracks are added with the label `album:<id>` |
| MusikkSync.AddAlbums | musikk/src/sync.rs:78-111 | the saved-albums loop adds every album's tracks in order |
| MusikkSync.AddPlaylistItems | musikk/src/sync.rs:128-164 | a playlist's items that are tracks with an id are added with the playlist name |
| MusikkSync.AddPlaylists | musikk/src/sync.rs:119-165 | the owned playlists are scanned in order and a failed fetch is skipped |
| MusikkSync.CollectTracks | musikk/src/sync.rs:31-165 | the map the three loops build is `Collect` of all sightings in visiting order |
| MusikkSync.TracksNeedingFeatures | musikk/src/sync.rs:181-189 | the ids needing features, each once: exactly those not stored or stored without a tempo |
| MusikkSync.KeysOf | musikk/src/sync.rs:184 | the map's ids, each once, in some order |
| MusikkSync.SavedRows | musikk/src/sync.rs:246-283 | one saved row per collected id |
| MusikkSync.NotDoneYet | musikk/src/sync.rs:246-289 | a row not yet visited by the save loop is as stored |
| MusikkSync.OverlayEnd | musikk/src/sync.rs:246-289 | after the loop the table holds the new rows of the visited ids and every other stored row unchanged |
| MusikkSync.CountEnd | musikk/src/sync.rs:284-288 | distinct ids count the map, and the inserts count the ids that were not stored |
| MusikkSync.SaveOne | musikk/src/sync.rs:246-288 | one pass writes the upsert of the prepared track and reports whether it was an insert |
| MusikkSync.SaveNext | musikk/src/sync.rs:246-289 | after visiting `i + 1` ids, `added + updated = i + 1`, `added` counts the new ones, and the table is the overlay of those rows |
| MusikkSync.SaveTracks | musikk/src/sync.rs:240-289 | `added + updated` is the number of unique tracks and `added` the number not stored before; every collected id holds its upserted row and every other row is untouched |
| MusikkSync.StoreLibrary | musikk/src/sync.rs:174-289 | a new refresh token is saved only when the token response has one; the tracks not stored or stored without a tempo are looked up once each, in consecutive batches of 40, `recco` is what the succeeding replies name and `fetched` what each known track's features request returned (`FeaturesLookedUp`); every collected track is upserted as `Prepared` from those maps, other rows kept |
| MusikkSync.RunSync | musikk/src/sync.rs:13-294 | no refresh token is an error; errors and dry runs write nothing, and a dry run returns zero counts; otherwise the collected map is `Collect` of the sightings, the counts and table are as `SaveTracks` states over it, and the features written come from `remote.lookup` and `remote.features` for the tracks needing them, as `FeaturesLookedUp` states |
| MusikkSpotify.Utf8 | musikk/src/spotify.rs:155-156 | one to four bytes per character, each below 256, and ASCII as itself |
| MusikkSpotify.HexUpper | musikk/src/spotify.rs:155-156 | a hex digit is unreserved |
| MusikkSpotify.HexValueOfUpper | musikk/src/spotify.rs:155-156 | reading a written hex digit gives its value back |
| MusikkSpotify.PercentBytes | musikk/src/spotify.rs:155-156 | each byte becomes three characters, all `%` or unreserved |
| MusikkSpotify.UrlEncode | musikk/src/spotify.rs:155-156 | `urlencoding::encode` yields only `%` and unreserved characters |
| MusikkSpotify.DecodeOneChar | musikk/src/spotify.rs:155-156 | decoding undoes one encoded ASCII character |
| MusikkSpotify.UrlEncodeRoundTrip | musikk/src/spotify.rs:149-158 | decoding the encoded redirect or scopes gives back the ASCII text |
| MusikkSpotify.UrlEncodeHasNoDelimiters | musikk/src/spotify.rs:152-157 | an encoded value holds no `&`, `=`, `?` or space, so it cannot end its query parameter early |
| MusikkSpotify.UrlEncodeUnreserved | musikk/src/spotify.rs:155-156 | text of unreserved characters is encoded as itself |
| MusikkSpotify.SpotifyIdOf | musikk/src/spotify.rs:345-351 | Some(rest) iff `href` is present and starts with `https://open.spotify.com/track/`, where `href` is the prefix followed by rest |
| MusikkSpotify.SpotifyIdOfTrackUrl | musikk/src/spotify.rs:345-351 | a track URL built from an id gives the id back |
| MusikkSpotify.FetchAll | musikk/src/spotify.rs:223-237 | a success is every item of the pages reached along the `next` links, in order, the last page having no `next`; an error is the first failed request's |
| MusikkSpotify.OnePage | musikk/src/spotify.rs:227-234 | a single page with no `next` is the whole result |
| MusikkSpotify.Somes | musikk/src/spotify.rs:308 | dropping nulls never lengthens the list |
| MusikkSpotify.SomesAppend | musikk/src/spotify.rs:308 | dropping nulls distributes over concatenation, so order is kept |
| MusikkSpotify.SomesMembers | musikk/src/spotify.rs:308 | a value survives iff it was present |
| MusikkSpotify.AudioFeaturesBatch | musikk/src/spotify.rs:294-309 | no ids: empty without a request; otherwise the present entries of the reply, in order, or its error |
| MusikkSpotify.TracksBySpotifyIds | musikk/src/spotify.rs:375-392 | no ids: empty without a request; a non-success status is an error; a success is the reply's content |
| MusikkSpotify.AudioFeatures | musikk/src/spotify.rs:395-409 | `Ok(None)` iff the reply's status is not a success (404 included); a transport failure is an error; otherwise the decoded features |
| MusikkSpotify.SpotifyClient.constructor | musikk/src/spotify.rs:139-147 | the client keeps its credentials and has no access token |
| MusikkSpotify.SpotifyClient.ExchangeCode | musikk/src/spotify.rs:160-177 | the reply's token (status unchecked) becomes the access token; a failure leaves it |
| MusikkSpotify.SpotifyClient.RefreshToken | musikk/src/spotify.rs:179-200 | a non-success status is `token refresh failed: <text>`; a decoded token becomes the access token; failures leave it |
| MusikkSpotify.SpotifyClient.SetAccessToken | musikk/src/spotify.rs:202-204 | the access token becomes the given one |
| MusikkSpotify.SpotifyClient.Get | musikk/src/spotify.rs:206-221 | no token: `no access token` without a request; a non-success status: `api error: <text>`; a success only with a token and a success status |
| MusikkMain.RequestTarget | musikk/src/main.rs:128-130 | the second whitespace-separated word of the request line, if there is one |
| MusikkMain.CallbackCode | musikk/src/main.rs:127-133 | Some iff the second word starts with `/callback?code=`; the code is the text after it up to the first `&` |
| MusikkMain.PrefixExtends | musikk/src/main.rs:131-132 | a prefix of the remainder after the callback prefix extends the prefix inside the target |
| MusikkMain.CallbackCodeRoundTrip | musikk/src/main.rs:127-133 | `<verb> /callback?code=<code>[&...] <version>` yields exactly `<code>` |
| MusikkMain.BeforeFirstStops | musikk/src/main.rs:132 | the part before the first `&` of `code + "&..."` is `code` |
| MusikkMain.Authorize | musikk/src/main.rs:127-144 | a failed parse or exchange stores nothing; the refresh token is saved only when the token reply carries one |
| MusikkMain.FinishedRow | musikk/src/main.rs:86-98 | a finished log row holds the counts of a successful run, or zero counts and the error of a failed one |
| MusikkMain.SyncCommand | musikk/src/main.rs:66-103 | a log row is added only for a real run and is finished with the outcome; a failed sync writes no tracks or config |
| MusikkMain.SecondWord | musikk/src/main.rs:128-130 | the second word of `<verb> <target> <version>` is the target when verb and target hold no whitespace |
| MusikkWeb.Selected | musikk/web/src/App.jsx:26-35 | every pair comes from a listed filter that is set, with that filter's value |
| MusikkWeb.SetFresh | musikk/web/src/App.jsx:26-37 | `params.set` of a name not yet present appends the pair |
| MusikkWeb.FilterNamesFit | musikk/web/src/App.jsx:26-37 | the ten filter names differ from each other and from `sort` and `limit` |
| MusikkWeb.TrackQuery | musikk/web/src/App.jsx:24-38 | the parameters `loadTracks` builds are the set filters in order, then `sort`, then `limit=500` |
| MusikkWeb.BuildQuery | musikk/web/src/App.jsx:25-37 | the chain of conditional `params.set` calls appends exactly the set filters, then `sort` and `limit` |
| MusikkWeb.FreshName | musikk/web/src/App.jsx:26-35 | each filter name is new when it is set |
| MusikkWeb.SortLimitFresh | musikk/web/src/App.jsx:36-37 | `sort` and `limit` are not among the filter parameters |
| MusikkWeb.TrackQueryReads | musikk/web/src/App.jsx:25-37 | the server reads each filter's value exactly when it is non-empty, `sort` always, and `limit` as `500` |
| MusikkWeb.QueryReads | musikk/web/src/App.jsx:25-37 | the same reading for any list of fresh filter names |
| MusikkWeb.InitialQuery | musikk/web/src/App.jsx:9-37 | the first load sends only `sort=name` and `limit=500` |
| MusikkWeb.NoneSelected | musikk/web/src/App.jsx:26-35 | with no filter set no filter parameter is sent |
| MusikkWeb.SelectedReads | musikk/web/src/App.jsx:26-35 | reading a filter name from the filter pairs gives its value iff it is set |
| MusikkWeb.GetAppend | musikk/web/src/App.jsx:25-37 | `get` on concatenated pairs looks in the front part first |
| MusikkWeb.UpdateFilter | musikk/web/src/App.jsx:52-54 | the given key takes the new value; every other key is unchanged |
| MusikkWeb.UpdateFilterQuery | musikk/web/src/App.jsx:24-54 | changing one filter changes no other parameter of the next query |
| MusikkWeb.FormatDuration | musikk/web/src/App.jsx:77-82 | `-` iff the length is missing or zero, otherwise `m:ss` |
| MusikkWeb.ParseArtists | musikk/web/src/App.jsx:66-73 | empty for a missing or empty column; the raw text when it does not parse; the names joined by `, ` when it does |
| MusikkWeb.ParseArtistsOfStored | musikk/web/src/App.jsx:66-73 | the artists column the sync writes shows as its names joined by `, ` |
| Durations.MinutesAndSeconds | musikk/web/src/App.jsx:79-80 | the seconds part is below 60, and minutes × 60 + seconds is the whole seconds of `ms` |
| Durations.MinSecRoundTrip | musikk/web/src/App.jsx:79-81 | the text reads back: the digits before the colon and the two after it add up to the whole seconds of `ms` |
| Tunes.IdsOf | tunes/src/App.jsx:188-192 | every listed track's id is among the ids of the list |
| Tunes.PageIds | tunes/src/App.jsx:180-181 | every non-null entry of a page contributes its id |
| Tunes.FirstWithId | tunes/src/App.jsx:180-192 | a track with the id exists on the page iff the id is among the page's ids, and the one found has that id |
| Tunes.FirstSeenIds | tunes/src/App.jsx:178-192 | the tracks `addTracks` lists have distinct ids, exactly the page's ids not seen before |
| Tunes.FirstSeenFirst | tunes/src/App.jsx:188-192 | each listed track is the first track on the page with its id |
| Tunes.AddOnce | tunes/src/App.jsx:184-186 | the name is in the new source list, and the list holds nothing else new |
| Tunes.AddOnceDistinct | tunes/src/App.jsx:184-186 | a source list stays free of duplicates |
| Tunes.AddOnceTwice | tunes/src/App.jsx:184-186 | adding the same source name twice is adding it once |
| Tunes.SourcesAfterSpec | tunes/src/App.jsx:180-186 | after a page, each of its ids has the source name once in its list, appended if new; other ids keep their lists |
| Tunes.LibraryFetch.constructor | tunes/src/App.jsx:175-176 | the walk starts with no id seen, no source list and no track listed |
| Tunes.LibraryFetch.AddOne | tunes/src/App.jsx:180-198 | one non-null track: listed iff its id was not seen, the id is now seen, and its source list gains the name once |
| Tunes.LibraryFetch.AddTracks | tunes/src/App.jsx:178-207 | the tracks returned are the first-seen ones of the page, appended to the library; seen ids and source lists grow by the page |
| Tunes.LibraryFetch.AddEntry | tunes/src/App.jsx:180-198 | one entry of the page keeps the prefix relation with the page functions |
| Tunes.UpdateUrlParams | tunes/src/App.jsx:289-302 | the parameters written back are the updates applied in order |
| Tunes.ApplyUpdateSpec | tunes/src/App.jsx:292-298 | null, `''` and `[]` delete the key, an array reads back comma-joined, anything else as its text; other keys keep their pairs |
| Tunes.ApplyAllSpec | tunes/src/App.jsx:289-299 | for an object's distinct keys, each key reads back as its value and every key not in the update keeps its pairs |
| Tunes.WithField | tunes/src/App.jsx:306 | the key takes the new value and every other filter is unchanged |
| Tunes.FiltersFromUrl | tunes/src/App.jsx:20-30 | each filter is the URL's value, or its default when absent or empty |
| Tunes.UpdateFilter | tunes/src/App.jsx:304-310 | the new filters and the new parameters are the spread and the one-key update |
| Tunes.UpdateFilterReload | tunes/src/App.jsx:304-310 | reloading after `updateFilter(k, v)` reads `v` for `k` (its default when empty) and every other filter as before |
| Tunes.ClearFiltersReload | tunes/src/App.jsx:312-319 | reloading after `clearFilters` reads back exactly the cleared filters |
| Tunes.FilterTracks | tunes/src/App.jsx:321-337 | a track is kept iff each non-empty filter matches some artist name, the album name, or some genre respectively; nothing is added |
| Tunes.FilterNothing | tunes/src/App.jsx:321-337 | with no filter set every track is kept, in order |
| Tunes.SortTracks | tunes/src/App.jsx:339-372 | the sorted copy is a permutation of the tracks |
| Tunes.OrderMeans | tunes/src/App.jsx:342-369 | for a known key the comparator orders by the key's value, ascending for `asc`, descending otherwise |
| Tunes.OrderTotalPreorder | tunes/src/App.jsx:340-370 | the comparator is a consistent total order, so the sort is well defined |
| Tunes.SortTracksOrdered | tunes/src/App.jsx:339-372 | the result is ordered by the chosen key in the chosen direction |
| Tunes.SortUnknownKey | tunes/src/App.jsx:363-364 | an unknown key compares all as equal and the order is kept |
| Tunes.SortTracksStable | tunes/src/App.jsx:340 | tracks with equal keys keep their relative order |
| Tunes.CountByKey | tunes/src/App.jsx:374-397 | one entry per distinct key, holding the first item with the key and the number of items with it, most first |
| Tunes.UniqueArtists | tunes/src/App.jsx:374-385 | each artist id once, with the first artist object seen and one count per track crediting it, most tracks first |
| Tunes.UniqueAlbums | tunes/src/App.jsx:387-398 | each album id once, with the first track's album and artist name and one count per track on it, most tracks first |
| Tunes.AlbumCountsTotal | tunes/src/App.jsx:387-398 | the album counts add up to the number of tracks that have an album |
| Tunes.NewArtistIds | tunes/src/App.jsx:204 | the artist ids of the new tracks, each once |
| Tunes.UnknownIds | tunes/src/App.jsx:260 | an id is listed iff it is among the ids and not yet known (`UnknownIdsAppend` gives the order) |
| Tunes.UnknownIdsAppend | tunes/src/App.jsx:260 | the filter distributes over concatenation, so unknown ids keep their order and repeats |
| Tunes.ArtistRequests | tunes/src/App.jsx:257-283 | the request batches are the unknown ids, in order, at most 50 each, and nothing for an empty list |
| Tunes.TracksToAdd | tunes/src/App.jsx:497 | a track is listed iff it is a top track whose id is not in the playlist (`TracksToAddAppend` gives the order) |
| Tunes.TracksToAddAppend | tunes/src/App.jsx:497 | the filter distributes over concatenation, so the tracks to add keep the order of the top tracks |
| Tunes.SyncAgainAddsNothing | tunes/src/App.jsx:495-501 | a second sync after the first adds nothing |
| Tunes.TrackUri | tunes/src/App.jsx:500 | the URI gives back the id after `spotify:track:` |
| Tunes.TrackUris | tunes/src/App.jsx:500 | one URI per track to add, in order |
| Tunes.PlaylistRequests | tunes/src/App.jsx:475-488 | the POST bodies cover all URIs in order, at most 100 each, ceil(n/100) of them |
| Tunes.SyncStatus | tunes/src/App.jsx:499-506 | `playlist up to date` iff nothing was added, otherwise `added N new track` with the plural exactly when N > 1 |
| Durations.MinSec | tunes/src/App.jsx:400-404 | the text has a colon between minutes and seconds |
| Batching.Batches | tunes/src/App.jsx:477-478 | consecutive slices of `n` cover the list in order, all full but the last, ceil(len/n) of them |
| LeserChunks.CountStatus | leser/review.py:86-90 | a status count is at most the number of chunks |
| LeserChunks.CountKind | leser/extract.py:98-100 | a kind count is at most the number of chunks |
| LeserChunks.CountStatusZero | leser/review.py:30-31 | the count of a status is zero exactly when no chunk has it |
| LeserChunks.CountStatusAppend | leser/review.py:86-90 | counts of a concatenation add up |
| LeserChunks.CountKindAppend | leser/extract.py:98-100 | counts of a concatenation add up |
| LeserChunks.CountStatusUpdate | leser/review.py:48-64 | changing one chunk's status moves one unit from the old status's count to the new one's |
| LeserExtract.DownloadName | leser/extract.py:13-16 | the name ends in `.pdf`, extends the given name (or the URL's last segment), and equals it exactly when that already ends in `.pdf` |
| LeserExtract.AddSuffix | leser/extract.py:15-16 | `name += ".pdf"` gives a longer name ending in the suffix |
| LeserExtract.DownloadNameIdempotent | leser/extract.py:13-16 | naming an already named file again keeps its name |
| LeserExtract.DownloadNameSegment | leser/extract.py:14 | without a given name the file name has no `/` |
| LeserExtract.Stem | leser/extract.py:112 | the stem is a prefix of the name |
| LeserExtract.StemOfPdf | leser/extract.py:112 | the stem of `b.pdf` is `b` |
| LeserExtract.OutputStemOfUrl | leser/extract.py:107-114 | a downloaded PDF without a given name is saved under its URL's last segment less `.pdf` |
| LeserExtract.BBox | leser/extract.py:49-54 | the box contains every word |
| LeserExtract.BBoxTight | leser/extract.py:49-54 | each side of the box touches some word |
| LeserExtract.TextChunks | leser/extract.py:38-62 | one `auto` text chunk for a page with words, none otherwise |
| LeserExtract.TableChunks | leser/extract.py:65-76 | every chunk is a `needs_review` table chunk of the page holding the table at its index |
| LeserExtract.TableChunksComplete | leser/extract.py:65-76 | every non-empty table has a chunk |
| LeserExtract.TableChunksOrdered | leser/extract.py:65-76 | the chunks come in strictly increasing table index, so with `TableChunksComplete` there is exactly one per non-empty table |
| LeserExtract.FigureChunks | leser/extract.py:79-88 | one `needs_review` figure per image, with its box and the label numbered from 1 |
| LeserExtract.PageChunks | leser/extract.py:37-88 | every chunk of a page carries its page number and source |
| LeserExtract.DocChunks | leser/extract.py:35 | every chunk follows the chunk policy, has a page from 1 to the page count, and the file's name |
| LeserExtract.DocChunksOrdered | leser/extract.py:35 | chunks come in page order |
| LeserExtract.ExtractPdf | leser/extract.py:31-90 | the page loop produces the document's chunks |
| LeserExtract.AppendPage | leser/extract.py:37-88 | one page appends the text chunk, then the tables, then the figures |
| LeserExtract.AppendTables | leser/extract.py:66-76 | the table loop skips empty tables and appends the rest in order |
| LeserExtract.AppendFigures | leser/extract.py:80-88 | the image loop appends one figure per image in order |
| LeserExtract.PolicyCounts | leser/extract.py:97-102 | under the chunk policy the kind counts add up to the chunks and the review count is tables plus figures |
| LeserExtract.ParsedStatsOfDoc | leser/extract.py:93-114 | after extraction: one text chunk per page with words, and every table and figure waits for review |
| LeserExtract.TextCountOfDoc | leser/extract.py:38-62 | the text count is the number of pages with words |
| LeserReview.MaxLen | leser/review.py:13 | no row is longer than the column count |
| LeserReview.Widths | leser/review.py:13-16 | one width per column |
| LeserReview.ColWidthBound | leser/review.py:14-16 | no cell text is wider than its column |
| LeserReview.ColWidthAttained | leser/review.py:14-16 | a non-zero column width is the length of some cell's text |
| LeserReview.LJust | leser/review.py:19 | the text, then spaces up to the width; never shorter than the text |
| LeserReview.FormatTable | leser/review.py:10-23 | the output is `(empty table)` for no rows, else the row lines joined by newlines |
| LeserReview.ColumnWidths | leser/review.py:13-16 | the width loops give each column its widest cell text |
| LeserReview.WidenColumns | leser/review.py:15-16 | one row widens each column it reaches to that cell's text |
| LeserReview.LineCount | leser/review.py:18-22 | there is one line per row plus one separator per row equal to the first |
| LeserReview.JoinLength | leser/review.py:20-22 | a join is as long as its parts plus the separators between them |
| LeserReview.RowAligned | leser/review.py:19-22 | a full row within its widths prints as wide as the separator |
| LeserReview.TableAligned | leser/review.py:13-22 | in a formatted table every full-width row lines up with the separator |
| LeserReview.EditLines | leser/review.py:54-58 | the lines typed after `e` are the non-empty ones before the first empty line, which is consumed |
| LeserReview.NextAnswer | leser/review.py:45-75 | the prompt reads at least one line and stays within the input |
| LeserReview.Apply | leser/review.py:47-69 | skip and quit leave the chunk; approve sets `approved` and discard `discarded`, both keeping the content; edit sets `edited` with the typed lines joined by newlines; page, type, box, table index and source always stay |
| LeserReview.Pending | leser/review.py:30 | exactly the indices of the chunks needing review, ascending |
| LeserReview.ReviewFrom | leser/review.py:37-77 | a review never reports nothing-to-review partway, and saves as many chunks as it loaded |
| LeserReview.ReviewFile | leser/review.py:26-78 | the prompt loops produce the outcome of the review |
| LeserReview.ReadAnswer | leser/review.py:45-75 | the answer loop gives the next command, or none when input ends |
| LeserReview.ReadEdit | leser/review.py:53-58 | the edit loop gives the typed lines up to the empty one |
| LeserReview.ReviewChangesOnlyPending | leser/review.py:37-77 | a saved review changes only chunks that were waiting, each to a decided status |
| LeserReview.NothingToReviewIff | leser/review.py:30-33 | there is nothing to review exactly when no chunk needs review |
| LeserReview.UnknownSkipped | leser/review.py:74-75 | an unknown answer re-prompts |
| LeserReview.ApproveEverything | leser/review.py:37-77 | answering `a` everywhere approves every pending chunk and saves, leaving none waiting |
| LeserReview.PendingCount | leser/review.py:30-35 | the pending count is the needs-review count |
| LeserReview.StatsBound | leser/review.py:85-91 | the five status counts together never exceed the chunks |
| LeserReview.ReviewedStats | leser/review.py:85-91 | a review keeps the `auto` count and the total, and never raises the needs-review count |
| LeserReview.ReviewFileStats | leser/review.py:26-92 | the printed counts after a review against those of the loaded file |
| CorsProxy.TrimC0Start | cors-proxy/worker.js:12 | `new URL` drops leading C0 controls and spaces: the result is a suffix that starts with neither |
| CorsProxy.TrimC0End | cors-proxy/worker.js:12 | trailing C0 controls and spaces are dropped: the result is a prefix that ends with neither |
| CorsProxy.DropTabNewline | cors-proxy/worker.js:12 | tabs and newlines are dropped everywhere |
| CorsProxy.CleanedPrintable | cors-proxy/worker.js:12 | text of visible characters is parsed as it stands |
| CorsProxy.FirstColon | cors-proxy/worker.js:12 | a valid scheme holds no `:`, so the first `:` ends it |
| CorsProxy.HostOfScheme | cors-proxy/worker.js:12-13 | on visible text with a valid scheme, the hostname is read from what follows the `:`, by the lower-cased scheme |
| CorsProxy.SkipSlashes | cors-proxy/worker.js:12 | a special scheme skips every leading `/` and `\` before its authority |
| CorsProxy.Authority | cors-proxy/worker.js:12 | the authority is the longest prefix before `/`, `?` or `#`, and also `\` for a special scheme |
| CorsProxy.SplitHostPort | cors-proxy/worker.js:12 | the host is a prefix; a host not in brackets holds no `:` |
| CorsProxy.AuthorityHost | cors-proxy/worker.js:12-13 | the host after the last `@`; a special scheme's host is non-empty; a bad port or host is a parse failure; the host holds no authority end and no `@` |
| CorsProxy.FileHost | cors-proxy/worker.js:12-13 | a `file:` URL has a host only after two slashes, none for a drive letter or `localhost` |
| CorsProxy.HostOf | cors-proxy/worker.js:12-13 | `new URL(u).hostname`, or a parse failure; a hostname never holds `/`, `\`, `?`, `#` or `@` |
| CorsProxy.HostAfterScheme | cors-proxy/worker.js:12-13 | network schemes, `file:`, `//` after another scheme, and otherwise the empty hostname |
| CorsProxy.NetworkHost | cors-proxy/worker.js:12-13 | a network scheme's hostname is never empty |
| CorsProxy.HostPortSplits | cors-proxy/worker.js:12 | `host[:port]` splits back into the host and the port |
| CorsProxy.AuthorityHostOf | cors-proxy/worker.js:12-13 | `[userinfo@]host[:port]` has the lower-cased host |
| CorsProxy.NetworkHostOf | cors-proxy/worker.js:12-13 | after any run of slashes and backslashes, the authority's host, whatever follows its end |
| CorsProxy.NetworkUrlHost | cors-proxy/worker.js:12-13 | a network-scheme URL has the lower-cased host, with or without slashes, user info and port, even when a `\` follows the host |
| CorsProxy.OpaqueUrlHost | cors-proxy/worker.js:12-13 | any other scheme not followed by `//` (such as `mailto:`) has the empty hostname |
| CorsProxy.BadPortAuthority | cors-proxy/worker.js:12 | a port that is not all digits is a parse failure |
| CorsProxy.BadPortFails | cors-proxy/worker.js:12 | `new URL` throws on a network URL whose port is not all digits |
| CorsProxy.BackslashHost | cors-proxy/worker.js:12-13 | `http://evil.com\@nrk.no/` has the hostname `evil.com` |
| CorsProxy.BackslashRefused | cors-proxy/worker.js:12-15 | so that target gets a 403 |
| CorsProxy.NoSlashHost | cors-proxy/worker.js:12-13 | `http:nrk.no` has the hostname `nrk.no` |
| CorsProxy.NoSlashesFetched | cors-proxy/worker.js:12-17 | so that target is fetched |
| CorsProxy.MailtoHost | cors-proxy/worker.js:12-13 | `mailto:x@nrk.no` has the empty hostname |
| CorsProxy.MailtoRefused | cors-proxy/worker.js:12-15 | so that target gets a 403 |
| CorsProxy.Check | cors-proxy/worker.js:3-21 | a refusal is a 400 or a 403 with a plain-text body; a forwarded request goes to the `url` parameter with the fixed User-Agent |
| CorsProxy.MissingUrl | cors-proxy/worker.js:4-8 | 400 exactly when the `url` parameter is missing or empty |
| CorsProxy.FetchIff | cors-proxy/worker.js:11-17 | the target is fetched exactly when its host ends with an allowed domain |
| CorsProxy.ForbiddenIff | cors-proxy/worker.js:11-15 | 403 exactly when the target's host ends with none of the allowed domains |
| CorsProxy.NoFetchOnRefusal | cors-proxy/worker.js:6-15 | on the 400 and 403 paths the answer does not depend on the upstream |
| CorsProxy.StatusPassthrough | cors-proxy/worker.js:23-26 | a forwarded request answers exactly when a text response may carry the upstream status, and then with that status and body; a 204, 205 or 304 upstream makes the worker throw |
| CorsProxy.Header | cors-proxy/worker.js:27-32 | a header found is one of the list's; a missing one is in no entry |
| CorsProxy.ForwardedHeaders | cors-proxy/worker.js:27-32 | CORS origin `*`, methods `GET, OPTIONS`, `public, max-age=300`, and the upstream content type or `text/plain` |
| CorsProxy.RefusalsWithoutCors | cors-proxy/worker.js:7-14 | the refusals carry no CORS header, only the `text/plain;charset=UTF-8` content type a string body gets |
| CorsProxy.PlainSuffix | cors-proxy/worker.js:11-13 | any host ending with an allowed domain passes, whatever precedes it |
| CorsProxy.SubdomainAllowed | cors-proxy/worker.js:11-13 | any subdomain of an allowed domain passes |
| Mistral.Take | hvaskjer/src/services/mistralService.js:30-31 | `slice(0, n)`: the prefix of length `n`, or the whole list when it is shorter |
| Mistral.CallResult | hvaskjer/src/services/mistralService.js:18-23 | an error iff the response is not ok; otherwise the first choice's content, or `''` when it is missing or empty |
| Mistral.Snippet | hvaskjer/src/services/mistralService.js:31 | the first `n` characters of a non-empty content, else the description, else `''` |
| Mistral.SummaryLines | hvaskjer/src/services/mistralService.js:29-32 | one line per article |
| Mistral.SummaryRequest | hvaskjer/src/services/mistralService.js:26-36 | no request iff there is no key or no article |
| Mistral.Summary | hvaskjer/src/services/mistralService.js:26-44 | a summary iff a request was made and the call succeeded, and then it is the reply |
| Mistral.SummaryUsesFirstTen | hvaskjer/src/services/mistralService.js:30 | articles past the tenth do not change the prompt |
| Mistral.SummaryLineText | hvaskjer/src/services/mistralService.js:31 | each line is the title, `: ` and a snippet of at most 500 characters |
| Mistral.ContextBlocks | hvaskjer/src/services/mistralService.js:49-52 | one block per article |
| Mistral.AnswerRequest | hvaskjer/src/services/mistralService.js:46-59 | no request iff there is no key or the trimmed question is empty; the prompt ends with the question |
| Mistral.Answer | hvaskjer/src/services/mistralService.js:46-67 | the reply when the call succeeds, the fixed apology when it fails, nothing when no request was made |
| Mistral.AnswerUsesFirstFifteen | hvaskjer/src/services/mistralService.js:50 | articles past the fifteenth do not change the prompt |
| Mistral.ContextBlockText | hvaskjer/src/services/mistralService.js:51 | each block is `## ` and the title, a newline and a snippet of at most 800 characters |
| Mistral.JsonArrayMatch | hvaskjer/src/services/mistralService.js:91 | a match is the slice of the reply from its first `[` to its last `]`, and there is none iff no `[` comes before a `]` |
| Mistral.NoBracketPair | hvaskjer/src/services/mistralService.js:91-92 | when the first `[` comes at or after the last `]`, no `[` precedes any `]`, so the pattern matches nothing |
| Mistral.RewriteFor | hvaskjer/src/services/mistralService.js:95 | `new Map(...).get(i)`: the headline of the last parsed rewrite for the index, and nothing when there is none |
| Mistral.ShortTitle | hvaskjer/src/services/mistralService.js:99 | the short title is the rewrite when non-empty, else the title |
| Mistral.RewriteLines | hvaskjer/src/services/mistralService.js:72-75 | one prompt line per article |
| Mistral.WithShortTitles | hvaskjer/src/services/mistralService.js:97-100 | one article out per article in |
| Mistral.RewriteKeepsArticles | hvaskjer/src/services/mistralService.js:69-105 | the same number of articles, each unchanged but for its short title |
| Mistral.RewrittenTitle | hvaskjer/src/services/mistralService.js:95-99 | article `i` gets the last rewrite for index `i` when non-empty, else its title |
| Mistral.RewriteFallbacks | hvaskjer/src/services/mistralService.js:70-104 | without a key or articles, on a failed call, without a JSON array or when it does not parse, the articles come back unchanged |
| Mistral.RewriteUsesFirstFifteen | hvaskjer/src/services/mistralService.js:73 | articles past the fifteenth do not change the prompt |
| Hvaskjer.FormatDate | hvaskjer/src/App.jsx:8-19 | `''` for no date; `i dag` under a day old, `i går` for one whole day, `Nd siden` for 2 to 6 whole days, else the lowercased locale date |
| Hvaskjer.WholeDays | hvaskjer/src/App.jsx:12 | the floored day count brackets the age: days × 86400000 ≤ diff < (days + 1) × 86400000 |
| Hvaskjer.Login.constructor | hvaskjer/src/App.jsx:67-71 | signed in exactly when the session holds `hvaskjer-auth` = `true`; no error shown |
| Hvaskjer.Login.HandleLogin | hvaskjer/src/App.jsx:96-105 | the right password signs in, clears the error and records the session; any other shows the error and changes nothing else |
| Hvaskjer.Feed.constructor | hvaskjer/src/App.jsx:73-83 | the feed starts idle with no items, categories, summary or error |
| Hvaskjer.Feed.SetPhase | hvaskjer/src/App.jsx:107-129 | the phase is set and recorded; nothing else changes |
| Hvaskjer.Feed.LoadNews | hvaskjer/src/App.jsx:107-129 | the phases follow the load's trace, the error is set exactly when a step threw, the items are the last streamed list, and categories and summary change only on success |
| Hvaskjer.LoadPhases | hvaskjer/src/App.jsx:107-129 | a load starts fetching from any phase, moves only by allowed steps, and ends done exactly when nothing threw, else idle |
| Hvaskjer.ValidIds | hvaskjer/src/App.jsx:137-138 | exactly the ids from 0 to below the item count, in order |
| Hvaskjer.CategoryItems | hvaskjer/src/App.jsx:137-139 | the category lists the article at each valid id, in order |
| Hvaskjer.ValidIdsAppend | hvaskjer/src/App.jsx:138 | filtering a concatenation filters each part |
| Hvaskjer.ValidIdsAll | hvaskjer/src/App.jsx:137-139 | when every id is in range, nothing is dropped |
| Hvaskjer.Sources | hvaskjer/src/App.jsx:212-213 | one source per item |
| Hvaskjer.SourceCounts | hvaskjer/src/App.jsx:211-214 | one count per source seen, equal to the items from it; the sources are ordered by their first item; the counts add up to the items |
| Hvaskjer.AskItems | hvaskjer/src/App.jsx:176 | the category's items when one is selected, else the prefix of the first min(20, n) items |
| Hvaskjer.Questions.constructor | hvaskjer/src/App.jsx:86-88 | no question, no answer, not asking |
| Hvaskjer.Questions.StartAsk | hvaskjer/src/App.jsx:169-177 | nothing is sent for a blank question or while asking; otherwise the chosen items are sent, the answer cleared and asking set |
| Hvaskjer.Questions.FinishAsk | hvaskjer/src/App.jsx:177-183 | the answer is the result, or the fixed failure text when the call threw, and asking ends |
| Cursor.ConfigOf | shared/cursor.js:9-18 | only `discoball` has an image, of size 64; every other mode falls back to the default |
| Cursor.CustomCursor.constructor | shared/cursor.js:20-32 | not initialised, mode `default`, no element |
| Cursor.CustomCursor.GetMode | shared/cursor.js:118-120 | the current mode |
| Cursor.CustomCursor.SetMode | shared/cursor.js:96-112 | on mobile nothing changes; otherwise the mode is set, and with an element it shows the image and hides the page cursor for `discoball`, or hides the element and restores the page cursor; without an element the call fails; size and image change only when the image is shown |
| Cursor.CustomCursor.InitCursor | shared/cursor.js:75-90 | a second call changes nothing; on mobile it restores the page cursor only; otherwise it creates the element, listens, applies the mode and animates |
| Cursor.CustomCursor.Destroy | shared/cursor.js:125-140 | without init nothing changes; otherwise it stops the animation and listener, removes the element and restores the page cursor |
| Cursor.Reinit | shared/cursor.js:75-140 | destroy then init on a desktop gives an initialised, animated cursor in the new mode |
| Flic.ParseEnvLine | rass/flic0.py:15-17 | a line is skipped iff it strips to empty, starts with `#` or has no `=`; otherwise it splits at the first `=` into a stripped key and value |
| Flic.SetDefault | rass/flic0.py:18 | `setdefault` keeps a value already present and adds a missing one |
| Flic.ApplyLineValue | rass/flic0.py:15-18 | after one line a key keeps its earlier value, else takes what the line defines |
| Flic.LoadEnv | rass/flic0.py:11-18 | no file leaves the environment as it is; otherwise the lines are applied in order |
| Flic.EnvAfterValue | rass/flic0.py:12-18 | after loading, a variable already set keeps its value, and any other takes its first definition in the file |
| Flic.FirstDefinitionAppend | rass/flic0.py:14-18 | a later line defines a key only when no earlier line did |
| Flic.GetEnv | rass/flic0.py:27-28 | `os.getenv` gives the variable's value, else the default |
| Flic.LoadSettings | rass/flic0.py:32-41 | the file's settings when it parses, else the built-in ones: on 300 mirek at 100, night `#ff9933` at 27, orange `#ff6600` at 100 |
| Flic.Lights.constructor | rass/flic0.py:43 | the light starts off and nothing is sent |
| Flic.Lights.Toggle | rass/flic0.py:65-76 | the state flips; an on light is sent off, an off light is sent on with the `on` brightness and mirek |
| Flic.Lights.NightMode | rass/flic0.py:78-87 | the light is on and the night colour and brightness are sent |
| Flic.Lights.OrangeMode | rass/flic0.py:89-98 | the light is on and the orange colour and brightness are sent |
| Flic.Lights.OnButtonEvent | rass/flic0.py:100-109 | a single click toggles, a hold sets night mode, a double click orange mode; any other click changes nothing |
| Flic.ClickTwice | rass/flic0.py:65-103 | two single clicks bring the state back and one of the two commands turns the light off |
| JsonStrings.EscapeStringRoundTrip | musikk/src/sync.rs:48 | the escaped characters of a string, closed by a quote, parse back to the string and leave the rest |
| JsonStrings.QuoteRoundTrip | musikk/src/sync.rs:48 | a quoted JSON string parses back to the string |
| JsonStrings.EncodeItemsRoundTrip | musikk/src/sync.rs:48-86 | the items of a non-empty array, closed by `]`, parse back to the list |
| JsonStringsRoundTrip.EncodeRoundTrip | musikk/src/sync.rs:48-86 | the JSON text the sync stores for a list of artist names decodes back to the same list |
| Strings.StripPrefix | musikk/src/spotify.rs:348 | a rest is returned iff the text starts with the prefix, and prefix + rest is the text |
| Strings.NatToString | musikk/web/src/App.jsx:81 | `String(n)` is non-empty digits without a leading zero |
| Strings.NatToStringRoundTrip | musikk/web/src/App.jsx:81 | the decimal text of a number reads back as the number |
| Strings.PadStart | musikk/web/src/App.jsx:81 | `padStart(w, c)`: the text, preceded by `c` up to width `w` |
| Strings.Pad2IsPadStart | spaces/datepicker.js:29-30 | two-digit padding is `padStart(2, '0')` of the decimal text |
| Strings.Pad2RoundTrip | spaces/datepicker.js:29-30 | a padded number is digits that read back as the number |
| Strings.Trim | src/App.jsx:9 | the trimmed text is a slice of the text, with no space at either end, and empty exactly when the text is all space |
| Strings.PyStripTrim | rass/flic0.py:15 | Python's `strip()` removes the surrounding whitespace |
| Strings.Lower | tunes/src/App.jsx:324 | lowercasing maps each character and keeps the length |
| Strings.IndexOf | cors-proxy/worker.js:12 | the first position where the pattern occurs, none iff it never occurs |
| Strings.RemoveFirst | spaces/main.js:50 | `replace` with a string pattern removes its first occurrence, and leaves a text without it unchanged |
| Strings.SplitFirst | rass/flic0.py:17 | `split('=', 1)`: the parts around the first separator, none iff it is absent |
| Strings.AfterLast | leser/extract.py:14 | `split("/")[-1]`: the text after the last separator, holding none |
| Strings.Join | musikk/web/src/App.jsx:69 | joining nothing is empty and joining one part is the part |
| Strings.Repeat | leser/review.py:22 | `"-" * w` is `w` dashes |
| Strings.SplitWhitespaceTokens | musikk/src/main.rs:129 | `split_whitespace` gives non-empty words without whitespace |
| Strings.SplitWhitespaceKeepsText | musikk/src/main.rs:129 | the words together are the text with its whitespace removed |
| Strings.SplitWhitespaceToken | musikk/src/main.rs:129-130 | a text starting with a word splits into that word and the split of the rest |
| Strings.LexTotal | spaces/main.js:498 | any two date texts compare one way or the other |
| Strings.LexTransitive | spaces/main.js:498 | the text order is transitive |
| Strings.LexAntisymmetric | spaces/main.js:498 | texts ordered both ways are equal |
| Strings.ParseIntPrefix | spaces/main.js:228 | `parseInt` gives a number iff digits follow the leading space and sign |
| Strings.ParseIntOfPixels | spaces/main.js:220-228 | `parseInt` of `N + 'px'` gives back `N` |
| Sorting.Sort | tunes/src/App.jsx:340 | the sorted list is a permutation of the input |
| Sorting.SortSorted | tunes/src/App.jsx:340 | under a consistent comparator the result is ordered |
| Sorting.SortStable | tunes/src/App.jsx:340 | elements that compare equal keep their relative order |
| Sorting.SortOfSorted | spaces/main.js:498 | an ordered list sorts to itself |
| Tally.Dedup | tunes/src/App.jsx:204 | `[...new Set(xs)]` holds exactly the elements of `xs` |
| Tally.DedupDistinct | tunes/src/App.jsx:204 | and holds each once |
| Tally.DedupSnoc | tunes/src/App.jsx:204 | one more element is added at the end exactly when it is new |
| Tally.DedupFirstSeen | tunes/src/App.jsx:204 | the distinct elements are ordered by the position of their first occurrence |
| Tally.CountKeys | hvaskjer/src/App.jsx:211-214 | the key order is `Dedup` of the keys (without repeats and in first-seen order, by `DedupDistinct` and `DedupFirstSeen`), and each key is counted as often as it occurs |
| Tally.SumOfCounts | hvaskjer/src/App.jsx:211-214 | the counts add up to the number of keys |
| UrlParams.Get | tunes/src/App.jsx:20-30 | `get` finds a pair with the name, and none iff no pair has it |
| UrlParams.Named | tunes/src/App.jsx:290-298 | exactly the pairs with the name |
| UrlParams.Delete | tunes/src/App.jsx:293 | `delete` keeps exactly the pairs with other names |
| UrlParams.Set | tunes/src/App.jsx:295-297 | `set` holds the new pair and adds no pair of another name |
| UrlParams.SetNamedSame | tunes/src/App.jsx:295-297 | after `set` one pair has the name: the new one |
| UrlParams.SetNamedOther | tunes/src/App.jsx:295-297 | `set` leaves the pairs of every other name as they were, in order |
| UrlParams.DeleteNamedOther | tunes/src/App.jsx:293 | `delete` leaves the pairs of every other name as they were, in order |
| UrlParams.SetGet | tunes/src/App.jsx:295-297 | after `set(k, v)`, `get(k)` is `v` |
| UrlParams.DeleteGet | tunes/src/App.jsx:293 | after `delete(k)`, `get(k)` is nothing |
| Batching.BatchCount | tunes/src/App.jsx:265 | well-sized batches number ceil(total / n) |

## Left out

- The network, GitHub, Spotify, Reccobeats, Mistral and Hue HTTP traffic is not modelled; responses are inputs and requests are values. OAuth PKCE hashing and random verifiers (tunes/src/App.jsx:62-79) are left out.
- The paging `while (url)` loops of `fetchLibrary`, `getPlaylistTracks` and `findOrCreatePlaylist` in tunes are not modelled. Only what one page does (`addTracks`) and the batching of requests are.
- Liste.ParseGistContent: the document type holds a numeric `nextId` and object items with `thing` and `done`. A current-format file without a numeric `nextId` (`{"todos": [...]}`), where `Math.max` gives `NaN` and the saved file gets `"nextId": null`, a legacy array holding `null` (whose `t.id` throws), and legacy items lacking `thing` or `done` are not represented.
- The liste debounce timer (`setTimeout`/`clearTimeout` of 500 ms) and the refresh delay are not modelled; saves are explicit calls.
- DOM rendering, CSS, animation and the cursor easing (`animateCursor`) are left out, as is the device detection regex; `isMobile` is a parameter.
- `toLowerCase` is ASCII lowercasing and `localeCompare` is plain character order; Unicode case mapping and collation are not modelled.
- Tunes.CountByKey: the model sorts the first-seen entries with the stable `Sorting.Sort`, as `Array.prototype.sort` does, but its contract (and those of `Tunes.UniqueArtists` and `Tunes.UniqueAlbums`) states only the descending counts, not the order among entries with equal counts.
- Tunes.Less: JavaScript `<` on strings compares UTF-16 code units, while the model compares whole characters with `Strings.LexLe`. The two orders differ only when a character above U+FFFF meets one between U+E000 and U+FFFF.
- JsonStrings.Decode: `JSON.parse` accepts an unpaired surrogate escape such as `"\uD800"`, which `Decode` rejects, since a `char` cannot hold a surrogate. `serde_json` rejects it as well.
- `getAllGenres` in tunes (a display-only genre histogram) is not modelled.
- CorsProxy.HostOf: follows the WHATWG URL parser's scheme, slash, authority, user-info, port and host steps, but leaves out percent-decoding, IDNA (Punycode and Unicode mapping), the IPv4 number forms (`http://0x7f.1/`), full IPv6 validation and its compressed serialisation, and the finer `file:` cases. Such inputs may parse differently in the model.
- URL serialisation and percent-encoding of `URLSearchParams.toString()` are not modelled; parameters are lists of name/value pairs.
- MusikkSpotify.SpotifyClient.AuthUrl: no contract of its own; its encoding is stated by the `UrlEncode` lemmas it is built from.
- Spotify "local" tracks with a null id are not modelled; every track has an id.
- `JSON.parse` of arbitrary JSON is a parameter (`decode`) where the code parses model replies. `parseArtists` decodes only arrays of strings; other JSON arrays are treated like unparsable text.
- The `mistralService.js` functions `categorizeHeadlines` and `analyzeCategory` that `hvaskjer/src/App.jsx` imports do not appear in that file, so category grouping is an input of `Feed.LoadNews`. rssService, articleService and the feed list are not part of this model.
- `toLocaleDateString('nb-NO')` is a parameter of `Hvaskjer.FormatDate`.
- Article ids are integers; JavaScript's comparison of non-numeric ids is not modelled.
- Liste.StringToNumber: text with a fraction, an exponent, a `0x`/`0o`/`0b` prefix or `Infinity` is read as NaN, whereas JavaScript reads a number; ids are whole numbers in this model.
- Liste.PlanSave: the skip test compares documents, not the `JSON.stringify` texts; a remote file with extra fields or another key order gets a write in JavaScript where the model answers `Unchanged`.
- Liste.TodoSession.Load: content that parses to a value other than `null` with no `todos` list puts `undefined` into the list in JavaScript without an error; the model keeps the previous list and records the load error.
- DatePicker.Picker.SetValue: runs the corrected `ParseIsoDate`, not the UTC parse of `new Date(dateStr)` (`UtcParsedLocal`, second Finding); west of UTC the program selects the day before.
- DatePicker.Picker.SelectDay: runs the corrected `ParseIsoDate`, not the UTC parse (`UtcParsedLocal`, second Finding).
- DatePicker.Picker.Navigate: runs the corrected `ShiftMonth`, not `setMonth` with day overflow (`JsSetMonth`, first Finding); from a 31st the program can skip a month.
- Mistral.Take: `slice(0, n)` on text counts UTF-16 code units; the model counts characters, so `Mistral.Snippet` differs for text outside the Basic Multilingual Plane.
- MusikkSpotify.FetchAll: requires the `next` links to end; the `loop` in musikk/src/spotify.rs never ends if the API returns a cyclic `next` chain, which the model does not represent.
- `hex_to_xy` (floating-point colour conversion) is not modelled; commands carry the hex colour. The `requests.put`, fliclib event loop and `print` calls are left out.
- A settings file that parses but lacks a key raises `KeyError` in flic0.py; the model only distinguishes a missing, unparsable or complete file.
- `os.putenv` name validation and `.env` quoting rules are not modelled; the environment is a map.
- PDF word extraction and the `round(top, 1)` line grouping are not modelled; the text of a page is an input and coordinates are integers.
- File reads and writes in leser and the JSON files of `save_parsed`/`save_reviewed` are not modelled; the printed counts are. The end of standard input (`EOFError`) is modelled as `InputEnded`.
- SQL execution in musikk/src/db.rs is modelled as a map from Spotify id to row; audio-feature values are opaque.
- The CLI argument handling, TCP listener and environment reading of musikk/src/main.rs are left out; the callback request line and the token-save rule are modelled.
- musikk/src/api.rs, hjemme, space/cursor.js and the vite configuration files are not part of this model.
- Python `pathlib` handling of trailing slashes and `..` is not modelled; `PurePath.name` is the text after the last `/`.

## Findings

| source | as written | input that shows it | evidently intended | confidence | as-written member | corrected member |
|---|---|---|---|---|---|---|
| spaces/datepicker.js:103-105 | `setMonth(getMonth() ± 1)` on the shown date keeps its day of month, so a 31st overflows into the month after | shown date 31 January 2023, "next": the calendar shows March; 31 March 2023, "prev": it stays on March | move the shown month by exactly one | not executed | DatePicker.JsSetMonth, DatePicker.JsSetMonthSkips | DatePicker.ShiftMonth |
| spaces/datepicker.js:114 | `new Date("YYYY-MM-DD")` parses as UTC midnight and is then read in local time | a browser five hours west of UTC, clicking 5 March 2024: the selected date is 4 March | select the clicked calendar day | not executed | DatePicker.UtcParsedLocal, DatePicker.UtcParseShiftsDay | DatePicker.ParseIsoDate |

=== FILE: batching.dfy ===
/** Fixed-size request batches: `for (i = 0; i < xs.length; i += n) xs.slice(i, i + n)`
    in the front end, `chunks(n)` in the sync. */
module Batching {

  function Flatten<T>(bs: seq<seq<T>>): seq<T> {
    if |bs| == 0 then [] else bs[0] + Flatten(bs[1..])
  }

  lemma {:induction false} FlattenAppend<T>(bs: seq<seq<T>>, b: seq<T>)
    ensures Flatten(bs + [b]) == Flatten(bs) + b
    decreases |bs|
  {
    if |bs| == 0 {
      assert ([b])[1..] == [];
    } else {
      assert (bs + [b])[1..] == bs[1..] + [b];
      FlattenAppend(bs[1..], b);
    }
  }

  /** Every batch is non-empty and at most `n` long, and all but the last are exactly `n` long. */
  predicate WellSized<T>(bs: seq<seq<T>>, n: nat) {
    (forall k :: 0 <= k < |bs| ==> 0 < |bs[k]| <= n) &&
    (forall k :: 0 <= k < |bs| - 1 ==> |bs[k]| == n)
  }

  /** Cut `xs` into consecutive slices of `n`: the batches cover all of `xs`,
      in order, with nothing repeated. */
  method Batches<T>(xs: seq<T>, n: nat) returns (bs: seq<seq<T>>)
    requires n > 0
    ensures Flatten(bs) == xs
    ensures WellSized(bs, n)
    ensures |bs| == (|xs| + n - 1) / n
  {
    bs := [];
    var i := 0;
    while i < |xs|
      invariant 0 <= i <= |xs|
      invariant Flatten(bs) == xs[..i]
      invariant WellSized(bs, n)
      invariant i < |xs| ==> AllFull(bs, n)
      decreases |xs| - i
    {
      var j := if i + n <= |xs| then i + n else |xs|;
      PushBatch(xs, n, bs, i, j);
      bs := bs + [xs[i..j]];
      i := j;
    }
    assert xs[..i] == xs;
    BatchCount(bs, n);
  }

  predicate AllFull<T>(bs: seq<seq<T>>, n: nat) {
    forall k :: 0 <= k < |bs| ==> |bs[k]| == n
  }

  /** One step of `Batches`: the next slice keeps the batches covering a
      prefix and well sized. */
  lemma PushBatch<T>(xs: seq<T>, n: nat, bs: seq<seq<T>>, i: nat, j: nat)
    requires n > 0 && i < |xs| && j == (if i + n <= |xs| then i + n else |xs|)
    requires Flatten(bs) == xs[..i] && WellSized(bs, n) && AllFull(bs, n)
    ensures Flatten(bs + [xs[i..j]]) == xs[..j]
    ensures WellSized(bs + [xs[i..j]], n)
    ensures j < |xs| ==> AllFull(bs + [xs[i..j]], n)
  {
    FlattenAppend(bs, xs[i..j]);
    assert xs[..j] == xs[..i] + xs[i..j];
  }

  /** Well-sized batches number ceil(total / n). */
  lemma BatchCount<T>(bs: seq<seq<T>>, n: nat)
    requires n > 0 && WellSized(bs, n)
    ensures |bs| == (|Flatten(bs)| + n - 1) / n
  {
    if |bs| == 0 {
      CeilStep(0, 0, n, 0);
    } else {
      LastSplit(bs, n);
      CeilStep(|Flatten(bs)|, |bs| - 1, n, |bs[|bs| - 1]|);
    }
  }

  /** All batches but the last are full. */
  lemma LastSplit<T>(bs: seq<seq<T>>, n: nat)
    requires |bs| > 0 && WellSized(bs, n)
    ensures |Flatten(bs)| == (|bs| - 1) * n + |bs[|bs| - 1]|
  {
    var init := bs[..|bs| - 1];
    var last := bs[|bs| - 1];
    assert bs == init + [last];
    FlattenAppend(init, last);
    FlattenLength(init, n);
  }

  /** A full run of `m` batches plus a partial one of `r` makes `m + 1`. */
  lemma CeilStep(x: nat, m: nat, n: nat, r: nat)
    requires 0 < n && r <= n && x == m * n + r
    requires r == 0 <==> x == 0
    ensures (x + n - 1) / n == if x == 0 then 0 else m + 1
  {
    if x > 0 {
      assert (m + 1) * n == m * n + n;
      DivBetween(x, n, m + 1);
    }
  }

  lemma {:induction false} FlattenLength<T>(bs: seq<seq<T>>, n: nat)
    requires forall k :: 0 <= k < |bs| ==> |bs[k]| == n
    ensures |Flatten(bs)| == |bs| * n
    decreases |bs|
  {
    if |bs| > 0 {
      FlattenLength(bs[1..], n);
    }
  }

  lemma DivBetween(x: nat, n: nat, q: nat)
    requires n > 0 && q > 0 && (q - 1) * n < x <= q * n
    ensures (x + n - 1) / n == q
  {
    var y := x + n - 1;
    assert q * n <= y < q * n + n;
    var d := y / n;
    assert n * d <= y < n * d + n;
    MulStep(n, d, q);
    MulStep(n, q, d);
  }

  /** A smaller factor leaves room for at least one more `n`. */
  lemma MulStep(n: nat, a: nat, b: nat)
    ensures a < b ==> n * a + n <= n * b
  {
    if a < b {
      var k: nat := b - a - 1;
      assert n * b == n * a + n * k + n;
    }
  }
}

=== FILE: calendar.dfy ===
/** Proleptic Gregorian calendar arithmetic behind the JavaScript `Date`
    fields the date picker reads (`getFullYear`, 0-based `getMonth`, `getDate`,
    `getDay` with 0 = Sunday). */
module Calendar {

  /** A calendar date; `month` is 0-based as in JavaScript. */
  datatype Date = Date(year: int, month: int, day: int)

  predicate IsLeap(y: int) {
    (y % 4 == 0 && y % 100 != 0) || y % 400 == 0
  }

  function YearLength(y: int): int {
    if IsLeap(y) then 366 else 365
  }

  function DaysInMonth(y: int, m: int): (n: int)
    requires 0 <= m < 12
    ensures 28 <= n <= 31
  {
    if m == 1 then (if IsLeap(y) then 29 else 28)
    else if m == 3 || m == 5 || m == 8 || m == 10 then 30
    else 31
  }

  predicate ValidDate(d: Date) {
    d.year >= 0 && 0 <= d.month < 12 && 1 <= d.day <= DaysInMonth(d.year, d.month)
  }

  /** Days from 0000-01-01 to the first day of year `y`: the lengths of the
      years before it. */
  function DaysBeforeYear(y: nat): nat {
    if y == 0 then 0 else DaysBeforeYear(y - 1) + YearLength(y - 1)
  }

  /** The same count in closed form: 365 a year plus the leap days, every
      fourth year but not every hundredth unless every four-hundredth. */
  function ClosedDaysBeforeYear(y: nat): nat {
    365 * y + (y + 3) / 4 - (y + 99) / 100 + (y + 399) / 400
  }

  /** Days from the first of the year to the first of month `m`. */
  function DaysBeforeMonth(y: int, m: int): nat
    requires 0 <= m <= 12
  {
    [0, 31, 59, 90, 120, 151, 181, 212, 243, 273, 304, 334, 365][m] + (if m >= 2 && IsLeap(y) then 1 else 0)
  }

  /** The month table is the running total of the month lengths. */
  lemma DaysBeforeNextMonth(y: int, m: int)
    requires 0 <= m < 12
    ensures DaysBeforeMonth(y, m + 1) == DaysBeforeMonth(y, m) + DaysInMonth(y, m)
  {
  }

  /** Days since 0000-01-01 (which is day 0). */
  function DayNumber(d: Date): nat
    requires ValidDate(d)
  {
    DaysBeforeYear(d.year) + DaysBeforeMonth(d.year, d.month) + d.day - 1
  }

  /** `Date.prototype.getDay`: 0 = Sunday, ..., 6 = Saturday (0000-01-01 was a Saturday). */
  function Weekday(d: Date): (w: nat)
    requires ValidDate(d)
    ensures w < 7
  {
    (DayNumber(d) + 6) % 7
  }

  /** Months counted from January of year 0: the quantity month navigation moves. */
  function MonthIndex(d: Date): int {
    d.year * 12 + d.month
  }

  lemma DivStep4(y: nat)
    ensures (y + 4) / 4 == (y + 3) / 4 + (if y % 4 == 0 then 1 else 0)
  {
  }

  lemma DivStep100(y: nat)
    ensures (y + 100) / 100 == (y + 99) / 100 + (if y % 100 == 0 then 1 else 0)
  {
  }

  lemma DivStep400(y: nat)
    ensures (y + 400) / 400 == (y + 399) / 400 + (if y % 400 == 0 then 1 else 0)
  {
  }

  /** The closed form counts the leap-year rule: each year adds its own length. */
  lemma ClosedNextYear(y: nat)
    ensures ClosedDaysBeforeYear(y + 1) == ClosedDaysBeforeYear(y) + YearLength(y)
  {
    DivStep4(y);
    DivStep100(y);
    DivStep400(y);
    DivisorsOf(y);
  }

  /** The closed form agrees with the year-by-year sum. */
  lemma {:induction false} DaysBeforeYearClosed(y: nat)
    ensures DaysBeforeYear(y) == ClosedDaysBeforeYear(y)
  {
    if y > 0 {
      DaysBeforeYearClosed(y - 1);
      ClosedNextYear(y - 1);
    }
  }

  /** Divisibility by 400 implies by 100, and by 100 implies by 4. */
  lemma DivisorsOf(y: nat)
    ensures y % 400 == 0 ==> y % 100 == 0
    ensures y % 100 == 0 ==> y % 4 == 0
  {
    var q4 := y / 400;
    var q1 := y / 100;
    assert y == 400 * q4 + y % 400;
    assert y == 100 * q1 + y % 100;
    if y % 400 == 0 {
      assert y == 100 * (4 * q4);
    }
    if y % 100 == 0 {
      assert y == 4 * (25 * q1);
    }
  }

  /** The months of a year add up to its length. */
  lemma MonthsFillYear(y: int)
    ensures DaysBeforeMonth(y, 12) == YearLength(y)
  {
  }

  /** The day after `d`, rolling over month and year ends. */
  function NextDay(d: Date): (r: Date)
    requires ValidDate(d)
    ensures ValidDate(r)
  {
    if d.day < DaysInMonth(d.year, d.month) then Date(d.year, d.month, d.day + 1)
    else if d.month < 11 then Date(d.year, d.month + 1, 1)
    else Date(d.year + 1, 0, 1)
  }

  /** Consecutive dates have consecutive day numbers, so weekdays advance by one. */
  lemma NextDayNumber(d: Date)
    requires ValidDate(d)
    ensures DayNumber(NextDay(d)) == DayNumber(d) + 1
    ensures Weekday(NextDay(d)) == (Weekday(d) + 1) % 7
  {
    var n := NextDay(d);
    if d.day < DaysInMonth(d.year, d.month) {
    } else if d.month < 11 {
      DaysBeforeNextMonth(d.year, d.month);
    } else {
      DaysBeforeNextMonth(d.year, 11);
      MonthsFillYear(d.year);
    }
    assert DayNumber(n) == DayNumber(d) + 1;
    ModAdd7(DayNumber(d) + 6, 1);
  }

  lemma ModAdd7(a: nat, b: nat)
    ensures (a + b) % 7 == (a % 7 + b) % 7
  {
    var q := a / 7;
    var r := a % 7;
    assert a == 7 * q + r;
    assert a + b == 7 * q + (r + b);
  }

  /** The day numbering puts 1 January 2024 on a Monday. */
  lemma NewYear2024IsMonday()
    ensures ValidDate(Date(2024, 0, 1)) && Weekday(Date(2024, 0, 1)) == 1
  {
    DaysBeforeYearClosed(2024);
    assert ClosedDaysBeforeYear(2024) == 739251;
  }

  /** Monday-first column of a weekday: Monday 0, ..., Sunday 6. */
  function MondayColumn(w: nat): (c: nat)
    requires w < 7
    ensures c < 7
  {
    (w + 6) % 7
  }

  /** Day `k` of a month lies `k - 1` days after the first. */
  lemma WeekdayInMonth(y: int, m: int, k: int)
    requires ValidDate(Date(y, m, k))
    ensures Weekday(Date(y, m, k)) == (Weekday(Date(y, m, 1)) + k - 1) % 7
  {
    ModAdd7(DayNumber(Date(y, m, 1)) + 6, k - 1);
  }
}

=== FILE: cors_proxy.dfy ===
/** The CORS proxy worker: it forwards `GET ?url=<target>` to the target when
    the target's host ends with one of the allowed news and government domains,
    and answers with the upstream status and body plus permissive CORS headers. */
module CorsProxy {
  import opened Wrappers
  import opened Strings
  import UrlParams

  type Headers = seq<(string, string)>

  datatype Response = Response(status: int, headers: Headers, body: string)

  /** What the upstream `fetch` answered. */
  datatype Upstream = Upstream(status: int, contentType: Option<string>, body: string)

  /** The gate's decision: answer at once, fetch the target with the given
      request headers, or fail because the target is no URL (`new URL` throws). */
  datatype Gate = Reply(response: Response) | Fetch(target: string, requestHeaders: Headers) | Throws

  datatype Outcome = Responded(response: Response) | Failed

  const Allowed: seq<string> :=
    ["nrk.no", "www.nrk.no", "stortinget.no", "www.stortinget.no", "regjeringen.no", "www.regjeringen.no"]

  const UserAgent: Headers := [("User-Agent", "Mozilla/5.0 (compatible; hvaskjer/1.0)")]

  /** `allowed.some(domain => hostname.endsWith(domain))`: a plain suffix test. */
  predicate AllowedHost(host: string) {
    exists d :: d in Allowed && EndsWith(host, d)
  }

  // ---------------------------------------------------------------- host names

  /** A C0 control or a space: `new URL` drops these at both ends. */
  predicate C0OrSpace(c: char) {
    c <= ' '
  }

  /** A tab or a newline: `new URL` drops these everywhere. */
  predicate TabOrNewline(c: char) {
    c == '\t' || c == '\n' || c == '\r'
  }

  function TrimC0Start(s: string): (r: string)
    ensures |r| <= |s| && r == s[|s| - |r|..]
    ensures r != [] ==> !C0OrSpace(r[0])
    decreases |s|
  {
    if |s| > 0 && C0OrSpace(s[0]) then TrimC0Start(s[1..]) else s
  }

  function TrimC0End(s: string): (r: string)
    ensures |r| <= |s| && r == s[..|r|]
    ensures r != [] ==> !C0OrSpace(r[|r| - 1])
    decreases |s|
  {
    if |s| > 0 && C0OrSpace(s[|s| - 1]) then TrimC0End(s[..|s| - 1]) else s
  }

  function DropTabNewline(s: string): (r: string)
    ensures |r| <= |s|
    ensures forall i :: 0 <= i < |r| ==> !TabOrNewline(r[i])
    decreases |s|
  {
    if |s| == 0 then []
    else (if TabOrNewline(s[0]) then [] else [s[0]]) + DropTabNewline(s[1..])
  }

  /** The input `new URL` actually parses. */
  function Cleaned(u: string): string {
    DropTabNewline(TrimC0End(TrimC0Start(u)))
  }

  /** Every character is visible: above the space. */
  predicate Printable(u: string) {
    forall i :: 0 <= i < |u| ==> !C0OrSpace(u[i])
  }

  predicate AsciiAlpha(c: char) {
    'a' <= c <= 'z' || 'A' <= c <= 'Z'
  }

  predicate SchemeChar(c: char) {
    AsciiAlpha(c) || IsDigit(c) || c == '+' || c == '-' || c == '.'
  }

  /** A scheme: a letter, then letters, digits, `+`, `-` and `.`. */
  predicate ValidScheme(s: string) {
    |s| > 0 && AsciiAlpha(s[0]) && forall i :: 0 <= i < |s| ==> SchemeChar(s[i])
  }

  /** The special schemes with a network host (`file` is special too, but has
      no user info and no port). */
  predicate NetworkScheme(scheme: string) {
    scheme == "http" || scheme == "https" || scheme == "ws" || scheme == "wss" || scheme == "ftp"
  }

  /** Where an authority ends; special schemes treat `\` as `/`. */
  predicate AuthorityEnd(c: char, special: bool) {
    c == '/' || c == '?' || c == '#' || (special && c == '\\')
  }

  /** Characters a host may not hold. */
  predicate ForbiddenHostChar(c: char) {
    c <= ' ' || c == '#' || c == '/' || c == ':' || c == '<' || c == '>' || c == '?' ||
    c == '@' || c == '[' || c == '\\' || c == ']' || c == '^' || c == '|' || c == '\U{7F}'
  }

  /** The characters an IPv6 literal is written with. */
  predicate Ipv6Char(c: char) {
    IsDigit(c) || 'a' <= c <= 'f' || 'A' <= c <= 'F' || c == ':' || c == '.'
  }

  /** The slashes and backslashes a special scheme skips before its authority. */
  function SkipSlashes(s: string): (r: string)
    ensures |r| <= |s| && r == s[|s| - |r|..]
    ensures forall i :: 0 <= i < |s| - |r| ==> s[i] == '/' || s[i] == '\\'
    ensures r != [] ==> r[0] != '/' && r[0] != '\\'
    decreases |s|
  {
    if |s| > 0 && (s[0] == '/' || s[0] == '\\') then SkipSlashes(s[1..]) else s
  }

  /** The characters up to the first authority end: the authority of a URL. */
  function Authority(s: string, special: bool): (r: string)
    ensures r <= s
    ensures forall i :: 0 <= i < |r| ==> !AuthorityEnd(r[i], special)
    ensures |r| < |s| ==> AuthorityEnd(s[|r|], special)
    decreases |s|
  {
    if |s| == 0 || AuthorityEnd(s[0], special) then [] else [s[0]] + Authority(s[1..], special)
  }

  /** A port: digits, at most 65535, possibly none. */
  predicate ValidPort(p: string) {
    AllDigits(p) && (p == [] || DigitsValue(p) <= 65535)
  }

  /** `host[:port]` split at the first `:` outside `[...]`; `None` when a
      bracketed host is unclosed or followed by something other than `:`. */
  function SplitHostPort(hp: string): (r: Option<(string, string)>)
    ensures r.Some? && r.value.0 != [] && r.value.0[0] != '[' ==> ':' !in r.value.0
    ensures r.Some? ==> r.value.0 <= hp
  {
    if |hp| > 0 && hp[0] == '[' then
      match IndexOfChar(hp, ']')
      case None => None
      case Some(j) =>
        if j + 1 == |hp| then Some((hp, []))
        else if hp[j + 1] == ':' then Some((hp[..j + 1], hp[j + 2..]))
        else None
    else
      match SplitFirst(hp, ':')
      case None => Some((hp, []))
      case Some((h, p)) => assert hp[..|h|] == h; Some((h, p))
  }

  /** A host `new URL` accepts: a bracketed IPv6 literal, or text without a
      forbidden character. */
  predicate ValidHost(h: string) {
    if |h| > 0 && h[0] == '[' then
      |h| >= 2 && h[|h| - 1] == ']' && forall i :: 1 <= i < |h| - 1 ==> Ipv6Char(h[i])
    else
      forall i :: 0 <= i < |h| ==> !ForbiddenHostChar(h[i])
  }

  /** The hostname of an authority `[userinfo@]host[:port]`: the user info is
      everything up to the last `@`. A special scheme needs a host and
      lower-cases it; another scheme keeps an opaque host as written, possibly
      empty. `None` is a parse failure. */
  function AuthorityHost(auth: string, special: bool): (r: Option<string>)
    ensures r.Some? ==> forall i :: 0 <= i < |r.value| ==> !AuthorityEnd(r.value[i], true) && r.value[i] != '@'
    ensures r.Some? && special ==> r.value != []
  {
    var hp := AfterLast(auth, '@');
    if '@' in auth && hp == [] then None
    else
      match SplitHostPort(hp)
      case None => None
      case Some((h, p)) =>
        if !ValidPort(p) || !ValidHost(h) || (h == [] && (special || ':' in hp)) then None
        else
          ValidHostChars(h);
          if special then Some(Lower(h)) else Some(h)
  }

  /** A valid host, lower-cased or not, holds no authority end and no `@`. */
  lemma ValidHostChars(h: string)
    requires ValidHost(h)
    ensures forall i :: 0 <= i < |h| ==> !AuthorityEnd(h[i], true) && h[i] != '@'
    ensures forall i :: 0 <= i < |h| ==> !AuthorityEnd(LowerChar(h[i]), true) && LowerChar(h[i]) != '@'
  {
  }

  /** A Windows drive letter such as `C:` or `C|`. */
  predicate DriveLetter(b: string) {
    |b| == 2 && AsciiAlpha(b[0]) && (b[1] == ':' || b[1] == '|')
  }

  /** The hostname of a `file:` URL: a host only after two slashes, none for
      a drive letter or `localhost`. */
  function FileHost(rest: string): (r: Option<string>)
    ensures r.Some? ==> forall i :: 0 <= i < |r.value| ==> !AuthorityEnd(r.value[i], true) && r.value[i] != '@'
  {
    if |rest| >= 2 && (rest[0] == '/' || rest[0] == '\\') && (rest[1] == '/' || rest[1] == '\\') then
      var b := Authority(rest[2..], true);
      if b == [] || DriveLetter(b) then Some([])
      else if !ValidHost(b) then None
      else if Lower(b) == "localhost" then Some([])
      else
        ValidHostChars(b);
        Some(Lower(b))
    else Some([])
  }

  /** `new URL(u).hostname`, or `None` where `new URL(u)` throws. The scheme
      runs up to the first `:`. A network scheme skips any slashes and
      backslashes and reads `[userinfo@]host[:port]` up to `/`, `\`, `?` or
      `#`; `file:` reads a host after two slashes; any other scheme has a host
      only after `//`, and otherwise an empty hostname. */
  function HostOf(u: string): (r: Option<string>)
    ensures r.Some? ==> forall i :: 0 <= i < |r.value| ==> !AuthorityEnd(r.value[i], true) && r.value[i] != '@'
  {
    var c := Cleaned(u);
    match IndexOfChar(c, ':')
    case None => None
    case Some(k) => if ValidScheme(c[..k]) then HostAfterScheme(Lower(c[..k]), c[k + 1..]) else None
  }

  /** The hostname of what follows `scheme:`. */
  function HostAfterScheme(scheme: string, rest: string): (r: Option<string>)
    ensures r.Some? ==> forall i :: 0 <= i < |r.value| ==> !AuthorityEnd(r.value[i], true) && r.value[i] != '@'
  {
    if NetworkScheme(scheme) then NetworkHost(rest)
    else if scheme == "file" then FileHost(rest)
    else if |rest| >= 2 && rest[0] == '/' && rest[1] == '/' then AuthorityHost(Authority(rest[2..], false), false)
    else Some([])
  }

  /** The hostname after `http:` and the other network schemes. */
  function NetworkHost(rest: string): (r: Option<string>)
    ensures r.Some? ==> r.value != []
    ensures r.Some? ==> forall i :: 0 <= i < |r.value| ==> !AuthorityEnd(r.value[i], true) && r.value[i] != '@'
  {
    AuthorityHost(Authority(SkipSlashes(rest), true), true)
  }

  // ---------------------------------------------------------------- the worker

  /** The headers `new Response(text, {status})` gives a string body. */
  const PlainText: Headers := [("Content-Type", "text/plain;charset=UTF-8")]

  /** The checks before any upstream request. */
  function Check(query: UrlParams.Params): (g: Gate)
    ensures g.Reply? ==> g.response.status == 400 || g.response.status == 403
    ensures g.Fetch? ==> g.requestHeaders == UserAgent && UrlParams.Get(query, "url") == Some(g.target)
  {
    match UrlParams.Get(query, "url")
    case None => Reply(Response(400, PlainText, "Missing ?url= parameter"))
    case Some(target) =>
      if target == "" then Reply(Response(400, PlainText, "Missing ?url= parameter"))
      else
        match HostOf(target)
        case None => Throws
        case Some(host) =>
          if AllowedHost(host) then Fetch(target, UserAgent)
          else Reply(Response(403, PlainText, "Domain not allowed"))
  }

  /** The response headers: CORS, caching, and the upstream content type or `text/plain`. */
  function ResponseHeaders(contentType: Option<string>): Headers {
    [("Access-Control-Allow-Origin", "*"),
     ("Access-Control-Allow-Methods", "GET, OPTIONS"),
     ("Content-Type", if contentType.Some? && contentType.value != "" then contentType.value else "text/plain"),
     ("Cache-Control", "public, max-age=300")]
  }

  /** `new Response(text, {status})` accepts the status: 200 to 599 (else a
      `RangeError`), and none of the null-body statuses 204, 205 and 304,
      since a text body is never null (else a `TypeError`). */
  predicate TextResponseStatus(status: int) {
    200 <= status <= 599 && status != 204 && status != 205 && status != 304
  }

  /** The worker's `fetch` handler; `upstream` is what the target answers if it is asked. */
  function Handle(query: UrlParams.Params, upstream: Upstream): Outcome {
    match Check(query)
    case Reply(r) => Responded(r)
    case Throws => Failed
    case Fetch(_, _) =>
      if TextResponseStatus(upstream.status) then
        Responded(Response(upstream.status, ResponseHeaders(upstream.contentType), upstream.body))
      else Failed
  }

  /** The value of the first header with the given name. */
  function Header(hs: Headers, name: string): (r: Option<string>)
    ensures r.Some? ==> (name, r.value) in hs
    ensures r.None? ==> forall h :: h in hs ==> h.0 != name
  {
    if |hs| == 0 then None
    else if hs[0].0 == name then Some(hs[0].1)
    else Header(hs[1..], name)
  }

  // ---------------------------------------------------------------- properties

  /** 400 exactly when the `url` parameter is missing or empty. */
  lemma MissingUrl(query: UrlParams.Params)
    ensures Check(query).Reply? && Check(query).response.status == 400 <==>
      UrlParams.Get(query, "url") in {None, Some("")}
  {
  }

  /** The target is fetched exactly when the `url` parameter is a URL whose host is allowed. */
  lemma FetchIff(query: UrlParams.Params)
    ensures Check(query).Fetch? <==>
      exists t, h :: UrlParams.Get(query, "url") == Some(t) && t != "" && HostOf(t) == Some(h) && AllowedHost(h)
  {
    if Check(query).Fetch? {
      var t := UrlParams.Get(query, "url").value;
      var h := HostOf(t).value;
      assert UrlParams.Get(query, "url") == Some(t) && t != "" && HostOf(t) == Some(h) && AllowedHost(h);
    }
  }

  /** 403 exactly when the target is a URL whose host is not allowed. */
  lemma ForbiddenIff(query: UrlParams.Params)
    ensures Check(query).Reply? && Check(query).response.status == 403 <==>
      exists t, h :: UrlParams.Get(query, "url") == Some(t) && t != "" && HostOf(t) == Some(h) && !AllowedHost(h)
  {
    if Check(query).Reply? && Check(query).response.status == 403 {
      var t := UrlParams.Get(query, "url").value;
      var h := HostOf(t).value;
      assert UrlParams.Get(query, "url") == Some(t) && t != "" && HostOf(t) == Some(h) && !AllowedHost(h);
    }
  }

  /** On the 400 and 403 paths the upstream is never consulted: the answer
      does not depend on it. */
  lemma NoFetchOnRefusal(query: UrlParams.Params, u1: Upstream, u2: Upstream)
    requires !Check(query).Fetch?
    ensures Handle(query, u1) == Handle(query, u2)
  {
  }

  /** A forwarded request answers with the upstream status and body,
      unchanged, exactly when a text response may carry that status; a 204,
      205 or 304 upstream makes the worker throw. */
  lemma StatusPassthrough(query: UrlParams.Params, upstream: Upstream)
    requires Check(query).Fetch?
    ensures Handle(query, upstream).Responded? <==> TextResponseStatus(upstream.status)
    ensures Handle(query, upstream).Responded? ==>
      Handle(query, upstream).response.status == upstream.status &&
      Handle(query, upstream).response.body == upstream.body
    ensures upstream.status in {204, 205, 304} ==> Handle(query, upstream).Failed?
  {
  }

  /** A forwarded response always carries the CORS and caching headers, and the
      upstream content type when it has a non-empty one, else `text/plain`. */
  lemma ForwardedHeaders(contentType: Option<string>)
    ensures Header(ResponseHeaders(contentType), "Access-Control-Allow-Origin") == Some("*")
    ensures Header(ResponseHeaders(contentType), "Access-Control-Allow-Methods") == Some("GET, OPTIONS")
    ensures Header(ResponseHeaders(contentType), "Cache-Control") == Some("public, max-age=300")
    ensures Header(ResponseHeaders(contentType), "Content-Type") ==
      if contentType.Some? && contentType.value != "" then contentType else Some("text/plain")
  {
    var hs := ResponseHeaders(contentType);
    assert hs[1..][1..][1..] == [hs[3]];
  }

  /** The refusals carry no CORS header, so a browser page sees them as CORS errors. */
  lemma RefusalsWithoutCors(query: UrlParams.Params)
    requires Check(query).Reply?
    ensures Header(Check(query).response.headers, "Access-Control-Allow-Origin") == None
    ensures Header(Check(query).response.headers, "Content-Type") == Some("text/plain;charset=UTF-8")
  {
  }

  /** The test has no dot boundary: any host that merely ends in the letters
      of an allowed domain passes, a look-alike registration such as
      `evil` + `nrk.no` included. */
  lemma PlainSuffix(prefix: string, d: string)
    requires d in Allowed
    ensures AllowedHost(prefix + d)
  {
    var host := prefix + d;
    assert host[|host| - |d|..] == d;
  }

  /** A subdomain of an allowed domain is allowed. */
  lemma SubdomainAllowed(sub: string, d: string)
    requires d in Allowed
    ensures AllowedHost(sub + "." + d)
  {
    var host := sub + "." + d;
    assert host[|host| - |d|..] == d;
  }

  // ---------------------------------------------------------------- URL parsing properties

  /** Visible text is parsed as it stands. */
  lemma {:induction false} CleanedPrintable(u: string)
    requires Printable(u)
    ensures Cleaned(u) == u
  {
    DropTabNewlinePrintable(u);
  }

  lemma {:induction false} DropTabNewlinePrintable(u: string)
    requires Printable(u)
    ensures DropTabNewline(u) == u
    decreases |u|
  {
    if |u| > 0 {
      DropTabNewlinePrintable(u[1..]);
      assert u == [u[0]] + u[1..];
    }
  }

  /** A valid scheme holds no `:`, so the first `:` ends it. */
  lemma FirstColon(scheme: string, rest: string)
    requires ValidScheme(scheme)
    ensures IndexOfChar(scheme + ":" + rest, ':') == Some(|scheme|)
  {
    var u := scheme + ":" + rest;
    assert u[|scheme|] == ':';
    assert ':' in u;
    assert forall i :: 0 <= i < |scheme| ==> u[i] == scheme[i] != ':';
  }

  /** Slashes in front of text that starts with neither are all skipped. */
  lemma {:induction false} SkipSlashesOver(slashes: string, x: string)
    requires AllSlashes(slashes)
    requires x != [] ==> x[0] != '/' && x[0] != '\\'
    ensures SkipSlashes(slashes + x) == x
    decreases |slashes|
  {
    if |slashes| == 0 {
      assert slashes + x == x;
    } else {
      assert (slashes + x)[1..] == slashes[1..] + x;
      SkipSlashesOver(slashes[1..], x);
    }
  }

  /** The authority of `a + t` is `a` when `a` holds no end and `t` starts with one. */
  lemma {:induction false} AuthorityOver(a: string, t: string, special: bool)
    requires forall i :: 0 <= i < |a| ==> !AuthorityEnd(a[i], special)
    requires t != [] ==> AuthorityEnd(t[0], special)
    ensures Authority(a + t, special) == a
    decreases |a|
  {
    if |a| == 0 {
      assert a + t == t;
    } else {
      assert (a + t)[1..] == a[1..] + t;
      AuthorityOver(a[1..], t, special);
    }
  }

  /** After the last `c` of `a + b` comes `b` when `a` is empty or ends in `c` and `b` holds none. */
  lemma AfterLastOver(a: string, b: string, c: char)
    requires a == [] || a[|a| - 1] == c
    requires c !in b
    ensures AfterLast(a + b, c) == b
  {
    var s := a + b;
    var r := AfterLast(s, c);
    assert forall j :: |a| <= j < |s| ==> s[j] == b[j - |a|] && s[j] in b;
    assert r == s[|a|..] == b;
  }

  /** Split at the first `c` of `a + [c] + b` when `a` holds none. */
  lemma SplitFirstAt(a: string, b: string, c: char)
    requires c !in a
    ensures SplitFirst(a + [c] + b, c) == Some((a, b))
  {
    var s := a + [c] + b;
    assert s[|a|] == c;
    var r := SplitFirst(s, c).value;
    assert r.0 + [c] + r.1 == s;
    assert |r.0| == |a|;
    assert r.0 == s[..|a|] == a;
    assert r.1 == s[|a| + 1..] == b;
  }

  /** On visible text with a valid scheme, `new URL` dispatches on the
      lower-cased scheme and parses what follows its `:`. */
  lemma HostOfScheme(scheme: string, rest: string)
    requires ValidScheme(scheme) && Printable(scheme + ":" + rest)
    ensures HostOf(scheme + ":" + rest) == HostAfterScheme(Lower(scheme), rest)
  {
    var u := scheme + ":" + rest;
    CleanedPrintable(u);
    FirstColon(scheme, rest);
    SplitAtColon(scheme, rest);
  }

  lemma SplitAtColon(scheme: string, rest: string)
    ensures (scheme + ":" + rest)[..|scheme|] == scheme
    ensures (scheme + ":" + rest)[|scheme| + 1..] == rest
  {
    var head := scheme + ":";
    assert scheme + ":" + rest == head + rest;
    assert (head + rest)[|head|..] == rest;
  }

  // ---------------------------------------------------------------- authorities

  /** Text without an authority end of a special scheme. */
  predicate NoAuthorityEnd(s: string) {
    forall i :: 0 <= i < |s| ==> !AuthorityEnd(s[i], true)
  }

  /** Only slashes and backslashes. */
  predicate AllSlashes(s: string) {
    forall i :: 0 <= i < |s| ==> s[i] == '/' || s[i] == '\\'
  }

  /** A non-empty host without a forbidden character. */
  predicate PlainHost(h: string) {
    h != [] && forall i :: 0 <= i < |h| ==> !ForbiddenHostChar(h[i])
  }

  /** No user info, or user info up to and including its `@`. */
  predicate UserInfo(u: string) {
    NoAuthorityEnd(u) && (u == [] || u[|u| - 1] == '@')
  }

  /** An absent port, or a valid one. */
  predicate PortOk(port: Option<string>) {
    port.Some? ==> ValidPort(port.value)
  }

  /** `:port` when there is a port. */
  function PortSuffix(port: Option<string>): string {
    if port.Some? then ":" + port.value else ""
  }

  /** The port text, empty when there is none. */
  function PortText(port: Option<string>): string {
    if port.Some? then port.value else ""
  }

  lemma NoAuthorityEndAppend(a: string, b: string)
    requires NoAuthorityEnd(a) && NoAuthorityEnd(b)
    ensures NoAuthorityEnd(a + b)
  {
    forall i | 0 <= i < |a + b| ensures !AuthorityEnd((a + b)[i], true) {
      if i < |a| { assert (a + b)[i] == a[i]; } else { assert (a + b)[i] == b[i - |a|]; }
    }
  }

  lemma PlainHostChars(h: string)
    requires PlainHost(h)
    ensures ValidHost(h) && NoAuthorityEnd(h) && '@' !in h && ':' !in h
  {
  }

  lemma PortSuffixChars(port: Option<string>)
    requires PortOk(port)
    ensures NoAuthorityEnd(PortSuffix(port)) && '@' !in PortSuffix(port)
  {
    if port.Some? {
      NoAuthorityEndAppend(":", port.value);
    }
  }

  /** `host[:port]` splits back into the host and the port. */
  lemma HostPortSplits(host: string, port: Option<string>)
    requires PlainHost(host) && PortOk(port)
    ensures NoAuthorityEnd(host + PortSuffix(port)) && '@' !in host + PortSuffix(port)
    ensures SplitHostPort(host + PortSuffix(port)) == Some((host, PortText(port)))
    ensures ValidHost(host) && ValidPort(PortText(port)) && host + PortSuffix(port) != []
  {
    PlainHostChars(host);
    PortSuffixChars(port);
    NoAuthorityEndAppend(host, PortSuffix(port));
    match port
    case None =>
      assert host + PortSuffix(port) == host;
    case Some(p) =>
      assert host + PortSuffix(port) == host + [':'] + p;
      SplitFirstAt(host, p, ':');
  }

  /** An authority whose part after the last `@` splits into a valid,
      non-empty host and a valid port has that host, lower-cased. */
  lemma AuthorityHostFrom(auth: string, hp: string, h: string, p: string)
    requires AfterLast(auth, '@') == hp && hp != []
    requires SplitHostPort(hp) == Some((h, p))
    requires ValidHost(h) && ValidPort(p) && h != []
    ensures AuthorityHost(auth, true) == Some(Lower(h))
  {
  }

  /** The authority `[userinfo@]host[:port]` has the lower-cased `host`. */
  lemma AuthorityHostOf(userinfo: string, host: string, port: Option<string>)
    requires UserInfo(userinfo) && PlainHost(host) && PortOk(port)
    ensures AuthorityHost(userinfo + (host + PortSuffix(port)), true) == Some(Lower(host))
  {
    var hp := host + PortSuffix(port);
    HostPortSplits(host, port);
    AfterLastOver(userinfo, hp, '@');
    AuthorityHostFrom(userinfo + hp, hp, host, PortText(port));
  }

  /** After a network scheme: any slashes or backslashes, then an authority
      whose host is read lower-cased, whatever follows the authority's end
      (a `\` included). */
  lemma NetworkHostOf(slashes: string, userinfo: string, host: string, port: Option<string>, tail: string)
    requires AllSlashes(slashes) && UserInfo(userinfo) && PlainHost(host) && PortOk(port)
    requires tail == [] || AuthorityEnd(tail[0], true)
    ensures NetworkHost(slashes + (userinfo + (host + PortSuffix(port)) + tail)) == Some(Lower(host))
  {
    HostPortSplits(host, port);
    NoAuthorityEndAppend(userinfo, host + PortSuffix(port));
    SlashesThenAuthority(slashes, userinfo + (host + PortSuffix(port)), tail);
    AuthorityHostOf(userinfo, host, port);
  }

  /** Past the slashes, the authority runs up to the authority end. */
  lemma SlashesThenAuthority(slashes: string, auth: string, tail: string)
    requires AllSlashes(slashes) && auth != [] && NoAuthorityEnd(auth)
    requires tail == [] || AuthorityEnd(tail[0], true)
    ensures Authority(SkipSlashes(slashes + (auth + tail)), true) == auth
  {
    assert (auth + tail)[0] == auth[0];
    SkipSlashesOver(slashes, auth + tail);
    AuthorityOver(auth, tail, true);
  }

  /** `scheme:[slashes][userinfo@]host[:port][tail]` with a network scheme:
      `new URL` reads the lower-cased `host`, however many slashes or
      backslashes precede it, with or without user info and port, whatever
      follows an authority end (`\` included). */
  lemma NetworkUrlHost(scheme: string, slashes: string, userinfo: string, host: string, port: Option<string>, tail: string)
    requires ValidScheme(scheme) && NetworkScheme(Lower(scheme))
    requires AllSlashes(slashes) && UserInfo(userinfo) && PlainHost(host) && PortOk(port)
    requires tail == [] || AuthorityEnd(tail[0], true)
    requires Printable(scheme + ":" + (slashes + (userinfo + (host + PortSuffix(port)) + tail)))
    ensures HostOf(scheme + ":" + (slashes + (userinfo + (host + PortSuffix(port)) + tail))) == Some(Lower(host))
  {
    HostOfScheme(scheme, slashes + (userinfo + (host + PortSuffix(port)) + tail));
    NetworkHostOf(slashes, userinfo, host, port, tail);
  }

  /** A scheme other than a network scheme or `file`, not followed by `//`,
      has no host: `new URL` gives the empty hostname. */
  lemma OpaqueUrlHost(scheme: string, rest: string)
    requires ValidScheme(scheme) && !NetworkScheme(Lower(scheme)) && Lower(scheme) != "file"
    requires !(|rest| >= 2 && rest[0] == '/' && rest[1] == '/')
    requires Printable(scheme + ":" + rest)
    ensures HostOf(scheme + ":" + rest) == Some([])
  {
    HostOfScheme(scheme, rest);
  }

  /** An authority `host:port` whose port holds anything but digits has no host. */
  lemma BadPortAuthority(host: string, port: string)
    requires PlainHost(host) && NoAuthorityEnd(port) && '@' !in port && !AllDigits(port)
    ensures NoAuthorityEnd(host + ":" + port)
    ensures AuthorityHost(host + ":" + port, true) == None
  {
    var hp := host + ":" + port;
    PlainHostChars(host);
    NoAuthorityEndAppend(host, ":");
    NoAuthorityEndAppend(host + ":", port);
    AfterLastOver([], hp, '@');
    assert [] + hp == hp;
    SplitFirstAt(host, port, ':');
    assert hp[0] == host[0];
  }

  /** A port holding anything but digits makes `new URL` throw. */
  lemma BadPortFails(scheme: string, host: string, port: string, tail: string)
    requires ValidScheme(scheme) && NetworkScheme(Lower(scheme))
    requires PlainHost(host) && NoAuthorityEnd(port) && '@' !in port && !AllDigits(port)
    requires tail == [] || AuthorityEnd(tail[0], true)
    requires Printable(scheme + ":" + ("//" + (host + ":" + port + tail)))
    ensures HostOf(scheme + ":" + ("//" + (host + ":" + port + tail))) == None
  {
    HostOfScheme(scheme, "//" + (host + ":" + port + tail));
    BadPortNetworkHost(host, port, tail);
  }

  lemma BadPortNetworkHost(host: string, port: string, tail: string)
    requires PlainHost(host) && NoAuthorityEnd(port) && '@' !in port && !AllDigits(port)
    requires tail == [] || AuthorityEnd(tail[0], true)
    ensures NetworkHost("//" + (host + ":" + port + tail)) == None
  {
    BadPortAuthority(host, port);
    SlashesThenAuthority("//", host + ":" + port, tail);
  }

  /** The allowlist against `new URL`: a backslash ends the host of an `http`
      URL, so the `@nrk.no` after it is path, not host, and the target is
      refused. */
  lemma BackslashRefused(query: UrlParams.Params, u: string)
    requires u == "http://evil.com\\@nrk.no/" && UrlParams.Get(query, "url") == Some(u)
    ensures HostOf(u) == Some("evil.com")
    ensures Check(query).Reply? && Check(query).response.status == 403
  {
    BackslashHost(u);
    EvilNotAllowed();
    ForbiddenIff(query);
    assert UrlParams.Get(query, "url") == Some(u) && u != "" && HostOf(u) == Some("evil.com") && !AllowedHost("evil.com");
  }

  lemma BackslashHost(u: string)
    requires u == "http://evil.com\\@nrk.no/"
    ensures HostOf(u) == Some("evil.com")
  {
    BackslashUrl();
    NetworkUrlHost("http", "//", "", "evil.com", None, "\\@nrk.no/");
  }

  lemma BackslashUrl()
    ensures ValidScheme("http") && NetworkScheme(Lower("http"))
    ensures "http" + ":" + ("//" + ("" + ("evil.com" + PortSuffix(None)) + "\\@nrk.no/")) == "http://evil.com\\@nrk.no/"
    ensures Printable("http://evil.com\\@nrk.no/") && PlainHost("evil.com") && Lower("evil.com") == "evil.com"
  {
    LowerHttp();
    EvilHost();
    BackslashPrintable();
  }

  lemma BackslashPrintable()
    ensures Printable("http://evil.com\\@nrk.no/")
  {
  }

  lemma EvilHost()
    ensures PlainHost("evil.com") && Lower("evil.com") == "evil.com"
  {
    var r := Lower("evil.com");
    assert r[0] == 'e' && r[1] == 'v' && r[2] == 'i' && r[3] == 'l' && r[4] == '.' && r[5] == 'c' && r[6] == 'o' && r[7] == 'm';
  }

  lemma LowerHttp()
    ensures Lower("http") == "http"
  {
    var r := Lower("http");
    assert r[0] == 'h' && r[1] == 't' && r[2] == 't' && r[3] == 'p';
  }

  lemma EvilNotAllowed()
    ensures !AllowedHost("evil.com")
  {
    forall d | d in Allowed ensures !EndsWith("evil.com", d) {
      assert d[|d| - 1] == 'o';
    }
  }

  /** `http:nrk.no` names the host `nrk.no`: a network scheme needs no
      slashes, so the target is fetched. */
  lemma NoSlashesFetched(query: UrlParams.Params, u: string)
    requires u == "http:nrk.no" && UrlParams.Get(query, "url") == Some(u)
    ensures HostOf(u) == Some("nrk.no") && Check(query).Fetch?
  {
    NoSlashHost(u);
    assert EndsWith("nrk.no", "nrk.no");
    FetchIff(query);
    assert UrlParams.Get(query, "url") == Some(u) && u != "" && HostOf(u) == Some("nrk.no") && AllowedHost("nrk.no");
  }

  /** `mailto:x@nrk.no` has an empty hostname, so it is refused. */
  lemma MailtoRefused(query: UrlParams.Params, u: string)
    requires u == "mailto:x@nrk.no" && UrlParams.Get(query, "url") == Some(u)
    ensures HostOf(u) == Some([]) && Check(query).Reply? && Check(query).response.status == 403
  {
    MailtoHost(u);
    ForbiddenIff(query);
    assert UrlParams.Get(query, "url") == Some(u) && u != "" && HostOf(u) == Some([]) && !AllowedHost([]);
  }

  lemma NoSlashHost(u: string)
    requires u == "http:nrk.no"
    ensures HostOf(u) == Some("nrk.no")
  {
    NoSlashUrl();
    NetworkUrlHost("http", "", "", "nrk.no", None, "");
  }

  lemma MailtoHost(u: string)
    requires u == "mailto:x@nrk.no"
    ensures HostOf(u) == Some([])
  {
    MailtoUrl();
    OpaqueUrlHost("mailto", "x@nrk.no");
  }

  lemma NoSlashUrl()
    ensures ValidScheme("http") && NetworkScheme(Lower("http"))
    ensures "http" + ":" + ("" + ("" + ("nrk.no" + PortSuffix(None)) + "")) == "http:nrk.no"
    ensures Printable("http:nrk.no") && PlainHost("nrk.no") && Lower("nrk.no") == "nrk.no"
  {
    LowerHttp();
    var r := Lower("nrk.no");
    assert r[0] == 'n' && r[1] == 'r' && r[2] == 'k' && r[3] == '.' && r[4] == 'n' && r[5] == 'o';
  }

  lemma MailtoUrl()
    ensures ValidScheme("mailto") && !NetworkScheme(Lower("mailto")) && Lower("mailto") != "file"
    ensures "mailto" + ":" + "x@nrk.no" == "mailto:x@nrk.no" && Printable("mailto:x@nrk.no")
  {
    var r := Lower("mailto");
    assert r[0] == 'm' && |r| == 6;
  }
}

=== FILE: cursor.dfy ===
/** The shared custom cursor: a module-level state machine that, on desktop,
    adds a cursor element following the mouse and switches between an image
    mode and the plain system cursor. The DOM is reduced to the few facts the
    module sets: whether its element exists and is attached, the listener and
    animation loop, the element's display and size, and the page's cursor. */
module Cursor {
  import opened Wrappers

  datatype ModeConfig = ModeConfig(src: Option<string>, size: nat)

  const DiscoballSrc := "assets/discoball.gif"

  /** The mode `initCursor` uses when called without one. */
  const DefaultMode := "discoball"

  const CursorModes: map<string, ModeConfig> :=
    map["discoball" := ModeConfig(Some(DiscoballSrc), 64), "default" := ModeConfig(None, 0)]

  /** `CURSOR_MODES[mode] || CURSOR_MODES.default`. */
  function ConfigOf(mode: string): (c: ModeConfig)
    ensures c.src.Some? <==> mode == "discoball"
    ensures c.src.Some? ==> c.size == 64
  {
    if mode in CursorModes then CursorModes[mode] else CursorModes["default"]
  }

  class CustomCursor {
    /** `isMobile`, fixed when the module loads. */
    const isMobile: bool
    var isInitialized: bool
    var currentMode: string
    /** `cursor !== null`: the element was created at some point. */
    var hasElement: bool
    /** The element is in the document. */
    var attached: bool
    /** The `mousemove` listener is registered. */
    var listening: bool
    /** An animation frame is scheduled. */
    var animating: bool
    /** `cursor.style.display`, `""` until set. */
    var display: string
    /** `cursor.style.width` and `height`, in pixels. */
    var size: nat
    /** `cursorImg.src`. */
    var imageSrc: Option<string>
    /** `document.body.style.cursor`, `""` until set. */
    var bodyCursor: string

    /** The element, listener and loop go together on desktop and never exist on mobile. */
    predicate Valid()
      reads this
    {
      (isMobile ==> !hasElement && !listening && !animating) &&
      (isInitialized && !isMobile ==> hasElement && attached && listening && animating) &&
      (!isInitialized ==> !attached && !listening && !animating) &&
      (attached ==> hasElement)
    }

    /** The state when the module loads. */
    constructor(isMobile: bool)
      ensures this.isMobile == isMobile && Valid()
      ensures !isInitialized && currentMode == "default" && !hasElement
      ensures bodyCursor == "" && display == ""
    {
      this.isMobile := isMobile;
      isInitialized := false;
      currentMode := "default";
      hasElement := false;
      attached := false;
      listening := false;
      animating := false;
      display := "";
      size := 0;
      imageSrc := None;
      bodyCursor := "";
    }

    /** `getMode`: the last mode recorded. */
    function GetMode(): (m: string)
      reads this
      ensures m == currentMode
    {
      currentMode
    }

    /** `setMode`: on desktop it records `mode` and shows the image of its
        configuration, or hides the element when there is none; it throws
        (`ok` false) when no element was ever created, after recording `mode`. */
    method SetMode(mode: string) returns (ok: bool)
      requires Valid()
      modifies this
      ensures Valid()
      ensures ok <==> isMobile || old(hasElement)
      ensures isMobile ==> currentMode == old(currentMode) && display == old(display) && bodyCursor == old(bodyCursor)
      ensures !isMobile ==> currentMode == mode
      ensures ok && !isMobile && mode == "discoball" ==>
        display == "block" && size == 64 && imageSrc == Some(DiscoballSrc) && bodyCursor == "none"
      ensures ok && !isMobile && mode != "discoball" ==> display == "none" && bodyCursor == "auto"
      ensures !ok ==> display == old(display) && bodyCursor == old(bodyCursor)
      ensures !(ok && !isMobile && mode == "discoball") ==> size == old(size) && imageSrc == old(imageSrc)
      ensures isInitialized == old(isInitialized) && hasElement == old(hasElement) && attached == old(attached)
      ensures listening == old(listening) && animating == old(animating)
    {
      if isMobile {
        return true;
      }
      currentMode := mode;
      if !hasElement {
        return false;
      }
      var config := ConfigOf(mode);
      if config.src.Some? {
        display := "block";
        size := config.size;
        imageSrc := config.src;
        bodyCursor := "none";
      } else {
        display := "none";
        bodyCursor := "auto";
      }
      ok := true;
    }

    /** `initCursor(mode)`: does nothing when already initialized; on mobile it
        only marks itself initialized and keeps the system cursor; on desktop
        it creates the element, listens to the mouse, applies `mode` and starts
        the animation loop. Called without an argument, `initCursor()` is
        `InitCursor(DefaultMode)`. After `Destroy` the element is modelled by
        the same fields, so a re-init in a mode without an image keeps the
        old `size` and `imageSrc`, where JS builds a fresh element. */
    method InitCursor(mode: string)
      requires Valid()
      modifies this
      ensures Valid() && isInitialized
      ensures old(isInitialized) ==> unchanged(this)
      ensures !old(isInitialized) && isMobile ==>
        bodyCursor == "auto" && currentMode == old(currentMode) && !hasElement
      ensures !old(isInitialized) && !isMobile ==>
        attached && listening && animating && currentMode == mode &&
        (mode == "discoball" ==> display == "block" && bodyCursor == "none") &&
        (mode != "discoball" ==> display == "none" && bodyCursor == "auto")
    {
      if isInitialized {
        return;
      }
      isInitialized := true;
      if isMobile {
        bodyCursor := "auto";
        return;
      }
      hasElement := true;
      attached := true;
      display := "";
      listening := true;
      animating := true;
      var ok := SetMode(mode);
    }

    /** `destroy`: does nothing when not initialized; otherwise stops the loop
        and the listener, removes the element, restores the system cursor and
        clears the flag so a later `initCursor` runs again. */
    method Destroy()
      requires Valid()
      modifies this
      ensures Valid() && !isInitialized
      ensures !old(isInitialized) ==> unchanged(this)
      ensures old(isInitialized) ==> bodyCursor == "auto" && !attached && !listening && !animating
      ensures currentMode == old(currentMode) && hasElement == old(hasElement)
    {
      if !isInitialized {
        return;
      }
      animating := false;
      listening := false;
      if hasElement && attached {
        attached := false;
      }
      bodyCursor := "auto";
      isInitialized := false;
    }
  }

  /** Destroying and initializing again brings the desktop cursor back in the given mode. */
  method Reinit(c: CustomCursor, mode: string)
    requires c.Valid() && c.isInitialized && !c.isMobile
    modifies c
    ensures c.Valid() && c.isInitialized && c.attached && c.animating && c.GetMode() == mode
  {
    c.Destroy();
    c.InitCursor(mode);
  }
}

=== FILE: datepicker.dfy ===
/** The date picker of `spaces`: a button showing the selected date and a
    drop-down month grid (Monday first) whose days are marked selected, today
    and has-posts. Dates are JavaScript `Date` values seen through their local
    getters; an `Invalid Date` is None. */
module DatePicker {
  import opened Wrappers
  import Strings
  import opened Calendar

  // ------------------------------------------------------------ text form

  /** `formatDate`: year, then month (1-based) and day padded to two digits. */
  function FormatDate(d: Date): (s: string)
    requires ValidDate(d)
  {
    Strings.NatToString(d.year) + "-" + Strings.Pad2(d.month + 1) + "-" + Strings.Pad2(d.day)
  }

  lemma NatToString4(n: nat)
    requires 1000 <= n <= 9999
    ensures |Strings.NatToString(n)| == 4
  {
    assert |Strings.NatToString(n / 10 / 10 / 10)| == 1;
    assert |Strings.NatToString(n / 10 / 10)| == 2;
    assert |Strings.NatToString(n / 10)| == 3;
  }

  /** `formatDate` of an `Invalid Date`: every getter gives `NaN`. */
  function FormatValue(d: Option<Date>): string
    requires d.Some? ==> ValidDate(d.value)
  {
    match d
    case Some(v) => FormatDate(v)
    case None => "NaN-NaN-NaN"
  }

  /** The corrected reading of a value: the date-only ISO form `YYYY-MM-DD`
      as that calendar day, and `None` for anything else. This is the
      intended behaviour of the finding about `UtcParsedLocal`, not `new Date(s)` itself:
      JS engines also accept other forms (`2024/03/05`) and V8 rolls an
      impossible day over (`2023-02-31` becomes 3 March). */
  function ParseIsoDate(s: string): (r: Option<Date>)
    ensures r.Some? ==> ValidDate(r.value) && r.value.year <= 9999
    ensures r.Some? ==> |s| == 10 && s[4] == '-' && s[7] == '-'
  {
    if |s| == 10 && s[4] == '-' && s[7] == '-' &&
       Strings.AllDigits(s[..4]) && Strings.AllDigits(s[5..7]) && Strings.AllDigits(s[8..])
    then
      var y := Strings.DigitsValue(s[..4]);
      var m := Strings.DigitsValue(s[5..7]);
      var d := Strings.DigitsValue(s[8..]);
      assert y <= 9999 by { DigitsBound4(s[..4]); }
      if 1 <= m <= 12 && 1 <= d <= DaysInMonth(y, m - 1) then Some(Date(y, m - 1, d)) else None
    else None
  }

  lemma DigitsBound4(s: string)
    requires |s| == 4 && Strings.AllDigits(s)
    ensures Strings.DigitsValue(s) <= 9999
  {
    var a, b, c := s[..1], s[..2], s[..3];
    assert a[..0] == [] && b[..1] == a && c[..2] == b && s[..3] == c;
    assert Strings.DigitsValue(a) <= 9;
    assert Strings.DigitsValue(b) <= 99;
    assert Strings.DigitsValue(c) <= 999;
  }

  /** Parsing a formatted four-digit-year date gives the date back. */
  lemma FormatParseRoundTrip(d: Date)
    requires ValidDate(d) && 1000 <= d.year <= 9999
    ensures ParseIsoDate(FormatDate(d)) == Some(d)
  {
    var ys := Strings.NatToString(d.year);
    var ms := Strings.Pad2(d.month + 1);
    var ds := Strings.Pad2(d.day);
    NatToString4(d.year);
    Strings.DigitsValueOfNatToString(d.year);
    Strings.Pad2RoundTrip(d.month + 1);
    Strings.Pad2RoundTrip(d.day);
    assert Strings.ParseNat(ms) == Some(d.month + 1) && Strings.ParseNat(ds) == Some(d.day);
    assert FormatDate(d) == ys + "-" + ms + "-" + ds;
    ParseParts(ys, ms, ds);
  }

  lemma ParseParts(ys: string, ms: string, ds: string)
    requires |ys| == 4 && |ms| == 2 && |ds| == 2
    requires Strings.AllDigits(ys) && Strings.AllDigits(ms) && Strings.AllDigits(ds)
    requires 1 <= Strings.DigitsValue(ms) <= 12
    requires 1 <= Strings.DigitsValue(ds) <= DaysInMonth(Strings.DigitsValue(ys), Strings.DigitsValue(ms) - 1)
    ensures ParseIsoDate(ys + "-" + ms + "-" + ds) ==
      Some(Date(Strings.DigitsValue(ys), Strings.DigitsValue(ms) - 1, Strings.DigitsValue(ds)))
  {
    IsoParts(ys, ms, ds);
    ParseAt(ys + "-" + ms + "-" + ds, ys, ms, ds);
  }

  /** A ten-character text with its dashes in place parses to the date its digit runs denote. */
  lemma ParseAt(s: string, ys: string, ms: string, ds: string)
    requires |s| == 10 && s[4] == '-' && s[7] == '-' && s[..4] == ys && s[5..7] == ms && s[8..] == ds
    requires Strings.AllDigits(ys) && Strings.AllDigits(ms) && Strings.AllDigits(ds)
    requires 1 <= Strings.DigitsValue(ms) <= 12
    requires 1 <= Strings.DigitsValue(ds) <= DaysInMonth(Strings.DigitsValue(ys), Strings.DigitsValue(ms) - 1)
    ensures ParseIsoDate(s) ==
      Some(Date(Strings.DigitsValue(ys), Strings.DigitsValue(ms) - 1, Strings.DigitsValue(ds)))
  {
  }

  /** The pieces of `Y-M-D` sit at the fixed positions `ParseIsoDate` reads. */
  lemma IsoParts(ys: string, ms: string, ds: string)
    requires |ys| == 4 && |ms| == 2 && |ds| == 2
    requires Strings.AllDigits(ys) && Strings.AllDigits(ms) && Strings.AllDigits(ds)
    ensures var s := ys + "-" + ms + "-" + ds;
      |s| == 10 && s[4] == '-' && s[7] == '-' && s[..4] == ys && s[5..7] == ms && s[8..] == ds
  {
    var s := ys + "-" + ms + "-" + ds;
    assert s[..4] == ys;
    assert s[5..7] == ms;
    assert s[8..] == ds;
  }

  lemma ValueRoundTrip(d: Option<Date>)
    requires d.Some? ==> ValidDate(d.value)
    ensures d.Some? && 1000 <= d.value.year <= 9999 ==> ParseIsoDate(FormatValue(d)) == d
  {
    if d.Some? && 1000 <= d.value.year <= 9999 {
      FormatParseRoundTrip(d.value);
    }
  }

  /** Formatted four-digit-year dates are equal exactly when the dates are. */
  lemma FormatInjective(a: Date, b: Date)
    requires ValidDate(a) && 1000 <= a.year <= 9999
    requires ValidDate(b) && 1000 <= b.year <= 9999
    ensures FormatDate(a) == FormatDate(b) <==> a == b
  {
    FormatParseRoundTrip(a);
    FormatParseRoundTrip(b);
  }

  // ------------------------------------------------------------ month navigation

  /** `date.setMonth(date.getMonth() + delta)` as written: the day of the month is
      kept, and a day the target month lacks overflows into the month after it. */
  function JsSetMonth(d: Date, delta: int): (r: Date)
    requires ValidDate(d) && MonthIndex(d) + delta >= 0
    ensures ValidDate(r)
  {
    var idx := MonthIndex(d) + delta;
    var y := idx / 12;
    var mo := idx % 12;
    if d.day <= DaysInMonth(y, mo) then Date(y, mo, d.day)
    else if mo < 11 then Date(y, mo + 1, d.day - DaysInMonth(y, mo))
    else Date(y + 1, 0, d.day - DaysInMonth(y, mo))
  }

  /** "prev" from 31 March 2023 stays in March, and "next" from 31 January 2023 skips February. */
  lemma JsSetMonthSkips()
    ensures ValidDate(Date(2023, 2, 31)) && JsSetMonth(Date(2023, 2, 31), -1) == Date(2023, 2, 3)
    ensures MonthIndex(JsSetMonth(Date(2023, 2, 31), -1)) == MonthIndex(Date(2023, 2, 31))
    ensures ValidDate(Date(2023, 0, 31)) && JsSetMonth(Date(2023, 0, 31), 1) == Date(2023, 2, 3)
  {
    assert !IsLeap(2023);
  }

  /** The displayed month moved by `delta` months; the day is set to the first. */
  function ShiftMonth(d: Date, delta: int): (r: Date)
    requires MonthIndex(d) + delta >= 0
    ensures ValidDate(r) && r.day == 1
    ensures MonthIndex(r) == MonthIndex(d) + delta
  {
    var idx := MonthIndex(d) + delta;
    Date(idx / 12, idx % 12, 1)
  }

  /** "next" then "prev" shows the month shown before. */
  lemma NextThenPrev(d: Date)
    requires ValidDate(d)
    ensures var back := ShiftMonth(ShiftMonth(d, 1), -1); back.year == d.year && back.month == d.month
  {
    var idx := MonthIndex(d);
    assert ShiftMonth(ShiftMonth(d, 1), -1) == Date(idx / 12, idx % 12, 1);
    DivMod12(d.year, d.month);
  }

  lemma DivMod12(y: int, m: int)
    requires 0 <= m < 12
    ensures (y * 12 + m) / 12 == y && (y * 12 + m) % 12 == m
  {
  }

  // ------------------------------------------------------------ time zones

  /** The day before `d` (0000-01-01 has none here and is returned as it is). */
  function PrevDay(d: Date): (r: Date)
    requires ValidDate(d)
    ensures ValidDate(r)
    ensures d != Date(0, 0, 1) ==> NextDay(r) == d
  {
    if d.day > 1 then Date(d.year, d.month, d.day - 1)
    else if d.month > 0 then Date(d.year, d.month - 1, DaysInMonth(d.year, d.month - 1))
    else if d.year > 0 then Date(d.year - 1, 11, 31)
    else d
  }

  /** `new Date(y, m + 1, 0).getDate()`: day 0 of the next month is the last day of this one. */
  lemma LastDayOfMonth(y: nat, m: int)
    requires 0 <= m < 12
    ensures PrevDay(if m < 11 then Date(y, m + 1, 1) else Date(y + 1, 0, 1)) == Date(y, m, DaysInMonth(y, m))
  {
  }

  /** `new Date(dateStr)` as written: a date-only ISO string is UTC midnight, so the
      local getters east of UTC see that day and west of UTC (a negative offset
      in minutes) the day before. */
  function UtcParsedLocal(s: string, offsetMinutes: int): (r: Option<Date>)
    requires -1440 < offsetMinutes < 1440
    ensures r.None? <==> ParseIsoDate(s).None?
    ensures r.Some? ==> ValidDate(r.value)
  {
    match ParseIsoDate(s)
    case None => None
    case Some(d) => Some(if offsetMinutes < 0 then PrevDay(d) else d)
  }

  /** Five hours west of UTC, clicking 5 March 2024 selects 4 March. */
  lemma UtcParseShiftsDay()
    ensures ValidDate(Date(2024, 2, 5))
    ensures UtcParsedLocal(FormatDate(Date(2024, 2, 5)), -300) == Some(Date(2024, 2, 4))
  {
    FormatParseRoundTrip(Date(2024, 2, 5));
  }

  // ------------------------------------------------------------ the grid

  /** `firstDay.getDay() || 7`: the weekday of the 1st with Sunday as 7. */
  function StartDay(y: nat, m: int): (s: int)
    requires 0 <= m < 12
    ensures 1 <= s <= 7
  {
    var w := Weekday(Date(y, m, 1));
    if w == 0 then 7 else w
  }

  /** The number of empty cells before the 1st puts it under its own weekday heading. */
  lemma StartDayColumn(y: nat, m: int)
    requires 0 <= m < 12
    ensures StartDay(y, m) - 1 == MondayColumn(Weekday(Date(y, m, 1)))
  {
  }

  /** One cell of the days grid. */
  datatype Cell =
    | Empty
    | Day(day: nat, date: string, selected: bool, today: bool, hasPosts: bool)

  /** `getPostCountForDate ? getPostCountForDate(dateStr) : 0`. */
  function PostCount(counts: Option<string -> nat>, date: string): nat {
    match counts
    case Some(f) => f(date)
    case None => 0
  }

  /** The cell of one day, as the days loop of `renderCalendar` writes it. */
  function DayCell(d: Date, selected: Option<Date>, today: Date, counts: Option<string -> nat>): (c: Cell)
    requires ValidDate(d) && ValidDate(today)
    requires selected.Some? ==> ValidDate(selected.value)
    ensures c.Day? && c.day == d.day && c.date == FormatDate(d)
    ensures c.selected <==> FormatDate(d) == FormatValue(selected)
    ensures c.today <==> FormatDate(d) == FormatDate(today)
    ensures c.hasPosts <==> PostCount(counts, FormatDate(d)) > 0
  {
    var s := FormatDate(d);
    Day(d.day, s, s == FormatValue(selected), s == FormatDate(today), PostCount(counts, s) > 0)
  }

  /** With four-digit years, a day is marked selected exactly when it is the selected date. */
  lemma SelectedIffSameDate(d: Date, selected: Date, today: Date, counts: Option<string -> nat>)
    requires ValidDate(d) && 1000 <= d.year <= 9999
    requires ValidDate(selected) && 1000 <= selected.year <= 9999
    requires ValidDate(today)
    ensures DayCell(d, Some(selected), today, counts).selected <==> d == selected
  {
    FormatInjective(d, selected);
  }

  /** An `Invalid Date` selection marks no day. */
  lemma InvalidSelectsNothing(d: Date, today: Date, counts: Option<string -> nat>)
    requires ValidDate(d) && ValidDate(today)
    ensures !DayCell(d, None, today, counts).selected
  {
    var s := FormatDate(d);
    assert s[0] == Strings.NatToString(d.year)[0];
    assert Strings.IsDigit(s[0]);
    assert "NaN-NaN-NaN"[0] == 'N';
  }

  /** The picker's state: the month shown, the date selected and whether the drop-down is open. */
  class Picker {
    var currentDate: Option<Date>
    var selectedDate: Option<Date>
    var isOpen: bool

    ghost predicate Valid()
      reads this
    {
      (currentDate.Some? ==> ValidDate(currentDate.value)) &&
      (selectedDate.Some? ==> ValidDate(selectedDate.value))
    }

    /** `createDatePicker`: both dates start at `now`, closed. */
    constructor (now: Date)
      requires ValidDate(now)
      ensures Valid() && currentDate == Some(now) && selectedDate == Some(now) && !isOpen
    {
      currentDate := Some(now);
      selectedDate := Some(now);
      isOpen := false;
    }

    method Open()
      modifies this
      ensures isOpen && currentDate == old(currentDate) && selectedDate == old(selectedDate)
    {
      isOpen := true;
    }

    method Close()
      modifies this
      ensures !isOpen && currentDate == old(currentDate) && selectedDate == old(selectedDate)
    {
      isOpen := false;
    }

    method Toggle()
      modifies this
      ensures isOpen == !old(isOpen)
      ensures currentDate == old(currentDate) && selectedDate == old(selectedDate)
    {
      if isOpen { Close(); } else { Open(); }
    }

    /** `getValue`. */
    function GetValue(): (s: string)
      requires Valid()
      reads this
      ensures selectedDate.Some? && 1000 <= selectedDate.value.year <= 9999 ==>
        ParseIsoDate(s) == selectedDate
    {
      ValueRoundTrip(selectedDate);
      FormatValue(selectedDate)
    }

    /** `setValue`: the selected date and the month shown become the parsed date. */
    method SetValue(s: string)
      requires Valid()
      modifies this
      ensures Valid()
      ensures selectedDate == ParseIsoDate(s) && currentDate == selectedDate && isOpen == old(isOpen)
    {
      selectedDate := ParseIsoDate(s);
      currentDate := selectedDate;
    }

    /** A click on a day cell: select it, show its month, close, and report the new value. */
    method SelectDay(date: string) returns (changed: string)
      requires Valid()
      modifies this
      ensures Valid()
      ensures selectedDate == ParseIsoDate(date) && currentDate == selectedDate && !isOpen
      ensures changed == GetValue()
    {
      selectedDate := ParseIsoDate(date);
      currentDate := selectedDate;
      Close();
      changed := FormatValue(selectedDate);
    }

    /** The prev (`delta == -1`) and next (`delta == 1`) buttons. An `Invalid Date` stays
        invalid; months before year 0 are not represented and leave the view as it is. */
    method Navigate(delta: int)
      requires Valid()
      modifies this
      ensures Valid()
      ensures selectedDate == old(selectedDate) && isOpen == old(isOpen)
      ensures old(currentDate).None? ==> currentDate.None?
      ensures old(currentDate).Some? && MonthIndex(old(currentDate).value) + delta >= 0 ==>
        currentDate.Some? && MonthIndex(currentDate.value) == MonthIndex(old(currentDate).value) + delta
    {
      if currentDate.Some? && MonthIndex(currentDate.value) + delta >= 0 {
        currentDate := Some(ShiftMonth(currentDate.value, delta));
      }
    }

    /** `renderCalendar`: `startDay - 1` empty cells, then one cell per day of the
        month shown. For an `Invalid Date` `startDay` is 7 and the month has no days. */
    method RenderCalendar(today: Date, counts: Option<string -> nat>) returns (cells: seq<Cell>)
      requires Valid() && ValidDate(today)
      ensures currentDate.None? ==> |cells| == 6 && forall i :: 0 <= i < 6 ==> cells[i] == Empty
      ensures currentDate.Some? ==>
        var y, m := currentDate.value.year, currentDate.value.month;
        && |cells| == StartDay(y, m) - 1 + DaysInMonth(y, m)
        && (forall i :: 0 <= i < StartDay(y, m) - 1 ==> cells[i] == Empty)
        && (forall d :: 1 <= d <= DaysInMonth(y, m) ==>
              cells[StartDay(y, m) - 2 + d] == DayCell(Date(y, m, d), selectedDate, today, counts))
    {
      var startDay := 7;
      if currentDate.Some? {
        startDay := StartDay(currentDate.value.year, currentDate.value.month);
      }
      cells := [];
      var i := 1;
      while i < startDay
        invariant 1 <= i <= startDay
        invariant |cells| == i - 1 && forall k :: 0 <= k < i - 1 ==> cells[k] == Empty
      {
        cells := cells + [Empty];
        i := i + 1;
      }
      if currentDate.Some? {
        var days := DayCells(currentDate.value.year, currentDate.value.month, selectedDate, today, counts);
        cells := cells + days;
      }
    }
  }

  /** The days loop of `renderCalendar`: one cell per day 1 .. last day of the month. */
  method DayCells(y: nat, m: int, selected: Option<Date>, today: Date, counts: Option<string -> nat>)
    returns (cells: seq<Cell>)
    requires 0 <= m < 12 && ValidDate(today)
    requires selected.Some? ==> ValidDate(selected.value)
    ensures |cells| == DaysInMonth(y, m)
    ensures forall d :: 1 <= d <= DaysInMonth(y, m) ==> cells[d - 1] == DayCell(Date(y, m, d), selected, today, counts)
  {
    cells := [];
    var last := DaysInMonth(y, m);
    var day := 1;
    while day <= last
      invariant 1 <= day <= last + 1
      invariant |cells| == day - 1
      invariant forall d :: 1 <= d < day ==> cells[d - 1] == DayCell(Date(y, m, d), selected, today, counts)
    {
      var c := DayCell(Date(y, m, day), selected, today, counts);
      cells := cells + [c];
      day := day + 1;
    }
  }

  /** Day `d` of the month shown sits in the grid column of its own weekday (Monday first). */
  lemma GridColumn(y: nat, m: int, d: int)
    requires 0 <= m < 12 && ValidDate(Date(y, m, d))
    ensures (StartDay(y, m) - 2 + d) % 7 == MondayColumn(Weekday(Date(y, m, d)))
  {
    WeekdayInMonth(y, m, d);
    GridShift(Weekday(Date(y, m, 1)), Weekday(Date(y, m, d)), StartDay(y, m), d);
  }

  /** The arithmetic of `GridColumn`: `w1` is the weekday of the 1st, `s` its
      Sunday-last number, `wd` the weekday of day `d`. */
  lemma GridShift(w1: nat, wd: nat, s: int, d: int)
    requires w1 < 7 && 1 <= d && wd == (w1 + d - 1) % 7
    requires s == if w1 == 0 then 7 else w1
    ensures (s - 2 + d) % 7 == MondayColumn(wd)
  {
    ColumnShift(w1, d - 1);
  }

  /** Counting `x` cells on from the column of weekday `w` reaches the column of weekday `w + x`. */
  lemma ColumnShift(w: nat, x: nat)
    requires w < 7
    ensures ((w + 6) % 7 + x) % 7 == ((w + x) % 7 + 6) % 7
  {
    ModAdd7(w + 6, x);
    ModAdd7(w + x, 6);
    assert w + 6 + x == w + x + 6;
  }
}

=== FILE: durations.dfy ===
/** The `m:ss` track length both music front ends show: whole minutes, a
    colon, and the leftover whole seconds zero-padded to two digits. */
module Durations {
  import opened Wrappers
  import opened Strings

  /** `${Math.floor(ms / 60000)}:${String(Math.floor((ms % 60000) / 1000)).padStart(2, '0')}`. */
  function MinSec(ms: nat): (r: string)
    ensures ':' in r
  {
    NatToString(ms / 60000) + ":" + Pad2((ms % 60000) / 1000)
  }

  /** Splitting at a separator that occurs in neither left part recovers the parts. */
  lemma SplitUnique(a: string, b: string, a': string, b': string, c: char)
    requires a + [c] + b == a' + [c] + b' && c !in a && c !in a'
    ensures a == a' && b == b'
  {
    var s := a + [c] + b;
    assert forall i :: 0 <= i < |a| ==> s[i] == a[i];
    assert forall i :: 0 <= i < |a'| ==> s[i] == a'[i];
    assert s[|a|] == c && s[|a'|] == c;
    assert |a| == |a'|;
    assert a == s[..|a|] && a' == s[..|a'|];
    assert b == s[|a| + 1..] && b' == s[|a'| + 1..];
  }

  /** Whole seconds split into whole minutes and the seconds left over. */
  lemma MinutesAndSeconds(ms: nat)
    ensures (ms % 60000) / 1000 < 60
    ensures (ms / 60000) * 60 + (ms % 60000) / 1000 == ms / 1000
  {
    var q, r := ms / 60000, ms % 60000;
    var s, t := r / 1000, r % 1000;
    assert ms == 1000 * (60 * q + s) + t;
    DivOfSum(ms, 1000, 60 * q + s, t);
  }

  lemma DivOfSum(x: nat, d: nat, q: nat, t: nat)
    requires 0 < d && t < d && x == d * q + t
    ensures x / d == q
  {
    var k := x / d;
    assert x == d * k + x % d;
    MulStep(d, k, q);
    MulStep(d, q, k);
  }

  /** A smaller factor leaves room for at least one more `d`. */
  lemma MulStep(d: nat, a: nat, b: nat)
    ensures a < b ==> d * a + d <= d * b
  {
    if a < b {
      var j: nat := b - a - 1;
      assert d * b == d * a + d * j + d;
    }
  }

  /** The text reads back: the part before the colon is the minutes, the two
      digits after it are the seconds below a minute, and together they are
      the whole seconds of `ms`. */
  lemma MinSecRoundTrip(ms: nat)
    ensures SplitFirst(MinSec(ms), ':').Some?
    ensures var (m, s) := SplitFirst(MinSec(ms), ':').value;
      |s| == 2 && ParseNat(m).Some? && ParseNat(s).Some? && ParseNat(s).value < 60 &&
      ParseNat(m).value * 60 + ParseNat(s).value == ms / 1000
  {
    var a, b := NatToString(ms / 60000), Pad2((ms % 60000) / 1000);
    var (m, s) := SplitFirst(MinSec(ms), ':').value;
    assert ':' !in a by {
      assert forall i :: 0 <= i < |a| ==> IsDigit(a[i]);
    }
    assert MinSec(ms) == a + [':'] + b;
    SplitUnique(m, s, a, b, ':');
    MinutesAndSeconds(ms);
    NatToStringRoundTrip(ms / 60000);
    Pad2RoundTrip((ms % 60000) / 1000);
  }
}

=== FILE: flic.dfy ===
/** The Flic button controller for the living-room lights: it reads `../.env`
    into the environment without overriding what is already set, reads the
    light settings with fixed defaults, and maps button clicks to Hue commands
    while remembering whether it last turned the lights on. */
module Flic {
  import opened Wrappers
  import opened Strings

  // ---------------------------------------------------------------- .env

  /** One `.env` line: `key=value` after stripping, or `None` for a blank
      line, a `#` comment or a line without `=`. */
  function ParseEnvLine(raw: string): (r: Option<(string, string)>)
    ensures r.None? <==> PyStrip(raw) == "" || StartsWith(PyStrip(raw), "#") || '=' !in PyStrip(raw)
    ensures r.Some? ==>
      (exists k, v :: PyStrip(raw) == k + "=" + v && '=' !in k && r.value == (PyStrip(k), PyStrip(v)))
  {
    var line := PyStrip(raw);
    if line == "" || StartsWith(line, "#") then None
    else
      match SplitFirst(line, '=')
      case None => None
      case Some((k, v)) => Some((PyStrip(k), PyStrip(v)))
  }

  /** `os.environ.setdefault(k, v)`. */
  function SetDefault(env: map<string, string>, k: string, v: string): (r: map<string, string>)
    ensures k in r && (k in env ==> r == env)
    ensures k !in env ==> r == env[k := v]
  {
    if k in env then env else env[k := v]
  }

  /** One line's effect on the environment. */
  function ApplyLine(env: map<string, string>, line: string): map<string, string> {
    match ParseEnvLine(line)
    case None => env
    case Some((k, v)) => SetDefault(env, k, v)
  }

  /** The environment after the `.env` lines, applied in order. */
  function EnvAfter(env: map<string, string>, lines: seq<string>): map<string, string>
    decreases |lines|
  {
    if |lines| == 0 then env
    else ApplyLine(EnvAfter(env, lines[..|lines| - 1]), lines[|lines| - 1])
  }

  /** What one line defines `k` as, if anything. */
  function Defines(line: string, k: string): Option<string> {
    match ParseEnvLine(line)
    case Some((k', v)) => if k' == k then Some(v) else None
    case None => None
  }

  /** The value of `k` in an environment, `None` when it is unset. */
  function Lookup(env: map<string, string>, k: string): Option<string> {
    if k in env then Some(env[k]) else None
  }

  /** `ApplyLine` sets `k` only when `k` is unset and the line defines it. */
  lemma ApplyLineValue(env: map<string, string>, line: string, k: string)
    ensures Lookup(ApplyLine(env, line), k) == if k in env then Some(env[k]) else Defines(line, k)
  {
  }

  /** The loading loop at the top of the controller; `file` is the lines of
      `../.env`, `None` when it does not exist. */
  method LoadEnv(env: map<string, string>, file: Option<seq<string>>) returns (r: map<string, string>)
    ensures file.None? ==> r == env
    ensures file.Some? ==> r == EnvAfter(env, file.value)
  {
    r := env;
    if file.None? {
      return;
    }
    var lines := file.value;
    for i := 0 to |lines|
      invariant r == EnvAfter(env, lines[..i])
    {
      assert lines[..i + 1][..i] == lines[..i];
      r := ApplyLine(r, lines[i]);
    }
    assert lines[..|lines|] == lines;
  }

  /** The value of the first line that defines `k`, if any. */
  function FirstDefinition(lines: seq<string>, k: string): Option<string>
    decreases |lines|
  {
    if |lines| == 0 then None
    else if Defines(lines[0], k).Some? then Defines(lines[0], k)
    else FirstDefinition(lines[1..], k)
  }

  /** A variable already set is never overridden; an unset one takes the value
      of the first line that defines it, and stays unset when no line does. */
  lemma {:induction false} EnvAfterValue(env: map<string, string>, lines: seq<string>, k: string)
    ensures Lookup(EnvAfter(env, lines), k) == if k in env then Some(env[k]) else FirstDefinition(lines, k)
    decreases |lines|
  {
    if |lines| > 0 {
      var n := |lines| - 1;
      EnvAfterValue(env, lines[..n], k);
      FirstDefinitionAppend(lines[..n], lines[n], k);
      assert lines[..n] + [lines[n]] == lines;
      ApplyLineValue(EnvAfter(env, lines[..n]), lines[n], k);
    }
  }

  /** Adding a line at the end changes the first definition only when there was none. */
  lemma {:induction false} FirstDefinitionAppend(lines: seq<string>, last: string, k: string)
    ensures FirstDefinition(lines + [last], k) ==
      if FirstDefinition(lines, k).Some? then FirstDefinition(lines, k) else Defines(last, k)
    decreases |lines|
  {
    if |lines| == 0 {
      assert [last][1..] == [];
    } else {
      assert (lines + [last])[1..] == lines[1..] + [last];
      FirstDefinitionAppend(lines[1..], last, k);
    }
  }

  /** `os.getenv(name, default)`. */
  function GetEnv(env: map<string, string>, name: string, default: string): (r: string)
    ensures name in env ==> r == env[name]
    ensures name !in env ==> r == default
  {
    if name in env then env[name] else default
  }

  function HueIp(env: map<string, string>): string { GetEnv(env, "HUE_IP", "10.0.0.1") }

  function HueUser(env: map<string, string>): string { GetEnv(env, "VITE_HUE_USERNAME", "") }

  // ---------------------------------------------------------------- settings

  datatype OnSetting = OnSetting(mirek: int, brightness: int)
  datatype ColorSetting = ColorSetting(color: string, brightness: int)
  datatype Settings = Settings(on: OnSetting, night: ColorSetting, orange: ColorSetting)

  /** The settings file as read: missing or unreadable, not JSON, or parsed. */
  datatype SettingsFile = Missing | Invalid | Parsed(settings: Settings)

  const DefaultSettings := Settings(
    OnSetting(300, 100), ColorSetting("#ff9933", 27), ColorSetting("#ff6600", 100))

  /** `load_settings`: the file's settings, or the fixed defaults on any failure. */
  function LoadSettings(file: SettingsFile): (s: Settings)
    ensures file.Parsed? ==> s == file.settings
    ensures !file.Parsed? ==> s == DefaultSettings
  {
    if file.Parsed? then file.settings else DefaultSettings
  }

  // ---------------------------------------------------------------- lights

  /** The body of a `PUT` to the light group; a colour is sent as its hex code
      here, where the controller converts it to CIE xy. */
  datatype HueCommand = TurnOff | TurnOn(brightness: int, mirek: int) | ColorOn(brightness: int, color: string)

  datatype ClickType = ButtonDown | ButtonUp | ButtonClick | ButtonSingleClick | ButtonDoubleClick | ButtonHold

  class Lights {
    /** `light_state`: whether the controller last turned the lights on. */
    var lightState: bool
    /** The commands sent to the bridge, in order. */
    var sent: seq<HueCommand>

    constructor()
      ensures !lightState && sent == []
    {
      lightState := false;
      sent := [];
    }

    /** `toggle`: off when on, else on with the configured brightness and colour temperature. */
    method Toggle(file: SettingsFile)
      modifies this
      ensures lightState == !old(lightState)
      ensures old(lightState) ==> sent == old(sent) + [TurnOff]
      ensures !old(lightState) ==>
        sent == old(sent) + [TurnOn(LoadSettings(file).on.brightness, LoadSettings(file).on.mirek)]
    {
      var settings := LoadSettings(file);
      if lightState {
        sent := sent + [TurnOff];
      } else {
        sent := sent + [TurnOn(settings.on.brightness, settings.on.mirek)];
      }
      lightState := !lightState;
    }

    /** `night_mode`: the night colour and brightness; the lights are on afterwards. */
    method NightMode(file: SettingsFile)
      modifies this
      ensures lightState
      ensures sent == old(sent) + [ColorOn(LoadSettings(file).night.brightness, LoadSettings(file).night.color)]
    {
      var settings := LoadSettings(file);
      sent := sent + [ColorOn(settings.night.brightness, settings.night.color)];
      lightState := true;
    }

    /** `orange_mode`: the orange colour and brightness; the lights are on afterwards. */
    method OrangeMode(file: SettingsFile)
      modifies this
      ensures lightState
      ensures sent == old(sent) + [ColorOn(LoadSettings(file).orange.brightness, LoadSettings(file).orange.color)]
    {
      var settings := LoadSettings(file);
      sent := sent + [ColorOn(settings.orange.brightness, settings.orange.color)];
      lightState := true;
    }

    /** `on_button_event`: single click toggles, hold is night mode, double
        click is orange mode, and every other click type does nothing. */
    method OnButtonEvent(click: ClickType, file: SettingsFile)
      modifies this
      ensures click == ButtonSingleClick ==> lightState == !old(lightState)
      ensures click == ButtonHold || click == ButtonDoubleClick ==> lightState
      ensures click in {ButtonSingleClick, ButtonHold, ButtonDoubleClick} ==>
        |sent| == |old(sent)| + 1 && sent[..|old(sent)|] == old(sent)
      ensures click == ButtonSingleClick ==>
        (sent[|sent| - 1] == if old(lightState) then TurnOff else TurnOn(LoadSettings(file).on.brightness, LoadSettings(file).on.mirek))
      ensures click == ButtonHold ==> sent[|sent| - 1] == ColorOn(LoadSettings(file).night.brightness, LoadSettings(file).night.color)
      ensures click == ButtonDoubleClick ==> sent[|sent| - 1] == ColorOn(LoadSettings(file).orange.brightness, LoadSettings(file).orange.color)
      ensures click !in {ButtonSingleClick, ButtonHold, ButtonDoubleClick} ==>
        lightState == old(lightState) && sent == old(sent)
    {
      if click == ButtonSingleClick {
        Toggle(file);
      } else if click == ButtonHold {
        NightMode(file);
      } else if click == ButtonDoubleClick {
        OrangeMode(file);
      }
    }
  }

  /** Two single clicks bring the remembered state back and send one off and one on command. */
  method ClickTwice(lights: Lights, file: SettingsFile)
    modifies lights
    ensures lights.lightState == old(lights.lightState)
    ensures |lights.sent| == |old(lights.sent)| + 2
    ensures TurnOff in lights.sent[|old(lights.sent)|..]
  {
    ghost var s0 := lights.sent;
    lights.OnButtonEvent(ButtonSingleClick, file);
    ghost var s1 := lights.sent;
    lights.OnButtonEvent(ButtonSingleClick, file);
    assert lights.sent[|s0|..] == [s1[|s0|], lights.sent[|s1|]];
  }
}

=== FILE: hvaskjer.dfy ===
/** The news app's page state: the password gate, the loading phases while
    feeds stream in and the headlines are grouped, the articles of a chosen
    category, the per-source tally shown while loading, and the question box.
    Network calls are inputs: what each awaited call returned or threw. */
module Hvaskjer {
  import opened Wrappers
  import opened Strings
  import opened Mistral
  import Tally

  const DayMs: nat := 86400000

  // ---------------------------------------------------------------- formatDate

  /** `formatDate(date)` at time `now` (milliseconds); `localeDate` is the
      `nb-NO` day-and-month rendering of `date`. */
  function FormatDate(date: Option<int>, now: int, localeDate: string): (r: string)
    ensures date.None? ==> r == ""
    ensures date.Some? && now - date.value < DayMs ==> r == "i dag"
    ensures date.Some? && DayMs <= now - date.value < 2 * DayMs ==> r == "i går"
    ensures date.Some? && 2 * DayMs <= now - date.value < 7 * DayMs ==>
      exists n :: 2 <= n < 7 && n * DayMs <= now - date.value < (n + 1) * DayMs && r == NatToString(n) + "d siden"
    ensures date.Some? && 7 * DayMs <= now - date.value ==> r == Lower(localeDate)
  {
    match date
    case None => ""
    case Some(d) =>
      var days := (now - d) / DayMs;
      WholeDays(now - d, days);
      if days < 1 then "i dag"
      else if days == 1 then "i går"
      else if days < 7 then NatToString(days) + "d siden"
      else Lower(localeDate)
  }

  /** `Math.floor(diff / 86400000)` is the number of whole days in `diff`. */
  lemma WholeDays(diff: int, days: int)
    requires days == diff / DayMs
    ensures days * DayMs <= diff < (days + 1) * DayMs
  {
  }

  // ---------------------------------------------------------------- handleLogin

  const AuthKey := "hvaskjer-auth"

  /** The password gate and its `sessionStorage` flag. */
  class Login {
    var authenticated: bool
    var passError: bool
    var session: map<string, string>

    /** The initial state reads the flag a previous login left in the session. */
    constructor(session: map<string, string>)
      ensures authenticated <==> AuthKey in session && session[AuthKey] == "true"
      ensures !passError && this.session == session
    {
      authenticated := AuthKey in session && session[AuthKey] == "true";
      passError := false;
      this.session := session;
    }

    /** `handleLogin`: the right password signs in and remembers it for the
        session; any other shows the error. `correct` is the configured pass,
        absent when it is not set. */
    method HandleLogin(password: string, correct: Option<string>)
      modifies this
      ensures correct == Some(password) ==>
        authenticated && !passError && session == old(session)[AuthKey := "true"]
      ensures correct != Some(password) ==>
        passError && authenticated == old(authenticated) && session == old(session)
    {
      if correct == Some(password) {
        session := session[AuthKey := "true"];
        authenticated := true;
        passError := false;
      } else {
        passError := true;
      }
    }
  }

  // ---------------------------------------------------------------- loadNews

  datatype Phase = Idle | Fetching | Thinking | Done

  datatype Category = Category(name: string, articleIds: seq<int>)

  /** The allowed phase changes: a load starts fetching from anywhere, fetching
      moves on to thinking, thinking to done, and an error in either goes back
      to idle. */
  predicate Step(p: Phase, q: Phase) {
    q == Fetching ||
    (p == Fetching && q == Thinking) ||
    (p == Thinking && q == Done) ||
    ((p == Fetching || p == Thinking) && q == Idle)
  }

  /** The phases one load goes through when the feeds and the grouping call
      succeed or throw. */
  function LoadTrace(fetchedOk: bool, groupedOk: bool): seq<Phase> {
    if !fetchedOk then [Fetching, Idle]
    else if !groupedOk then [Fetching, Thinking, Idle]
    else [Fetching, Thinking, Done]
  }

  const LoadError := "noe gikk galt. prøv igjen."

  /** The items, groups and summary of the news page, and its loading phase. */
  class Feed {
    var phase: Phase
    /** Every phase set so far, in order. */
    var phases: seq<Phase>
    var error: Option<string>
    var allItems: seq<Article>
    var categories: seq<Category>
    var summary: Option<string>

    constructor()
      ensures phase == Idle && phases == [] && error.None? && allItems == [] && categories == [] && summary.None?
    {
      phase := Idle;
      phases := [];
      error := None;
      allItems := [];
      categories := [];
      summary := None;
    }

    method SetPhase(p: Phase)
      modifies this
      ensures phase == p && phases == old(phases) + [p]
      ensures error == old(error) && allItems == old(allItems)
      ensures categories == old(categories) && summary == old(summary)
    {
      phase := p;
      phases := phases + [p];
    }

    /** `loadNews`. `streamed` holds the item lists the feed fetcher reported
        while loading, `fetched` what it finally returned or threw, and
        `grouped` the categories and summary the grouping call returned or threw. */
    method LoadNews(streamed: seq<seq<Article>>, fetched: Result<seq<Article>, string>,
                    grouped: Result<(seq<Category>, Option<string>), string>)
      modifies this
      ensures phases == old(phases) + LoadTrace(fetched.Ok?, fetched.Ok? && grouped.Ok?)
      ensures phase == phases[|phases| - 1]
      ensures error == if fetched.Ok? && grouped.Ok? then None else Some(LoadError)
      ensures allItems == if |streamed| == 0 then [] else streamed[|streamed| - 1]
      ensures fetched.Ok? && grouped.Ok? ==> categories == grouped.value.0 && summary == grouped.value.1
      ensures !(fetched.Ok? && grouped.Ok?) ==> categories == old(categories) && summary == old(summary)
    {
      SetPhase(Fetching);
      error := None;
      allItems := [];
      if |streamed| > 0 {
        allItems := streamed[|streamed| - 1];
      }
      if fetched.Err? {
        error := Some(LoadError);
        SetPhase(Idle);
        return;
      }
      SetPhase(Thinking);
      if grouped.Err? {
        error := Some(LoadError);
        SetPhase(Idle);
        return;
      }
      categories := grouped.value.0;
      summary := grouped.value.1;
      SetPhase(Done);
    }
  }

  /** Every load moves through allowed steps from any phase, starts by fetching,
      and ends done exactly when nothing threw, else idle. */
  lemma LoadPhases(before: Phase, fetchedOk: bool, groupedOk: bool)
    ensures var t := LoadTrace(fetchedOk, groupedOk);
      t[0] == Fetching && Step(before, t[0]) &&
      (forall i :: 0 < i < |t| ==> Step(t[i - 1], t[i])) &&
      (t[|t| - 1] == Done <==> fetchedOk && groupedOk) &&
      (t[|t| - 1] != Done ==> t[|t| - 1] == Idle)
  {
  }

  // ---------------------------------------------------------------- handleCategoryClick

  /** `ids.filter(id => id >= 0 && id < n)`. */
  function ValidIds(ids: seq<int>, n: nat): (r: seq<nat>)
    ensures |r| <= |ids|
    ensures forall k :: 0 <= k < |r| ==> r[k] < n
    ensures forall id :: id in r <==> id in ids && 0 <= id < n
    decreases |ids|
  {
    if |ids| == 0 then []
    else
      var rest := ValidIds(ids[..|ids| - 1], n);
      var id := ids[|ids| - 1];
      assert ids == ids[..|ids| - 1] + [id];
      if 0 <= id < n then rest + [id] else rest
  }

  /** The articles of a category, by its ids, in its order, out-of-range ids dropped. */
  function CategoryItems(ids: seq<int>, items: seq<Article>): (r: seq<Article>)
    ensures |r| == |ValidIds(ids, |items|)|
    ensures forall k :: 0 <= k < |r| ==> r[k] == items[ValidIds(ids, |items|)[k]]
  {
    var v := ValidIds(ids, |items|);
    seq(|v|, k requires 0 <= k < |v| => items[v[k]])
  }

  /** The filter keeps order: filtering a concatenation concatenates the filtered parts. */
  lemma {:induction false} ValidIdsAppend(a: seq<int>, b: seq<int>, n: nat)
    ensures ValidIds(a + b, n) == ValidIds(a, n) + ValidIds(b, n)
    decreases |b|
  {
    if |b| == 0 {
      assert a + b == a;
    } else {
      var m := |b| - 1;
      assert (a + b)[..|a + b| - 1] == a + b[..m];
      ValidIdsAppend(a, b[..m], n);
    }
  }

  /** When every id is in range, the category lists exactly its ids' articles. */
  lemma {:induction false} ValidIdsAll(ids: seq<int>, n: nat)
    requires forall k :: 0 <= k < |ids| ==> 0 <= ids[k] < n
    ensures ValidIds(ids, n) == ids
    decreases |ids|
  {
    if |ids| > 0 {
      ValidIdsAll(ids[..|ids| - 1], n);
    }
  }

  // ---------------------------------------------------------------- source tally

  function Sources(items: seq<Article>): (r: seq<string>)
    ensures |r| == |items|
  {
    seq(|items|, i requires 0 <= i < |items| => items[i].source)
  }

  /** The `sourceCount` tally shown while loading: one entry per source, in
      first-seen order, each with the number of its items; together they count
      every item once. */
  method SourceCounts(items: seq<Article>) returns (order: seq<string>, counts: map<string, nat>)
    ensures forall s :: s in counts <==> s in Sources(items)
    ensures forall s :: s in counts ==> counts[s] == multiset(Sources(items))[s]
    ensures Tally.Distinct(order) && forall s :: s in order <==> s in counts
    ensures forall i, j :: 0 <= i < j < |order| ==>
      Tally.FirstIndex(Sources(items), order[i]) < Tally.FirstIndex(Sources(items), order[j])
    ensures Tally.SumCounts(order, multiset(Sources(items))) == |items|
  {
    order, counts := Tally.CountKeys(Sources(items));
    Tally.DedupDistinct(Sources(items));
    Tally.DedupFirstSeen(Sources(items));
    Tally.SumOfCounts(Sources(items));
  }

  // ---------------------------------------------------------------- handleAsk

  /** `selectedCategory ? categoryItems : allItems.slice(0, 20)`. */
  function AskItems(selected: Option<Category>, categoryItems: seq<Article>, allItems: seq<Article>): (r: seq<Article>)
    ensures selected.Some? ==> r == categoryItems
    ensures selected.None? ==> |r| <= 20 && r <= allItems
    ensures selected.None? ==> |r| == if |allItems| <= 20 then |allItems| else 20
  {
    if selected.Some? then categoryItems else Take(allItems, 20)
  }

  const AskError := "klarte ikke svare."

  /** The question box; a question is in flight between `StartAsk` and `FinishAsk`. */
  class Questions {
    var question: string
    var answer: Option<string>
    var askingQuestion: bool

    constructor()
      ensures question == "" && answer.None? && !askingQuestion
    {
      question := "";
      answer := None;
      askingQuestion := false;
    }

    /** `handleAsk` up to the call: a blank question or one already in flight
        does nothing; otherwise the answer is cleared and the items to ask
        about are returned. */
    method StartAsk(selected: Option<Category>, categoryItems: seq<Article>, allItems: seq<Article>)
      returns (sent: Option<seq<Article>>)
      modifies this
      ensures sent.None? <==> JsTrim(old(question)) == "" || old(askingQuestion)
      ensures sent.None? ==> answer == old(answer) && askingQuestion == old(askingQuestion)
      ensures sent.Some? ==> sent.value == AskItems(selected, categoryItems, allItems)
      ensures sent.Some? ==> askingQuestion && answer.None?
      ensures question == old(question)
    {
      if JsTrim(question) == "" || askingQuestion {
        return None;
      }
      askingQuestion := true;
      answer := None;
      sent := Some(AskItems(selected, categoryItems, allItems));
    }

    /** `handleAsk` after the call: its result, or the apology when it threw. */
    method FinishAsk(result: Result<Option<string>, string>)
      modifies this
      ensures answer == if result.Ok? then result.value else Some(AskError)
      ensures !askingQuestion && question == old(question)
    {
      match result {
        case Ok(a) => answer := a;
        case Err(_) => answer := Some(AskError);
      }
      askingQuestion := false;
    }
  }
}

=== FILE: json_strings.dfy ===
/** JSON text for an array of strings: the compact form `serde_json::to_string`
    writes for a `Vec<String>`, and a parser for any JSON text that denotes an
    array of strings (whitespace between tokens, every escape form). */
module JsonStrings {
  import opened Wrappers

  // ---------------------------------------------------------------- encoding

  const HexDigits: string := "0123456789abcdef"

  function HexChar(d: nat): (c: char)
    requires d < 16
  {
    HexDigits[d]
  }

  /** The escape serde_json writes for one character of a string. */
  function EscapeChar(c: char): (r: string)
    ensures |r| >= 1
  {
    if c == '"' then "\\\""
    else if c == '\\' then "\\\\"
    else if c == '\n' then "\\n"
    else if c == '\r' then "\\r"
    else if c == '\t' then "\\t"
    else if c as int == 0x08 then "\\b"
    else if c as int == 0x0C then "\\f"
    else if c as int < 0x20 then "\\u00" + [HexChar(c as int / 16), HexChar(c as int % 16)]
    else [c]
  }

  function EscapeString(s: string): string {
    if |s| == 0 then [] else EscapeChar(s[0]) + EscapeString(s[1..])
  }

  function Quote(s: string): string {
    "\"" + EscapeString(s) + "\""
  }

  function EncodeItems(xs: seq<string>): string {
    if |xs| == 0 then []
    else if |xs| == 1 then Quote(xs[0])
    else Quote(xs[0]) + "," + EncodeItems(xs[1..])
  }

  /** `serde_json::to_string(&vec)`: `["a","b"]`, no spaces. */
  function Encode(xs: seq<string>): string {
    "[" + EncodeItems(xs) + "]"
  }

  // ---------------------------------------------------------------- decoding

  predicate IsJsonWs(c: char) {
    c == ' ' || c == '\t' || c == '\n' || c == '\r'
  }

  function SkipWs(t: string): (r: string)
    ensures |r| <= |t| && r == t[|t| - |r|..]
    ensures |t| > 0 && !IsJsonWs(t[0]) ==> r == t
  {
    if |t| > 0 && IsJsonWs(t[0]) then SkipWs(t[1..]) else t
  }

  function HexValue(c: char): Option<nat> {
    if '0' <= c <= '9' then Some(c as int - '0' as int)
    else if 'a' <= c <= 'f' then Some(c as int - 'a' as int + 10)
    else if 'A' <= c <= 'F' then Some(c as int - 'A' as int + 10)
    else None
  }

  /** Four hex digits as a number below 0x10000. */
  function Hex4(t: string): (r: Option<nat>)
    requires |t| == 4
    ensures r.Some? ==> r.value < 0x10000
  {
    match (HexValue(t[0]), HexValue(t[1]), HexValue(t[2]), HexValue(t[3]))
    case (Some(a), Some(b), Some(c), Some(d)) =>
      if a < 16 && b < 16 && c < 16 && d < 16 then Some(((a * 16 + b) * 16 + c) * 16 + d) else None
    case _ => None
  }

  /** The character an escape denotes; `t` is the text after the backslash.
      A `\u` escape of a high surrogate must be followed by one of a low
      surrogate, and the pair denotes one character; a lone surrogate is an error. */
  function ParseEscape(t: string): (r: Option<(char, string)>)
    ensures r.Some? ==> |r.value.1| < |t|
  {
    if |t| == 0 then None
    else if t[0] == '"' then Some(('"', t[1..]))
    else if t[0] == '\\' then Some(('\\', t[1..]))
    else if t[0] == '/' then Some(('/', t[1..]))
    else if t[0] == 'b' then Some((0x08 as char, t[1..]))
    else if t[0] == 'f' then Some((0x0C as char, t[1..]))
    else if t[0] == 'n' then Some(('\n', t[1..]))
    else if t[0] == 'r' then Some(('\r', t[1..]))
    else if t[0] == 't' then Some(('\t', t[1..]))
    else if t[0] == 'u' && |t| >= 5 then
      match Hex4(t[1..5])
      case None => None
      case Some(v) =>
        if v < 0xD800 || 0xE000 <= v then Some((v as char, t[5..]))
        else if 0xDC00 <= v then None
        else if |t| >= 11 && t[5..7] == "\\u" then
          match Hex4(t[7..11])
          case Some(w) =>
            if 0xDC00 <= w < 0xE000 then Some(((0x10000 + (v - 0xD800) * 0x400 + (w - 0xDC00)) as char, t[11..]))
            else None
          case None => None
        else None
    else None
  }

  /** The characters of a string literal up to its closing quote, and the text after it. */
  function ParseChars(t: string): (r: Option<(string, string)>)
    ensures r.Some? ==> |r.value.1| < |t|
    decreases |t|
  {
    if |t| == 0 then None
    else if t[0] == '"' then Some(([], t[1..]))
    else if t[0] == '\\' then
      match ParseEscape(t[1..])
      case None => None
      case Some((c, rest)) =>
        match ParseChars(rest)
        case None => None
        case Some((s, r)) => Some(([c] + s, r))
    else if t[0] as int < 0x20 then None
    else
      match ParseChars(t[1..])
      case None => None
      case Some((s, r)) => Some(([t[0]] + s, r))
  }

  function ParseString(t: string): (r: Option<(string, string)>)
    ensures r.Some? ==> |r.value.1| < |t|
  {
    if |t| > 0 && t[0] == '"' then ParseChars(t[1..]) else None
  }

  /** `str ws (',' ws str ws)* ']'` — the items of a non-empty array and the text after it. */
  function ParseItems(t: string): (r: Option<(seq<string>, string)>)
    ensures r.Some? ==> |r.value.0| > 0
    decreases |t|
  {
    match ParseString(t)
    case None => None
    case Some((s, r)) =>
      var r1 := SkipWs(r);
      if |r1| == 0 then None
      else if r1[0] == ']' then Some(([s], r1[1..]))
      else if r1[0] == ',' then
        match ParseItems(SkipWs(r1[1..]))
        case None => None
        case Some((xs, r2)) => Some(([s] + xs, r2))
      else None
  }

  /** What follows `[` and any whitespace: `]` for the empty array, else its items. */
  function DecodeArrayBody(t: string): Option<seq<string>> {
    if |t| > 0 && t[0] == ']' then
      (if SkipWs(t[1..]) == [] then Some([]) else None)
    else
      var p := ParseItems(t);
      if p.Some? && SkipWs(p.value.1) == [] then Some(p.value.0) else None
  }

  /** `serde_json::from_str::<Vec<String>>` / `JSON.parse` of an array of
      strings: None for anything else, including trailing text. */
  function Decode(t: string): Option<seq<string>> {
    var t1 := SkipWs(t);
    if |t1| == 0 || t1[0] != '[' then None else DecodeArrayBody(SkipWs(t1[1..]))
  }

  // ---------------------------------------------------------------- round trip

  lemma HexRoundTrip(d: nat)
    requires d < 16
    ensures HexValue(HexChar(d)) == Some(d)
  {
  }

  /** Parsing the escape of `c` yields `c` and then goes on with what follows. */
  lemma EscapeCharRoundTrip(c: char, t: string)
    ensures ParseChars(EscapeChar(c) + t) == ParsedAfter(c, ParseChars(t))
  {
    if c == '"' || c == '\\' || c == '\n' || c == '\r' || c == '\t' || c as int == 0x08 || c as int == 0x0C {
      ShortEscapeRoundTrip(c, t);
    } else if c as int < 0x20 {
      ControlEscapeRoundTrip(c, t);
    } else {
      PlainCharRoundTrip(c, t);
    }
  }

  /** The result of parsing the rest, with `c` put in front of its characters. */
  function ParsedAfter(c: char, p: Option<(string, string)>): (r: Option<(string, string)>)
    ensures r.Some? <==> p.Some?
    ensures r.Some? ==> r.value == ([c] + p.value.0, p.value.1)
  {
    match p
    case None => None
    case Some((s, r)) => Some(([c] + s, r))
  }

  lemma ShortEscapeRoundTrip(c: char, t: string)
    requires c == '"' || c == '\\' || c == '\n' || c == '\r' || c == '\t' || c as int == 0x08 || c as int == 0x0C
    ensures ParseChars(EscapeChar(c) + t) == ParsedAfter(c, ParseChars(t))
  {
    var e := EscapeChar(c);
    var u := e + t;
    assert |e| == 2 && e[0] == '\\';
    assert u[1..] == e[1..] + t;
    assert u[1..][1..] == t;
  }

  lemma ControlEscapeRoundTrip(c: char, t: string)
    requires c as int < 0x20
    requires !(c == '"' || c == '\\' || c == '\n' || c == '\r' || c == '\t' || c as int == 0x08 || c as int == 0x0C)
    ensures ParseChars(EscapeChar(c) + t) == ParsedAfter(c, ParseChars(t))
  {
    var hi := c as int / 16;
    var lo := c as int % 16;
    var u := EscapeChar(c) + t;
    HexRoundTrip(hi);
    HexRoundTrip(lo);
    assert u[1..] == "u00" + [HexChar(hi), HexChar(lo)] + t;
    assert u[1..][1..5] == "00" + [HexChar(hi), HexChar(lo)];
    assert Hex4(u[1..][1..5]) == Some(c as int);
    assert u[1..][5..] == t;
  }

  lemma PlainCharRoundTrip(c: char, t: string)
    requires c as int >= 0x20 && c != '"' && c != '\\'
    ensures ParseChars(EscapeChar(c) + t) == ParsedAfter(c, ParseChars(t))
  {
    assert EscapeChar(c) == [c];
    assert ([c] + t)[1..] == t;
  }

  lemma {:induction false} EscapeStringRoundTrip(s: string, rest: string)
    ensures ParseChars(EscapeString(s) + "\"" + rest) == Some((s, rest))
    decreases |s|
  {
    if |s| == 0 {
      assert (EscapeString(s) + "\"" + rest)[1..] == rest;
    } else {
      var tail := EscapeString(s[1..]) + "\"" + rest;
      assert EscapeString(s) + "\"" + rest == EscapeChar(s[0]) + tail;
      EscapeCharRoundTrip(s[0], tail);
      EscapeStringRoundTrip(s[1..], rest);
      assert [s[0]] + s[1..] == s;
    }
  }

  lemma QuoteRoundTrip(s: string, rest: string)
    ensures ParseString(Quote(s) + rest) == Some((s, rest))
  {
    var u := Quote(s) + rest;
    assert u[1..] == EscapeString(s) + "\"" + rest;
    EscapeStringRoundTrip(s, rest);
  }

  /** One item followed by `]`, or by `,` and the remaining items. */
  lemma ParseItemsLast(s: string, rest: string)
    ensures ParseItems(Quote(s) + "]" + rest) == Some(([s], rest))
  {
    var u := "]" + rest;
    assert Quote(s) + "]" + rest == Quote(s) + u;
    QuoteRoundTrip(s, u);
    assert SkipWs(u) == u;
    assert u[1..] == rest;
  }

  lemma ParseItemsNext(s: string, tail: string)
    requires |tail| > 0 && tail[0] == '"'
    ensures ParseItems(Quote(s) + "," + tail) ==
      match ParseItems(tail)
      case None => None
      case Some((xs, r2)) => Some(([s] + xs, r2))
  {
    var u := "," + tail;
    assert Quote(s) + "," + tail == Quote(s) + u;
    QuoteRoundTrip(s, u);
    assert u[0] == ',' && u[1..] == tail;
    ParseItemsComma(Quote(s) + u, s, u);
  }

  /** One step of the item parser over a string followed directly by `,`. */
  lemma ParseItemsComma(t: string, s: string, u: string)
    requires ParseString(t) == Some((s, u))
    requires |u| > 1 && u[0] == ',' && u[1] == '"'
    ensures ParseItems(t) ==
      match ParseItems(u[1..])
      case None => None
      case Some((xs, r2)) => Some(([s] + xs, r2))
  {
    assert SkipWs(u) == u;
    assert SkipWs(u[1..]) == u[1..];
  }

  lemma QuoteStart(s: string)
    ensures |Quote(s)| > 0 && Quote(s)[0] == '"'
  {
  }

  lemma PrefixFirst(a: string, b: string)
    requires |a| > 0
    ensures (a + b)[0] == a[0]
  {
  }

  lemma EncodeItemsStart(xs: seq<string>)
    requires |xs| > 0
    ensures |EncodeItems(xs)| > 0 && EncodeItems(xs)[0] == '"'
  {
    QuoteStart(xs[0]);
    if |xs| > 1 {
      PrefixFirst(Quote(xs[0]), "," + EncodeItems(xs[1..]));
    }
  }

  lemma {:induction false} EncodeItemsRoundTrip(xs: seq<string>, rest: string)
    requires |xs| > 0
    ensures ParseItems(EncodeItems(xs) + "]" + rest) == Some((xs, rest))
    decreases |xs|
  {
    if |xs| == 1 {
      EncodeSingleRoundTrip(xs, rest);
    } else {
      EncodeItemsRoundTrip(xs[1..], rest);
      EncodeConsRoundTrip(xs, rest);
    }
  }

  lemma EncodeSingleRoundTrip(xs: seq<string>, rest: string)
    requires |xs| == 1
    ensures ParseItems(EncodeItems(xs) + "]" + rest) == Some((xs, rest))
  {
    assert EncodeItems(xs) == Quote(xs[0]);
    ParseItemsLast(xs[0], rest);
    assert [xs[0]] == xs;
  }

  /** The induction step: parsing the remaining items extends to the first one. */
  lemma EncodeConsRoundTrip(xs: seq<string>, rest: string)
    requires |xs| > 1
    requires ParseItems(EncodeItems(xs[1..]) + "]" + rest) == Some((xs[1..], rest))
    ensures ParseItems(EncodeItems(xs) + "]" + rest) == Some((xs, rest))
  {
    var e := EncodeItems(xs[1..]);
    EncodeItemsStart(xs[1..]);
    ItemsStep(xs[0], e, rest, xs[1..]);
    EncodeItemsCons(xs, rest);
    assert [xs[0]] + xs[1..] == xs;
  }

  lemma ItemsStep(s: string, e: string, rest: string, ys: seq<string>)
    requires |e| > 0 && e[0] == '"'
    requires ParseItems(e + "]" + rest) == Some((ys, rest))
    ensures ParseItems(Quote(s) + "," + (e + "]" + rest)) == Some(([s] + ys, rest))
  {
    var tail := e + "]" + rest;
    PrefixFirst(e, "]" + rest);
    assert tail == e + ("]" + rest);
    ParseItemsNext(s, tail);
  }

  /** The text of two or more items, then `]` and the rest, regrouped after the first item. */
  lemma EncodeItemsCons(xs: seq<string>, rest: string)
    requires |xs| > 1
    ensures EncodeItems(xs) + "]" + rest == Quote(xs[0]) + "," + (EncodeItems(xs[1..]) + "]" + rest)
  {
    var q := Quote(xs[0]);
    var e := EncodeItems(xs[1..]);
    assert EncodeItems(xs) == q + "," + e;
    Regroup(q, e, rest);
  }

  lemma Regroup(q: string, e: string, rest: string)
    ensures q + "," + e + "]" + rest == q + "," + (e + "]" + rest)
  {
  }
}

/** The round trip over whole documents. */
module JsonStringsRoundTrip {
  import opened Wrappers
  import opened JsonStrings

  /** A document that starts with `[` is decoded by its array body. */
  lemma DecodeOpen(t: string, body: string)
    requires |t| > 0 && t[0] == '[' && t[1..] == body && SkipWs(body) == body
    ensures Decode(t) == DecodeArrayBody(body)
  {
    assert SkipWs(t) == t;
  }

  lemma DecodeBracketed(body: string, xs: seq<string>)
    requires |body| > 0 && body[0] == '"' && ParseItems(body) == Some((xs, []))
    ensures Decode("[" + body) == Some(xs)
  {
    OpenBracket(body);
    QuoteNotWs(body);
    DecodeOpen("[" + body, body);
    BodyItems(body, xs);
  }

  lemma OpenBracket(body: string)
    ensures |"[" + body| > 0 && ("[" + body)[0] == '[' && ("[" + body)[1..] == body
  {
  }

  lemma QuoteNotWs(body: string)
    requires |body| > 0 && body[0] == '"'
    ensures SkipWs(body) == body
  {
  }

  lemma BodyItems(body: string, xs: seq<string>)
    requires |body| > 0 && body[0] == '"' && ParseItems(body) == Some((xs, []))
    ensures DecodeArrayBody(body) == Some(xs)
  {
    assert !(|body| > 0 && body[0] == ']');
    assert SkipWs(ParseItems(body).value.1) == [];
  }

  lemma DecodeEmpty(t: string)
    requires |t| == 2 && t[0] == '[' && t[1] == ']'
    ensures Decode(t) == Some([])
  {
    assert SkipWs(t[1..]) == t[1..];
    DecodeOpen(t, t[1..]);
    CloseOnly(t[1..]);
  }

  lemma CloseOnly(u: string)
    requires |u| == 1 && u[0] == ']'
    ensures DecodeArrayBody(u) == Some([])
  {
    assert |u[1..]| == 0;
  }

  lemma EncodeNonEmptyRoundTrip(xs: seq<string>)
    requires |xs| > 0
    ensures Decode(Encode(xs)) == Some(xs)
  {
    var e := EncodeItems(xs);
    EncodeItemsStart(xs);
    EncodeItemsRoundTrip(xs, []);
    CloseBody(e);
    assert Encode(xs) == "[" + (e + "]");
    DecodeBracketed(e + "]", xs);
  }

  lemma CloseBody(e: string)
    requires |e| > 0
    ensures e + "]" + [] == e + "]" && (e + "]")[0] == e[0] && |e + "]"| > 0
  {
  }

  /** Decoding what the encoder writes gives back the same list. */
  lemma EncodeRoundTrip(xs: seq<string>)
    ensures Decode(Encode(xs)) == Some(xs)
  {
    if |xs| == 0 {
      DecodeEmpty(Encode(xs));
    } else {
      EncodeNonEmptyRoundTrip(xs);
    }
  }
}

=== FILE: leser_chunks.dfy ===
/** The chunk records the PDF reader writes to `data/parsed` and the review
    tool rewrites into `data/reviewed`, and the counts both tools print. */
module LeserChunks {
  import opened Wrappers

  /** A table as the PDF library returns it: rows of cells, a cell possibly empty (`None`). */
  type Table = seq<seq<Option<string>>>

  /** `content`: text for text and figure chunks and for edited chunks, rows for tables. */
  datatype Content = Text(text: string) | Rows(rows: Table)

  /** A page rectangle `[x0, top, x1, bottom]`; coordinates are kept as ordered whole numbers. */
  datatype Box = Box(x0: int, top: int, x1: int, bottom: int)

  datatype Chunk = Chunk(
    page: nat,
    kind: string,
    content: Content,
    bbox: Option<Box>,
    tableIndex: Option<nat>,
    source: string,
    status: string)

  /** `sum(1 for c in chunks if c["status"] == s)`. */
  function CountStatus(cs: seq<Chunk>, s: string): (n: nat)
    ensures n <= |cs|
    decreases |cs|
  {
    if |cs| == 0 then 0
    else CountStatus(cs[..|cs| - 1], s) + (if cs[|cs| - 1].status == s then 1 else 0)
  }

  /** `sum(1 for c in chunks if c["type"] == k)`. */
  function CountKind(cs: seq<Chunk>, k: string): (n: nat)
    ensures n <= |cs|
    decreases |cs|
  {
    if |cs| == 0 then 0
    else CountKind(cs[..|cs| - 1], k) + (if cs[|cs| - 1].kind == k then 1 else 0)
  }

  /** No chunk has status `s` exactly when the count is zero. */
  lemma {:induction false} CountStatusZero(cs: seq<Chunk>, s: string)
    ensures CountStatus(cs, s) == 0 <==> forall c :: c in cs ==> c.status != s
    decreases |cs|
  {
    if |cs| > 0 {
      var n := |cs| - 1;
      CountStatusZero(cs[..n], s);
      assert cs == cs[..n] + [cs[n]];
      assert forall c :: c in cs <==> c in cs[..n] || c == cs[n];
    }
  }

  lemma {:induction false} CountStatusAppend(a: seq<Chunk>, b: seq<Chunk>, s: string)
    ensures CountStatus(a + b, s) == CountStatus(a, s) + CountStatus(b, s)
    decreases |b|
  {
    if |b| > 0 {
      assert (a + b)[..|a + b| - 1] == a + b[..|b| - 1];
      CountStatusAppend(a, b[..|b| - 1], s);
    } else {
      assert a + b == a;
    }
  }

  lemma {:induction false} CountKindAppend(a: seq<Chunk>, b: seq<Chunk>, k: string)
    ensures CountKind(a + b, k) == CountKind(a, k) + CountKind(b, k)
    decreases |b|
  {
    if |b| > 0 {
      assert (a + b)[..|a + b| - 1] == a + b[..|b| - 1];
      CountKindAppend(a, b[..|b| - 1], k);
    } else {
      assert a + b == a;
    }
  }

  /** Replacing one chunk moves it from its old status's count to its new one. */
  lemma {:induction false} CountStatusUpdate(cs: seq<Chunk>, i: nat, c: Chunk, s: string)
    requires i < |cs|
    ensures CountStatus(cs[i := c], s) + (if cs[i].status == s then 1 else 0) ==
      CountStatus(cs, s) + (if c.status == s then 1 else 0)
    decreases |cs|
  {
    var n := |cs| - 1;
    var u := cs[i := c];
    if i < n {
      assert u[..n] == cs[..n][i := c] && u[n] == cs[n];
      CountStatusUpdate(cs[..n], i, c, s);
    } else {
      assert u[..n] == cs[..n] && u[n] == c;
    }
  }
}

=== FILE: leser_extract.dfy ===
/** The PDF reader: where a downloaded PDF is stored, and how each page
    becomes chunks (its text, each non-empty table, each image). The words,
    tables and images of a page and the page text in reading order come from
    the PDF library and are inputs here. */
module LeserExtract {
  import opened Wrappers
  import opened Strings
  import opened LeserChunks

  // ------------------------------------------------------------ file names

  /** `name or url.split("/")[-1]`. */
  function GivenOr(name: Option<string>, fallback: string): string {
    if name.Some? && name.value != "" then name.value else fallback
  }

  /** `download_pdf`'s file name: the given name or the last segment of the
      URL, with `.pdf` added unless it is already there. */
  function DownloadName(url: string, name: Option<string>): (r: string)
    ensures EndsWith(r, ".pdf")
    ensures GivenOr(name, AfterLast(url, '/')) <= r
    ensures r == GivenOr(name, AfterLast(url, '/')) <==> EndsWith(GivenOr(name, AfterLast(url, '/')), ".pdf")
  {
    var base := GivenOr(name, AfterLast(url, '/'));
    if EndsWith(base, ".pdf") then base else AddSuffix(base, ".pdf")
  }

  function AddSuffix(s: string, suffix: string): (r: string)
    requires |suffix| > 0
    ensures r == s + suffix && EndsWith(r, suffix) && s <= r && r != s
  {
    var r := s + suffix;
    assert r[|r| - |suffix|..] == suffix && r[..|s|] == s;
    r
  }

  /** Naming an already named file again keeps its name. */
  lemma DownloadNameIdempotent(url: string, name: Option<string>, other: string)
    ensures DownloadName(other, Some(DownloadName(url, name))) == DownloadName(url, name)
  {
  }

  /** Without a given name the file name is a single path segment. */
  lemma DownloadNameSegment(url: string)
    ensures '/' !in DownloadName(url, None)
  {
    var base := AfterLast(url, '/');
    if !EndsWith(base, ".pdf") {
      assert forall i :: 0 <= i < |base + ".pdf"| ==> (base + ".pdf")[i] != '/' by {
        assert forall i :: 0 <= i < |base| ==> base[i] != '/';
      }
    }
  }

  /** `PurePath(p).name`: the part after the last `/`. */
  function PathName(p: string): string {
    AfterLast(p, '/')
  }

  /** `PurePath.stem`: the name without its last suffix, where a suffix is a
      final `.` part that neither starts the name nor is empty. */
  function Stem(name: string): (r: string)
    ensures r <= name
  {
    match LastIndex(name, '.')
    case Some(i) => if 0 < i < |name| - 1 then name[..i] else name
    case None => name
  }

  /** A name with `.pdf` added has the original name as its stem. */
  lemma StemOfPdf(b: string)
    requires |b| > 0
    ensures Stem(b + ".pdf") == b
  {
    var s := b + ".pdf";
    assert s[|b|] == '.' && s[|b| + 1..] == "pdf";
    assert '.' !in "pdf";
    LastIndexAt(s, '.', |b|);
    assert s[..|b|] == b;
  }


  /** `process`: the name the parsed output is saved under, the given name or
      the stem of the PDF file, downloaded when the source starts with `http`. */
  function OutputStem(source: string, name: Option<string>): string {
    if name.Some? && name.value != "" then name.value
    else if StartsWith(source, "http") then Stem(DownloadName(source, name))
    else Stem(PathName(source))
  }

  /** A downloaded PDF without a given name is saved under its URL's last
      segment, less a `.pdf` ending. */
  lemma OutputStemOfUrl(url: string, b: string)
    requires StartsWith(url, "http") && |b| > 0
    requires AfterLast(url, '/') == b + ".pdf" || (AfterLast(url, '/') == b && !EndsWith(b, ".pdf"))
    ensures OutputStem(url, None) == b
  {
    var seg := AfterLast(url, '/');
    if seg == b + ".pdf" {
      assert seg[|seg| - 4..] == ".pdf";
      assert DownloadName(url, None) == b + ".pdf";
    } else {
      assert DownloadName(url, None) == b + ".pdf";
    }
    StemOfPdf(b);
  }

  // ------------------------------------------------------------ pages to chunks

  datatype Word = Word(text: string, x0: int, top: int, x1: int, bottom: int)

  /** A page as the PDF library reports it; `text` is its words grouped into
      lines and ordered left to right. */
  datatype Page = Page(words: seq<Word>, text: string, tables: seq<Table>, images: seq<Box>)

  /** `[min x0, min top, max x1, max bottom]` over the words. */
  function BBox(words: seq<Word>): (r: Box)
    requires |words| > 0
    ensures forall w :: w in words ==> r.x0 <= w.x0 && r.top <= w.top && w.x1 <= r.x1 && w.bottom <= r.bottom
    decreases |words|
  {
    var w := words[|words| - 1];
    if |words| == 1 then Box(w.x0, w.top, w.x1, w.bottom)
    else
      var b := BBox(words[..|words| - 1]);
      assert words == words[..|words| - 1] + [w];
      Box(Min(b.x0, w.x0), Min(b.top, w.top), Max(b.x1, w.x1), Max(b.bottom, w.bottom))
  }

  function Min(a: int, b: int): int { if a <= b then a else b }
  function Max(a: int, b: int): int { if a >= b then a else b }

  /** The box is the tightest one: each side touches some word. */
  lemma {:induction false} BBoxTight(words: seq<Word>)
    requires |words| > 0
    ensures var r := BBox(words);
      (exists w :: w in words && w.x0 == r.x0) && (exists w :: w in words && w.top == r.top) &&
      (exists w :: w in words && w.x1 == r.x1) && (exists w :: w in words && w.bottom == r.bottom)
    decreases |words|
  {
    if |words| > 1 {
      var init := words[..|words| - 1];
      BBoxTight(init);
      assert words == init + [words[|words| - 1]];
      assert forall w :: w in init ==> w in words;
    } else {
      assert words[0] in words;
    }
  }

  /** What each kind of chunk carries: text chunks are accepted as they are,
      tables (never empty) and figures wait for review. */
  predicate Policy(c: Chunk) {
    (c.kind == "text" && c.status == "auto" && c.content.Text?) ||
    (c.kind == "table" && c.status == "needs_review" && c.content.Rows? && |c.content.rows| > 0) ||
    (c.kind == "figure" && c.status == "needs_review" && c.content.Text?)
  }

  /** The chunks of page `num` made from one part of it. */
  predicate OfPage(cs: seq<Chunk>, num: nat, source: string) {
    forall c :: c in cs ==> Policy(c) && c.page == num && c.source == source
  }

  function TextChunks(p: Page, num: nat, source: string): (r: seq<Chunk>)
    ensures OfPage(r, num, source)
    ensures |r| == (if |p.words| > 0 then 1 else 0)
  {
    if |p.words| > 0 then [Chunk(num, "text", Text(p.text), Some(BBox(p.words)), None, source, "auto")] else []
  }

  /** One chunk per non-empty table, keeping the table's index on the page. */
  function TableChunks(tables: seq<Table>, num: nat, source: string): (r: seq<Chunk>)
    ensures OfPage(r, num, source)
    ensures forall c :: c in r ==>
      (c.kind == "table" && c.tableIndex.Some? && c.tableIndex.value < |tables| &&
       c.content.rows == tables[c.tableIndex.value])
    decreases |tables|
  {
    if |tables| == 0 then []
    else
      var i := |tables| - 1;
      var prev := TableChunks(tables[..i], num, source);
      prev + (if |tables[i]| == 0 then [] else [Chunk(num, "table", Rows(tables[i]), None, Some(i), source, "needs_review")])
  }

  /** Some chunk of `cs` comes from table `k`. */
  predicate HasTableChunk(cs: seq<Chunk>, k: nat) {
    exists j :: 0 <= j < |cs| && cs[j].tableIndex == Some(k)
  }

  /** Every non-empty table gets a chunk. With `TableChunksOrdered`, there is
      exactly one per non-empty table. */
  lemma {:induction false} TableChunksComplete(tables: seq<Table>, num: nat, source: string)
    ensures forall k: nat :: k < |tables| && |tables[k]| > 0 ==> HasTableChunk(TableChunks(tables, num, source), k)
    decreases |tables|
  {
    if |tables| > 0 {
      var i := |tables| - 1;
      var prev := TableChunks(tables[..i], num, source);
      var r := TableChunks(tables, num, source);
      TableChunksComplete(tables[..i], num, source);
      assert r[..|prev|] == prev;
      forall k: nat | k < |tables| && |tables[k]| > 0
        ensures HasTableChunk(r, k)
      {
        if k < i {
          assert tables[..i][k] == tables[k];
          assert HasTableChunk(prev, k);
          var j :| 0 <= j < |prev| && prev[j].tableIndex == Some(k);
          assert r[j] == prev[j];
        } else {
          assert r[|prev|].tableIndex == Some(k);
        }
      }
    }
  }

  /** The table chunks come in increasing table index. */
  lemma {:induction false} TableChunksOrdered(tables: seq<Table>, num: nat, source: string)
    ensures forall a, b :: 0 <= a < b < |TableChunks(tables, num, source)| ==>
      TableChunks(tables, num, source)[a].tableIndex.value < TableChunks(tables, num, source)[b].tableIndex.value
    decreases |tables|
  {
    if |tables| > 0 {
      var i := |tables| - 1;
      var prev := TableChunks(tables[..i], num, source);
      var r := TableChunks(tables, num, source);
      TableChunksOrdered(tables[..i], num, source);
      forall a, b | 0 <= a < b < |r| ensures r[a].tableIndex.value < r[b].tableIndex.value {
        assert r[a] == prev[a] && prev[a] in prev;
        assert prev[a].tableIndex.value < i;
        if b < |prev| {
          assert r[b] == prev[b];
        } else {
          assert r[b].tableIndex == Some(i);
        }
      }
    }
  }

  /** `[figure on page N, image I]`. */
  function FigureLabel(num: nat, image: nat): string {
    "[figure on page " + NatToString(num) + ", image " + NatToString(image) + "]"
  }

  function FigureChunk(img: Box, num: nat, k: nat, source: string): Chunk {
    Chunk(num, "figure", Text(FigureLabel(num, k + 1)), Some(img), None, source, "needs_review")
  }

  /** One chunk per image, numbered from 1. */
  function FigureChunks(images: seq<Box>, num: nat, source: string): (r: seq<Chunk>)
    ensures OfPage(r, num, source)
    ensures |r| == |images|
    ensures forall k :: 0 <= k < |r| ==>
      (r[k].kind == "figure" && r[k].bbox == Some(images[k]) && r[k].content == Text(FigureLabel(num, k + 1)))
  {
    seq(|images|, k requires 0 <= k < |images| => FigureChunk(images[k], num, k, source))
  }

  lemma FigureStep(images: seq<Box>, num: nat, source: string, i: nat)
    requires i < |images|
    ensures FigureChunks(images[..i + 1], num, source) ==
      FigureChunks(images[..i], num, source) + [FigureChunk(images[i], num, i, source)]
  {
  }

  lemma TableStep(tables: seq<Table>, num: nat, source: string, i: nat)
    requires i < |tables|
    ensures TableChunks(tables[..i + 1], num, source) == TableChunks(tables[..i], num, source) +
      (if |tables[i]| == 0 then [] else [Chunk(num, "table", Rows(tables[i]), None, Some(i), source, "needs_review")])
  {
    assert tables[..i + 1][..i] == tables[..i];
  }

  function PageChunks(p: Page, num: nat, source: string): (r: seq<Chunk>)
    ensures OfPage(r, num, source)
  {
    TextChunks(p, num, source) + TableChunks(p.tables, num, source) + FigureChunks(p.images, num, source)
  }

  /** The chunks of the whole document, page by page; pages count from 1. */
  function DocChunks(pages: seq<Page>, source: string): (r: seq<Chunk>)
    ensures forall c :: c in r ==> Policy(c) && 1 <= c.page <= |pages| && c.source == source
    decreases |pages|
  {
    if |pages| == 0 then []
    else DocChunks(pages[..|pages| - 1], source) + PageChunks(pages[|pages| - 1], |pages|, source)
  }

  predicate PageOrdered(cs: seq<Chunk>) {
    forall i, j :: 0 <= i < j < |cs| ==> cs[i].page <= cs[j].page
  }

  /** Chunks come in page order. */
  lemma {:induction false} DocChunksOrdered(pages: seq<Page>, source: string)
    ensures PageOrdered(DocChunks(pages, source))
    decreases |pages|
  {
    if |pages| > 0 {
      var n := |pages|;
      var init := pages[..n - 1];
      assert |init| == n - 1;
      var d := DocChunks(init, source);
      var q := PageChunks(pages[n - 1], n, source);
      DocChunksOrdered(init, source);
      assert DocChunks(pages, source) == d + q;
      ConcatOrdered(d, q, n);
    }
  }

  lemma ConcatOrdered(d: seq<Chunk>, q: seq<Chunk>, n: nat)
    requires PageOrdered(d)
    requires forall c :: c in d ==> c.page <= n - 1
    requires forall c :: c in q ==> c.page == n
    ensures PageOrdered(d + q)
  {
    forall i, j | 0 <= i < j < |d + q| ensures (d + q)[i].page <= (d + q)[j].page {
      if j < |d| {
        assert (d + q)[i] == d[i] && (d + q)[j] == d[j];
      } else if i < |d| {
        assert (d + q)[i] in d && (d + q)[j] in q;
      } else {
        assert (d + q)[i] in q && (d + q)[j] in q;
      }
    }
  }

  /** `extract_pdf`: walk the pages, appending the text chunk, then the
      tables, then the figures of each. */
  method ExtractPdf(pages: seq<Page>, source: string) returns (chunks: seq<Chunk>)
    ensures chunks == DocChunks(pages, source)
  {
    chunks := [];
    for n := 0 to |pages|
      invariant chunks == DocChunks(pages[..n], source)
    {
      chunks := AppendPage(chunks, pages[n], n + 1, source);
      assert pages[..n + 1][..n] == pages[..n];
    }
    assert pages[..|pages|] == pages;
  }

  /** The body of the page loop for page number `num`. */
  method AppendPage(chunks: seq<Chunk>, page: Page, num: nat, source: string) returns (r: seq<Chunk>)
    ensures r == chunks + PageChunks(page, num, source)
  {
    var text: seq<Chunk> := [];
    if |page.words| > 0 {
      text := [Chunk(num, "text", Text(page.text), Some(BBox(page.words)), None, source, "auto")];
    }
    var tables := AppendTables(page.tables, num, source);
    var figures := AppendFigures(page.images, num, source);
    r := chunks + (text + tables + figures);
  }

  /** The table loop: `continue` past empty tables. */
  method AppendTables(tables: seq<Table>, num: nat, source: string) returns (r: seq<Chunk>)
    ensures r == TableChunks(tables, num, source)
  {
    r := [];
    for i := 0 to |tables|
      invariant r == TableChunks(tables[..i], num, source)
    {
      TableStep(tables, num, source, i);
      if |tables[i]| > 0 {
        r := r + [Chunk(num, "table", Rows(tables[i]), None, Some(i), source, "needs_review")];
      }
    }
    assert tables[..|tables|] == tables;
  }

  /** The image loop. */
  method AppendFigures(images: seq<Box>, num: nat, source: string) returns (r: seq<Chunk>)
    ensures r == FigureChunks(images, num, source)
  {
    r := [];
    for i := 0 to |images|
      invariant r == FigureChunks(images[..i], num, source)
    {
      FigureStep(images, num, source, i);
      r := r + [FigureChunk(images[i], num, i, source)];
    }
    assert images[..|images|] == images;
  }

  // ------------------------------------------------------------ saved stats

  datatype ParsedStats = ParsedStats(text: nat, table: nat, figure: nat, needsReview: nat)

  /** The counts `save_parsed` prints. */
  function SaveParsedStats(cs: seq<Chunk>): ParsedStats {
    ParsedStats(CountKind(cs, "text"), CountKind(cs, "table"), CountKind(cs, "figure"), CountStatus(cs, "needs_review"))
  }

  /** Under the chunk policy every chunk is one of the three kinds, and the
      ones waiting for review are exactly the tables and figures. */
  lemma {:induction false} PolicyCounts(cs: seq<Chunk>)
    requires forall c :: c in cs ==> Policy(c)
    ensures var s := SaveParsedStats(cs);
      s.text + s.table + s.figure == |cs| && s.needsReview == s.table + s.figure
    decreases |cs|
  {
    if |cs| > 0 {
      var init := cs[..|cs| - 1];
      assert cs[|cs| - 1] in cs;
      assert forall c :: c in init ==> c in cs;
      PolicyCounts(init);
    }
  }

  /** Pages with at least one word. */
  function PagesWithWords(pages: seq<Page>): nat
    decreases |pages|
  {
    if |pages| == 0 then 0
    else PagesWithWords(pages[..|pages| - 1]) + (if |pages[|pages| - 1].words| > 0 then 1 else 0)
  }

  /** What `save_parsed` reports after `extract_pdf`: one text chunk per page
      with words, and every table and figure waiting for review. */
  lemma ParsedStatsOfDoc(pages: seq<Page>, source: string)
    ensures var s := SaveParsedStats(DocChunks(pages, source));
      s.text == PagesWithWords(pages) && s.needsReview == s.table + s.figure &&
      s.text + s.table + s.figure == |DocChunks(pages, source)|
  {
    PolicyCounts(DocChunks(pages, source));
    TextCountOfDoc(pages, source);
  }

  lemma {:induction false} TextCountOfDoc(pages: seq<Page>, source: string)
    ensures CountKind(DocChunks(pages, source), "text") == PagesWithWords(pages)
    decreases |pages|
  {
    if |pages| > 0 {
      var n := |pages|;
      var init := pages[..n - 1];
      TextCountOfDoc(init, source);
      CountKindAppend(DocChunks(init, source), PageChunks(pages[n - 1], n, source), "text");
      PageTextCount(pages[n - 1], n, source);
    }
  }

  /** A page gives one text chunk if it has words and none otherwise. */
  lemma PageTextCount(p: Page, n: nat, source: string)
    ensures CountKind(PageChunks(p, n, source), "text") == if |p.words| > 0 then 1 else 0
  {
    var t, tb, f := TextChunks(p, n, source), TableChunks(p.tables, n, source), FigureChunks(p.images, n, source);
    CountKindAppend(t + tb, f, "text");
    CountKindAppend(t, tb, "text");
    NoKind(tb, "text");
    NoKind(f, "text");
  }

  lemma {:induction false} NoKind(cs: seq<Chunk>, k: string)
    requires forall c :: c in cs ==> c.kind != k
    ensures CountKind(cs, k) == 0
    decreases |cs|
  {
    if |cs| > 0 {
      assert forall c :: c in cs[..|cs| - 1] ==> c in cs;
      NoKind(cs[..|cs| - 1], k);
    }
  }
}

=== FILE: leser_review.dfy ===
/** The review tool: it prints tables as aligned text, walks the chunks that
    need review through approve / edit / discard / skip / quit answers read
    from the terminal, and reports how many chunks end in each status. */
module LeserReview {
  import opened Wrappers
  import opened Strings
  import opened LeserChunks
  import Tally

  // ------------------------------------------------------------ format_table

  /** `str(cell or "")`. */
  function CellText(c: Option<string>): string {
    if c.Some? then c.value else ""
  }

  /** `max(len(row) for row in table)`. */
  function MaxLen(table: Table): (n: nat)
    ensures forall row :: row in table ==> |row| <= n
    decreases |table|
  {
    if |table| == 0 then 0
    else
      var m := MaxLen(table[..|table| - 1]);
      assert table == table[..|table| - 1] + [table[|table| - 1]];
      if |table[|table| - 1]| > m then |table[|table| - 1]| else m
  }

  /** The widest text in column `i`, over the rows that reach it. */
  function ColWidth(table: Table, i: nat): nat
    decreases |table|
  {
    if |table| == 0 then 0
    else
      var row := table[|table| - 1];
      var w := ColWidth(table[..|table| - 1], i);
      if i < |row| && |CellText(row[i])| > w then |CellText(row[i])| else w
  }

  function Widths(table: Table): (w: seq<nat>)
    ensures |w| == MaxLen(table)
  {
    seq(MaxLen(table), i requires 0 <= i < MaxLen(table) => ColWidth(table, i))
  }

  /** No text in a column is wider than the column. */
  lemma {:induction false} ColWidthBound(table: Table, i: nat)
    ensures forall row :: row in table && i < |row| ==> |CellText(row[i])| <= ColWidth(table, i)
    decreases |table|
  {
    if |table| > 0 {
      var init := table[..|table| - 1];
      ColWidthBound(init, i);
      assert table == init + [table[|table| - 1]];
    }
  }

  /** A column is as wide as its widest text, and no wider. */
  lemma {:induction false} ColWidthAttained(table: Table, i: nat)
    ensures ColWidth(table, i) == 0 ||
      exists row :: row in table && i < |row| && |CellText(row[i])| == ColWidth(table, i)
    decreases |table|
  {
    if |table| > 0 {
      var init := table[..|table| - 1];
      ColWidthAttained(init, i);
      assert table == init + [table[|table| - 1]];
      assert forall row :: row in init ==> row in table;
    }
  }

  /** `s.ljust(w)`. */
  function LJust(s: string, w: nat): (r: string)
    ensures |r| == if |s| >= w then |s| else w
    ensures r[..|s|] == s
    ensures forall k :: |s| <= k < |r| ==> r[k] == ' '
  {
    if |s| >= w then s else s + Repeat(' ', w - |s|)
  }

  /** The cells of a row, each left-justified to its column's width. */
  function PaddedCells(row: seq<Option<string>>, widths: seq<nat>): (r: seq<string>)
    ensures |r| == |row|
  {
    seq(|row|, i requires 0 <= i < |row| => LJust(CellText(row[i]), if i < |widths| then widths[i] else 0))
  }

  /** `" | ".join(cells)`. */
  function RowLine(row: seq<Option<string>>, widths: seq<nat>): string {
    Join(PaddedCells(row, widths), " | ")
  }

  function Dashes(widths: seq<nat>): (r: seq<string>)
    ensures |r| == |widths|
  {
    seq(|widths|, i requires 0 <= i < |widths| => Repeat('-', widths[i]))
  }

  /** `"-+-".join("-" * w for w in col_widths)`. */
  function Separator(widths: seq<nat>): string {
    Join(Dashes(widths), "-+-")
  }

  /** Each row's line, with the separator after every row equal to the first. */
  function Lines(rows: Table, widths: seq<nat>, header: seq<Option<string>>): seq<string>
    decreases |rows|
  {
    if |rows| == 0 then []
    else
      var last := rows[|rows| - 1];
      Lines(rows[..|rows| - 1], widths, header) + [RowLine(last, widths)] +
        (if last == header then [Separator(widths)] else [])
  }

  function Format(table: Table): string {
    if |table| == 0 then "(empty table)"
    else Join(Lines(table, Widths(table), table[0]), "\n")
  }

  /** `format_table`: the column widths, then one line per row. */
  method FormatTable(table: Table) returns (s: string)
    ensures s == Format(table)
  {
    if |table| == 0 {
      return "(empty table)";
    }
    var widths := ColumnWidths(table);
    var w := widths[..];
    var lines: seq<string> := [];
    for r := 0 to |table|
      invariant lines == Lines(table[..r], w, table[0])
    {
      assert table[..r + 1][..r] == table[..r];
      lines := lines + [RowLine(table[r], w)];
      if table[r] == table[0] {
        lines := lines + [Separator(w)];
      }
    }
    assert table[..|table|] == table;
    s := Join(lines, "\n");
  }

  /** The `col_widths` loops: each cell widens its column to fit. */
  method ColumnWidths(table: Table) returns (widths: array<nat>)
    requires |table| > 0
    ensures fresh(widths)
    ensures widths[..] == Widths(table)
  {
    widths := new nat[MaxLen(table)](_ => 0);
    for r := 0 to |table|
      invariant widths.Length == MaxLen(table)
      invariant forall j :: 0 <= j < widths.Length ==> widths[j] == ColWidth(table[..r], j)
    {
      WidenColumns(widths, table, r);
    }
    assert table[..|table|] == table;
  }

  /** The inner loop of `col_widths`: row `r` widens the columns it reaches. */
  method WidenColumns(widths: array<nat>, table: Table, r: nat)
    requires r < |table| && widths.Length == MaxLen(table)
    requires forall j :: 0 <= j < widths.Length ==> widths[j] == ColWidth(table[..r], j)
    modifies widths
    ensures forall j :: 0 <= j < widths.Length ==> widths[j] == ColWidth(table[..r + 1], j)
  {
    var row := table[r];
    assert row in table;
    for i := 0 to |row|
      invariant forall j :: 0 <= j < widths.Length ==>
        widths[j] == (if j < i then ColWidth(table[..r + 1], j) else ColWidth(table[..r], j))
    {
      ColWidthStep(table, r, i);
      if |CellText(row[i])| > widths[i] {
        widths[i] := |CellText(row[i])|;
      }
    }
    forall j | |row| <= j < widths.Length ensures ColWidth(table[..r + 1], j) == ColWidth(table[..r], j) {
      ColWidthStep(table, r, j);
    }
  }

  /** Adding row `r` widens each column it reaches to that cell's text. */
  lemma ColWidthStep(table: Table, r: nat, j: nat)
    requires r < |table|
    ensures var row := table[r]; var w := ColWidth(table[..r], j);
      ColWidth(table[..r + 1], j) == if j < |row| && |CellText(row[j])| > w then |CellText(row[j])| else w
  {
    assert table[..r + 1][..r] == table[..r];
  }

  /** A row equal to the first is followed by a separator line, so there are
      as many lines as rows plus rows equal to the first. */
  lemma {:induction false} LineCount(rows: Table, widths: seq<nat>, header: seq<Option<string>>)
    ensures |Lines(rows, widths, header)| == |rows| + multiset(rows)[header]
    decreases |rows|
  {
    if |rows| > 0 {
      var init := rows[..|rows| - 1];
      LineCount(init, widths, header);
      assert rows == init + [rows[|rows| - 1]];
    }
  }

  // ------------------------------------------------------------ alignment

  function SumOf(ws: seq<nat>): nat
    decreases |ws|
  {
    if |ws| == 0 then 0 else SumOf(ws[..|ws| - 1]) + ws[|ws| - 1]
  }

  function Lengths(parts: seq<string>): (r: seq<nat>)
    ensures |r| == |parts|
  {
    seq(|parts|, i requires 0 <= i < |parts| => |parts[i]|)
  }

  /** A join is as long as its parts plus one separator between each two. */
  lemma {:induction false} JoinLength(parts: seq<string>, sep: string)
    requires |parts| > 0
    ensures |Join(parts, sep)| == SumOf(Lengths(parts)) + |sep| * (|parts| - 1)
    decreases |parts|
  {
    var n := |parts|;
    if n == 1 {
      assert Lengths(parts)[..0] == [];
    } else {
      JoinLength(parts[..n - 1], sep);
      assert Lengths(parts)[..n - 1] == Lengths(parts[..n - 1]);
    }
  }

  /** A row with a cell in every column, all within their widths, prints as
      wide as the separator: the columns line up. */
  lemma RowAligned(row: seq<Option<string>>, widths: seq<nat>)
    requires |row| == |widths| > 0
    requires forall i :: 0 <= i < |row| ==> |CellText(row[i])| <= widths[i]
    ensures |RowLine(row, widths)| == |Separator(widths)|
  {
    assert Lengths(PaddedCells(row, widths)) == widths;
    assert Lengths(Dashes(widths)) == widths;
    JoinLength(PaddedCells(row, widths), " | ");
    JoinLength(Dashes(widths), "-+-");
  }

  /** In a formatted table every full-width row is as long as the separator. */
  lemma TableAligned(table: Table, row: seq<Option<string>>)
    requires row in table && |row| == MaxLen(table) > 0
    ensures |RowLine(row, Widths(table))| == |Separator(Widths(table))|
  {
    forall i | 0 <= i < |row| ensures |CellText(row[i])| <= Widths(table)[i] {
      ColWidthBound(table, i);
    }
    RowAligned(row, Widths(table));
  }

  // ------------------------------------------------------------ review_file

  /** What one prompt decides: `a`, `e` with the typed lines, `d`, `s` or `q`. */
  datatype Answer = Approve | EditTo(lines: seq<string>) | Discard | Skip | Quit

  /** `input(...).strip().lower()`. */
  function Normalize(line: string): string {
    Lower(PyStrip(line))
  }

  /** The prompt's five commands, and everything else. */
  datatype Command = ApproveKey | EditKey | DiscardKey | SkipKey | QuitKey | Unknown

  function CommandOf(line: string): Command {
    var a := Normalize(line);
    if a == "a" then ApproveKey
    else if a == "e" then EditKey
    else if a == "d" then DiscardKey
    else if a == "s" then SkipKey
    else if a == "q" then QuitKey
    else Unknown
  }

  /** The lines typed after `e` up to the first empty one, and where reading
      goes on; `None` when the input ends first (`input()` raises). */
  function EditLines(input: seq<string>, pos: nat): (r: Option<(seq<string>, nat)>)
    ensures r.Some? ==> pos < r.value.1 <= |input| && input[r.value.1 - 1] == ""
    ensures r.Some? ==> |r.value.0| == r.value.1 - 1 - pos
    ensures r.Some? ==> forall k :: 0 <= k < |r.value.0| ==> r.value.0[k] == input[pos + k] != ""
    decreases |input| - pos
  {
    if pos >= |input| then None
    else if input[pos] == "" then Some(([], pos + 1))
    else
      match EditLines(input, pos + 1)
      case None => None
      case Some((ls, p)) => Some(([input[pos]] + ls, p))
  }

  /** The prompt loop: unknown answers re-prompt; `None` when the input ends. */
  function NextAnswer(input: seq<string>, pos: nat): (r: Option<(Answer, nat)>)
    ensures r.Some? ==> pos < r.value.1 <= |input|
    decreases |input| - pos
  {
    if pos >= |input| then None
    else
      match CommandOf(input[pos])
      case ApproveKey => Some((Approve, pos + 1))
      case EditKey =>
        (match EditLines(input, pos + 1)
         case None => None
         case Some((ls, p)) => Some((EditTo(ls), p)))
      case DiscardKey => Some((Discard, pos + 1))
      case SkipKey => Some((Skip, pos + 1))
      case QuitKey => Some((Quit, pos + 1))
      case Unknown => NextAnswer(input, pos + 1)
  }

  /** What an answer does to the chunk under review. */
  function Apply(c: Chunk, a: Answer): (d: Chunk)
    ensures a.Skip? || a.Quit? ==> d == c
    ensures a.Approve? || a.Discard? || a.EditTo? ==> Decided(c, d)
    ensures a.Approve? ==> d.status == "approved" && d.content == c.content
    ensures a.Discard? ==> d.status == "discarded" && d.content == c.content
    ensures a.EditTo? ==> d.status == "edited" && d.content == Text(Join(a.lines, "\n"))
  {
    match a
    case Approve => c.(status := "approved")
    case EditTo(ls) => c.(content := Text(Join(ls, "\n")), status := "edited")
    case Discard => c.(status := "discarded")
    case Skip => c
    case Quit => c
  }

  /** `d` is `c` after a decision: approved or discarded with its content, or
      edited to new text; page, type, box, table index and source stay. */
  predicate Decided(c: Chunk, d: Chunk) {
    d.page == c.page && d.kind == c.kind && d.bbox == c.bbox &&
    d.tableIndex == c.tableIndex && d.source == c.source &&
    ((d.status == "approved" && d.content == c.content) ||
     (d.status == "discarded" && d.content == c.content) ||
     (d.status == "edited" && d.content.Text?))
  }

  /** `to_review`: the indices of the chunks waiting for review, in order. */
  function Pending(cs: seq<Chunk>): (r: seq<nat>)
    ensures forall j :: 0 <= j < |r| ==> r[j] < |cs| && cs[r[j]].status == "needs_review"
    ensures forall i :: 0 <= i < |cs| && cs[i].status == "needs_review" ==> i in r
    ensures forall j, k :: 0 <= j < k < |r| ==> r[j] < r[k]
    decreases |cs|
  {
    if |cs| == 0 then []
    else
      var n := |cs| - 1;
      var init := Pending(cs[..n]);
      assert forall j :: 0 <= j < |init| ==> cs[..n][init[j]] == cs[init[j]];
      init + (if cs[n].status == "needs_review" then [n] else [])
  }

  datatype Outcome =
    | NothingToReview
      /** The chunks `save_reviewed` writes, and whether the user quit early. */
    | Saved(chunks: seq<Chunk>, quit: bool)
      /** The input ended at a prompt: `input()` raises and nothing is saved. */
    | InputEnded

  predicate InRange(todo: seq<nat>, cs: seq<Chunk>) {
    forall j :: 0 <= j < |todo| ==> todo[j] < |cs|
  }

  /** Review `todo[k..]` reading answers from line `pos` on. */
  function ReviewFrom(cs: seq<Chunk>, todo: seq<nat>, k: nat, input: seq<string>, pos: nat): (r: Outcome)
    requires InRange(todo, cs)
    ensures !r.NothingToReview?
    ensures r.Saved? ==> |r.chunks| == |cs|
    decreases |todo| - k
  {
    if k >= |todo| then Saved(cs, false)
    else
      match NextAnswer(input, pos)
      case None => InputEnded
      case Some((a, p)) =>
        if a.Quit? then Saved(cs, true)
        else ReviewFrom(cs[todo[k] := Apply(cs[todo[k]], a)], todo, k + 1, input, p)
  }

  /** `review_file` on the loaded chunks and the lines typed at the prompts. */
  function Review(chunks: seq<Chunk>, input: seq<string>): Outcome {
    var todo := Pending(chunks);
    if |todo| == 0 then NothingToReview else ReviewFrom(chunks, todo, 0, input, 0)
  }

  /** `review_file`: one prompt per pending chunk, writing each decision into
      the chunk list. */
  method ReviewFile(chunks: seq<Chunk>, input: seq<string>) returns (out: Outcome)
    ensures out == Review(chunks, input)
  {
    var todo := Pending(chunks);
    if |todo| == 0 {
      return NothingToReview;
    }
    var cs := chunks;
    var pos := 0;
    var k := 0;
    while k < |todo|
      invariant k <= |todo| && |cs| == |chunks| && InRange(todo, cs)
      invariant ReviewFrom(cs, todo, k, input, pos) == ReviewFrom(chunks, todo, 0, input, 0)
      decreases |todo| - k
    {
      var answer, next := ReadAnswer(input, pos);
      if answer.None? {
        return InputEnded;
      }
      if answer.value.Quit? {
        return Saved(cs, true);
      }
      cs := cs[todo[k] := Apply(cs[todo[k]], answer.value)];
      pos := next;
      k := k + 1;
    }
    return Saved(cs, false);
  }

  /** The `while True` prompt loop of one chunk. */
  method ReadAnswer(input: seq<string>, start: nat) returns (answer: Option<Answer>, next: nat)
    ensures answer.None? <==> NextAnswer(input, start).None?
    ensures answer.Some? ==> NextAnswer(input, start) == Some((answer.value, next))
  {
    var pos := start;
    while pos < |input|
      invariant NextAnswer(input, pos) == NextAnswer(input, start)
      decreases |input| - pos
    {
      var a := Normalize(input[pos]);
      if a == "a" {
        return Some(Approve), pos + 1;
      } else if a == "e" {
        var lines, after := ReadEdit(input, pos + 1);
        if lines.None? {
          return None, 0;
        }
        return Some(EditTo(lines.value)), after;
      } else if a == "d" {
        return Some(Discard), pos + 1;
      } else if a == "s" {
        return Some(Skip), pos + 1;
      } else if a == "q" {
        return Some(Quit), pos + 1;
      }
      pos := pos + 1;
    }
    return None, 0;
  }

  /** The inner `while True` loop after `e`: collect lines until an empty one. */
  method ReadEdit(input: seq<string>, start: nat) returns (lines: Option<seq<string>>, next: nat)
    ensures lines.None? <==> EditLines(input, start).None?
    ensures lines.Some? ==> EditLines(input, start) == Some((lines.value, next))
  {
    var acc: seq<string> := [];
    var pos := start;
    match EditLines(input, start) {
      case None =>
      case Some((ls, p)) => assert acc + ls == ls;
    }
    while pos < |input|
      invariant start <= pos
      invariant EditLines(input, start) ==
        match EditLines(input, pos)
        case None => None
        case Some((ls, p)) => Some((acc + ls, p))
      decreases |input| - pos
    {
      if input[pos] == "" {
        assert acc + [] == acc;
        return Some(acc), pos + 1;
      }
      match EditLines(input, pos + 1) {
        case None =>
        case Some((ls, p)) => assert acc + ([input[pos]] + ls) == (acc + [input[pos]]) + ls;
      }
      acc := acc + [input[pos]];
      pos := pos + 1;
    }
    return None, 0;
  }

  // ------------------------------------------------------------ properties of a review

  /** Every chunk of `cs` is its original, or a pending original that got decided. */
  ghost predicate ReviewedFrom(orig: seq<Chunk>, cs: seq<Chunk>) {
    |cs| == |orig| &&
    forall i :: 0 <= i < |cs| ==>
      cs[i] == orig[i] || (orig[i].status == "needs_review" && Decided(orig[i], cs[i]))
  }

  predicate Increasing(todo: seq<nat>) {
    forall j, l :: 0 <= j < l < |todo| ==> todo[j] < todo[l]
  }

  lemma {:induction false} ReviewFromKeeps(orig: seq<Chunk>, cs: seq<Chunk>, todo: seq<nat>, k: nat,
                                           input: seq<string>, pos: nat)
    requires InRange(todo, cs) && Increasing(todo) && ReviewedFrom(orig, cs)
    requires forall j :: k <= j < |todo| ==> cs[todo[j]] == orig[todo[j]] && orig[todo[j]].status == "needs_review"
    ensures ReviewFrom(cs, todo, k, input, pos).Saved? ==>
      ReviewedFrom(orig, ReviewFrom(cs, todo, k, input, pos).chunks)
    decreases |todo| - k
  {
    if k < |todo| {
      match NextAnswer(input, pos) {
        case None =>
        case Some((a, p)) =>
          if !a.Quit? {
            var t := todo[k];
            ReviewFromKeeps(orig, cs[t := Apply(cs[t], a)], todo, k + 1, input, p);
          }
      }
    }
  }

  /** A review, finished or quit, changes only chunks that were waiting for
      review, and each of those only by a decision. */
  lemma ReviewChangesOnlyPending(chunks: seq<Chunk>, input: seq<string>)
    ensures Review(chunks, input).Saved? ==> ReviewedFrom(chunks, Review(chunks, input).chunks)
  {
    var todo := Pending(chunks);
    if |todo| > 0 {
      ReviewFromKeeps(chunks, chunks, todo, 0, input, 0);
    }
  }

  /** There is nothing to review exactly when no chunk needs review. */
  lemma NothingToReviewIff(chunks: seq<Chunk>, input: seq<string>)
    ensures Review(chunks, input).NothingToReview? <==> CountStatus(chunks, "needs_review") == 0
  {
    CountStatusZero(chunks, "needs_review");
    var todo := Pending(chunks);
    if |todo| > 0 {
      assert chunks[todo[0]] in chunks;
    } else {
      forall c | c in chunks ensures c.status != "needs_review" {
        var i :| 0 <= i < |chunks| && chunks[i] == c;
      }
    }
  }

  /** Lines that are no command are skipped: the prompt asks again. */
  lemma {:induction false} UnknownSkipped(input: seq<string>, pos: nat, q: nat)
    requires pos <= q <= |input|
    requires forall l :: pos <= l < q ==> CommandOf(input[l]) == Unknown
    ensures NextAnswer(input, pos) == NextAnswer(input, q)
    decreases q - pos
  {
    if pos < q {
      UnknownSkipped(input, pos + 1, q);
    }
  }

  /** The chunks with every pending one approved. */
  function AllApproved(cs: seq<Chunk>): (r: seq<Chunk>)
    ensures |r| == |cs|
  {
    seq(|cs|, i requires 0 <= i < |cs| =>
      if cs[i].status == "needs_review" then cs[i].(status := "approved") else cs[i])
  }

  /** The chunks with the first `k` indices of `todo` approved. */
  function ApprovedUpTo(cs: seq<Chunk>, todo: seq<nat>, k: nat): (r: seq<Chunk>)
    requires k <= |todo|
    ensures |r| == |cs|
  {
    seq(|cs|, i requires 0 <= i < |cs| =>
      if i in todo[..k] then cs[i].(status := "approved") else cs[i])
  }

  lemma {:induction false} ApproveFrom(orig: seq<Chunk>, todo: seq<nat>, k: nat, input: seq<string>)
    requires InRange(todo, orig) && Increasing(todo) && k <= |todo| <= |input|
    requires forall l :: 0 <= l < |input| ==> Normalize(input[l]) == "a"
    ensures ReviewFrom(ApprovedUpTo(orig, todo, k), todo, k, input, k) ==
      Saved(ApprovedUpTo(orig, todo, |todo|), false)
    decreases |todo| - k
  {
    if k < |todo| {
      var cs := ApprovedUpTo(orig, todo, k);
      var t := todo[k];
      assert NextAnswer(input, k) == Some((Approve, k + 1));
      assert t !in todo[..k];
      assert todo[..k + 1] == todo[..k] + [t];
      assert cs[t := Apply(cs[t], Approve)] == ApprovedUpTo(orig, todo, k + 1);
      ApproveFrom(orig, todo, k + 1, input);
    }
  }

  /** Answering `a` at every prompt approves every pending chunk and saves;
      with none pending there is nothing to review. */
  lemma ApproveEverything(chunks: seq<Chunk>, input: seq<string>)
    requires CountStatus(chunks, "needs_review") <= |input|
    requires forall l :: 0 <= l < |input| ==> Normalize(input[l]) == "a"
    ensures Review(chunks, input) ==
      if CountStatus(chunks, "needs_review") == 0 then NothingToReview else Saved(AllApproved(chunks), false)
    ensures CountStatus(AllApproved(chunks), "needs_review") == 0
  {
    var todo := Pending(chunks);
    PendingCount(chunks);
    if |todo| > 0 {
      assert todo[..0] == [];
      assert ApprovedUpTo(chunks, todo, 0) == chunks;
      ApproveFrom(chunks, todo, 0, input);
      assert todo[..|todo|] == todo;
      assert ApprovedUpTo(chunks, todo, |todo|) == AllApproved(chunks);
    }
    CountStatusZero(AllApproved(chunks), "needs_review");
  }

  /** There are as many pending indices as chunks needing review. */
  lemma {:induction false} PendingCount(cs: seq<Chunk>)
    ensures |Pending(cs)| == CountStatus(cs, "needs_review")
    decreases |cs|
  {
    if |cs| > 0 {
      PendingCount(cs[..|cs| - 1]);
    }
  }

  // ------------------------------------------------------------ save_reviewed

  datatype Stats = Stats(approved: nat, edited: nat, discarded: nat, needsReview: nat, auto: nat)

  /** The per-status counts `save_reviewed` prints. */
  function ReviewStats(cs: seq<Chunk>): Stats {
    Stats(CountStatus(cs, "approved"), CountStatus(cs, "edited"), CountStatus(cs, "discarded"),
          CountStatus(cs, "needs_review"), CountStatus(cs, "auto"))
  }

  function Total(s: Stats): nat {
    s.approved + s.edited + s.discarded + s.needsReview + s.auto
  }

  /** A chunk has one status, so the five counts together never exceed the chunks. */
  lemma {:induction false} StatsBound(cs: seq<Chunk>)
    ensures Total(ReviewStats(cs)) <= |cs|
    decreases |cs|
  {
    if |cs| > 0 {
      StatsBound(cs[..|cs| - 1]);
    }
  }

  /** A review keeps the `auto` chunks and the number of chunks in the review
      statuses; the waiting ones only decrease. */
  lemma {:induction false} ReviewedStats(orig: seq<Chunk>, cs: seq<Chunk>)
    requires ReviewedFrom(orig, cs)
    ensures ReviewStats(cs).auto == ReviewStats(orig).auto
    ensures Total(ReviewStats(cs)) == Total(ReviewStats(orig))
    ensures ReviewStats(cs).needsReview <= ReviewStats(orig).needsReview
    decreases |cs|
  {
    if |cs| > 0 {
      var n := |cs| - 1;
      assert ReviewedFrom(orig[..n], cs[..n]);
      ReviewedStats(orig[..n], cs[..n]);
    }
  }

  /** The counts printed after a review against the counts of the loaded file. */
  lemma ReviewFileStats(chunks: seq<Chunk>, input: seq<string>)
    requires Review(chunks, input).Saved?
    ensures ReviewStats(Review(chunks, input).chunks).auto == ReviewStats(chunks).auto
    ensures Total(ReviewStats(Review(chunks, input).chunks)) == Total(ReviewStats(chunks))
    ensures ReviewStats(Review(chunks, input).chunks).needsReview <= ReviewStats(chunks).needsReview
  {
    ReviewChangesOnlyPending(chunks, input);
    ReviewedStats(chunks, Review(chunks, input).chunks);
  }
}

=== FILE: liste.dfy ===
/** The shared to-do list (`liste`): a document `{nextId, todos}` kept in a
    gist file, edited locally and merged with the remote copy before each
    save. `nextId` is a watermark: every id below it has been handed out, so a
    remote item below the local watermark that is missing locally was deleted
    here and must not come back, while one at or above it was added elsewhere. */
module Liste {
  import opened Wrappers
  import Strings

  /** A to-do id as JSON holds it. An array or object id is kept as the text
      `String(value)` gives (`[7]` is "7", `{}` is "[object Object]"), which is
      what comparing it with a number converts it through. */
  datatype Id = Num(n: int) | Str(s: string) | Null | Bool(b: bool) | Composite(asText: string)

  datatype Todo = Todo(id: Id, thing: string, done: bool)

  datatype TodoDoc = TodoDoc(nextId: int, todos: seq<Todo>)

  /** What `JSON.parse` makes of a gist file's content. */
  datatype ParsedContent =
    | Malformed                        // JSON.parse throws
    | LegacyArray(items: seq<Todo>)    // the old format: a bare array of todos
    | Document(doc: TodoDoc)           // the current format
    | NullValue                        // `null`: reading `.todos` or `.nextId` from it throws
    | NotADocument                     // any other value without a `todos` array (`{}`, a number)

  // ------------------------------------------------------------ codec

  /** `typeof t.id === 'number' ? t.id : 0` */
  function NumericOrZero(id: Id): int {
    if id.Num? then id.n else 0
  }

  /** `items.reduce((max, t) => Math.max(max, ...), 0)`: a left fold from 0. */
  function LegacyMaxId(items: seq<Todo>): (m: int)
    ensures m >= 0
    ensures forall i :: 0 <= i < |items| ==> NumericOrZero(items[i].id) <= m
    ensures m == 0 || exists i :: 0 <= i < |items| && items[i].id == Num(m)
    decreases |items|
  {
    if |items| == 0 then 0
    else
      var prev := LegacyMaxId(items[..|items| - 1]);
      var here := NumericOrZero(items[|items| - 1].id);
      if here > prev then here else prev
  }

  /** `parseGistContent`: migrates the legacy array, passes the current format
      through, and fails where `JSON.parse` throws. A value that is neither an
      array nor a document is passed through by the code and throws a
      `TypeError` where its `todos` is first used; the model reports that error here. */
  function ParseGistContent(c: ParsedContent): (r: Result<TodoDoc, string>)
    ensures r.Err? <==> !(c.LegacyArray? || c.Document?)
    ensures r == Err("SyntaxError") <==> c.Malformed?
    ensures c.Document? ==> r == Ok(c.doc)
    ensures c.LegacyArray? ==> r.Ok? && r.value.todos == c.items && r.value.nextId == LegacyMaxId(c.items) + 1
    ensures c.LegacyArray? ==> r.value.nextId >= 1
    ensures c.LegacyArray? ==> forall t :: t in c.items && t.id.Num? ==> t.id.n < r.value.nextId
    ensures c == LegacyArray([]) ==> r == Ok(TodoDoc(1, []))
  {
    match c
    case Malformed => Err("SyntaxError")
    case LegacyArray(items) =>
      var m := LegacyMaxId(items);
      assert forall t :: t in items ==> NumericOrZero(t.id) <= m by {
        forall t | t in items ensures NumericOrZero(t.id) <= m {
          var i :| 0 <= i < |items| && items[i] == t;
        }
      }
      Ok(TodoDoc(m + 1, items))
    case Document(doc) => Ok(doc)
    case _ => Err("TypeError")
  }

  // ------------------------------------------------------------ merge

  function Ids(todos: seq<Todo>): set<Id> {
    set t | t in todos :: t.id
  }

  /** `Number(s)` on the texts an id can hold: white space at either end is
      dropped, the blank text is 0, and an optional sign followed by decimal
      digits is that integer. Anything else is NaN, written None. */
  function StringToNumber(s: string): (r: Option<int>)
    ensures (forall i :: 0 <= i < |s| ==> Strings.IsJsSpace(s[i])) ==> r == Some(0)
    decreases |s|
  {
    if |s| > 0 && Strings.IsJsSpace(s[0]) then StringToNumber(s[1..])
    else if |s| > 0 && Strings.IsJsSpace(s[|s| - 1]) then StringToNumber(s[..|s| - 1])
    else if s == [] then Some(0)
    else
      var sign := if s[0] == '-' then -1 else 1;
      var digits := if s[0] == '-' || s[0] == '+' then s[1..] else s;
      match Strings.ParseNat(digits)
      case Some(n) => Some(sign * n)
      case None => None
  }

  /** The ToNumber conversion a relational comparison with a number applies. */
  function JsToNumber(id: Id): Option<int> {
    match id
    case Num(n) => Some(n)
    case Str(s) => StringToNumber(s)
    case Null => Some(0)
    case Bool(b) => Some(if b then 1 else 0)
    case Composite(text) => StringToNumber(text)
  }

  /** `t.id >= nextId`: both sides are converted to numbers, and a comparison with NaN is false. */
  predicate AtOrAbove(id: Id, watermark: int) {
    JsToNumber(id).Some? && JsToNumber(id).value >= watermark
  }

  /** The comparison coerces: a string or an array whose text converts to a
      number (`StringToNumberOfInt`: every decimal integer does), `null` and a
      boolean are compared as the number they convert to. */
  lemma AtOrAboveCoerces(text: string, n: int, b: bool, w: int)
    requires StringToNumber(text) == Some(n)
    ensures AtOrAbove(Str(text), w) <==> n >= w
    ensures AtOrAbove(Composite(text), w) <==> n >= w
    ensures AtOrAbove(Null, w) <==> 0 >= w
    ensures AtOrAbove(Bool(b), w) <==> (if b then 1 else 0) >= w
  {
  }

  /** The decimal text of an integer converts back to it. */
  lemma StringToNumberOfInt(i: int)
    ensures StringToNumber(Strings.IntToString(i)) == Some(i)
  {
    var n: nat := if i < 0 then -i else i;
    var d := Strings.NatToString(n);
    assert Strings.IntToString(i) == (if i < 0 then "-" else "") + d;
    Strings.DigitsValueOfNatToString(n);
    StringToNumberOfDigits(d, i < 0);
  }

  /** Digits, with a minus sign or without, convert to their signed value. */
  lemma StringToNumberOfDigits(d: string, neg: bool)
    requires |d| > 0 && Strings.AllDigits(d)
    ensures StringToNumber((if neg then "-" else "") + d) ==
      Some((if neg then -1 else 1) * Strings.DigitsValue(d))
  {
    var s := (if neg then "-" else "") + d;
    assert Strings.IsDigit(d[0]) && Strings.IsDigit(d[|d| - 1]);
    assert s[|s| - 1] == d[|d| - 1];
    assert !Strings.IsJsSpace(s[0]) && !Strings.IsJsSpace(s[|s| - 1]);
    assert Strings.ParseNat(d) == Some(Strings.DigitsValue(d));
    if neg {
      assert s[0] == '-' && s[1..] == d;
    } else {
      assert s == d && s[0] != '-' && s[0] != '+';
    }
  }

  /** `localIds.has(id)` compares by SameValueZero: an array or object id is a
      fresh object after every parse, so it is never found. */
  predicate KnownLocally(localIds: set<Id>, id: Id) {
    !id.Composite? && id in localIds
  }

  /** A remote item is recovered iff its id is unknown locally and not below the local watermark. */
  predicate Recoverable(localIds: set<Id>, watermark: int, t: Todo) {
    !KnownLocally(localIds, t.id) && AtOrAbove(t.id, watermark)
  }

  /** `remote.filter(t => !localIds.has(t.id) && t.id >= nextId)` */
  function Recovered(localIds: set<Id>, watermark: int, remote: seq<Todo>): (r: seq<Todo>)
    ensures |r| <= |remote|
    decreases |remote|
  {
    if |remote| == 0 then []
    else
      (if Recoverable(localIds, watermark, remote[0]) then [remote[0]] else [])
      + Recovered(localIds, watermark, remote[1..])
  }

  /** The merged document built in `saveTodos`. */
  function Merge(local: TodoDoc, remote: TodoDoc): TodoDoc {
    TodoDoc(
      if local.nextId >= remote.nextId then local.nextId else remote.nextId,
      local.todos + Recovered(Ids(local.todos), local.nextId, remote.todos))
  }

  lemma {:induction false} RecoveredMembers(localIds: set<Id>, watermark: int, remote: seq<Todo>, t: Todo)
    ensures t in Recovered(localIds, watermark, remote) <==> t in remote && Recoverable(localIds, watermark, t)
    decreases |remote|
  {
    if |remote| > 0 {
      RecoveredMembers(localIds, watermark, remote[1..], t);
      assert t in remote <==> t == remote[0] || t in remote[1..];
    }
  }

  /** The filter distributes over concatenation: recovered items keep their remote order. */
  lemma {:induction false} RecoveredAppend(localIds: set<Id>, watermark: int, a: seq<Todo>, b: seq<Todo>)
    ensures Recovered(localIds, watermark, a + b) ==
      Recovered(localIds, watermark, a) + Recovered(localIds, watermark, b)
    decreases |a|
  {
    if |a| == 0 {
      assert a + b == b;
    } else {
      var head := if Recoverable(localIds, watermark, a[0]) then [a[0]] else [];
      assert (a + b)[0] == a[0] && (a + b)[1..] == a[1..] + b;
      assert Recovered(localIds, watermark, a + b) == head + Recovered(localIds, watermark, a[1..] + b);
      RecoveredAppend(localIds, watermark, a[1..], b);
    }
  }

  /** The merged watermark is the larger of the two, so it never falls behind either side. */
  lemma MergeNextId(local: TodoDoc, remote: TodoDoc)
    ensures Merge(local, remote).nextId >= local.nextId
    ensures Merge(local, remote).nextId >= remote.nextId
    ensures Merge(local, remote).nextId == local.nextId || Merge(local, remote).nextId == remote.nextId
  {
  }

  /** No loss of local items: the merge starts with the local list, unchanged and in order. */
  lemma MergeKeepsLocal(local: TodoDoc, remote: TodoDoc)
    ensures |Merge(local, remote).todos| >= |local.todos|
    ensures Merge(local, remote).todos[..|local.todos|] == local.todos
  {
  }

  /** After the local list come exactly the remote items that are new to this device. */
  lemma MergeAppendsNew(local: TodoDoc, remote: TodoDoc, t: Todo)
    ensures t in Merge(local, remote).todos[|local.todos|..] <==>
      t in remote.todos && !KnownLocally(Ids(local.todos), t.id) && AtOrAbove(t.id, local.nextId)
  {
    var m := Merge(local, remote);
    assert m.todos[|local.todos|..] == Recovered(Ids(local.todos), local.nextId, remote.todos);
    RecoveredMembers(Ids(local.todos), local.nextId, remote.todos, t);
  }

  /** No resurrection: a remote item below the local watermark that is gone
      locally (deleted here) does not appear in the merge. */
  lemma NoResurrection(local: TodoDoc, remote: TodoDoc, t: Todo)
    requires t in remote.todos && t.id !in Ids(local.todos)
    requires !AtOrAbove(t.id, local.nextId)
    ensures t !in Merge(local, remote).todos
  {
    var m := Merge(local, remote);
    var rec := Recovered(Ids(local.todos), local.nextId, remote.todos);
    RecoveredMembers(Ids(local.todos), local.nextId, remote.todos, t);
    assert t !in local.todos;
    assert m.todos == local.todos + rec;
  }

  /** Every numeric id lies below the document's watermark. */
  predicate BelowWatermark(d: TodoDoc) {
    forall t :: t in d.todos && t.id.Num? ==> t.id.n < d.nextId
  }

  /** Merging two documents that respect their watermarks gives one that respects the merged watermark. */
  lemma MergeKeepsWatermark(local: TodoDoc, remote: TodoDoc)
    requires BelowWatermark(local) && BelowWatermark(remote)
    ensures BelowWatermark(Merge(local, remote))
  {
    var m := Merge(local, remote);
    forall t | t in m.todos && t.id.Num? ensures t.id.n < m.nextId {
      if t !in local.todos {
        RecoveredMembers(Ids(local.todos), local.nextId, remote.todos, t);
      }
    }
  }

  /** No array or object id sits at or above the watermark. */
  predicate NoLiveObjectIds(d: TodoDoc) {
    forall t :: t in d.todos && t.id.Composite? ==> !AtOrAbove(t.id, d.nextId)
  }

  /** Merging a document with itself changes nothing, unless an array or
      object id is at or above the watermark (`ObjectIdDuplicated`). */
  lemma MergeSelf(d: TodoDoc)
    requires NoLiveObjectIds(d)
    ensures Merge(d, d) == d
  {
    var rec := Recovered(Ids(d.todos), d.nextId, d.todos);
    if rec != [] {
      RecoveredMembers(Ids(d.todos), d.nextId, d.todos, rec[0]);
      assert false;
    }
    assert d.todos + rec == d.todos;
  }

  /** `Set.has` never finds an array or object id, so merging such an item
      at or above the watermark with itself appends it a second time. */
  lemma ObjectIdDuplicated(d: TodoDoc, t: Todo)
    requires t in d.todos && t.id.Composite? && AtOrAbove(t.id, d.nextId)
    ensures multiset(Merge(d, d).todos)[t] > multiset(d.todos)[t]
  {
    var rec := Recovered(Ids(d.todos), d.nextId, d.todos);
    RecoveredMembers(Ids(d.todos), d.nextId, d.todos, t);
    assert multiset(Merge(d, d).todos) == multiset(d.todos) + multiset(rec);
  }

  // ------------------------------------------------------------ save decision

  /** What the pre-save read of the gist gave. */
  datatype RemoteRead =
    | ReadThrew                         // the request or `json()` threw, or the reply has no `files`
    | ReadFailed                        // the response was not ok
    | NoContent                         // the file is missing or empty
    | HasContent(content: ParsedContent)

  /** The remote side of the merge: a not-ok reply or an empty file counts as
      an empty document, and a read that throws is an error that ends the save. */
  function RemoteForSave(r: RemoteRead): (d: Result<TodoDoc, string>)
    ensures r.ReadFailed? || r.NoContent? ==> d == Ok(TodoDoc(1, []))
    ensures r.ReadThrew? ==> d.Err?
    ensures r.HasContent? ==> d == ParseGistContent(r.content)
    ensures d.Err? <==> r.ReadThrew? || (r.HasContent? && !(r.content.LegacyArray? || r.content.Document?))
  {
    match r
    case ReadThrew => Err("TypeError")
    case HasContent(c) => ParseGistContent(c)
    case _ => Ok(TodoDoc(1, []))
  }

  datatype SavePlan =
    | NoToken           // returns before any request
    | Aborted           // the read threw or the content is no list; the exception is caught
    | Unchanged         // the merge serialises to the remote content: no write
    | Write(doc: TodoDoc)

  /** The decision `saveTodos` takes. Equal serialisations are modelled as equal documents. */
  function PlanSave(hasToken: bool, local: TodoDoc, remote: RemoteRead): (p: SavePlan)
    ensures !hasToken <==> p.NoToken?
    ensures hasToken ==> (p.Aborted? <==> RemoteForSave(remote).Err?)
    ensures hasToken && remote.ReadThrew? ==> p.Aborted?
    ensures p.Unchanged? ==> Merge(local, RemoteForSave(remote).value) == RemoteForSave(remote).value
    ensures p.Write? ==> (RemoteForSave(remote).Ok? &&
      p.doc == Merge(local, RemoteForSave(remote).value) && p.doc != RemoteForSave(remote).value)
  {
    if !hasToken then NoToken
    else
      match RemoteForSave(remote)
      case Err(_) => Aborted
      case Ok(rd) =>
        var m := Merge(local, rd);
        if m == rd then Unchanged else Write(m)
  }

  /** Local state after the PATCH: the merge is adopted only when the write
      succeeded and its length or watermark differs from the local one. */
  function AfterWrite(local: TodoDoc, merged: TodoDoc, ok: bool): (d: TodoDoc)
    ensures !ok ==> d == local
    ensures d == local || d == merged
  {
    if ok && (|merged.todos| != |local.todos| || merged.nextId != local.nextId) then merged else local
  }

  /** The adoption test loses nothing: after a successful write the local
      state always equals the merged document. */
  lemma AdoptionComplete(local: TodoDoc, remote: TodoDoc)
    ensures AfterWrite(local, Merge(local, remote), true) == Merge(local, remote)
  {
    var m := Merge(local, remote);
    if |m.todos| == |local.todos| && m.nextId == local.nextId {
      assert m.todos == local.todos + Recovered(Ids(local.todos), local.nextId, remote.todos);
      assert m.todos == local.todos;
    }
  }

  /** Convergence: once the local state has adopted what it wrote, a save
      against that same remote content has nothing to write. */
  lemma SaveConverges(local: TodoDoc, remote: TodoDoc)
    requires NoLiveObjectIds(Merge(local, remote))
    ensures var m := AfterWrite(local, Merge(local, remote), true);
      PlanSave(true, m, HasContent(Document(m))) == Unchanged
  {
    AdoptionComplete(local, remote);
    MergeSelf(Merge(local, remote));
  }

  // ------------------------------------------------------------ editing

  /** `addTodo`: with non-blank input, append `{id: nextId, thing: trimmed, done: false}`,
      advance the watermark and clear the input; otherwise nothing changes. */
  function AddTodo(d: TodoDoc, input: string): (r: (TodoDoc, string))
    ensures Strings.JsTrim(input) == [] ==> r == (d, input)
    ensures Strings.JsTrim(input) != [] ==>
      r.0.todos == d.todos + [Todo(Num(d.nextId), Strings.JsTrim(input), false)] &&
      r.0.nextId == d.nextId + 1 && r.1 == ""
  {
    var thing := Strings.JsTrim(input);
    if thing != [] then (TodoDoc(d.nextId + 1, d.todos + [Todo(Num(d.nextId), thing, false)]), "")
    else (d, input)
  }

  lemma AddTodoKeepsWatermark(d: TodoDoc, input: string)
    requires BelowWatermark(d)
    ensures BelowWatermark(AddTodo(d, input).0)
    ensures AddTodo(d, input).0.nextId >= d.nextId
  {
  }

  /** `toggleTodo(index)`: flip `done` at `index` only. */
  function ToggleTodo(todos: seq<Todo>, index: int): (r: seq<Todo>)
    ensures |r| == |todos|
    ensures forall i :: 0 <= i < |todos| && i != index ==> r[i] == todos[i]
    ensures 0 <= index < |todos| ==> r[index] == todos[index].(done := !todos[index].done)
  {
    seq(|todos|, i requires 0 <= i < |todos| =>
      if i == index then todos[i].(done := !todos[i].done) else todos[i])
  }

  /** Toggling the same index twice restores the list. */
  lemma ToggleTwice(todos: seq<Todo>, index: int)
    ensures ToggleTodo(ToggleTodo(todos, index), index) == todos
  {
  }

  /** `deleteTodo(index)`: drop position `index`, keep the rest in order. */
  function DeleteTodo(todos: seq<Todo>, index: int): (r: seq<Todo>)
    ensures 0 <= index < |todos| ==> r == todos[..index] + todos[index + 1..]
    ensures !(0 <= index < |todos|) ==> r == todos
  {
    if 0 <= index < |todos| then todos[..index] + todos[index + 1..] else todos
  }

  /** Deleting removes one occurrence of the item at `index` and nothing else. */
  lemma DeleteRemovesOne(todos: seq<Todo>, index: int)
    requires 0 <= index < |todos|
    ensures multiset(DeleteTodo(todos, index)) + multiset{todos[index]} == multiset(todos)
  {
    assert todos == todos[..index] + [todos[index]] + todos[index + 1..];
  }

  // ------------------------------------------------------------ the component

  /** What the initial load of the gist gave. */
  datatype LoadRead =
    | LoadFailed                        // the response was not ok, or the request threw
    | LoadedNothing                     // the file is missing or empty
    | Loaded(content: ParsedContent)

  /** The component's state: the list, the watermark and the input box. */
  class TodoSession {
    var todos: seq<Todo>
    var nextId: int
    var input: string
    var loading: bool
    var error: Option<string>

    function Doc(): TodoDoc
      reads this
    {
      TodoDoc(nextId, todos)
    }

    constructor ()
      ensures todos == [] && nextId == 1 && input == "" && loading && error == None
    {
      todos := [];
      nextId := 1;
      input := "";
      loading := true;
      error := None;
    }

    /** `fetchTodos`: adopt the parsed document, keep the defaults when the file
        is empty, and record the error when the read or the parse fails. */
    method Load(r: LoadRead)
      modifies this
      ensures !loading && input == old(input)
      ensures r.Loaded? && ParseGistContent(r.content).Ok? ==>
        Doc() == ParseGistContent(r.content).value && error == old(error)
      ensures r.LoadedNothing? ==> Doc() == old(Doc()) && error == old(error)
      ensures r.LoadFailed? || (r.Loaded? && ParseGistContent(r.content).Err?) ==>
        Doc() == old(Doc()) && error == Some("Failed to load todos")
    {
      match r {
        case LoadFailed =>
          error := Some("Failed to load todos");
        case LoadedNothing =>
        case Loaded(c) =>
          match ParseGistContent(c) {
            case Err(_) =>
              error := Some("Failed to load todos");
            case Ok(d) =>
              todos := d.todos;
              nextId := d.nextId;
          }
      }
      loading := false;
    }

    method SetInput(s: string)
      modifies this
      ensures input == s && Doc() == old(Doc())
    {
      input := s;
    }

    method Add()
      modifies this
      ensures (Doc(), input) == AddTodo(old(Doc()), old(input))
    {
      var r := AddTodo(Doc(), input);
      todos := r.0.todos;
      nextId := r.0.nextId;
      input := r.1;
    }

    method Toggle(index: int)
      modifies this
      ensures todos == ToggleTodo(old(todos), index) && nextId == old(nextId) && input == old(input)
    {
      todos := ToggleTodo(todos, index);
    }

    method Delete(index: int)
      modifies this
      ensures todos == DeleteTodo(old(todos), index) && nextId == old(nextId) && input == old(input)
    {
      todos := DeleteTodo(todos, index);
    }

    /** `saveTodos` with the network turned into inputs: the pre-save read and
        whether the PATCH succeeded. Returns the decision taken. A save is
        only scheduled once loading is over and no load error is shown. */
    method Save(hasToken: bool, remote: RemoteRead, writeOk: bool) returns (plan: SavePlan)
      requires !loading && error.None?
      modifies this
      ensures plan == PlanSave(hasToken, old(Doc()), remote)
      ensures plan.Write? ==> Doc() == AfterWrite(old(Doc()), plan.doc, writeOk)
      ensures !plan.Write? ==> Doc() == old(Doc())
      ensures input == old(input) && loading == old(loading) && error == old(error)
    {
      plan := PlanSave(hasToken, Doc(), remote);
      if plan.Write? {
        var d := AfterWrite(Doc(), plan.doc, writeOk);
        todos := d.todos;
        nextId := d.nextId;
      }
    }
  }
}

=== FILE: mistral.dfy ===
/** The news app's language-model service: it builds prompts from the first
    few articles (title plus a truncated text), sends them, and turns the reply
    into a summary, an answer, or rewritten headlines. The HTTP round trip is
    an input: the reply, or the error `callMistral` throws. */
module Mistral {
  import opened Wrappers
  import opened Strings

  /** A news item as the feeds deliver it; `shortTitle` is added by `rewriteHeadlines`. */
  datatype Article = Article(
    id: int,
    title: string,
    source: string,
    link: string,
    description: Option<string>,
    content: Option<string>,
    pubDate: Option<int>,
    shortTitle: Option<string>)

  /** What the chat-completions endpoint answered: `response.ok`, the status,
      and `choices[0]?.message?.content`. */
  datatype ApiResponse = ApiResponse(ok: bool, status: int, firstContent: Option<string>)

  /** One entry of the JSON array the headline prompt asks for. */
  datatype Rewrite = Rewrite(index: int, headline: Option<string>)

  const Apology := "Beklager, kunne ikke svare på spørsmålet."

  const SummaryIntro :=
    "Skriv en sammenhengende oppsummering av nyhetene i 2-3 setninger. Ikke bruk lister, nummerering eller formatering. Bare flytende tekst."

  const AnswerIntro :=
    "Svar direkte på spørsmålet. Bare ren tekst, ingen formatering, ingen tall, ingen punktlister. Kort og konsist."

  const RewriteIntro :=
    "Du er en nyhetsredaktør. Les disse nyhetene og skriv NYE overskrifter som er mer beskrivende og informative. Overskriften skal fortelle leseren HVA som skjedde, ikke bare hint om temaet. Inkluder viktige detaljer som navn, tall, steder når relevant."

  const RewriteRules :=
    "Regler:\n- Vær spesifikk og konkret, ikke vag\n- Inkluder nøkkelinfo fra artikkelen\n- Maks 12 ord per overskrift\n- Unngå clickbait\n\nSvar BARE med JSON-array: [{\"index\": 0, \"headline\": \"ny overskrift\"}, ...]"

  /** `!API_KEY` is false: the key is set and not empty. */
  predicate HasKey(key: Option<string>) {
    key.Some? && key.value != ""
  }

  /** JavaScript truthiness of an optional string. */
  predicate Truthy(s: Option<string>) {
    s.Some? && s.value != ""
  }

  /** `xs.slice(0, n)`. */
  function Take<T>(xs: seq<T>, n: nat): (r: seq<T>)
    ensures |r| <= n && r <= xs
    ensures |r| == if |xs| <= n then |xs| else n
    ensures |xs| <= n ==> r == xs
  {
    if |xs| <= n then xs else xs[..n]
  }

  // ---------------------------------------------------------------- callMistral

  /** `callMistral` after the request: a non-OK status throws, and a missing or
      empty first choice gives `''`. */
  function CallResult(resp: ApiResponse): (r: Result<string, string>)
    ensures r.Err? <==> !resp.ok
    ensures r.Ok? ==> (r.value == "" <==> !Truthy(resp.firstContent))
    ensures r.Ok? && r.value != "" ==> resp.firstContent == Some(r.value)
  {
    if !resp.ok then Err("Mistral API error: " + IntToString(resp.status))
    else if Truthy(resp.firstContent) then Ok(resp.firstContent.value)
    else Ok("")
  }

  // ---------------------------------------------------------------- article text

  /** `a.content?.slice(0, n) || a.description || ''`. */
  function Snippet(a: Article, n: nat): (r: string)
    requires n > 0
    ensures Truthy(a.content) ==> r == Take(a.content.value, n)
    ensures Truthy(a.content) ==> |r| <= n && r <= a.content.value
    ensures !Truthy(a.content) && Truthy(a.description) ==> r == a.description.value
    ensures r == "" <==> !Truthy(a.content) && !Truthy(a.description)
  {
    var c := if a.content.Some? then Some(Take(a.content.value, n)) else None;
    assert Truthy(a.content) ==> c.value[0] == a.content.value[0];
    if Truthy(c) then c.value
    else if Truthy(a.description) then a.description.value
    else ""
  }

  // ---------------------------------------------------------------- generateSummary

  function SummaryLines(articles: seq<Article>): (r: seq<string>)
    ensures |r| == |articles|
  {
    seq(|articles|, i requires 0 <= i < |articles| => articles[i].title + ": " + Snippet(articles[i], 500))
  }

  function SummaryPrompt(articles: seq<Article>): string {
    SummaryIntro + "\n\n" + Join(SummaryLines(Take(articles, 10)), "\n\n")
  }

  /** The prompt `generateSummary` sends, or `None` when it returns early. */
  function SummaryRequest(key: Option<string>, articles: seq<Article>): (r: Option<string>)
    ensures r.None? <==> !HasKey(key) || |articles| == 0
  {
    if !HasKey(key) || |articles| == 0 then None else Some(SummaryPrompt(articles))
  }

  /** `generateSummary`: the reply, or `null` with no key, no articles or a failed call. */
  function Summary(key: Option<string>, articles: seq<Article>, reply: Result<string, string>): (r: Option<string>)
    ensures r.Some? <==> SummaryRequest(key, articles).Some? && reply.Ok?
    ensures r.Some? ==> r.value == reply.value
  {
    if SummaryRequest(key, articles).None? then None
    else match reply
      case Ok(s) => Some(s)
      case Err(_) => None
  }

  /** Only the first ten articles reach the summary prompt. */
  lemma SummaryUsesFirstTen(articles: seq<Article>, more: seq<Article>)
    requires |articles| >= 10
    ensures SummaryPrompt(articles + more) == SummaryPrompt(articles)
  {
    assert Take(articles + more, 10) == Take(articles, 10);
  }

  /** Each article line of the summary prompt is its title and at most 500
      characters of its content, or else its description. */
  lemma SummaryLineText(articles: seq<Article>, i: nat)
    requires i < |articles| && i < 10
    ensures SummaryLines(Take(articles, 10))[i] == articles[i].title + ": " + Snippet(articles[i], 500)
    ensures Truthy(articles[i].content) ==> |Snippet(articles[i], 500)| <= 500
  {
  }

  // ---------------------------------------------------------------- answerQuestion

  function ContextBlocks(articles: seq<Article>): (r: seq<string>)
    ensures |r| == |articles|
  {
    seq(|articles|, i requires 0 <= i < |articles| => "## " + articles[i].title + "\n" + Snippet(articles[i], 800))
  }

  function AnswerPrompt(question: string, articles: seq<Article>): string {
    AnswerIntro + "\n\nNYHETER:\n" + Join(ContextBlocks(Take(articles, 15)), "\n\n---\n\n") +
      "\n\nSPØRSMÅL: " + question
  }

  /** The prompt `answerQuestion` sends, or `None` with no key or a blank question. */
  function AnswerRequest(key: Option<string>, question: string, articles: seq<Article>): (r: Option<string>)
    ensures r.None? <==> !HasKey(key) || JsTrim(question) == ""
    ensures r.Some? ==> EndsWith(r.value, question)
  {
    if !HasKey(key) || JsTrim(question) == "" then None
    else
      var p := AnswerPrompt(question, articles);
      assert p[|p| - |question|..] == question;
      Some(p)
  }

  /** `answerQuestion`: `null` without a request, the reply, or the fixed apology
      when the call fails. */
  function Answer(key: Option<string>, question: string, articles: seq<Article>,
                  reply: Result<string, string>): (r: Option<string>)
    ensures r.None? <==> AnswerRequest(key, question, articles).None?
    ensures r.Some? && reply.Ok? ==> r.value == reply.value
    ensures r.Some? && reply.Err? ==> r.value == Apology
  {
    if AnswerRequest(key, question, articles).None? then None
    else match reply
      case Ok(s) => Some(s)
      case Err(_) => Some(Apology)
  }

  /** Only the first fifteen articles reach the question prompt. */
  lemma AnswerUsesFirstFifteen(question: string, articles: seq<Article>, more: seq<Article>)
    requires |articles| >= 15
    ensures AnswerPrompt(question, articles + more) == AnswerPrompt(question, articles)
  {
    assert Take(articles + more, 15) == Take(articles, 15);
  }

  /** Each context block is the title and at most 800 characters of content,
      or else the description. */
  lemma ContextBlockText(articles: seq<Article>, i: nat)
    requires i < |articles| && i < 15
    ensures ContextBlocks(Take(articles, 15))[i] == "## " + articles[i].title + "\n" + Snippet(articles[i], 800)
    ensures Truthy(articles[i].content) ==> |Snippet(articles[i], 800)| <= 800
  {
  }

  // ---------------------------------------------------------------- rewriteHeadlines

  /** The match `m` starts at `i` on the first `[` of `content` and ends on its
      last `]`: no `[` comes before it and no `]` after it. */
  predicate GreedyBracketAt(content: string, i: int, m: string) {
    SliceAt(content, i, m) && '[' !in content[..i] && ']' !in content[i + |m|..]
  }

  /** `content.match(/\[[\s\S]*\]/)`: from the first `[` to the last `]`. */
  function JsonArrayMatch(content: string): (r: Option<string>)
    ensures r.Some? ==> |r.value| >= 2 && r.value[0] == '[' && r.value[|r.value| - 1] == ']'
    ensures r.Some? ==> exists i :: SliceAt(content, i, r.value)
    ensures r.Some? ==> exists i :: GreedyBracketAt(content, i, r.value)
    ensures r.None? <==> !exists i, j :: 0 <= i < j < |content| && content[i] == '[' && content[j] == ']'
  {
    match (IndexOfChar(content, '['), LastIndex(content, ']'))
    case (Some(i), Some(j)) =>
      if i < j then
        assert SliceAt(content, i, content[i..j + 1]);
        assert content[i + |content[i..j + 1]|..] == content[j + 1..];
        assert GreedyBracketAt(content, i, content[i..j + 1]);
        Some(content[i..j + 1])
      else
        NoBracketPair(content, i, j);
        None
    case (None, _) => None
    case (Some(i), None) => None
  }

  /** With the first `[` after the last `]` no `[` precedes any `]`. */
  lemma NoBracketPair(content: string, i: nat, j: nat)
    requires i < |content| && j < |content| && j <= i
    requires '[' !in content[..i] && ']' !in content[j + 1..]
    ensures !exists a, b :: 0 <= a < b < |content| && content[a] == '[' && content[b] == ']'
  {
    assert forall a :: 0 <= a < i ==> content[a] == content[..i][a];
    assert forall b :: j < b < |content| ==> content[b] == content[j + 1..][b - j - 1];
  }

  /** `new Map(rewrites.map(r => [r.index, r.headline])).get(i)`: the last entry
      for the index wins. */
  function RewriteFor(rs: seq<Rewrite>, i: int): (r: Option<string>)
    ensures r.Some? ==> Rewrite(i, r) in rs
    ensures (forall k :: 0 <= k < |rs| ==> rs[k].index != i) ==> r == None
    ensures forall k :: 0 <= k < |rs| && rs[k].index == i && (forall j :: k < j < |rs| ==> rs[j].index != i) ==>
      r == rs[k].headline
    decreases |rs|
  {
    if |rs| == 0 then None
    else if rs[|rs| - 1].index == i then rs[|rs| - 1].headline
    else RewriteFor(rs[..|rs| - 1], i)
  }

  /** `rewriteMap.get(i) || article.title`. */
  function ShortTitle(a: Article, rewrite: Option<string>): (r: string)
    ensures r == a.title || (rewrite == Some(r) && r != "")
  {
    if Truthy(rewrite) then rewrite.value else a.title
  }

  function RewriteLines(articles: seq<Article>): (r: seq<string>)
    ensures |r| == |articles|
  {
    seq(|articles|, i requires 0 <= i < |articles| =>
      NatToString(i) + ": \"" + articles[i].title + "\"\nInnhold: " + Snippet(articles[i], 300))
  }

  function RewritePrompt(articles: seq<Article>): string {
    RewriteIntro + "\n\n" + Join(RewriteLines(Take(articles, 15)), "\n\n") + "\n\n" + RewriteRules
  }

  /** The articles with their `shortTitle` set from the rewrites. */
  function WithShortTitles(articles: seq<Article>, rs: seq<Rewrite>): (r: seq<Article>)
    ensures |r| == |articles|
  {
    seq(|articles|, i requires 0 <= i < |articles| =>
      articles[i].(shortTitle := Some(ShortTitle(articles[i], RewriteFor(rs, i)))))
  }

  /** `rewriteHeadlines`; `decode` is `JSON.parse` of the matched text read as
      rewrite entries, `None` where it throws. */
  function RewriteHeadlines(key: Option<string>, articles: seq<Article>, reply: Result<string, string>,
                            decode: string -> Option<seq<Rewrite>>): seq<Article>
  {
    if !HasKey(key) || |articles| == 0 then articles
    else match reply
      case Err(_) => articles
      case Ok(content) =>
        match JsonArrayMatch(content)
        case None => articles
        case Some(m) =>
          match decode(m)
          case None => articles
          case Some(rs) => WithShortTitles(articles, rs)
  }

  /** The rewrites touch nothing but `shortTitle`. */
  predicate SameButShortTitle(a: Article, b: Article) {
    b.(shortTitle := a.shortTitle) == a
  }

  /** The result has the input's length and order, and each article keeps every
      field but `shortTitle`, which is its rewrite when that is non-empty, else
      its title. */
  lemma RewriteKeepsArticles(key: Option<string>, articles: seq<Article>, reply: Result<string, string>,
                             decode: string -> Option<seq<Rewrite>>)
    ensures var r := RewriteHeadlines(key, articles, reply, decode);
      |r| == |articles| &&
      forall i :: 0 <= i < |r| ==> SameButShortTitle(articles[i], r[i])
  {
  }

  /** When the rewrites are applied, the short title of article `i` is the
      last rewrite for index `i` if it is non-empty, and the title otherwise. */
  lemma RewrittenTitle(articles: seq<Article>, rs: seq<Rewrite>, i: nat)
    requires i < |articles|
    ensures WithShortTitles(articles, rs)[i].shortTitle ==
      Some(if Truthy(RewriteFor(rs, i)) then RewriteFor(rs, i).value else articles[i].title)
  {
  }

  /** Without a key, without articles, on a failed call, without a JSON array
      in the reply, or when it does not parse, the articles come back as they were. */
  lemma RewriteFallbacks(key: Option<string>, articles: seq<Article>, reply: Result<string, string>,
                         decode: string -> Option<seq<Rewrite>>)
    requires !HasKey(key) || |articles| == 0 || reply.Err? ||
      JsonArrayMatch(reply.value).None? || decode(JsonArrayMatch(reply.value).value).None?
    ensures RewriteHeadlines(key, articles, reply, decode) == articles
  {
  }

  /** Only the first fifteen articles reach the headline prompt. */
  lemma RewriteUsesFirstFifteen(articles: seq<Article>, more: seq<Article>)
    requires |articles| >= 15
    ensures RewritePrompt(articles + more) == RewritePrompt(articles)
  {
    assert Take(articles + more, 15) == Take(articles, 15);
  }
}

=== FILE: musikk_db.dfy ===
/** The music library's SQLite store (musikk/src/db.rs): the `tracks` table
    keyed by Spotify id, the `config` key/value table and the `sync_log`.
    Tables are maps held by a `TrackDb` object; audio-feature values are
    ordered reals; the clock is a parameter. */
module MusikkDb {
  import opened Wrappers
  import Strings
  import Sorting
  import Tally

  /** The audio features Reccobeats reports; `key` and `mode` are integers. */
  datatype Features = Features(
    tempo: Option<real>, key: Option<int>, mode: Option<int>,
    danceability: Option<real>, energy: Option<real>, valence: Option<real>,
    acousticness: Option<real>, instrumentalness: Option<real>,
    speechiness: Option<real>, liveness: Option<real>, loudness: Option<real>)

  const NoFeatures := Features(None, None, None, None, None, None, None, None, None, None, None)

  /** A row of `tracks`. `artists`, `sources` and `genres` hold JSON text. */
  datatype Track = Track(
    spotifyId: string, reccoId: Option<string>, name: string,
    artists: Option<string>, albumId: Option<string>, albumName: Option<string>,
    durationMs: Option<int>, popularity: Option<int>, sources: Option<string>,
    genres: Option<string>, features: Features, unavailable: bool,
    firstSeen: Option<string>, lastSeen: Option<string>, updated: Option<string>)

  datatype SyncLogRow = SyncLogRow(
    startedAt: string, finishedAt: Option<string>,
    added: int, updated: int, unavailable: int, error: Option<string>)

  // ------------------------------------------------------------------ upsert

  /** SQL `COALESCE(?, column)`: the incoming value unless it is NULL. */
  function Coalesce<T>(incoming: Option<T>, stored: Option<T>): (r: Option<T>)
    ensures r.Some? <==> incoming.Some? || stored.Some?
    ensures incoming.Some? ==> r == incoming
    ensures incoming.None? ==> r == stored
  {
    if incoming.Some? then incoming else stored
  }

  function CoalesceFeatures(incoming: Features, stored: Features): Features {
    Features(
      Coalesce(incoming.tempo, stored.tempo), Coalesce(incoming.key, stored.key),
      Coalesce(incoming.mode, stored.mode),
      Coalesce(incoming.danceability, stored.danceability),
      Coalesce(incoming.energy, stored.energy), Coalesce(incoming.valence, stored.valence),
      Coalesce(incoming.acousticness, stored.acousticness),
      Coalesce(incoming.instrumentalness, stored.instrumentalness),
      Coalesce(incoming.speechiness, stored.speechiness),
      Coalesce(incoming.liveness, stored.liveness), Coalesce(incoming.loudness, stored.loudness))
  }

  /** The row `upsert_track` leaves for `t`, given the row stored under its id
      (if any) and the time `now`: an insert stamps all three times; an update
      COALESCEs the nullable metadata and features, overwrites `name`,
      `sources` and `unavailable`, and keeps `first_seen`. */
  function Upserted(existing: Option<Track>, t: Track, now: string): (r: Track)
    ensures r.spotifyId == t.spotifyId
    ensures r.name == t.name && r.sources == t.sources && r.unavailable == t.unavailable
    ensures r.lastSeen == Some(now) && r.updated == Some(now)
    ensures existing.None? ==> r.firstSeen == Some(now)
    ensures existing.Some? ==> r.firstSeen == existing.value.firstSeen
  {
    match existing
    case None =>
      t.(firstSeen := Some(now), lastSeen := Some(now), updated := Some(now))
    case Some(e) =>
      e.(reccoId := Coalesce(t.reccoId, e.reccoId),
         name := t.name,
         artists := Coalesce(t.artists, e.artists),
         albumId := Coalesce(t.albumId, e.albumId),
         albumName := Coalesce(t.albumName, e.albumName),
         durationMs := Coalesce(t.durationMs, e.durationMs),
         popularity := Coalesce(t.popularity, e.popularity),
         sources := t.sources,
         genres := Coalesce(t.genres, e.genres),
         features := CoalesceFeatures(t.features, e.features),
         unavailable := t.unavailable,
         spotifyId := t.spotifyId,
         lastSeen := Some(now),
         updated := Some(now))
  }

  /** On update a value already stored survives an incoming NULL, and a
      non-NULL incoming value replaces it. */
  lemma UpdateKeepsStored(e: Track, t: Track, now: string)
    ensures var r := Upserted(Some(e), t, now);
      (t.artists.None? ==> r.artists == e.artists) &&
      (t.artists.Some? ==> r.artists == t.artists) &&
      (t.reccoId.None? ==> r.reccoId == e.reccoId) &&
      (t.popularity.None? ==> r.popularity == e.popularity) &&
      (t.features.tempo.None? ==> r.features.tempo == e.features.tempo) &&
      (t.features.tempo.Some? ==> r.features.tempo == t.features.tempo) &&
      (t.features.energy.None? ==> r.features.energy == e.features.energy) &&
      (t.features.key.None? ==> r.features.key == e.features.key)
  {
  }

  /** Once stored, a tempo is never lost by a later upsert. */
  lemma TempoNeverLost(existing: Option<Track>, t: Track, now: string)
    requires existing.Some? ==> existing.value.features.tempo.Some?
    requires existing.None? ==> t.features.tempo.Some?
    ensures Upserted(existing, t, now).features.tempo.Some?
  {
  }

  /** Upserting the same track twice at the same moment leaves the row the
      first upsert left. */
  lemma UpsertIdempotent(existing: Option<Track>, t: Track, now: string)
    requires existing.Some? ==> existing.value.spotifyId == t.spotifyId
    ensures Upserted(Some(Upserted(existing, t, now)), t, now) == Upserted(existing, t, now)
  {
  }

  // ------------------------------------------------------------------- query

  /** The numeric columns the filter can bound and sort by. */
  datatype Column = Tempo | Energy | Danceability | Valence

  function ColumnName(c: Column): string {
    match c
    case Tempo => "tempo"
    case Energy => "energy"
    case Danceability => "danceability"
    case Valence => "valence"
  }

  function ColumnValue(t: Track, c: Column): Option<real> {
    match c
    case Tempo => t.features.tempo
    case Energy => t.features.energy
    case Danceability => t.features.danceability
    case Valence => t.features.valence
  }

  /** The query-string filter of the web API. */
  datatype TrackFilter = TrackFilter(
    tempoMin: Option<real>, tempoMax: Option<real>,
    energyMin: Option<real>, energyMax: Option<real>,
    danceabilityMin: Option<real>, danceabilityMax: Option<real>,
    valenceMin: Option<real>, valenceMax: Option<real>,
    key: Option<int>, search: Option<string>, sort: Option<string>, limit: Option<int>)

  /** A value bound to a `?` placeholder. */
  datatype Param = RealParam(r: real) | IntParam(i: int) | TextParam(s: string)

  /** One `AND` clause of the WHERE, with the value bound to it. */
  datatype Cond =
    | AtLeast(col: Column, bound: real)
    | AtMost(col: Column, bound: real)
    | KeyIs(k: int)
    | NameOrArtistsLike(pattern: string)

  function ClauseText(c: Cond): string {
    match c
    case AtLeast(col, _) => " AND " + ColumnName(col) + " >= ?"
    case AtMost(col, _) => " AND " + ColumnName(col) + " <= ?"
    case KeyIs(_) => " AND key = ?"
    case NameOrArtistsLike(_) => " AND (name LIKE ? OR artists LIKE ?)"
  }

  function ClauseParams(c: Cond): seq<Param> {
    match c
    case AtLeast(_, v) => [RealParam(v)]
    case AtMost(_, v) => [RealParam(v)]
    case KeyIs(k) => [IntParam(k)]
    case NameOrArtistsLike(p) => [TextParam(p), TextParam(p)]
  }

  function ClausesText(cs: seq<Cond>): string {
    if |cs| == 0 then "" else ClausesText(cs[..|cs| - 1]) + ClauseText(cs[|cs| - 1])
  }

  function ClausesParams(cs: seq<Cond>): seq<Param> {
    if |cs| == 0 then [] else ClausesParams(cs[..|cs| - 1]) + ClauseParams(cs[|cs| - 1])
  }

  /** SQL `LIKE` with `%` (any run) and `_` (any one character), ASCII
      letters compared without case, as SQLite does by default. */
  predicate Like(t: string, p: string)
    decreases |t| + |p|
  {
    if |p| == 0 then |t| == 0
    else if p[0] == '%' then Like(t, p[1..]) || (|t| > 0 && Like(t[1..], p))
    else |t| > 0 && (p[0] == '_' || Strings.LowerChar(p[0]) == Strings.LowerChar(t[0]))
         && Like(t[1..], p[1..])
  }

  /** SQL three-valued truth of a clause on a row: a comparison with a NULL
      column is not true, so the row is not selected. */
  predicate Holds(c: Cond, t: Track) {
    match c
    case AtLeast(col, v) => ColumnValue(t, col).Some? && ColumnValue(t, col).value >= v
    case AtMost(col, v) => ColumnValue(t, col).Some? && ColumnValue(t, col).value <= v
    case KeyIs(k) => t.features.key == Some(k)
    case NameOrArtistsLike(p) => Like(t.name, p) || (t.artists.Some? && Like(t.artists.value, p))
  }

  /** The rows the WHERE clause built from `cs` selects. */
  predicate Selects(cs: seq<Cond>, t: Track) {
    !t.unavailable && forall i :: 0 <= i < |cs| ==> Holds(cs[i], t)
  }

  /** Reference meaning of a filter, stated field by field: available, each
      present bound an inclusive test on a non-NULL value, the key equal, the
      search text found in the name or the artists. */
  predicate InRange(v: Option<real>, lo: Option<real>, hi: Option<real>) {
    (lo.Some? ==> v.Some? && v.value >= lo.value) && (hi.Some? ==> v.Some? && v.value <= hi.value)
  }

  predicate Wanted(f: TrackFilter, t: Track) {
    !t.unavailable
    && InRange(t.features.tempo, f.tempoMin, f.tempoMax)
    && InRange(t.features.energy, f.energyMin, f.energyMax)
    && InRange(t.features.danceability, f.danceabilityMin, f.danceabilityMax)
    && InRange(t.features.valence, f.valenceMin, f.valenceMax)
    && (f.key.Some? ==> t.features.key == f.key)
    && (f.search.Some? ==>
          Like(t.name, SearchPattern(f.search.value))
          || (t.artists.Some? && Like(t.artists.value, SearchPattern(f.search.value))))
  }

  function SearchPattern(s: string): string {
    "%" + s + "%"
  }

  const SortColumns: seq<string> := ["tempo", "energy", "danceability", "valence", "name", "popularity"]

  /** The ORDER BY column: the requested one when whitelisted, else `name`. */
  function SortColumn(sort: Option<string>): (c: string)
    ensures c in SortColumns
    ensures sort.Some? && sort.value in SortColumns ==> c == sort.value
    ensures sort.None? || sort.value !in SortColumns ==> c == "name"
  {
    if sort.Some? && sort.value in SortColumns then sort.value else "name"
  }

  /** `limit.unwrap_or(100).min(1000)`. A negative request passes through. */
  function Limit(limit: Option<int>): (n: int)
    ensures n <= 1000
    ensures limit.None? ==> n == 100
    ensures limit.Some? && limit.value <= 1000 ==> n == limit.value
    ensures limit.Some? && limit.value > 1000 ==> n == 1000
  {
    var requested := limit.GetOr(100);
    if requested < 1000 then requested else 1000
  }

  const SelectAvailable := "SELECT * FROM tracks WHERE unavailable = 0"

  lemma ClausesAppend(cs: seq<Cond>, c: Cond)
    ensures ClausesText(cs + [c]) == ClausesText(cs) + ClauseText(c)
    ensures ClausesParams(cs + [c]) == ClausesParams(cs) + ClauseParams(c)
  {
    assert (cs + [c])[..|cs|] == cs;
  }

  lemma SelectsAppend(cs: seq<Cond>, c: Cond, t: Track)
    ensures Selects(cs + [c], t) <==> Selects(cs, t) && Holds(c, t)
  {
    if Selects(cs, t) && Holds(c, t) {
      forall i | 0 <= i < |cs + [c]| ensures Holds((cs + [c])[i], t) {
        if i < |cs| { assert (cs + [c])[i] == cs[i]; }
      }
    }
    if Selects(cs + [c], t) {
      forall i | 0 <= i < |cs| ensures Holds(cs[i], t) {
        assert (cs + [c])[i] == cs[i];
      }
      assert (cs + [c])[|cs|] == c;
    }
  }

  lemma SelectsAppendAll(cs: seq<Cond>, c: Cond)
    ensures forall t :: Selects(cs + [c], t) <==> Selects(cs, t) && Holds(c, t)
  {
    forall t ensures Selects(cs + [c], t) <==> Selects(cs, t) && Holds(c, t) {
      SelectsAppend(cs, c, t);
    }
  }

  /** Appends one clause: the text and parameters grow together. */
  method PushClause(sql: string, params: seq<Param>, ghost cs: seq<Cond>, c: Cond)
    returns (sql': string, params': seq<Param>, ghost cs': seq<Cond>)
    requires sql == SelectAvailable + ClausesText(cs) && params == ClausesParams(cs)
    ensures cs' == cs + [c]
    ensures sql' == SelectAvailable + ClausesText(cs') && params' == ClausesParams(cs')
    ensures forall t :: Selects(cs', t) <==> Selects(cs, t) && Holds(c, t)
  {
    ClausesAppend(cs, c);
    SelectsAppendAll(cs, c);
    sql' := sql + ClauseText(c);
    params' := params + ClauseParams(c);
    cs' := cs + [c];
    Tally.SeqAssoc(SelectAvailable, ClausesText(cs), ClauseText(c));
  }

  /** One optional bound on a column: a clause when present. */
  method PushBound(sql: string, params: seq<Param>, ghost cs: seq<Cond>,
                   col: Column, lo: Option<real>, hi: Option<real>)
    returns (sql': string, params': seq<Param>, ghost cs': seq<Cond>)
    requires sql == SelectAvailable + ClausesText(cs) && params == ClausesParams(cs)
    ensures sql' == SelectAvailable + ClausesText(cs') && params' == ClausesParams(cs')
    ensures forall t :: Selects(cs', t) <==> Selects(cs, t) && InRange(ColumnValue(t, col), lo, hi)
  {
    sql', params', cs' := sql, params, cs;
    if lo.Some? {
      sql', params', cs' := PushClause(sql', params', cs', AtLeast(col, lo.value));
    }
    if hi.Some? {
      sql', params', cs' := PushClause(sql', params', cs', AtMost(col, hi.value));
    }
  }

  /** `query_tracks`'s statement: the WHERE clauses and their parameters are
      pushed one optional filter at a time, then ORDER BY and LIMIT. The
      clauses select exactly the rows the filter describes. */
  method BuildQuery(f: TrackFilter) returns (sql: string, params: seq<Param>, ghost cs: seq<Cond>)
    ensures sql == SelectAvailable + ClausesText(cs)
                   + " ORDER BY " + SortColumn(f.sort) + " DESC"
                   + " LIMIT " + Strings.IntToString(Limit(f.limit))
    ensures params == ClausesParams(cs)
    ensures forall t :: Selects(cs, t) <==> Wanted(f, t)
  {
    sql, params, cs := PushBounds(f);
    if f.key.Some? {
      sql, params, cs := PushClause(sql, params, cs, KeyIs(f.key.value));
    }
    if f.search.Some? {
      sql, params, cs := PushClause(sql, params, cs, NameOrArtistsLike(SearchPattern(f.search.value)));
    }
    sql := sql + " ORDER BY " + SortColumn(f.sort) + " DESC";
    sql := sql + " LIMIT " + Strings.IntToString(Limit(f.limit));
  }

  /** The four optional audio-feature ranges, in the order the statement lists them. */
  method PushBounds(f: TrackFilter) returns (sql: string, params: seq<Param>, ghost cs: seq<Cond>)
    ensures sql == SelectAvailable + ClausesText(cs) && params == ClausesParams(cs)
    ensures forall t :: Selects(cs, t) <==>
      !t.unavailable
      && InRange(t.features.tempo, f.tempoMin, f.tempoMax)
      && InRange(t.features.energy, f.energyMin, f.energyMax)
      && InRange(t.features.danceability, f.danceabilityMin, f.danceabilityMax)
      && InRange(t.features.valence, f.valenceMin, f.valenceMax)
  {
    sql, params, cs := SelectAvailable, [], [];
    assert sql == SelectAvailable + ClausesText(cs);
    sql, params, cs := PushBound(sql, params, cs, Tempo, f.tempoMin, f.tempoMax);
    sql, params, cs := PushBound(sql, params, cs, Energy, f.energyMin, f.energyMax);
    sql, params, cs := PushBound(sql, params, cs, Danceability, f.danceabilityMin, f.danceabilityMax);
    sql, params, cs := PushBound(sql, params, cs, Valence, f.valenceMin, f.valenceMax);
  }

  /** No filter selects an unavailable row. */
  lemma NeverUnavailable(f: TrackFilter, t: Track)
    requires t.unavailable
    ensures !Wanted(f, t)
  {
  }

  // ---------------------------------------------------------------- ORDER BY

  /** A column value as SQLite orders it: NULL before numbers before text;
      text by code point, which is the byte order of its UTF-8 form. */
  datatype SqlValue = Null | Number(n: real) | Text(s: string)

  predicate SqlLe(a: SqlValue, b: SqlValue) {
    match (a, b)
    case (Null, _) => true
    case (Number(x), Number(y)) => x <= y
    case (Number(_), Text(_)) => true
    case (Text(x), Text(y)) => Strings.LexLe(x, y)
    case _ => false
  }

  function OfReal(v: Option<real>): SqlValue {
    if v.Some? then Number(v.value) else Null
  }

  /** The value of a whitelisted sort column. */
  function SortKey(t: Track, col: string): SqlValue {
    if col == "tempo" then OfReal(t.features.tempo)
    else if col == "energy" then OfReal(t.features.energy)
    else if col == "danceability" then OfReal(t.features.danceability)
    else if col == "valence" then OfReal(t.features.valence)
    else if col == "popularity" then
      (if t.popularity.Some? then Number(t.popularity.value as real) else Null)
    else Text(t.name)
  }

  /** `ORDER BY col DESC`: `a` may come before `b`. */
  function Descending(col: string): (Track, Track) -> bool {
    (a: Track, b: Track) => SqlLe(SortKey(b, col), SortKey(a, col))
  }

  /** A row of `tracks` with its key. */
  type Keyed = (string, Track)

  /** `ORDER BY col DESC` on keyed rows. */
  function ByColumn(col: string): (Keyed, Keyed) -> bool {
    (p: Keyed, q: Keyed) => Descending(col)(p.1, q.1)
  }

  function RowsOf(ps: seq<Keyed>): (r: seq<Track>)
    ensures |r| == |ps| && forall j :: 0 <= j < |ps| ==> r[j] == ps[j].1
  {
    seq(|ps|, j requires 0 <= j < |ps| => ps[j].1)
  }

  function KeysOfRows(ps: seq<Keyed>): (r: seq<string>)
    ensures |r| == |ps| && forall j :: 0 <= j < |ps| ==> r[j] == ps[j].0
  {
    seq(|ps|, j requires 0 <= j < |ps| => ps[j].0)
  }

  /** Every pair is a row of the table, one the filter wants. */
  predicate RowsOfTable(ps: seq<Keyed>, table: map<string, Track>, f: TrackFilter) {
    forall p :: p in ps ==> p.0 in table && p.1 == table[p.0] && Wanted(f, p.1)
  }

  /** The first `k` rows of a sorted, duplicate-free list of wanted rows
      that holds every wanted row: distinct keys, sorted, and every wanted
      row left out sorts after every row kept. */
  lemma TopRows(found: seq<Keyed>, sorted: seq<Keyed>, k: nat, table: map<string, Track>, f: TrackFilter)
    requires RowsOfTable(found, table, f) && Tally.Distinct(found)
    requires forall id :: id in table && Wanted(f, table[id]) ==> (id, table[id]) in found
    requires multiset(sorted) == multiset(found)
    requires Sorting.Sorted(sorted, ByColumn(SortColumn(f.sort)))
    requires k <= |sorted|
    ensures var ids := KeysOfRows(sorted[..k]); var rows := RowsOf(sorted[..k]);
      Tally.Distinct(ids) &&
      (forall j :: 0 <= j < k ==> ids[j] in table && rows[j] == table[ids[j]] && Wanted(f, rows[j])) &&
      Sorting.Sorted(rows, Descending(SortColumn(f.sort))) &&
      (k == |sorted| ==> forall id :: id in table && Wanted(f, table[id]) ==> id in ids) &&
      (forall id, j :: id in table && Wanted(f, table[id]) && id !in ids && 0 <= j < k ==>
        Descending(SortColumn(f.sort))(rows[j], table[id]))
  {
    Tally.PermutedDistinct(found, sorted);
    assert forall p :: p in sorted <==> p in found by {
      assert forall p :: p in sorted <==> p in multiset(sorted);
      assert forall p :: p in found <==> p in multiset(found);
    }
    KeptRows(sorted, k, table, f);
    LeftOutRows(sorted, k, table, f);
  }

  /** The kept rows of a duplicate-free sorted selection have distinct keys and stay sorted. */
  lemma KeptRows(sorted: seq<Keyed>, k: nat, table: map<string, Track>, f: TrackFilter)
    requires RowsOfTable(sorted, table, f) && Tally.Distinct(sorted)
    requires Sorting.Sorted(sorted, ByColumn(SortColumn(f.sort)))
    requires k <= |sorted|
    ensures var ids := KeysOfRows(sorted[..k]); var rows := RowsOf(sorted[..k]);
      Tally.Distinct(ids) &&
      (forall j :: 0 <= j < k ==> ids[j] in table && rows[j] == table[ids[j]] && Wanted(f, rows[j])) &&
      Sorting.Sorted(rows, Descending(SortColumn(f.sort)))
  {
    var ids := KeysOfRows(sorted[..k]);
    forall a, b | 0 <= a < b < k ensures ids[a] != ids[b] {
      assert sorted[a] in sorted && sorted[b] in sorted;
    }
    forall j | 0 <= j < k ensures ids[j] in table && sorted[j].1 == table[ids[j]] && Wanted(f, sorted[j].1) {
      assert sorted[j] in sorted;
    }
  }

  /** A wanted row that is not kept sits after the first `k`, so it sorts after each of them. */
  lemma LeftOutRows(sorted: seq<Keyed>, k: nat, table: map<string, Track>, f: TrackFilter)
    requires forall id :: id in table && Wanted(f, table[id]) ==> (id, table[id]) in sorted
    requires Sorting.Sorted(sorted, ByColumn(SortColumn(f.sort)))
    requires k <= |sorted|
    ensures var ids := KeysOfRows(sorted[..k]); var rows := RowsOf(sorted[..k]);
      (k == |sorted| ==> forall id :: id in table && Wanted(f, table[id]) ==> id in ids) &&
      (forall id, j :: id in table && Wanted(f, table[id]) && id !in ids && 0 <= j < k ==>
        Descending(SortColumn(f.sort))(rows[j], table[id]))
  {
    var col := SortColumn(f.sort);
    var ids := KeysOfRows(sorted[..k]);
    var rows := RowsOf(sorted[..k]);
    forall id | id in table && Wanted(f, table[id]) && id !in ids
      ensures forall j :: 0 <= j < k ==> Descending(col)(rows[j], table[id])
    {
      var i :| 0 <= i < |sorted| && sorted[i] == (id, table[id]);
      if i < k {
        assert false;
      }
    }
    if k == |sorted| {
      forall id | id in table && Wanted(f, table[id]) ensures id in ids {
        var i :| 0 <= i < |sorted| && sorted[i] == (id, table[id]);
        assert ids[i] == id;
      }
    }
  }

  lemma SqlLeTotal(a: SqlValue, b: SqlValue)
    ensures SqlLe(a, b) || SqlLe(b, a)
  {
    if a.Text? && b.Text? {
      Strings.LexTotal(a.s, b.s);
    }
  }

  lemma SqlLeTransitive(a: SqlValue, b: SqlValue, c: SqlValue)
    requires SqlLe(a, b) && SqlLe(b, c)
    ensures SqlLe(a, c)
  {
    if a.Text? && b.Text? && c.Text? {
      Strings.LexTransitive(a.s, b.s, c.s);
    }
  }

  lemma DescendingTotalPreorder(col: string)
    ensures Sorting.TotalPreorder(Descending(col))
  {
    var le := Descending(col);
    forall a: Track, b: Track ensures le(a, b) || le(b, a) {
      SqlLeTotal(SortKey(a, col), SortKey(b, col));
    }
    forall a: Track, b: Track, c: Track | le(a, b) && le(b, c) ensures le(a, c) {
      SqlLeTransitive(SortKey(c, col), SortKey(b, col), SortKey(a, col));
    }
  }

  lemma ByColumnTotalPreorder(col: string)
    ensures Sorting.TotalPreorder(ByColumn(col))
  {
    var le := ByColumn(col);
    var d := Descending(col);
    DescendingTotalPreorder(col);
    assert forall p: Keyed, q: Keyed :: le(p, q) == d(p.1, q.1);
    forall p: Keyed, q: Keyed ensures le(p, q) || le(q, p) {
      assert d(p.1, q.1) || d(q.1, p.1);
    }
    forall p: Keyed, q: Keyed, r: Keyed | le(p, q) && le(q, r) ensures le(p, r) {
      assert d(p.1, q.1) && d(q.1, r.1);
    }
  }

  // ------------------------------------------------------ LIKE as substring

  predicate NoWildcards(s: string) {
    forall i :: 0 <= i < |s| ==> s[i] != '%' && s[i] != '_'
  }

  /** `s` is a prefix of `t`, ASCII case ignored. */
  predicate CiPrefix(s: string, t: string) {
    |s| <= |t| && forall i :: 0 <= i < |s| ==> Strings.LowerChar(s[i]) == Strings.LowerChar(t[i])
  }

  /** `s` occurs in `t`, ASCII case ignored. */
  predicate CiContains(t: string, s: string) {
    exists i :: 0 <= i <= |t| && CiPrefix(s, t[i..])
  }

  lemma {:induction false} LikeAnything(t: string)
    ensures Like(t, "%")
    decreases |t|
  {
    assert "%"[1..] == "";
    if |t| > 0 {
      LikeAnything(t[1..]);
    }
  }

  lemma {:induction false} LikePrefix(t: string, s: string)
    requires NoWildcards(s)
    ensures Like(t, s + "%") <==> CiPrefix(s, t)
    decreases |s|
  {
    if |s| == 0 {
      assert s + "%" == "%";
      LikeAnything(t);
    } else {
      var p := s + "%";
      assert p[0] == s[0] && p[1..] == s[1..] + "%";
      if |t| > 0 {
        LikePrefix(t[1..], s[1..]);
        if CiPrefix(s[1..], t[1..]) && Strings.LowerChar(s[0]) == Strings.LowerChar(t[0]) {
          assert CiPrefix(s, t) by {
            forall i | 0 <= i < |s| ensures Strings.LowerChar(s[i]) == Strings.LowerChar(t[i]) {
              if i > 0 { assert s[1..][i - 1] == s[i] && t[1..][i - 1] == t[i]; }
            }
          }
        }
        if CiPrefix(s, t) {
          assert CiPrefix(s[1..], t[1..]) by {
            forall i | 0 <= i < |s| - 1
              ensures Strings.LowerChar(s[1..][i]) == Strings.LowerChar(t[1..][i])
            {
              assert s[1..][i] == s[i + 1] && t[1..][i] == t[i + 1];
            }
          }
        }
      }
    }
  }

  lemma {:induction false} LikeInfix(t: string, s: string)
    requires NoWildcards(s)
    ensures Like(t, "%" + (s + "%")) <==> CiContains(t, s)
    decreases |t|
  {
    var p := "%" + (s + "%");
    assert p[0] == '%' && p[1..] == s + "%";
    assert Like(t, p) <==> Like(t, s + "%") || (|t| > 0 && Like(t[1..], p));
    LikePrefix(t, s);
    assert t[0..] == t;
    if |t| > 0 {
      LikeInfix(t[1..], s);
      assert CiContains(t[1..], s) ==> CiContains(t, s) by {
        if CiContains(t[1..], s) {
          var i :| 0 <= i <= |t[1..]| && CiPrefix(s, t[1..][i..]);
          assert t[1..][i..] == t[i + 1..];
        }
      }
      assert CiContains(t, s) ==> CiPrefix(s, t) || CiContains(t[1..], s) by {
        if CiContains(t, s) {
          var i :| 0 <= i <= |t| && CiPrefix(s, t[i..]);
          if i > 0 {
            assert t[1..][i - 1..] == t[i..];
          }
        }
      }
    } else {
      assert CiContains(t, s) ==> CiPrefix(s, t) by {
        if CiContains(t, s) {
          var i :| 0 <= i <= |t| && CiPrefix(s, t[i..]);
          assert t[i..] == t;
        }
      }
    }
  }

  /** A search text without wildcards matches exactly the names and artist
      lists that contain it, ignoring ASCII case. */
  lemma SearchMeansSubstring(f: TrackFilter, t: Track)
    requires f.search.Some? && NoWildcards(f.search.value)
    ensures (Like(t.name, SearchPattern(f.search.value))
             || (t.artists.Some? && Like(t.artists.value, SearchPattern(f.search.value))))
        <==> (CiContains(t.name, f.search.value)
              || (t.artists.Some? && CiContains(t.artists.value, f.search.value)))
  {
    var s := f.search.value;
    assert SearchPattern(s) == "%" + (s + "%");
    LikeInfix(t.name, s);
    if t.artists.Some? {
      LikeInfix(t.artists.value, s);
    }
  }

  // ---------------------------------------------------------------- database

  class TrackDb {
    var tracks: map<string, Track>
    var config: map<string, string>
    var syncLog: seq<SyncLogRow>

    /** Every row is stored under its own Spotify id (the primary key). */
    ghost predicate Valid()
      reads this
    {
      forall id :: id in tracks ==> tracks[id].spotifyId == id
    }

    constructor()
      ensures Valid()
      ensures tracks == map[] && config == map[] && syncLog == []
    {
      tracks, config, syncLog := map[], map[], [];
    }

    /** `get_config`: the stored value, or nothing for an unknown key. */
    function GetConfig(key: string): (r: Option<string>)
      reads this
      ensures r.Some? <==> key in config
      ensures r.Some? ==> r.value == config[key]
    {
      if key in config then Some(config[key]) else None
    }

    /** `set_config`: INSERT OR REPLACE keeps one value per key. */
    method SetConfig(key: string, value: string)
      modifies this
      ensures config == old(config)[key := value]
      ensures tracks == old(tracks) && syncLog == old(syncLog)
      ensures GetConfig(key) == Some(value)
      ensures forall k :: k != key ==> GetConfig(k) == old(GetConfig(k))
    {
      config := config[key := value];
    }

    /** `get_track`. */
    function GetTrack(id: string): (r: Option<Track>)
      reads this
      ensures r.Some? <==> id in tracks
      ensures r.Some? ==> r.value == tracks[id]
    {
      if id in tracks then Some(tracks[id]) else None
    }

    /** `upsert_track`: insert a new row or update the stored one; true iff
        there was no row under that id. Other rows are untouched. */
    method UpsertTrack(t: Track, now: string) returns (inserted: bool)
      requires Valid()
      modifies this
      ensures Valid()
      ensures inserted <==> t.spotifyId !in old(tracks)
      ensures tracks == old(tracks)[t.spotifyId := Upserted(old(GetTrack(t.spotifyId)), t, now)]
      ensures t.spotifyId in tracks && tracks.Keys == old(tracks.Keys) + {t.spotifyId}
      ensures forall id :: id in old(tracks) && id != t.spotifyId ==> tracks[id] == old(tracks[id])
      ensures config == old(config) && syncLog == old(syncLog)
    {
      var existing := GetTrack(t.spotifyId);
      tracks := tracks[t.spotifyId := Upserted(existing, t, now)];
      inserted := existing.None?;
    }

    /** `query_tracks` as SQLite runs it: distinct rows the filter selects,
        in descending order of the sort column, no more than the limit (SQLite
        reads a negative LIMIT as none), every selected row when the limit does
        not cut, and otherwise the top rows: each selected row left out sorts
        after each row returned. `ids` names the key of each returned row.
        Rows that tie may come in any order. */
    method QueryTracks(f: TrackFilter) returns (rows: seq<Track>, ghost ids: seq<string>)
      ensures |ids| == |rows| && Tally.Distinct(ids)
      ensures forall j :: 0 <= j < |rows| ==> ids[j] in tracks && rows[j] == tracks[ids[j]] && Wanted(f, rows[j])
      ensures Sorting.Sorted(rows, Descending(SortColumn(f.sort)))
      ensures Limit(f.limit) >= 0 ==> |rows| <= Limit(f.limit)
      ensures Limit(f.limit) < 0 || |rows| < Limit(f.limit) ==>
        forall id :: id in tracks && Wanted(f, tracks[id]) ==> id in ids
      ensures forall id, j :: id in tracks && Wanted(f, tracks[id]) && id !in ids && 0 <= j < |rows| ==>
        Descending(SortColumn(f.sort))(rows[j], tracks[id])
    {
      var found: seq<Keyed> := [];
      var rest := tracks.Keys;
      while rest != {}
        invariant rest <= tracks.Keys
        invariant RowsOfTable(found, tracks, f) && Tally.Distinct(found)
        invariant forall p :: p in found ==> p.0 !in rest
        invariant forall id :: id in tracks && id !in rest && Wanted(f, tracks[id]) ==> (id, tracks[id]) in found
        decreases |rest|
      {
        var id :| id in rest;
        if Wanted(f, tracks[id]) {
          Tally.DistinctAppend(found, (id, tracks[id]));
          found := found + [(id, tracks[id])];
        }
        rest := rest - {id};
      }
      var col := SortColumn(f.sort);
      var sorted := Sorting.Sort(found, ByColumn(col));
      ByColumnTotalPreorder(col);
      Sorting.SortSorted(found, ByColumn(col));
      var n := Limit(f.limit);
      var k := if n < 0 || n >= |sorted| then |sorted| else n;
      TopRows(found, sorted, k, tracks, f);
      rows := RowsOf(sorted[..k]);
      ids := KeysOfRows(sorted[..k]);
    }

    /** `get_tracks_missing_features`: the available rows with no tempo. */
    function MissingFeatures(): (ids: set<string>)
      reads this
      ensures forall id :: id in ids <==>
        id in tracks && tracks[id].features.tempo.None? && !tracks[id].unavailable
    {
      set id | id in tracks && tracks[id].features.tempo.None? && !tracks[id].unavailable
    }

    /** `start_sync_log`: a new row with zero counts; its id is its rowid. */
    method StartSyncLog(now: string) returns (id: int)
      modifies this
      ensures syncLog == old(syncLog) + [SyncLogRow(now, None, 0, 0, 0, None)]
      ensures id == |syncLog| && 1 <= id
      ensures tracks == old(tracks) && config == old(config)
    {
      syncLog := syncLog + [SyncLogRow(now, None, 0, 0, 0, None)];
      id := |syncLog|;
    }

    /** `finish_sync_log`: fill in the row with that id; an unknown id
        updates nothing. */
    method FinishSyncLog(id: int, added: int, updated: int, unavailable: int,
                         error: Option<string>, now: string)
      modifies this
      ensures 1 <= id <= |old(syncLog)| ==>
        syncLog == old(syncLog)[id - 1 := old(syncLog)[id - 1].(
          finishedAt := Some(now), added := added, updated := updated,
          unavailable := unavailable, error := error)]
      ensures !(1 <= id <= |old(syncLog)|) ==> syncLog == old(syncLog)
      ensures tracks == old(tracks) && config == old(config)
    {
      if 1 <= id <= |syncLog| {
        syncLog := syncLog[id - 1 := syncLog[id - 1].(
          finishedAt := Some(now), added := added, updated := updated,
          unavailable := unavailable, error := error)];
      }
    }
  }

  /** After an upsert that brings a tempo, the track no longer misses features;
      an upsert without one leaves a stored tempo in place. */
  lemma UpsertAndMissingFeatures(existing: Option<Track>, t: Track, now: string)
    ensures t.features.tempo.Some? ==> Upserted(existing, t, now).features.tempo.Some?
    ensures existing.Some? && t.features.tempo.None? ==>
      Upserted(existing, t, now).features.tempo == existing.value.features.tempo
  {
  }
}

=== FILE: musikk_main.dfy ===
/** The command-line entry of the music library (musikk/src/main.rs): the
    `auth` command's callback parsing and token save, and the `sync`
    command's sync-log bookkeeping around a sync run. The TCP listener, the
    CLI parser and the environment are not modelled; the callback request
    line, the Spotify replies and the clock are parameters. */
module MusikkMain {
  import opened Wrappers
  import opened Strings
  import MusikkDb
  import MusikkSpotify
  import MusikkSync

  const CallbackPrefix := "/callback?code="

  /** The request target of an HTTP request line: its second
      whitespace-separated word. */
  function RequestTarget(line: string): (r: Option<string>)
    ensures r.Some? <==> |SplitWhitespace(line, IsRustSpace)| >= 2
    ensures r.Some? ==> r.value == SplitWhitespace(line, IsRustSpace)[1]
  {
    var words := SplitWhitespace(line, IsRustSpace);
    if |words| >= 2 then Some(words[1]) else None
  }

  /** The `auth` arm's parse of `GET /callback?code=xxx`: the request target
      must start with the callback prefix, and the code runs from there up to
      the first `&` or the end. */
  function CallbackCode(line: string): (r: Option<string>)
    ensures r.Some? <==> RequestTarget(line).Some? && CallbackPrefix <= RequestTarget(line).value
    ensures r.Some? ==>
      var target := RequestTarget(line).value;
      CallbackPrefix + r.value <= target && '&' !in r.value &&
      (|CallbackPrefix + r.value| < |target| ==> target[|CallbackPrefix + r.value|] == '&')
  {
    match RequestTarget(line)
    case None => None
    case Some(target) =>
      match StripPrefix(target, CallbackPrefix)
      case None => None
      case Some(rest) =>
        var code := BeforeFirst(rest, '&');
        PrefixExtends(CallbackPrefix, rest, code, target);
        Some(code)
  }

  /** A prefix of what follows `p` in `target`, put after `p`, is a prefix of `target`. */
  lemma PrefixExtends(p: string, rest: string, code: string, target: string)
    requires p + rest == target && code <= rest
    ensures p + code <= target
    ensures |p + code| < |target| ==> |code| < |rest| && target[|p + code|] == rest[|code|]
  {
    assert target[..|p| + |code|] == p + rest[..|code|];
  }

  /** A request line `<method> <prefix><code>[&...] <version>` yields the code
      back: the parse inverts the redirect Spotify sends. */
  lemma CallbackCodeRoundTrip(verb: string, code: string, query: string, version: string)
    requires Token(verb, IsRustSpace) && NoSpace(code, IsRustSpace) && NoSpace(query, IsRustSpace)
    requires '&' !in code && (query == [] || query[0] == '&')
    requires NoSpace(version, IsRustSpace)
    ensures CallbackCode(verb + " " + (CallbackPrefix + code + query) + " " + version) == Some(code)
  {
    var target := CallbackPrefix + code + query;
    TargetToken(code, query);
    SecondWord(verb, target, version, IsRustSpace);
    StripCallback(code, query);
    BeforeFirstStops(code, query);
  }

  lemma TargetToken(code: string, query: string)
    requires NoSpace(code, IsRustSpace) && NoSpace(query, IsRustSpace)
    ensures Token(CallbackPrefix + code + query, IsRustSpace)
  {
    assert NoSpace(CallbackPrefix, IsRustSpace);
    NoSpaceJoin(CallbackPrefix, code, IsRustSpace);
    NoSpaceJoin(CallbackPrefix + code, query, IsRustSpace);
  }

  lemma NoSpaceJoin(a: string, b: string, ws: char -> bool)
    requires NoSpace(a, ws) && NoSpace(b, ws)
    ensures NoSpace(a + b, ws)
  {
    forall j | 0 <= j < |a + b| ensures !ws((a + b)[j]) {
      assert j >= |a| ==> (a + b)[j] == b[j - |a|];
    }
  }

  lemma StripCallback(code: string, query: string)
    ensures StripPrefix(CallbackPrefix + code + query, CallbackPrefix) == Some(code + query)
  {
    assert CallbackPrefix + code + query == CallbackPrefix + (code + query);
  }

  /** The second word of `<verb> <target> <version>` is the target. */
  lemma SecondWord(verb: string, target: string, version: string, ws: char -> bool)
    requires Token(verb, ws) && Token(target, ws) && ws(' ')
    ensures var words := SplitWhitespace(verb + " " + target + " " + version, ws);
      |words| >= 2 && words[1] == target
  {
    var tail := " " + version;
    var a := [' '] + (target + tail);
    LineParts(verb, target, version);
    SplitWhitespaceToken(verb, a, ws);
    SplitWhitespaceSpace(' ', target + tail, ws);
    SplitWhitespaceToken(target, tail, ws);
    SecondOf(verb, target, SplitWhitespace(tail, ws));
  }

  lemma LineParts(verb: string, target: string, version: string)
    ensures verb + " " + target + " " + version == verb + ([' '] + (target + (" " + version)))
    ensures ([' '] + (target + (" " + version)))[0] == ' '
  {
  }

  lemma SecondOf(a: string, b: string, rest: seq<string>)
    ensures |[a] + ([b] + rest)| >= 2 && ([a] + ([b] + rest))[1] == b
  {
  }

  /** The part before the first `&` of `code + query` is `code` when `query`
      is empty or starts the next parameter. */
  lemma BeforeFirstStops(code: string, query: string)
    requires '&' !in code && (query == [] || query[0] == '&')
    ensures BeforeFirst(code + query, '&') == code
  {
    var s := code + query;
    var r := BeforeFirst(s, '&');
    assert forall j :: 0 <= j < |code| ==> s[j] == code[j];
    assert forall j :: 0 <= j < |r| ==> s[j] == r[j];
    assert query != [] ==> s[|code|] == query[0];
    assert |r| == |code|;
    assert r == s[..|code|];
  }

  /** The `auth` command once the browser has called back: parse the code,
      exchange it, and store the refresh token only when the reply carries
      one. A failed parse or exchange aborts the command with its message. */
  method Authorize(db: MusikkDb.TrackDb, client: MusikkSpotify.SpotifyClient, requestLine: string,
                   send: MusikkSpotify.Form -> MusikkSpotify.HttpReply<MusikkSpotify.TokenResponse>)
    returns (r: Result<MusikkSpotify.TokenResponse, string>)
    modifies db, client
    ensures r.Err? ==> db.config == old(db.config)
    ensures CallbackCode(requestLine).None? ==> r == Err("failed to parse code")
    ensures r.Ok? ==> CallbackCode(requestLine).Some?
    ensures r.Ok? ==>
      db.config == if r.value.refreshToken.Some?
                   then old(db.config)[MusikkSync.RefreshTokenKey := r.value.refreshToken.value]
                   else old(db.config)
    ensures db.tracks == old(db.tracks) && db.syncLog == old(db.syncLog)
  {
    var code := CallbackCode(requestLine);
    if code.None? {
      return Err("failed to parse code");
    }
    var token := client.ExchangeCode(code.value, send);
    if token.Err? {
      return Err("failed to exchange code");
    }
    if token.value.refreshToken.Some? {
      db.SetConfig(MusikkSync.RefreshTokenKey, token.value.refreshToken.value);
    }
    r := Ok(token.value);
  }

  /** The row `finish_sync_log` leaves for a sync run: the counts of a
      successful run, or zero counts and the error of a failed one. */
  function FinishedRow(startedAt: string, finishedAt: string, r: Result<MusikkSync.SyncResult, string>)
    : (row: MusikkDb.SyncLogRow)
    ensures row.startedAt == startedAt && row.finishedAt == Some(finishedAt)
    ensures r.Ok? ==> row.added == r.value.added && row.updated == r.value.updated &&
                      row.unavailable == r.value.unavailable && row.error.None?
    ensures r.Err? ==> row.added == 0 && row.updated == 0 && row.unavailable == 0 &&
                       row.error == Some(r.error)
  {
    match r
    case Ok(s) => MusikkDb.SyncLogRow(startedAt, Some(finishedAt), s.added, s.updated, s.unavailable, None)
    case Err(e) => MusikkDb.SyncLogRow(startedAt, Some(finishedAt), 0, 0, 0, Some(e))
  }

  /** The `sync` command: a log row is started only for a real run, the sync
      runs, and the row is finished with its outcome. */
  method SyncCommand(db: MusikkDb.TrackDb, remote: MusikkSync.Remote, dryRun: bool,
                     startedAt: string, now: string, finishedAt: string)
    returns (r: Result<MusikkSync.SyncResult, string>)
    requires db.Valid()
    modifies db
    ensures db.Valid()
    ensures dryRun ==> db.syncLog == old(db.syncLog)
    ensures !dryRun ==> db.syncLog == old(db.syncLog) + [FinishedRow(startedAt, finishedAt, r)]
    ensures r.Err? ==> db.tracks == old(db.tracks) && db.config == old(db.config)
    ensures old(db.GetConfig(MusikkSync.RefreshTokenKey)).None? ==> r == Err(MusikkSync.NoRefreshToken)
  {
    var logId: Option<int> := None;
    if !dryRun {
      var id := db.StartSyncLog(startedAt);
      logId := Some(id);
    }
    ghost var collected, needs, bs, recco, fetched;
    r, collected, needs, bs, recco, fetched := MusikkSync.RunSync(db, remote, dryRun, now);
    if logId.Some? {
      var row := FinishedRow(startedAt, finishedAt, r);
      db.FinishSyncLog(logId.value, row.added, row.updated, row.unavailable, row.error, finishedAt);
    }
  }
}

=== FILE: musikk_spotify.dfy ===
/** The Spotify and Reccobeats clients of the music library
    (musikk/src/spotify.rs). Every HTTP exchange is a parameter: a function
    from the request to the reply the server gives, with the JSON body
    already decoded (or the decoding error). */
module MusikkSpotify {
  import opened Wrappers
  import Strings

  const SpotifyAuthUrl := "https://accounts.spotify.com/authorize"
  const SpotifyApiUrl := "https://api.spotify.com/v1"
  const ReccobeatsApiUrl := "https://api.reccobeats.com/v1"
  const Scopes := "user-library-read playlist-read-private playlist-read-collaborative"

  /** What one HTTP request came back with. */
  datatype HttpReply<T> =
    | SendFailed(error: string)
    | Reply(status: int, statusText: string, text: string, body: Result<T, string>)

  predicate IsSuccess(status: int) {
    200 <= status < 300
  }

  datatype TokenResponse = TokenResponse(accessToken: string, refreshToken: Option<string>, expiresIn: int)

  // ------------------------------------------------------------ URL encoding

  /** The characters `urlencoding::encode` leaves as they are. */
  predicate Unreserved(c: char) {
    ('A' <= c <= 'Z') || ('a' <= c <= 'z') || ('0' <= c <= '9') || c == '-' || c == '.' || c == '_' || c == '~'
  }

  /** The UTF-8 bytes of a Unicode scalar value. */
  function Utf8(c: char): (bs: seq<nat>)
    ensures 1 <= |bs| <= 4
    ensures forall i :: 0 <= i < |bs| ==> bs[i] < 256
    ensures c as int < 0x80 ==> bs == [c as int]
  {
    var n := c as int;
    if n < 0x80 then [n]
    else if n < 0x800 then [0xC0 + n / 64, 0x80 + n % 64]
    else if n < 0x1_0000 then [0xE0 + n / 4096, 0x80 + (n / 64) % 64, 0x80 + n % 64]
    else [0xF0 + n / 262144, 0x80 + (n / 4096) % 64, 0x80 + (n / 64) % 64, 0x80 + n % 64]
  }

  function HexUpper(d: nat): (c: char)
    requires d < 16
    ensures Unreserved(c)
  {
    if d < 10 then ('0' as int + d) as char else ('A' as int + d - 10) as char
  }

  function HexValue(c: char): Option<nat> {
    if '0' <= c <= '9' then Some(c as int - '0' as int)
    else if 'A' <= c <= 'F' then Some(c as int - 'A' as int + 10)
    else if 'a' <= c <= 'f' then Some(c as int - 'a' as int + 10)
    else None
  }

  lemma HexValueOfUpper(d: nat)
    requires d < 16
    ensures HexValue(HexUpper(d)) == Some(d)
  {
  }

  function PercentBytes(bs: seq<nat>): (r: string)
    requires forall i :: 0 <= i < |bs| ==> bs[i] < 256
    ensures |r| == 3 * |bs|
    ensures forall i :: 0 <= i < |r| ==> r[i] == '%' || Unreserved(r[i])
  {
    if |bs| == 0 then ""
    else "%" + [HexUpper(bs[0] / 16), HexUpper(bs[0] % 16)] + PercentBytes(bs[1..])
  }

  /** `urlencoding::encode`: unreserved characters stay, every other byte of
      the UTF-8 form becomes `%XX` with upper-case hex digits. */
  function UrlEncode(s: string): (r: string)
    ensures forall i :: 0 <= i < |r| ==> r[i] == '%' || Unreserved(r[i])
    decreases |s|
  {
    if |s| == 0 then ""
    else (if Unreserved(s[0]) then [s[0]] else PercentBytes(Utf8(s[0]))) + UrlEncode(s[1..])
  }

  /** Percent-decoding into single-byte characters, the inverse of the
      encoding on ASCII text. */
  function UrlDecodeAscii(t: string): string
    decreases |t|
  {
    if |t| == 0 then ""
    else if t[0] == '%' && |t| >= 3 && HexValue(t[1]).Some? && HexValue(t[2]).Some? then
      [(HexValue(t[1]).value * 16 + HexValue(t[2]).value) as char] + UrlDecodeAscii(t[3..])
    else [t[0]] + UrlDecodeAscii(t[1..])
  }

  predicate IsAscii(s: string) {
    forall i :: 0 <= i < |s| ==> s[i] as int < 0x80
  }

  lemma DecodeOneChar(c: char, rest: string)
    requires c as int < 0x80
    ensures UrlDecodeAscii((if Unreserved(c) then [c] else PercentBytes(Utf8(c))) + rest)
         == [c] + UrlDecodeAscii(rest)
  {
    if Unreserved(c) {
      assert ([c] + rest)[1..] == rest;
    } else {
      var n := c as int;
      var e := PercentBytes([n]);
      assert e == "%" + [HexUpper(n / 16), HexUpper(n % 16)] + PercentBytes([n][1..]);
      assert [n][1..] == [];
      HexValueOfUpper(n / 16);
      HexValueOfUpper(n % 16);
      var t := e + rest;
      assert t[0] == '%' && t[1] == HexUpper(n / 16) && t[2] == HexUpper(n % 16);
      assert t[3..] == rest;
    }
  }

  /** Decoding undoes the encoding of ASCII text. */
  lemma {:induction false} UrlEncodeRoundTrip(s: string)
    requires IsAscii(s)
    ensures UrlDecodeAscii(UrlEncode(s)) == s
    decreases |s|
  {
    if |s| > 0 {
      assert IsAscii(s[1..]);
      UrlEncodeRoundTrip(s[1..]);
      DecodeOneChar(s[0], UrlEncode(s[1..]));
      assert [s[0]] + s[1..] == s;
    }
  }

  /** An encoded value cannot end its query parameter early. */
  lemma UrlEncodeHasNoDelimiters(s: string)
    ensures '&' !in UrlEncode(s) && '=' !in UrlEncode(s) && '?' !in UrlEncode(s) && ' ' !in UrlEncode(s)
  {
  }

  /** Text made of unreserved characters is encoded as itself. */
  lemma {:induction false} UrlEncodeUnreserved(s: string)
    requires forall i :: 0 <= i < |s| ==> Unreserved(s[i])
    ensures UrlEncode(s) == s
    decreases |s|
  {
    if |s| > 0 {
      UrlEncodeUnreserved(s[1..]);
      assert [s[0]] + s[1..] == s;
    }
  }

  // ------------------------------------------------------------ Spotify ids

  const TrackUrlPrefix := "https://open.spotify.com/track/"

  /** `ReccoTrackInfo::spotify_id`: the track id at the end of an
      `open.spotify.com/track/` link. */
  function SpotifyIdOf(href: Option<string>): (r: Option<string>)
    ensures r.Some? <==> href.Some? && TrackUrlPrefix <= href.value
    ensures r.Some? ==> href.value == TrackUrlPrefix + r.value
  {
    if href.Some? then Strings.StripPrefix(href.value, TrackUrlPrefix) else None
  }

  lemma SpotifyIdOfTrackUrl(id: string)
    ensures SpotifyIdOf(Some(TrackUrlPrefix + id)) == Some(id)
  {
    assert TrackUrlPrefix <= TrackUrlPrefix + id;
    assert (TrackUrlPrefix + id)[|TrackUrlPrefix|..] == id;
  }

  datatype ReccoTrackInfo = ReccoTrackInfo(id: string, name: Option<string>, href: Option<string>)

  // --------------------------------------------------------------- paging

  datatype Page<T> = Page(items: seq<T>, next: Option<string>)

  /** Following `next` links from `url`, an error or a last page comes within
      `n` more requests. */
  ghost predicate ChainEnds<T>(get: string -> Result<Page<T>, string>, url: string, n: nat)
    decreases n
  {
    match get(url)
    case Err(_) => true
    case Ok(p) => p.next.None? || (n > 0 && ChainEnds(get, p.next.value, n - 1))
  }

  /** `pages` is what requesting `url` and then each page's `next` link
      returned, in order. */
  ghost predicate Follows<T>(get: string -> Result<Page<T>, string>, url: string, pages: seq<Page<T>>) {
    |pages| > 0 && get(url) == Ok(pages[0]) &&
    forall i :: 0 <= i < |pages| - 1 ==>
      pages[i].next.Some? && get(pages[i].next.value) == Ok(pages[i + 1])
  }

  function ItemsOf<T>(pages: seq<Page<T>>): seq<T> {
    if |pages| == 0 then [] else ItemsOf(pages[..|pages| - 1]) + pages[|pages| - 1].items
  }

  /** The paged fetchers (`get_saved_tracks`, `get_saved_albums`,
      `get_playlists`, `get_playlist_tracks`): request pages along the `next`
      links, collecting the items, until a page has no `next`. The result is
      every item of every page in order; the first failed request is the
      error. */
  method FetchAll<T(==)>(get: string -> Result<Page<T>, string>, first: string, ghost n: nat)
    returns (r: Result<seq<T>, string>)
    requires ChainEnds(get, first, n)
    ensures r.Ok? ==>
      exists pages: seq<Page<T>> ::
        Follows(get, first, pages) && pages[|pages| - 1].next.None? && r.value == ItemsOf(pages)
    ensures r.Err? ==>
      get(first) == Err(r.error) ||
      exists pages: seq<Page<T>> ::
        Follows(get, first, pages) && pages[|pages| - 1].next.Some?
        && get(pages[|pages| - 1].next.value) == Err(r.error)
  {
    var all: seq<T> := [];
    var url := first;
    ghost var pages: seq<Page<T>> := [];
    ghost var fuel := n;
    while true
      invariant ChainEnds(get, url, fuel)
      invariant pages == [] ==> url == first
      invariant pages != [] ==> Follows(get, first, pages) && pages[|pages| - 1].next == Some(url)
      invariant all == ItemsOf(pages)
      decreases fuel
    {
      var page := get(url);
      if page.Err? {
        return Err(page.error);
      }
      ghost var before := pages;
      all := all + page.value.items;
      pages := pages + [page.value];
      assert pages[..|pages| - 1] == before;
      assert Follows(get, first, pages) by {
        if before != [] {
          forall i | 0 <= i < |pages| - 1
            ensures pages[i].next.Some? && get(pages[i].next.value) == Ok(pages[i + 1])
          {
            if i < |before| - 1 {
              assert pages[i] == before[i] && pages[i + 1] == before[i + 1];
            }
          }
        }
      }
      match page.value.next {
        case None =>
          return Ok(all);
        case Some(next) =>
          url := next;
          fuel := fuel - 1;
      }
    }
  }

  /** A single page without a `next` link is the whole result. */
  lemma OnePage<T>(get: string -> Result<Page<T>, string>, url: string, items: seq<T>)
    requires get(url) == Ok(Page(items, None))
    ensures Follows(get, url, [Page(items, None)]) && ItemsOf([Page(items, None)]) == items
  {
    assert [Page(items, None)][..0] == [];
  }

  // ---------------------------------------------------- batches and lookups

  /** The present entries of a list with nulls, in order. */
  function Somes<T>(xs: seq<Option<T>>): (r: seq<T>)
    ensures |r| <= |xs|
  {
    if |xs| == 0 then []
    else Somes(xs[..|xs| - 1]) + (if xs[|xs| - 1].Some? then [xs[|xs| - 1].value] else [])
  }

  lemma {:induction false} SomesAppend<T>(xs: seq<Option<T>>, ys: seq<Option<T>>)
    ensures Somes(xs + ys) == Somes(xs) + Somes(ys)
    decreases |ys|
  {
    if |ys| == 0 {
      assert xs + ys == xs;
    } else {
      var last := ys[|ys| - 1];
      assert (xs + ys)[..|xs + ys| - 1] == xs + ys[..|ys| - 1];
      SomesAppend(xs, ys[..|ys| - 1]);
    }
  }

  lemma {:induction false} SomesMembers<T>(xs: seq<Option<T>>, y: T)
    ensures y in Somes(xs) <==> Some(y) in xs
    decreases |xs|
  {
    if |xs| > 0 {
      SomesMembers(xs[..|xs| - 1], y);
      assert xs == xs[..|xs| - 1] + [xs[|xs| - 1]];
    }
  }

  /** `get_audio_features_batch`: no ids, no request and no features;
      otherwise the non-null features of the reply, in order. */
  function AudioFeaturesBatch<F>(ids: seq<string>, send: string -> Result<seq<Option<F>>, string>)
    : (r: Result<seq<F>, string>)
    ensures |ids| == 0 ==> r == Ok([])
    ensures |ids| > 0 ==> r.Ok? == send(BatchUrl(ids)).Ok?
    ensures |ids| > 0 && r.Ok? ==> r.value == Somes(send(BatchUrl(ids)).value)
  {
    if |ids| == 0 then Ok([])
    else
      match send(BatchUrl(ids))
      case Err(e) => Err(e)
      case Ok(xs) => Ok(Somes(xs))
  }

  function BatchUrl(ids: seq<string>): string {
    SpotifyApiUrl + "/audio-features?ids=" + Strings.Join(ids, ",")
  }

  function ReccoLookupUrl(ids: seq<string>): string {
    ReccobeatsApiUrl + "/track?ids=" + Strings.Join(ids, ",")
  }

  /** `get_tracks_by_spotify_ids`: no ids, no request; a non-success status
      is an error carrying the status and the reply text. */
  function TracksBySpotifyIds(ids: seq<string>, send: string -> HttpReply<seq<ReccoTrackInfo>>)
    : (r: Result<seq<ReccoTrackInfo>, string>)
    ensures |ids| == 0 ==> r == Ok([])
    ensures |ids| > 0 && send(ReccoLookupUrl(ids)).Reply? && !IsSuccess(send(ReccoLookupUrl(ids)).status) ==>
      r == Err("recco track lookup failed " + send(ReccoLookupUrl(ids)).statusText + ": " + send(ReccoLookupUrl(ids)).text)
    ensures r.Ok? && |ids| > 0 ==>
      send(ReccoLookupUrl(ids)).Reply? && IsSuccess(send(ReccoLookupUrl(ids)).status)
      && send(ReccoLookupUrl(ids)).body == Ok(r.value)
  {
    if |ids| == 0 then Ok([])
    else
      match send(ReccoLookupUrl(ids))
      case SendFailed(e) => Err(e)
      case Reply(status, statusText, text, body) =>
        if !IsSuccess(status) then Err("recco track lookup failed " + statusText + ": " + text)
        else body
  }

  function FeaturesUrl(reccoId: string): string {
    ReccobeatsApiUrl + "/track/" + reccoId + "/audio-features"
  }

  /** `get_audio_features`: 404 and every other non-success status mean "no
      features", not an error; transport and decoding failures are errors. */
  function AudioFeatures<F>(reccoId: string, send: string -> HttpReply<F>): (r: Result<Option<F>, string>)
    ensures r == Ok(None) <==> send(FeaturesUrl(reccoId)).Reply? && !IsSuccess(send(FeaturesUrl(reccoId)).status)
    ensures send(FeaturesUrl(reccoId)).Reply? && send(FeaturesUrl(reccoId)).status == 404 ==> r == Ok(None)
    ensures r.Ok? && r.value.Some? ==> send(FeaturesUrl(reccoId)).Reply? && send(FeaturesUrl(reccoId)).body == Ok(r.value.value)
    ensures send(FeaturesUrl(reccoId)).SendFailed? ==> r == Err(send(FeaturesUrl(reccoId)).error)
  {
    match send(FeaturesUrl(reccoId))
    case SendFailed(e) => Err(e)
    case Reply(status, _, _, body) =>
      if status == 404 then Ok(None)
      else if !IsSuccess(status) then Ok(None)
      else
        match body
        case Err(e) => Err(e)
        case Ok(f) => Ok(Some(f))
  }

  // ------------------------------------------------------------------ client

  /** Form fields of a token request. */
  type Form = map<string, string>

  class SpotifyClient {
    const clientId: string
    const clientSecret: string
    const redirectUri: string
    var accessToken: Option<string>

    constructor(clientId: string, clientSecret: string, redirectUri: string)
      ensures this.clientId == clientId && this.clientSecret == clientSecret
      ensures this.redirectUri == redirectUri && accessToken == None
    {
      this.clientId, this.clientSecret, this.redirectUri := clientId, clientSecret, redirectUri;
      accessToken := None;
    }

    /** `auth_url`: the authorize endpoint with the client id, the code flow,
        and the redirect and scopes percent-encoded (see `UrlEncodeRoundTrip`
        and `UrlEncodeHasNoDelimiters`). */
    function AuthUrl(): string {
      SpotifyAuthUrl + "?client_id=" + clientId + "&response_type=code&redirect_uri="
        + UrlEncode(redirectUri) + "&scope=" + UrlEncode(Scopes)
    }

    /** `exchange_code`: posts the code; the decoded token's access token is
        kept for later requests. The status is not checked. */
    method ExchangeCode(code: string, send: Form -> HttpReply<TokenResponse>)
      returns (r: Result<TokenResponse, string>)
      modifies this
      ensures var reply := send(map["grant_type" := "authorization_code", "code" := code, "redirect_uri" := redirectUri]);
        (reply.SendFailed? ==> r == Err(reply.error)) &&
        (reply.Reply? ==> r == reply.body)
      ensures r.Ok? ==> accessToken == Some(r.value.accessToken)
      ensures r.Err? ==> accessToken == old(accessToken)
    {
      var reply := send(map["grant_type" := "authorization_code", "code" := code, "redirect_uri" := redirectUri]);
      match reply {
        case SendFailed(e) =>
          r := Err(e);
        case Reply(_, _, _, body) =>
          r := body;
          if body.Ok? {
            accessToken := Some(body.value.accessToken);
          }
      }
    }

    /** `refresh_token`: a non-success status is an error with the reply
        text; a decoded token replaces the access token. */
    method RefreshToken(refreshToken: string, send: Form -> HttpReply<TokenResponse>)
      returns (r: Result<TokenResponse, string>)
      modifies this
      ensures var reply := send(map["grant_type" := "refresh_token", "refresh_token" := refreshToken]);
        (reply.SendFailed? ==> r == Err(reply.error)) &&
        (reply.Reply? && !IsSuccess(reply.status) ==> r == Err("token refresh failed: " + reply.text)) &&
        (reply.Reply? && IsSuccess(reply.status) ==> r == reply.body)
      ensures r.Ok? ==> accessToken == Some(r.value.accessToken)
      ensures r.Err? ==> accessToken == old(accessToken)
    {
      var reply := send(map["grant_type" := "refresh_token", "refresh_token" := refreshToken]);
      match reply {
        case SendFailed(e) =>
          r := Err(e);
        case Reply(status, _, text, body) =>
          if !IsSuccess(status) {
            r := Err("token refresh failed: " + text);
          } else {
            r := body;
            if body.Ok? {
              accessToken := Some(body.value.accessToken);
            }
          }
      }
    }

    method SetAccessToken(token: string)
      modifies this
      ensures accessToken == Some(token)
    {
      accessToken := Some(token);
    }

    /** `get`: no request without an access token; a non-success status is
        an `api error` with the reply text. */
    function Get<T>(send: string -> HttpReply<T>, url: string): (r: Result<T, string>)
      reads this
      ensures accessToken.None? ==> r == Err("no access token")
      ensures accessToken.Some? && send(url).Reply? && !IsSuccess(send(url).status) ==>
        r == Err("api error: " + send(url).text)
      ensures r.Ok? ==>
        accessToken.Some? && send(url).Reply? && IsSuccess(send(url).status) && send(url).body == r
    {
      if accessToken.None? then Err("no access token")
      else
        match send(url)
        case SendFailed(e) => Err(e)
        case Reply(status, _, text, body) =>
          if !IsSuccess(status) then Err("api error: " + text) else body
    }
  }
}

=== FILE: musikk_sync.dfy ===
/** Library sync of the music library (musikk/src/sync.rs): gather the liked
    songs, saved albums and owned playlists into one map keyed by Spotify id,
    look up audio features for the tracks that lack them, and upsert every
    track. Spotify and Reccobeats replies are parameters. */
module MusikkSync {
  import opened Wrappers
  import JsonStrings
  import JsonStringsRoundTrip
  import Tally
  import Batching
  import MusikkDb
  import MusikkSpotify

  type Track = MusikkDb.Track

  // ------------------------------------------------------------ merge_source

  /** The list a `sources` column holds; absent or unparseable text reads as
      the empty list. */
  function SourcesOf(sources: Option<string>): seq<string> {
    if sources.Some? && JsonStrings.Decode(sources.value).Some? then JsonStrings.Decode(sources.value).value
    else []
  }

  /** `merge_source`: append `source` to the track's JSON list unless it is
      already there; only `sources` changes. */
  function MergeSource(t: Track, source: string): (r: Track)
    ensures r == t.(sources := r.sources)
  {
    var sources := SourcesOf(t.sources);
    if source in sources then t else t.(sources := Some(JsonStrings.Encode(sources + [source])))
  }

  /** The list grows by `source` exactly when it was missing. */
  lemma MergeSourceList(t: Track, source: string)
    ensures SourcesOf(MergeSource(t, source).sources) ==
      if source in SourcesOf(t.sources) then SourcesOf(t.sources) else SourcesOf(t.sources) + [source]
  {
    if source !in SourcesOf(t.sources) {
      JsonStringsRoundTrip.EncodeRoundTrip(SourcesOf(t.sources) + [source]);
    }
  }

  /** Merging keeps the list free of duplicates and adds `source` to it. */
  lemma MergeSourceDistinct(t: Track, source: string)
    requires Tally.Distinct(SourcesOf(t.sources))
    ensures Tally.Distinct(SourcesOf(MergeSource(t, source).sources))
    ensures source in SourcesOf(MergeSource(t, source).sources)
  {
    MergeSourceList(t, source);
    var xs := SourcesOf(t.sources);
    if source !in xs {
      Tally.DistinctAppend(xs, source);
    }
  }

  // ----------------------------------------------------- what Spotify reports

  datatype AlbumRef = AlbumRef(id: string, name: string)

  /** A track object; `id` is null for local files. Artists are their names. */
  datatype SpotifyTrack = SpotifyTrack(
    id: Option<string>, name: string, artists: seq<string>, album: AlbumRef,
    durationMs: int, popularity: int)

  datatype AlbumTrack = AlbumTrack(id: string, name: string, artists: seq<string>, durationMs: int)

  datatype SavedAlbum = SavedAlbum(id: string, name: string, tracks: seq<AlbumTrack>)

  datatype Playlist = Playlist(id: string, name: string, ownerId: string)

  /** A track first seen, before any source is merged or features fetched. */
  function NewTrack(id: string, name: string, artists: seq<string>, album: AlbumRef,
                    durationMs: int, popularity: Option<int>): (t: Track)
    ensures t.spotifyId == id && t.sources.None? && t.features == MusikkDb.NoFeatures
  {
    MusikkDb.Track(id, None, name, Some(JsonStrings.Encode(artists)), Some(album.id), Some(album.name),
      Some(durationMs), popularity, None, None, MusikkDb.NoFeatures, false, None, None, None)
  }

  /** One appearance of a track in the library, with the source label it
      brings: `liked`, `album:<id>` or the playlist name. */
  datatype Sighting = Sighting(track: Track, source: string)

  function LikedSighting(t: SpotifyTrack): seq<Sighting> {
    if t.id.None? then []
    else [Sighting(NewTrack(t.id.value, t.name, t.artists, t.album, t.durationMs, Some(t.popularity)), "liked")]
  }

  function AlbumSighting(a: SavedAlbum, t: AlbumTrack): Sighting {
    Sighting(NewTrack(t.id, t.name, t.artists, AlbumRef(a.id, a.name), t.durationMs, None), "album:" + a.id)
  }

  function PlaylistSighting(p: Playlist, item: Option<SpotifyTrack>): seq<Sighting> {
    if item.None? || item.value.id.None? then []
    else
      var t := item.value;
      [Sighting(NewTrack(t.id.value, t.name, t.artists, t.album, t.durationMs, Some(t.popularity)), p.name)]
  }

  function LikedSightings(saved: seq<SpotifyTrack>): seq<Sighting> {
    if |saved| == 0 then [] else LikedSightings(saved[..|saved| - 1]) + LikedSighting(saved[|saved| - 1])
  }

  function AlbumTrackSightings(a: SavedAlbum, ts: seq<AlbumTrack>): seq<Sighting> {
    if |ts| == 0 then [] else AlbumTrackSightings(a, ts[..|ts| - 1]) + [AlbumSighting(a, ts[|ts| - 1])]
  }

  function AlbumSightings(albums: seq<SavedAlbum>): seq<Sighting> {
    if |albums| == 0 then []
    else AlbumSightings(albums[..|albums| - 1]) + AlbumTrackSightings(albums[|albums| - 1], albums[|albums| - 1].tracks)
  }

  function ItemSightings(p: Playlist, items: seq<Option<SpotifyTrack>>): seq<Sighting> {
    if |items| == 0 then [] else ItemSightings(p, items[..|items| - 1]) + PlaylistSighting(p, items[|items| - 1])
  }

  /** A playlist whose tracks could not be fetched contributes nothing. */
  function FetchedSightings(p: Playlist, fetched: Result<seq<Option<SpotifyTrack>>, string>): seq<Sighting> {
    if fetched.Ok? then ItemSightings(p, fetched.value) else []
  }

  function PlaylistSightings(owned: seq<Playlist>, fetch: string -> Result<seq<Option<SpotifyTrack>>, string>)
    : seq<Sighting>
  {
    if |owned| == 0 then []
    else PlaylistSightings(owned[..|owned| - 1], fetch) + FetchedSightings(owned[|owned| - 1], fetch(owned[|owned| - 1].id))
  }

  /** The playlists the user owns, in order. */
  function Owned(playlists: seq<Playlist>, userId: string): (r: seq<Playlist>)
    ensures forall p :: p in r <==> p in playlists && p.ownerId == userId
  {
    if |playlists| == 0 then []
    else
      assert playlists == playlists[..|playlists| - 1] + [playlists[|playlists| - 1]];
      Owned(playlists[..|playlists| - 1], userId)
        + (if playlists[|playlists| - 1].ownerId == userId then [playlists[|playlists| - 1]] else [])
  }

  /** Every appearance, in the order the sync visits them: liked songs, then
      saved albums, then owned playlists. */
  function Sightings(saved: seq<SpotifyTrack>, albums: seq<SavedAlbum>, owned: seq<Playlist>,
                     fetch: string -> Result<seq<Option<SpotifyTrack>>, string>): seq<Sighting>
  {
    LikedSightings(saved) + AlbumSightings(albums) + PlaylistSightings(owned, fetch)
  }

  // ------------------------------------------------------------- track map

  /** `tracks.entry(id).or_insert_with(fresh)` followed by a merge of the
      sighting's label. The map is written generic in the merge: what it
      says about keys and first appearances holds for any merge that keeps
      everything but `sources`. */
  function StepWith(merge: (Track, string) -> Track, m: map<string, Track>, s: Sighting): map<string, Track> {
    var id := s.track.spotifyId;
    var entry := if id in m then m[id] else s.track;
    m[id := merge(entry, s.source)]
  }

  function CollectWith(merge: (Track, string) -> Track, ss: seq<Sighting>): map<string, Track> {
    if |ss| == 0 then map[] else StepWith(merge, CollectWith(merge, ss[..|ss| - 1]), ss[|ss| - 1])
  }

  /** One step of the sync's map building, with `merge_source`. */
  function Step(m: map<string, Track>, s: Sighting): map<string, Track> {
    StepWith(MergeSource, m, s)
  }

  /** The map the sync builds from a run of sightings. */
  function Collect(ss: seq<Sighting>): map<string, Track> {
    CollectWith(MergeSource, ss)
  }

  lemma CollectSnoc(ss: seq<Sighting>, s: Sighting)
    ensures Collect(ss + [s]) == Step(Collect(ss), s)
  {
    assert (ss + [s])[..|ss|] == ss;
  }

  /** A merge that changes nothing but the source list. */
  ghost predicate OnlySources(merge: (Track, string) -> Track) {
    forall t, source :: merge(t, source) == t.(sources := merge(t, source).sources)
  }

  lemma MergeSourceOnlySources()
    ensures OnlySources(MergeSource)
  {
    forall t, source ensures MergeSource(t, source) == t.(sources := MergeSource(t, source).sources) {
    }
  }

  /** The source labels of the appearances of `id`, in order. */
  function LabelsOf(ss: seq<Sighting>, id: string): seq<string> {
    if |ss| == 0 then []
    else LabelsOf(ss[..|ss| - 1], id) + (if ss[|ss| - 1].track.spotifyId == id then [ss[|ss| - 1].source] else [])
  }

  /** Some sighting carries `id`. */
  ghost predicate Seen(ss: seq<Sighting>, id: string) {
    exists i :: 0 <= i < |ss| && ss[i].track.spotifyId == id
  }

  lemma {:induction false} CollectKeysWith(merge: (Track, string) -> Track, ss: seq<Sighting>)
    requires OnlySources(merge)
    ensures forall id :: id in CollectWith(merge, ss) <==> Seen(ss, id)
    ensures forall id :: id in CollectWith(merge, ss) ==> CollectWith(merge, ss)[id].spotifyId == id
    decreases |ss|
  {
    if |ss| > 0 {
      var pre := ss[..|ss| - 1];
      CollectKeysWith(merge, pre);
      forall id ensures Seen(pre, id) ==> Seen(ss, id) {
        if Seen(pre, id) {
          var i :| 0 <= i < |pre| && pre[i].track.spotifyId == id;
          assert ss[i] == pre[i];
        }
      }
      forall id ensures Seen(ss, id) ==> Seen(pre, id) || id == ss[|ss| - 1].track.spotifyId {
        if Seen(ss, id) {
          var i :| 0 <= i < |ss| && ss[i].track.spotifyId == id;
          if i < |pre| {
            assert pre[i] == ss[i];
          }
        }
      }
    }
  }

  /** The map holds one entry per id that appears, stored under that id. */
  lemma CollectKeys(ss: seq<Sighting>)
    ensures forall id :: id in Collect(ss) <==> Seen(ss, id)
    ensures forall id :: id in Collect(ss) ==> Collect(ss)[id].spotifyId == id
  {
    MergeSourceOnlySources();
    CollectKeysWith(MergeSource, ss);
  }

  lemma {:induction false} CollectFirstWinsWith(merge: (Track, string) -> Track, ss: seq<Sighting>, k: nat)
    requires OnlySources(merge)
    requires k < |ss|
    requires forall j :: 0 <= j < k ==> ss[j].track.spotifyId != ss[k].track.spotifyId
    ensures ss[k].track.spotifyId in CollectWith(merge, ss)
    ensures CollectWith(merge, ss)[ss[k].track.spotifyId] ==
      ss[k].track.(sources := CollectWith(merge, ss)[ss[k].track.spotifyId].sources)
    decreases |ss|
  {
    var id := ss[k].track.spotifyId;
    var pre := ss[..|ss| - 1];
    if k == |ss| - 1 {
      CollectKeysWith(merge, pre);
      forall i | 0 <= i < |pre| ensures pre[i].track.spotifyId != id {
        assert pre[i] == ss[i];
      }
      assert !Seen(pre, id);
    } else {
      assert pre[k] == ss[k];
      forall j | 0 <= j < k ensures pre[j].track.spotifyId != pre[k].track.spotifyId {
        assert pre[j] == ss[j];
      }
      CollectFirstWinsWith(merge, pre, k);
    }
  }

  /** First occurrence wins: a track keeps the metadata of its first
      appearance; later appearances only add their source labels. */
  lemma CollectFirstWins(ss: seq<Sighting>, k: nat)
    requires k < |ss|
    requires forall j :: 0 <= j < k ==> ss[j].track.spotifyId != ss[k].track.spotifyId
    ensures ss[k].track.spotifyId in Collect(ss)
    ensures Collect(ss)[ss[k].track.spotifyId] ==
      ss[k].track.(sources := Collect(ss)[ss[k].track.spotifyId].sources)
  {
    MergeSourceOnlySources();
    CollectFirstWinsWith(MergeSource, ss, k);
  }

  /** The sources of a collected track are its labels without repeats, in
      order of first appearance, as long as fresh tracks carry no sources. */
  lemma {:induction false} CollectSources(ss: seq<Sighting>, id: string)
    requires forall i :: 0 <= i < |ss| ==> ss[i].track.sources.None?
    requires id in Collect(ss)
    ensures SourcesOf(Collect(ss)[id].sources) == Tally.Dedup(LabelsOf(ss, id))
    ensures Tally.Distinct(SourcesOf(Collect(ss)[id].sources))
    decreases |ss|
  {
    var pre := ss[..|ss| - 1];
    var s := ss[|ss| - 1];
    var labels := LabelsOf(ss, id);
    Tally.DedupDistinct(labels);
    if s.track.spotifyId == id {
      assert labels == LabelsOf(pre, id) + [s.source];
      assert labels[..|labels| - 1] == LabelsOf(pre, id);
      if id in Collect(pre) {
        CollectSources(pre, id);
        MergeSourceList(Collect(pre)[id], s.source);
      } else {
        CollectKeys(pre);
        assert LabelsOf(pre, id) == [] by {
          NoLabels(pre, id);
        }
        assert SourcesOf(s.track.sources) == [];
        MergeSourceList(s.track, s.source);
        assert Tally.Dedup(LabelsOf(pre, id)) == [];
      }
    } else {
      assert labels == LabelsOf(pre, id);
      CollectSources(pre, id);
    }
  }

  lemma {:induction false} NoLabels(ss: seq<Sighting>, id: string)
    requires !Seen(ss, id)
    ensures LabelsOf(ss, id) == []
    decreases |ss|
  {
    if |ss| > 0 {
      var pre := ss[..|ss| - 1];
      forall i | 0 <= i < |pre| ensures pre[i].track.spotifyId != id {
        assert pre[i] == ss[i];
      }
      NoLabels(pre, id);
    }
  }

  // --------------------------------------------------------------- features

  /** The stored tempo decides whether a track needs features: it does when
      it is not in the database or has no tempo there. */
  predicate NeedsFeatures(stored: map<string, Track>, id: string) {
    id !in stored || stored[id].features.tempo.None?
  }

  /** The track `run_sync` upserts: a found Reccobeats id is recorded;
      fetched features replace the track's; otherwise a stored row's
      `recco_id` and features are copied in. */
  function Prepared(t: Track, recco: map<string, string>, fetched: map<string, MusikkDb.Features>,
                    existing: Option<Track>): (r: Track)
    ensures r == t.(reccoId := r.reccoId, features := r.features)
    ensures t.spotifyId in fetched ==> r.features == fetched[t.spotifyId]
    ensures t.spotifyId !in fetched && existing.Some? ==>
      r.features == existing.value.features && r.reccoId == existing.value.reccoId
    ensures t.spotifyId !in fetched && existing.None? ==> r.features == t.features
    ensures (t.spotifyId in fetched || existing.None?) ==>
      r.reccoId == if t.spotifyId in recco then Some(recco[t.spotifyId]) else t.reccoId
  {
    var id := t.spotifyId;
    var t1 := if id in recco then t.(reccoId := Some(recco[id])) else t;
    if id in fetched then t1.(features := fetched[id])
    else if existing.Some? then t1.(reccoId := existing.value.reccoId, features := existing.value.features)
    else t1
  }

  lemma CoalesceFeaturesSelf(f: MusikkDb.Features)
    ensures MusikkDb.CoalesceFeatures(f, f) == f
  {
  }

  /** A sync never loses stored features: the saved row holds the fetched
      features over the stored ones, or the stored ones unchanged. */
  lemma SyncKeepsFeatures(t: Track, recco: map<string, string>, fetched: map<string, MusikkDb.Features>,
                          existing: Option<Track>, now: string)
    requires existing.Some? ==> existing.value.spotifyId == t.spotifyId
    ensures var row := MusikkDb.Upserted(existing, Prepared(t, recco, fetched, existing), now);
      (t.spotifyId in fetched && existing.Some? ==>
        row.features == MusikkDb.CoalesceFeatures(fetched[t.spotifyId], existing.value.features)) &&
      (t.spotifyId !in fetched && existing.Some? ==>
        row.features == existing.value.features && row.reccoId == existing.value.reccoId) &&
      (existing.None? ==> row.features == Prepared(t, recco, fetched, existing).features)
  {
    if existing.Some? && t.spotifyId !in fetched {
      CoalesceFeaturesSelf(existing.value.features);
    }
  }

  /** The ids of the lookup replies that carry a Spotify link, mapped to their
      Reccobeats ids; later replies overwrite earlier ones. */
  function InsertInfos(m: map<string, string>, infos: seq<MusikkSpotify.ReccoTrackInfo>): map<string, string> {
    if |infos| == 0 then m
    else
      var m' := InsertInfos(m, infos[..|infos| - 1]);
      var info := infos[|infos| - 1];
      var sid := MusikkSpotify.SpotifyIdOf(info.href);
      if sid.Some? then m'[sid.value := info.id] else m'
  }

  function ReccoMap(bs: seq<seq<string>>, lookup: seq<string> -> Result<seq<MusikkSpotify.ReccoTrackInfo>, string>)
    : map<string, string>
  {
    if |bs| == 0 then map[]
    else
      var m := ReccoMap(bs[..|bs| - 1], lookup);
      var reply := lookup(bs[|bs| - 1]);
      if reply.Ok? then InsertInfos(m, reply.value) else m
  }

  /** Step 1: ask Reccobeats for the tracks in batches of 40; a failed
      batch is skipped. */
  method LookupReccoIds(needs: seq<string>, lookup: seq<string> -> Result<seq<MusikkSpotify.ReccoTrackInfo>, string>)
    returns (recco: map<string, string>, ghost bs: seq<seq<string>>)
    ensures Batching.Flatten(bs) == needs && Batching.WellSized(bs, 40)
    ensures recco == ReccoMap(bs, lookup)
  {
    var batches := Batching.Batches(needs, 40);
    bs := batches;
    recco := map[];
    var i := 0;
    while i < |batches|
      invariant 0 <= i <= |batches|
      invariant recco == ReccoMap(batches[..i], lookup)
    {
      assert batches[..i + 1][..i] == batches[..i];
      var reply := lookup(batches[i]);
      if reply.Ok? {
        var infos := reply.value;
        var j := 0;
        ghost var base := recco;
        while j < |infos|
          invariant 0 <= j <= |infos|
          invariant recco == InsertInfos(base, infos[..j])
        {
          assert infos[..j + 1][..j] == infos[..j];
          var sid := MusikkSpotify.SpotifyIdOf(infos[j].href);
          if sid.Some? {
            recco := recco[sid.value := infos[j].id];
          }
          j := j + 1;
        }
        assert infos[..|infos|] == infos;
      }
      i := i + 1;
    }
    assert batches[..|batches|] == batches;
  }

  /** Step 2: fetch the features of every track Reccobeats knows; missing
      features and failed requests are skipped. */
  method FetchFeatures(recco: map<string, string>, features: string -> Result<Option<MusikkDb.Features>, string>)
    returns (fetched: map<string, MusikkDb.Features>)
    ensures forall sid :: sid in fetched <==>
      sid in recco && features(recco[sid]).Ok? && features(recco[sid]).value.Some?
    ensures forall sid :: sid in fetched ==> fetched[sid] == features(recco[sid]).value.value
  {
    fetched := map[];
    var rest := recco.Keys;
    while rest != {}
      invariant rest <= recco.Keys
      invariant forall sid :: sid in fetched <==>
        sid in recco && sid !in rest && features(recco[sid]).Ok? && features(recco[sid]).value.Some?
      invariant forall sid :: sid in fetched ==> fetched[sid] == features(recco[sid]).value.value
      decreases |rest|
    {
      var sid :| sid in rest;
      var reply := features(recco[sid]);
      if reply.Ok? && reply.value.Some? {
        fetched := fetched[sid := reply.value.value];
      }
      rest := rest - {sid};
    }
  }

  // ----------------------------------------------------------------- run_sync

  const RefreshTokenKey := "spotify_refresh_token"
  const NoRefreshToken := "no refresh token - run 'musikk auth' first"

  datatype SyncResult = SyncResult(added: int, updated: int, unavailable: int)

  /** Everything the sync asks of Spotify and Reccobeats, as the replies it
      gets. */
  datatype Remote = Remote(
    refresh: string -> Result<MusikkSpotify.TokenResponse, string>,
    userId: Result<string, string>,
    saved: Result<seq<SpotifyTrack>, string>,
    albums: Result<seq<SavedAlbum>, string>,
    playlists: Result<seq<Playlist>, string>,
    playlistTracks: string -> Result<seq<Option<SpotifyTrack>>, string>,
    lookup: seq<string> -> Result<seq<MusikkSpotify.ReccoTrackInfo>, string>,
    features: string -> Result<Option<MusikkDb.Features>, string>)

  lemma Snoc<T>(a: seq<T>, b: seq<T>, c: seq<T>)
    ensures a + (b + c) == a + b + c
  {
  }

  /** Adds one sighting to the map built so far. */
  method Add(tracks: map<string, Track>, ghost ss: seq<Sighting>, ghost done: seq<Sighting>, s: Sighting)
    returns (tracks': map<string, Track>, ghost ss': seq<Sighting>)
    requires tracks == Collect(ss + done)
    ensures ss' == done + [s] && tracks' == Collect(ss + ss')
  {
    CollectSnoc(ss + done, s);
    Snoc(ss, done, [s]);
    tracks' := Step(tracks, s);
    ss' := done + [s];
  }

  /** The liked songs: every track with an id, labelled `liked`. */
  method AddLiked(tracks: map<string, Track>, ghost ss: seq<Sighting>, saved: seq<SpotifyTrack>)
    returns (tracks': map<string, Track>)
    requires tracks == Collect(ss)
    ensures tracks' == Collect(ss + LikedSightings(saved))
  {
    tracks' := tracks;
    ghost var done: seq<Sighting> := [];
    assert ss + done == ss;
    for i := 0 to |saved|
      invariant done == LikedSightings(saved[..i])
      invariant tracks' == Collect(ss + done)
    {
      assert saved[..i + 1][..i] == saved[..i];
      var t := saved[i];
      if t.id.Some? {
        var s := Sighting(NewTrack(t.id.value, t.name, t.artists, t.album, t.durationMs, Some(t.popularity)), "liked");
        tracks', done := Add(tracks', ss, done, s);
      }
    }
    assert saved[..|saved|] == saved;
  }

  /** The tracks of one saved album, labelled `album:<id>`. */
  method AddAlbum(tracks: map<string, Track>, ghost ss: seq<Sighting>, a: SavedAlbum)
    returns (tracks': map<string, Track>)
    requires tracks == Collect(ss)
    ensures tracks' == Collect(ss + AlbumTrackSightings(a, a.tracks))
  {
    tracks' := tracks;
    ghost var done: seq<Sighting> := [];
    assert ss + done == ss;
    for j := 0 to |a.tracks|
      invariant done == AlbumTrackSightings(a, a.tracks[..j])
      invariant tracks' == Collect(ss + done)
    {
      assert a.tracks[..j + 1][..j] == a.tracks[..j];
      tracks', done := Add(tracks', ss, done, AlbumSighting(a, a.tracks[j]));
    }
    assert a.tracks[..|a.tracks|] == a.tracks;
  }

  method AddAlbums(tracks: map<string, Track>, ghost ss: seq<Sighting>, albums: seq<SavedAlbum>)
    returns (tracks': map<string, Track>)
    requires tracks == Collect(ss)
    ensures tracks' == Collect(ss + AlbumSightings(albums))
  {
    tracks' := tracks;
    assert ss + AlbumSightings(albums[..0]) == ss;
    for i := 0 to |albums|
      invariant tracks' == Collect(ss + AlbumSightings(albums[..i]))
    {
      assert albums[..i + 1][..i] == albums[..i];
      Snoc(ss, AlbumSightings(albums[..i]), AlbumTrackSightings(albums[i], albums[i].tracks));
      tracks' := AddAlbum(tracks', ss + AlbumSightings(albums[..i]), albums[i]);
    }
    assert albums[..|albums|] == albums;
  }

  /** The items of one playlist that are tracks with an id, labelled with
      the playlist's name. */
  method AddPlaylistItems(tracks: map<string, Track>, ghost ss: seq<Sighting>, p: Playlist,
                          items: seq<Option<SpotifyTrack>>)
    returns (tracks': map<string, Track>)
    requires tracks == Collect(ss)
    ensures tracks' == Collect(ss + ItemSightings(p, items))
  {
    tracks' := tracks;
    ghost var done: seq<Sighting> := [];
    assert ss + done == ss;
    for j := 0 to |items|
      invariant done == ItemSightings(p, items[..j])
      invariant tracks' == Collect(ss + done)
    {
      assert items[..j + 1][..j] == items[..j];
      var item := items[j];
      if item.Some? && item.value.id.Some? {
        var t := item.value;
        var s := Sighting(NewTrack(t.id.value, t.name, t.artists, t.album, t.durationMs, Some(t.popularity)), p.name);
        tracks', done := Add(tracks', ss, done, s);
      }
    }
    assert items[..|items|] == items;
  }

  method AddPlaylists(tracks: map<string, Track>, ghost ss: seq<Sighting>, owned: seq<Playlist>,
                      fetch: string -> Result<seq<Option<SpotifyTrack>>, string>)
    returns (tracks': map<string, Track>)
    requires tracks == Collect(ss)
    ensures tracks' == Collect(ss + PlaylistSightings(owned, fetch))
  {
    tracks' := tracks;
    assert ss + PlaylistSightings(owned[..0], fetch) == ss;
    for i := 0 to |owned|
      invariant tracks' == Collect(ss + PlaylistSightings(owned[..i], fetch))
    {
      assert owned[..i + 1][..i] == owned[..i];
      var p := owned[i];
      var fetched := fetch(p.id);
      ghost var pre := PlaylistSightings(owned[..i], fetch);
      assert PlaylistSightings(owned[..i + 1], fetch) == pre + FetchedSightings(p, fetched);
      Snoc(ss, pre, FetchedSightings(p, fetched));
      if fetched.Ok? {
        tracks' := AddPlaylistItems(tracks', ss + pre, p, fetched.value);
      } else {
        assert ss + pre + FetchedSightings(p, fetched) == ss + pre;
      }
    }
    assert owned[..|owned|] == owned;
  }

  /** Gather the library: liked songs, album tracks, owned playlists' tracks.
      Local files (no id) and playlists that fail to load are skipped. */
  method CollectTracks(saved: seq<SpotifyTrack>, albums: seq<SavedAlbum>, owned: seq<Playlist>,
                       fetch: string -> Result<seq<Option<SpotifyTrack>>, string>)
    returns (tracks: map<string, Track>)
    ensures tracks == Collect(Sightings(saved, albums, owned, fetch))
  {
    assert [] + LikedSightings(saved) == LikedSightings(saved);
    tracks := AddLiked(map[], [], saved);
    tracks := AddAlbums(tracks, LikedSightings(saved), albums);
    tracks := AddPlaylists(tracks, LikedSightings(saved) + AlbumSightings(albums), owned, fetch);
  }

  /** The ids that need features, each once. */
  method TracksNeedingFeatures(stored: map<string, Track>, tracks: map<string, Track>) returns (needs: seq<string>)
    ensures Tally.Distinct(needs)
    ensures forall id :: id in needs <==> id in tracks && NeedsFeatures(stored, id)
  {
    needs := [];
    var rest := tracks.Keys;
    while rest != {}
      invariant rest <= tracks.Keys
      invariant Tally.Distinct(needs)
      invariant forall id :: id in needs <==> id in tracks && id !in rest && NeedsFeatures(stored, id)
      decreases |rest|
    {
      var id :| id in rest;
      if NeedsFeatures(stored, id) {
        needs := needs + [id];
      }
      rest := rest - {id};
    }
  }

  /** The ids of `tracks` in the order the save loop visits them. A
      `HashMap` iterates in no fixed order, so any order will do. */
  method KeysOf(tracks: map<string, Track>) returns (ids: seq<string>)
    ensures Tally.Distinct(ids)
    ensures forall id :: id in ids <==> id in tracks
  {
    ids := [];
    var rest := tracks.Keys;
    while rest != {}
      invariant rest <= tracks.Keys
      invariant Tally.Distinct(ids)
      invariant forall id :: id in ids <==> id in tracks && id !in rest
      decreases |rest|
    {
      var id :| id in rest;
      ids := ids + [id];
      rest := rest - {id};
    }
  }

  /** The row the save loop writes for `id`: the upsert of the prepared
      track over the row stored before the loop. */
  ghost function SavedRows(stored: map<string, Track>, tracks: map<string, Track>, recco: map<string, string>,
                           fetched: map<string, MusikkDb.Features>, now: string): (rows: map<string, Track>)
    ensures rows.Keys == tracks.Keys
  {
    map id | id in tracks ::
      MusikkDb.Upserted(if id in stored then Some(stored[id]) else None,
        Prepared(tracks[id], recco, fetched, if id in stored then Some(stored[id]) else None), now)
  }

  /** The table after the rows of `done` are written, in that order, over
      `stored`. */
  function Overlay(stored: map<string, Track>, rows: map<string, Track>, done: seq<string>): map<string, Track>
    requires forall id :: id in done ==> id in rows
  {
    if |done| == 0 then stored
    else Overlay(stored, rows, done[..|done| - 1])[done[|done| - 1] := rows[done[|done| - 1]]]
  }

  /** How many of `done` were not stored: the inserts. */
  function CountNew(done: seq<string>, stored: map<string, Track>): nat {
    if |done| == 0 then 0 else CountNew(done[..|done| - 1], stored) + if done[|done| - 1] in stored then 0 else 1
  }

  lemma {:induction false} NotDoneYet(stored: map<string, Track>, rows: map<string, Track>, done: seq<string>,
                                      id: string)
    requires forall k :: k in done ==> k in rows
    requires id !in done
    ensures id in Overlay(stored, rows, done) <==> id in stored
    ensures id in stored ==> Overlay(stored, rows, done)[id] == stored[id]
    decreases |done|
  {
    if |done| > 0 {
      assert done[|done| - 1] in done;
      NotDoneYet(stored, rows, done[..|done| - 1], id);
    }
  }

  /** Once every id is done, the table holds the new rows of those ids and
      the stored rows of the others. */
  lemma {:induction false} OverlayEnd(stored: map<string, Track>, rows: map<string, Track>, done: seq<string>,
                                      keys: set<string>)
    requires forall k :: k in done ==> k in rows
    requires forall k :: k in done <==> k in keys
    ensures Overlay(stored, rows, done).Keys == stored.Keys + keys
    ensures forall k :: k in keys ==> Overlay(stored, rows, done)[k] == rows[k]
    ensures forall k :: k in stored && k !in keys ==> Overlay(stored, rows, done)[k] == stored[k]
    decreases |done|
  {
    if |done| > 0 {
      var last := done[|done| - 1];
      var pre := done[..|done| - 1];
      var preKeys := set k | k in pre;
      forall k ensures k in keys <==> k in preKeys || k == last {
        if k in keys {
          var j :| 0 <= j < |done| && done[j] == k;
          if j < |pre| {
            assert pre[j] == k;
          }
        }
      }
      OverlayEnd(stored, rows, pre, preKeys);
    }
  }

  /** Distinct ids listing `keys` count `keys`, and their inserts count the
      keys not stored. */
  lemma {:induction false} CountEnd(ids: seq<string>, keys: set<string>, stored: map<string, Track>)
    requires Tally.Distinct(ids)
    requires forall k :: k in ids <==> k in keys
    ensures |ids| == |keys| && CountNew(ids, stored) == |keys - stored.Keys|
    decreases |ids|
  {
    if |ids| == 0 {
      assert keys == {};
    } else {
      var last := ids[|ids| - 1];
      var pre := ids[..|ids| - 1];
      var preKeys := keys - {last};
      LastIsNew(ids);
      forall k | k in pre ensures k in preKeys {
        var j :| 0 <= j < |pre| && pre[j] == k;
        assert ids[j] == k;
      }
      forall k | k in preKeys ensures k in pre {
        var j :| 0 <= j < |ids| && ids[j] == k;
        assert j < |pre| && pre[j] == k;
      }
      assert Tally.Distinct(pre) by {
        forall i, j | 0 <= i < j < |pre| ensures pre[i] != pre[j] {
          assert pre[i] == ids[i] && pre[j] == ids[j];
        }
      }
      CountEnd(pre, preKeys, stored);
      RemoveOne(keys, last, stored.Keys);
    }
  }

  lemma LastIsNew(ids: seq<string>)
    requires Tally.Distinct(ids) && |ids| > 0
    ensures ids[|ids| - 1] !in ids[..|ids| - 1]
  {
    var pre := ids[..|ids| - 1];
    forall j | 0 <= j < |pre| ensures pre[j] != ids[|ids| - 1] {
      assert pre[j] == ids[j];
    }
  }

  lemma RemoveOne(keys: set<string>, x: string, stored: set<string>)
    requires x in keys
    ensures |keys| == |keys - {x}| + 1
    ensures |keys - stored| == |keys - {x} - stored| + if x in stored then 0 else 1
  {
    assert keys == keys - {x} + {x};
    if x in stored {
      assert keys - stored == keys - {x} - stored;
    } else {
      assert keys - stored == (keys - {x} - stored) + {x};
    }
  }

  /** One pass of the save loop: the stored row decides what `Prepared`
      copies in, and the prepared track is upserted. */
  method SaveOne(db: MusikkDb.TrackDb, t: Track, recco: map<string, string>,
                 fetched: map<string, MusikkDb.Features>, now: string)
    returns (isNew: bool)
    requires db.Valid()
    modifies db
    ensures db.Valid()
    ensures isNew <==> t.spotifyId !in old(db.tracks)
    ensures db.tracks == old(db.tracks)[t.spotifyId :=
      MusikkDb.Upserted(old(db.GetTrack(t.spotifyId)), Prepared(t, recco, fetched, old(db.GetTrack(t.spotifyId))), now)]
    ensures db.config == old(db.config) && db.syncLog == old(db.syncLog)
  {
    var existing := db.GetTrack(t.spotifyId);
    var track := Prepared(t, recco, fetched, existing);
    isNew := db.UpsertTrack(track, now);
  }

  /** The save loop from one id to the next: the table and the counts move
      from `ids[..i]` to `ids[..i + 1]`. */
  method SaveNext(db: MusikkDb.TrackDb, tracks: map<string, Track>, recco: map<string, string>,
                  fetched: map<string, MusikkDb.Features>, now: string, ids: seq<string>, i: nat,
                  ghost stored: map<string, Track>, added: nat, updated: nat)
    returns (added': nat, updated': nat)
    requires Tally.Distinct(ids) && i < |ids|
    requires forall id :: id in ids ==> id in tracks
    requires forall id :: id in tracks ==> tracks[id].spotifyId == id
    requires db.Valid()
    requires added + updated == i && added == CountNew(ids[..i], stored)
    requires db.tracks == Overlay(stored, SavedRows(stored, tracks, recco, fetched, now), ids[..i])
    modifies db
    ensures db.Valid()
    ensures added' + updated' == i + 1 && added' == CountNew(ids[..i + 1], stored)
    ensures db.tracks == Overlay(stored, SavedRows(stored, tracks, recco, fetched, now), ids[..i + 1])
    ensures db.config == old(db.config) && db.syncLog == old(db.syncLog)
  {
    ghost var rows := SavedRows(stored, tracks, recco, fetched, now);
    var id := ids[i];
    assert ids[..i + 1][..i] == ids[..i] && ids[..i + 1][i] == id;
    assert id !in ids[..i] by {
      forall j | 0 <= j < i ensures ids[..i][j] != id {
        assert ids[..i][j] == ids[j];
      }
    }
    NotDoneYet(stored, rows, ids[..i], id);
    var isNew := SaveOne(db, tracks[id], recco, fetched, now);
    added', updated' := added, updated;
    if isNew {
      added' := added' + 1;
    } else {
      updated' := updated' + 1;
    }
  }

  /** The save loop: upsert every collected track, counting inserts and
      updates. Each id is written once, so the row a track meets is the one
      stored before the loop. */
  method SaveTracks(db: MusikkDb.TrackDb, tracks: map<string, Track>, recco: map<string, string>,
                    fetched: map<string, MusikkDb.Features>, now: string)
    returns (added: nat, updated: nat)
    requires db.Valid()
    requires forall id :: id in tracks ==> tracks[id].spotifyId == id
    modifies db
    ensures db.Valid()
    ensures added + updated == |tracks.Keys|
    ensures added == |tracks.Keys - old(db.tracks).Keys|
    ensures db.tracks.Keys == old(db.tracks).Keys + tracks.Keys
    ensures forall id :: id in tracks ==>
      db.tracks[id] == MusikkDb.Upserted(old(db.GetTrack(id)), Prepared(tracks[id], recco, fetched, old(db.GetTrack(id))), now)
    ensures forall id :: id in old(db.tracks) && id !in tracks ==> db.tracks[id] == old(db.tracks)[id]
    ensures db.config == old(db.config) && db.syncLog == old(db.syncLog)
  {
    ghost var stored := db.tracks;
    var ids := KeysOf(tracks);
    added, updated := 0, 0;
    assert ids[..0] == [];
    for i := 0 to |ids|
      invariant db.Valid()
      invariant added + updated == i && added == CountNew(ids[..i], stored)
      invariant db.tracks == Overlay(stored, SavedRows(stored, tracks, recco, fetched, now), ids[..i])
      invariant db.config == old(db.config) && db.syncLog == old(db.syncLog)
    {
      added, updated := SaveNext(db, tracks, recco, fetched, now, ids, i, stored, added, updated);
    }
    assert ids[..|ids|] == ids;
    OverlayEnd(stored, SavedRows(stored, tracks, recco, fetched, now), ids, tracks.Keys);
    CountEnd(ids, tracks.Keys, stored);
  }

  /** What the Reccobeats steps of `run_sync` found for the tracks about to
      be saved: `needs` holds, once each, the tracks not stored or stored
      without a tempo; they are looked up in consecutive batches of 40;
      `recco` maps the Spotify ids the succeeding replies name to their
      Reccobeats ids; and `fetched` holds the features each request for a
      known track returned. */
  ghost predicate FeaturesLookedUp(stored: map<string, Track>, tracks: map<string, Track>,
                                   lookup: seq<string> -> Result<seq<MusikkSpotify.ReccoTrackInfo>, string>,
                                   features: string -> Result<Option<MusikkDb.Features>, string>,
                                   needs: seq<string>, bs: seq<seq<string>>,
                                   recco: map<string, string>, fetched: map<string, MusikkDb.Features>)
  {
    Tally.Distinct(needs) &&
    (forall id :: id in needs <==> id in tracks && NeedsFeatures(stored, id)) &&
    Batching.Flatten(bs) == needs && Batching.WellSized(bs, 40) &&
    recco == ReccoMap(bs, lookup) &&
    (forall sid :: sid in fetched <==>
      sid in recco && features(recco[sid]).Ok? && features(recco[sid]).value.Some?) &&
    (forall sid :: sid in fetched ==> fetched[sid] == features(recco[sid]).value.value)
  }

  /** The writing half of `run_sync`: save the new refresh token if one
      came, find the tracks that need features, look them up on Reccobeats
      and save every track. */
  method StoreLibrary(db: MusikkDb.TrackDb, newRefresh: Option<string>, tracks: map<string, Track>,
                      lookup: seq<string> -> Result<seq<MusikkSpotify.ReccoTrackInfo>, string>,
                      features: string -> Result<Option<MusikkDb.Features>, string>, now: string)
    returns (added: nat, updated: nat, ghost needs: seq<string>, ghost bs: seq<seq<string>>,
             ghost recco: map<string, string>, ghost fetched: map<string, MusikkDb.Features>)
    requires db.Valid()
    requires forall id :: id in tracks ==> tracks[id].spotifyId == id
    modifies db
    ensures db.Valid()
    ensures db.config == if newRefresh.Some? then old(db.config)[RefreshTokenKey := newRefresh.value] else old(db.config)
    ensures db.syncLog == old(db.syncLog)
    ensures added + updated == |tracks.Keys|
    ensures added == |tracks.Keys - old(db.tracks).Keys|
    ensures db.tracks.Keys == old(db.tracks).Keys + tracks.Keys
    ensures forall id :: id in tracks ==>
      db.tracks[id] == MusikkDb.Upserted(old(db.GetTrack(id)), Prepared(tracks[id], recco, fetched, old(db.GetTrack(id))), now)
    ensures forall id :: id in old(db.tracks) && id !in tracks ==> db.tracks[id] == old(db.tracks)[id]
    ensures FeaturesLookedUp(old(db.tracks), tracks, lookup, features, needs, bs, recco, fetched)
  {
    if newRefresh.Some? {
      db.SetConfig(RefreshTokenKey, newRefresh.value);
    }
    var needIds := TracksNeedingFeatures(db.tracks, tracks);
    var reccoIds, batches := LookupReccoIds(needIds, lookup);
    var got := FetchFeatures(reccoIds, features);
    needs, bs, recco, fetched := needIds, batches, reccoIds, got;
    added, updated := SaveTracks(db, tracks, reccoIds, got, now);
  }

  /** `run_sync`: read the refresh token, refresh the access token, gather
      the library, and (unless a dry run) save a new refresh token, fetch
      features for the tracks that need them and upsert every track. Errors
      all happen before the first write. */
  method RunSync(db: MusikkDb.TrackDb, remote: Remote, dryRun: bool, now: string)
    returns (r: Result<SyncResult, string>, ghost collected: map<string, Track>,
             ghost needs: seq<string>, ghost bs: seq<seq<string>>,
             ghost recco: map<string, string>, ghost fetched: map<string, MusikkDb.Features>)
    requires db.Valid()
    modifies db
    ensures db.Valid() && db.syncLog == old(db.syncLog)
    ensures old(db.GetConfig(RefreshTokenKey)).None? ==> r == Err(NoRefreshToken)
    ensures r.Err? || dryRun ==>
      db.tracks == old(db.tracks) && db.config == old(db.config) && db.syncLog == old(db.syncLog)
    ensures dryRun && r.Ok? ==> r.value == SyncResult(0, 0, 0)
    ensures r.Ok? ==>
      remote.userId.Ok? && remote.saved.Ok? && remote.albums.Ok? && remote.playlists.Ok? &&
      collected == Collect(Sightings(remote.saved.value, remote.albums.value,
        Owned(remote.playlists.value, remote.userId.value), remote.playlistTracks))
    ensures !dryRun && r.Ok? ==>
      r.value.added + r.value.updated == |collected.Keys| && r.value.unavailable == 0 &&
      r.value.added == |collected.Keys - old(db.tracks).Keys| &&
      db.tracks.Keys == old(db.tracks).Keys + collected.Keys &&
      (forall id :: id in collected ==>
        db.tracks[id] == MusikkDb.Upserted(old(db.GetTrack(id)),
          Prepared(collected[id], recco, fetched, old(db.GetTrack(id))), now)) &&
      (forall id :: id in old(db.tracks) && id !in collected ==> db.tracks[id] == old(db.tracks)[id])
    ensures !dryRun && r.Ok? ==>
      var token := remote.refresh(old(db.GetConfig(RefreshTokenKey)).value);
      token.Ok? &&
      db.config == if token.value.refreshToken.Some? then old(db.config)[RefreshTokenKey := token.value.refreshToken.value]
                   else old(db.config)
    ensures !dryRun && r.Ok? ==>
      FeaturesLookedUp(old(db.tracks), collected, remote.lookup, remote.features, needs, bs, recco, fetched)
  {
    collected, needs, bs, recco, fetched := map[], [], [], map[], map[];
    var refreshToken := db.GetConfig(RefreshTokenKey);
    if refreshToken.None? {
      return Err(NoRefreshToken), collected, needs, bs, recco, fetched;
    }
    var token := remote.refresh(refreshToken.value);
    if token.Err? { return Err(token.error), collected, needs, bs, recco, fetched; }
    if remote.userId.Err? { return Err(remote.userId.error), collected, needs, bs, recco, fetched; }
    if remote.saved.Err? { return Err(remote.saved.error), collected, needs, bs, recco, fetched; }
    if remote.albums.Err? { return Err(remote.albums.error), collected, needs, bs, recco, fetched; }
    if remote.playlists.Err? { return Err(remote.playlists.error), collected, needs, bs, recco, fetched; }
    var owned := Owned(remote.playlists.value, remote.userId.value);
    var tracks := CollectTracks(remote.saved.value, remote.albums.value, owned, remote.playlistTracks);
    collected := tracks;
    if dryRun {
      return Ok(SyncResult(0, 0, 0)), collected, needs, bs, recco, fetched;
    }
    CollectKeys(Sightings(remote.saved.value, remote.albums.value, owned, remote.playlistTracks));
    var added, updated;
    added, updated, needs, bs, recco, fetched := StoreLibrary(db, token.value.refreshToken, tracks, remote.lookup, remote.features, now);
    r := Ok(SyncResult(added, updated, 0));
  }
}

=== FILE: musikk_web.dfy ===
/** The browser front end of the music library: the query it sends to the
    track list endpoint, and how it shows lengths and artist lists. */
module MusikkWeb {
  import opened Wrappers
  import opened Strings
  import JsonStrings
  import JsonStringsRoundTrip
  import Durations
  import UrlParams
  import Tally

  /** The filter inputs, by name. */
  type Filters = map<string, string>

  /** The filter names, in the order `loadTracks` tests them. */
  const FilterNames: seq<string> := ["search", "tempo_min", "tempo_max", "danceability_min",
    "danceability_max", "energy_min", "energy_max", "valence_min", "valence_max", "key"]

  /** The starting state: every filter empty. */
  const Initial: Filters := map n | n in FilterNames :: ""

  /** A filter counts when it is set and not the empty string (JavaScript truthiness). */
  predicate IsSet(f: Filters, name: string) {
    name in f && f[name] != ""
  }

  /** The pairs the filters contribute, for the names in `names`, in order. */
  function Selected(f: Filters, names: seq<string>): (r: UrlParams.Params)
    ensures forall e :: e in r ==> e.0 in names && IsSet(f, e.0) && e.1 == f[e.0]
    decreases |names|
  {
    if |names| == 0 then []
    else
      var n := names[|names| - 1];
      Selected(f, names[..|names| - 1]) + (if IsSet(f, n) then [(n, f[n])] else [])
  }

  /** `params.set` of a name that is not there yet appends the pair. */
  lemma {:induction false} SetFresh(p: UrlParams.Params, k: string, v: string)
    requires k !in UrlParams.Keys(p)
    ensures UrlParams.Set(p, k, v) == p + [(k, v)]
    decreases |p|
  {
    if |p| > 0 {
      assert p[0] in p;
      assert UrlParams.Keys(p[1..]) <= UrlParams.Keys(p) by {
        forall e | e in p[1..] ensures e in p {
        }
      }
      SetFresh(p[1..], k, v);
      assert [p[0]] + (p[1..] + [(k, v)]) == p + [(k, v)];
    }
  }

  /** Names that differ from each other and from `sort` and `limit`. */
  predicate QueryNames(names: seq<string>) {
    Tally.Distinct(names) && "sort" !in names && "limit" !in names
  }

  lemma FilterNamesFit()
    ensures QueryNames(FilterNames)
  {
  }

  /** The parameters `loadTracks` sends. */
  function Query(f: Filters, sort: string): UrlParams.Params {
    Selected(f, FilterNames) + [("sort", sort), ("limit", "500")]
  }

  /** `loadTracks`: each filter that is set becomes a parameter, in the
      order of `FilterNames`; then `sort` and `limit=500` always follow. */
  method TrackQuery(f: Filters, sort: string) returns (p: UrlParams.Params)
    ensures p == Query(f, sort)
  {
    FilterNamesFit();
    p := BuildQuery(f, FilterNames, sort);
  }

  /** The `params.set` sequence of `loadTracks` over a list of filter names. */
  method BuildQuery(f: Filters, names: seq<string>, sort: string) returns (p: UrlParams.Params)
    requires QueryNames(names)
    ensures p == Selected(f, names) + [("sort", sort), ("limit", "500")]
  {
    p := [];
    var i := 0;
    while i < |names|
      invariant 0 <= i <= |names|
      invariant p == Selected(f, names[..i])
    {
      var n := names[i];
      assert names[..i + 1][..i] == names[..i];
      if IsSet(f, n) {
        FreshName(f, names, i);
        SetFresh(p, n, f[n]);
        p := UrlParams.Set(p, n, f[n]);
      }
      i := i + 1;
    }
    assert names[..i] == names;
    SortLimitFresh(f, names);
    SetFresh(p, "sort", sort);
    p := UrlParams.Set(p, "sort", sort);
    assert "limit" !in UrlParams.Keys(p);
    SetFresh(p, "limit", "500");
    p := UrlParams.Set(p, "limit", "500");
  }

  /** The next name has not been used by the earlier ones. */
  lemma FreshName(f: Filters, names: seq<string>, i: nat)
    requires QueryNames(names) && i < |names|
    ensures names[i] !in UrlParams.Keys(Selected(f, names[..i]))
  {
    forall e | e in Selected(f, names[..i]) ensures e.0 != names[i] {
      assert e.0 in names[..i];
    }
  }

  lemma SortLimitFresh(f: Filters, names: seq<string>)
    requires QueryNames(names)
    ensures "sort" !in UrlParams.Keys(Selected(f, names))
    ensures "limit" !in UrlParams.Keys(Selected(f, names))
  {
  }

  /** What the server reads back from the query: each filter's value exactly
      when it is set, the chosen sort, and a limit of 500. */
  lemma TrackQueryReads(f: Filters, sort: string, name: string)
    requires name in FilterNames
    ensures UrlParams.Get(Query(f, sort), name) == (if IsSet(f, name) then Some(f[name]) else None)
    ensures UrlParams.Get(Query(f, sort), "sort") == Some(sort)
    ensures UrlParams.Get(Query(f, sort), "limit") == Some("500")
  {
    FilterNamesFit();
    QueryReads(f, FilterNames, sort, name);
  }

  lemma QueryReads(f: Filters, names: seq<string>, sort: string, name: string)
    requires QueryNames(names) && name in names
    ensures var p := Selected(f, names) + [("sort", sort), ("limit", "500")];
      UrlParams.Get(p, name) == (if IsSet(f, name) then Some(f[name]) else None) &&
      UrlParams.Get(p, "sort") == Some(sort) &&
      UrlParams.Get(p, "limit") == Some("500")
  {
    var tail: UrlParams.Params := [("sort", sort), ("limit", "500")];
    SelectedReads(f, names, name);
    GetAppend(Selected(f, names), tail, name);
    SortLimitFresh(f, names);
    GetAppend(Selected(f, names), tail, "sort");
    GetAppend(Selected(f, names), tail, "limit");
  }

  /** The first load, with every filter empty and sorting by name, sends only
      the sort and the limit. */
  lemma InitialQuery()
    ensures Query(Initial, "name") == [("sort", "name"), ("limit", "500")]
  {
    NoneSelected(Initial, FilterNames);
  }

  lemma {:induction false} NoneSelected(f: Filters, names: seq<string>)
    requires forall i :: 0 <= i < |names| ==> !IsSet(f, names[i])
    ensures Selected(f, names) == []
    decreases |names|
  {
    if |names| > 0 {
      NoneSelected(f, names[..|names| - 1]);
    }
  }

  /** Looking a name up in the filters' pairs. */
  lemma {:induction false} SelectedReads(f: Filters, names: seq<string>, name: string)
    requires Tally.Distinct(names)
    ensures UrlParams.Get(Selected(f, names), name) ==
      if name in names && IsSet(f, name) then Some(f[name]) else None
    decreases |names|
  {
    if |names| > 0 {
      var init := names[..|names| - 1];
      var n := names[|names| - 1];
      SelectedReads(f, init, name);
      var tail: UrlParams.Params := if IsSet(f, n) then [(n, f[n])] else [];
      GetAppend(Selected(f, init), tail, name);
      assert names == init + [n];
      assert n !in init;
    }
  }

  /** `get` looks in the front part first. */
  lemma {:induction false} GetAppend(p: UrlParams.Params, q: UrlParams.Params, k: string)
    ensures UrlParams.Get(p + q, k) == if UrlParams.Get(p, k).Some? then UrlParams.Get(p, k) else UrlParams.Get(q, k)
    decreases |p|
  {
    if |p| > 0 {
      assert (p + q)[0] == p[0] && (p + q)[1..] == p[1..] + q;
      if p[0].0 != k {
        GetAppend(p[1..], q, k);
        assert UrlParams.Get(p + q, k) == UrlParams.Get(p[1..] + q, k);
        assert UrlParams.Get(p, k) == UrlParams.Get(p[1..], k);
      }
    } else {
      assert p + q == q;
    }
  }

  /** `updateFilter(key, value)`: that one filter takes the new value. */
  function UpdateFilter(f: Filters, key: string, value: string): (r: Filters)
    ensures key in r && r[key] == value
    ensures forall n :: n != key ==> (n in r <==> n in f) && (n in f ==> r[n] == f[n])
  {
    f[key := value]
  }

  /** Changing one filter changes only that parameter of the next query. */
  lemma UpdateFilterQuery(f: Filters, key: string, value: string, sort: string, name: string)
    requires name in FilterNames && name != key
    ensures UrlParams.Get(Query(UpdateFilter(f, key, value), sort), name) == UrlParams.Get(Query(f, sort), name)
  {
    TrackQueryReads(f, sort, name);
    TrackQueryReads(UpdateFilter(f, key, value), sort, name);
  }

  /** `formatDuration(ms)`: `-` when there is no length or it is zero, `m:ss` otherwise. */
  function FormatDuration(ms: Option<nat>): (r: string)
    ensures r == "-" <==> ms.None? || ms.value == 0
    ensures ms.Some? && ms.value > 0 ==> r == Durations.MinSec(ms.value)
  {
    if ms.None? || ms.value == 0 then "-" else Durations.MinSec(ms.value)
  }

  /** `parseArtists(artists)`: empty for a missing or empty column, the names
      joined with `, ` when the column holds a JSON list of names, and the raw
      text when it does not parse. */
  function ParseArtists(artists: Option<string>): (r: string)
    ensures artists.None? || artists.value == "" ==> r == ""
    ensures artists.Some? && artists.value != "" && JsonStrings.Decode(artists.value).None? ==> r == artists.value
    ensures artists.Some? && JsonStrings.Decode(artists.value).Some? ==>
      r == Join(JsonStrings.Decode(artists.value).value, ", ")
  {
    if artists.None? || artists.value == "" then ""
    else
      match JsonStrings.Decode(artists.value)
      case Some(names) => Join(names, ", ")
      case None => artists.value
  }

  /** The artists column the sync writes is shown as its names joined by `, `. */
  lemma ParseArtistsOfStored(names: seq<string>)
    ensures ParseArtists(Some(JsonStrings.Encode(names))) == Join(names, ", ")
  {
    JsonStringsRoundTrip.EncodeRoundTrip(names);
  }
}

=== FILE: simple_todo.dfy ===
/** The minimal to-do app at the repository root: items keyed by a
    timestamp id, toggled and deleted by id. The clock is a parameter. */
module SimpleTodo {
  import Strings

  datatype Item = Item(id: int, text: string, completed: bool)

  datatype State = State(todos: seq<Item>, input: string)

  /** `addTodo`: with non-blank input append it untrimmed, stamped with `now`, and clear the box. */
  function AddTodo(s: State, now: int): (r: State)
    ensures Strings.JsTrim(s.input) == [] ==> r == s
    ensures Strings.JsTrim(s.input) != [] ==>
      r.todos == s.todos + [Item(now, s.input, false)] && r.input == ""
  {
    if Strings.JsTrim(s.input) != [] then State(s.todos + [Item(now, s.input, false)], "") else s
  }

  /** `toggleTodo(id)`: flip `completed` on every item with that id. */
  function ToggleTodo(todos: seq<Item>, id: int): (r: seq<Item>)
    ensures |r| == |todos|
    ensures forall i :: 0 <= i < |todos| ==>
      r[i] == if todos[i].id == id then todos[i].(completed := !todos[i].completed) else todos[i]
  {
    seq(|todos|, i requires 0 <= i < |todos| =>
      if todos[i].id == id then todos[i].(completed := !todos[i].completed) else todos[i])
  }

  /** `deleteTodo(id)`: `todos.filter(todo => todo.id !== id)`. */
  function DeleteTodo(todos: seq<Item>, id: int): (r: seq<Item>)
    ensures |r| <= |todos| && multiset(r) <= multiset(todos)
    ensures forall k :: 0 <= k < |r| ==> r[k].id != id
    ensures |r| == |todos| <==> forall k :: 0 <= k < |todos| ==> todos[k].id != id
    decreases |todos|
  {
    if |todos| == 0 then []
    else
      assert todos == [todos[0]] + todos[1..];
      (if todos[0].id != id then [todos[0]] else []) + DeleteTodo(todos[1..], id)
  }

  /** Deleting keeps exactly the items with another id. */
  lemma {:induction false} DeleteTodoMembers(todos: seq<Item>, id: int, t: Item)
    ensures t in DeleteTodo(todos, id) <==> t in todos && t.id != id
    decreases |todos|
  {
    if |todos| > 0 {
      DeleteTodoMembers(todos[1..], id, t);
      assert t in todos <==> t == todos[0] || t in todos[1..];
    }
  }

  /** The filter distributes over concatenation, so the survivors keep their order. */
  lemma {:induction false} DeleteTodoAppend(a: seq<Item>, b: seq<Item>, id: int)
    ensures DeleteTodo(a + b, id) == DeleteTodo(a, id) + DeleteTodo(b, id)
    decreases |a|
  {
    if |a| == 0 {
      assert a + b == b;
    } else {
      assert (a + b)[1..] == a[1..] + b;
      DeleteTodoAppend(a[1..], b, id);
    }
  }

  /** Deleting an id no item carries leaves the list as it was. */
  lemma {:induction false} DeleteAbsent(todos: seq<Item>, id: int)
    requires forall i :: 0 <= i < |todos| ==> todos[i].id != id
    ensures DeleteTodo(todos, id) == todos
    decreases |todos|
  {
    if |todos| > 0 {
      DeleteAbsent(todos[1..], id);
      assert [todos[0]] + todos[1..] == todos;
    }
  }

  lemma ToggleTwice(todos: seq<Item>, id: int)
    ensures ToggleTodo(ToggleTodo(todos, id), id) == todos
  {
  }

  /** `handleKeyPress`: Enter adds, any other key does nothing. */
  function HandleKeyPress(s: State, key: string, now: int): (r: State)
    ensures key == "Enter" ==> r == AddTodo(s, now)
    ensures key != "Enter" ==> r == s
  {
    if key == "Enter" then AddTodo(s, now) else s
  }
}

=== FILE: sorting.dfy ===
/** A stable sort by a caller-supplied "comes no later than" relation.
    JavaScript's `Array.prototype.sort` (stable since ES2019) is modelled by
    it, with `le(a, b)` standing for `compare(a, b) <= 0`. */
module Sorting {

  /** `le` is total and transitive: a total preorder, as a consistent comparator gives. */
  ghost predicate TotalPreorder<T(!new)>(le: (T, T) -> bool) {
    (forall a, b :: le(a, b) || le(b, a)) &&
    (forall a, b, c :: le(a, b) && le(b, c) ==> le(a, c))
  }

  predicate Sorted<T>(s: seq<T>, le: (T, T) -> bool) {
    forall i, j :: 0 <= i < j < |s| ==> le(s[i], s[j])
  }

  /** `a` and `b` compare as equal. */
  predicate Equiv<T>(le: (T, T) -> bool, a: T, b: T) {
    le(a, b) && le(b, a)
  }

  /** The elements of `s` that compare equal to `a`, in their order in `s`. */
  function EquivClass<T>(s: seq<T>, le: (T, T) -> bool, a: T): seq<T> {
    if |s| == 0 then []
    else (if Equiv(le, s[0], a) then [s[0]] else []) + EquivClass(s[1..], le, a)
  }

  /** Put `x` in front of the first element it comes no later than. */
  function Insert<T>(x: T, s: seq<T>, le: (T, T) -> bool): (r: seq<T>)
    ensures multiset(r) == multiset(s) + multiset{x}
    ensures |r| == |s| + 1
  {
    if |s| == 0 then [x]
    else if le(x, s[0]) then [x] + s
    else
      assert s == [s[0]] + s[1..];
      [s[0]] + Insert(x, s[1..], le)
  }

  function Sort<T>(s: seq<T>, le: (T, T) -> bool): (r: seq<T>)
    ensures multiset(r) == multiset(s)
    ensures |r| == |s|
  {
    if |s| == 0 then []
    else
      assert s == [s[0]] + s[1..];
      Insert(s[0], Sort(s[1..], le), le)
  }

  lemma {:induction false} InsertSorted<T(!new)>(x: T, s: seq<T>, le: (T, T) -> bool)
    requires TotalPreorder(le) && Sorted(s, le)
    ensures Sorted(Insert(x, s, le), le)
    decreases |s|
  {
    if |s| > 0 && !le(x, s[0]) {
      InsertSorted(x, s[1..], le);
      var r := Insert(x, s[1..], le);
      assert le(s[0], x);
      forall e | e in multiset(r) ensures le(s[0], e) {
        HeadBelow(x, s, le, e);
      }
      ConsSorted(s[0], r, le);
    }
  }

  /** The head of a sorted `s` comes no later than `x` or any later element. */
  lemma HeadBelow<T>(x: T, s: seq<T>, le: (T, T) -> bool, e: T)
    requires |s| > 0 && Sorted(s, le) && le(s[0], x)
    requires e in multiset(s[1..]) + multiset{x}
    ensures le(s[0], e)
  {
    if e != x {
      assert e in multiset(s[1..]);
      var k :| 0 <= k < |s[1..]| && s[1..][k] == e;
      assert s[k + 1] == e;
    }
  }

  /** A head that comes no later than every element of a sorted tail keeps it sorted. */
  lemma ConsSorted<T>(h: T, r: seq<T>, le: (T, T) -> bool)
    requires Sorted(r, le) && forall e | e in multiset(r) :: le(h, e)
    ensures Sorted([h] + r, le)
  {
    var t := [h] + r;
    forall i, j | 0 <= i < j < |t| ensures le(t[i], t[j]) {
      if i == 0 { assert t[j] == r[j - 1] && t[j] in multiset(r); }
      else { assert t[i] == r[i - 1] && t[j] == r[j - 1]; }
    }
  }

  /** The result is ordered by `le`. */
  lemma {:induction false} SortSorted<T(!new)>(s: seq<T>, le: (T, T) -> bool)
    requires TotalPreorder(le)
    ensures Sorted(Sort(s, le), le)
    decreases |s|
  {
    if |s| > 0 {
      SortSorted(s[1..], le);
      InsertSorted(s[0], Sort(s[1..], le), le);
    }
  }

  lemma EquivClassCons<T>(y: T, s: seq<T>, le: (T, T) -> bool, a: T)
    ensures EquivClass([y] + s, le, a) == (if Equiv(le, y, a) then [y] else []) + EquivClass(s, le, a)
  {
    assert ([y] + s)[1..] == s;
  }

  /** The equivalence class of a concatenation is the concatenation of the classes. */
  lemma {:induction false} EquivClassAppend<T>(s: seq<T>, t: seq<T>, le: (T, T) -> bool, a: T)
    ensures EquivClass(s + t, le, a) == EquivClass(s, le, a) + EquivClass(t, le, a)
    decreases |s|
  {
    if |s| == 0 {
      assert s + t == t;
    } else {
      assert (s + t)[1..] == s[1..] + t;
      EquivClassAppend(s[1..], t, le, a);
    }
  }

  lemma {:induction false} InsertEquivClass<T(!new)>(x: T, s: seq<T>, le: (T, T) -> bool, a: T)
    requires TotalPreorder(le)
    ensures EquivClass(Insert(x, s, le), le, a) ==
      (if Equiv(le, x, a) then [x] else []) + EquivClass(s, le, a)
    decreases |s|
  {
    if |s| == 0 {
      EquivClassCons(x, s, le, a);
    } else if le(x, s[0]) {
      EquivClassCons(x, s, le, a);
    } else {
      var y := s[0];
      var rest := Insert(x, s[1..], le);
      assert Insert(x, s, le) == [y] + rest;
      InsertEquivClass(x, s[1..], le, a);
      EquivClassCons(y, rest, le, a);
      EquivClassCons(y, s[1..], le, a);
      assert s == [y] + s[1..];
      NotBothEquiv(x, y, le, a);
    }
  }

  /** When `x` does not come before `y`, they cannot both be equivalent to `a`. */
  lemma NotBothEquiv<T(!new)>(x: T, y: T, le: (T, T) -> bool, a: T)
    requires TotalPreorder(le) && !le(x, y)
    ensures !(Equiv(le, x, a) && Equiv(le, y, a))
  {
    assert le(x, a) && le(a, y) ==> le(x, y);
  }

  /** Stability: the elements that compare equal to any given value keep their
      relative order. */
  lemma {:induction false} SortStable<T(!new)>(s: seq<T>, le: (T, T) -> bool, a: T)
    requires TotalPreorder(le)
    ensures EquivClass(Sort(s, le), le, a) == EquivClass(s, le, a)
    decreases |s|
  {
    if |s| > 0 {
      SortStable(s[1..], le, a);
      InsertEquivClass(s[0], Sort(s[1..], le), le, a);
    }
  }

  /** An input that is already in order is returned unchanged. */
  lemma {:induction false} SortOfSorted<T(!new)>(s: seq<T>, le: (T, T) -> bool)
    requires Sorted(s, le)
    ensures Sort(s, le) == s
    decreases |s|
  {
    if |s| > 0 {
      assert Sorted(s[1..], le);
      SortOfSorted(s[1..], le);
      if |s| > 1 { assert le(s[0], s[1]); }
    }
  }
}

=== FILE: spaces.dfy ===
/** `spaces`: shared pages of placed texts, one gist file per space. A space
    holds an array of date entries `{date, txts}`; saving replaces the entry of
    the selected date and keeps the array sorted by date. */
module Spaces {
  import opened Wrappers
  import Strings
  import Sorting

  const SpacesPrefix: string := "spaces_"
  const JsonSuffix: string := ".json"
  const SpacesSegment: string := "/spaces/"

  // ------------------------------------------------------------ routing

  /** The pattern `/\/spaces\/([^/]+)/` matches at `i`: the segment, then at least one non-slash. */
  predicate MatchAt(path: string, i: int) {
    0 <= i && i + 8 < |path| && path[i..i + 8] == SpacesSegment && path[i + 8] != '/'
  }

  /** The first match at or after `i`. */
  function FindMatch(path: string, i: nat): (r: Option<nat>)
    ensures r.Some? ==> i <= r.value && MatchAt(path, r.value)
    ensures r.Some? ==> forall k :: i <= k < r.value ==> !MatchAt(path, k)
    ensures r.None? ==> forall k :: i <= k ==> !MatchAt(path, k)
    decreases |path| - i
  {
    if i + 8 >= |path| then None
    else if MatchAt(path, i) then Some(i)
    else FindMatch(path, i + 1)
  }

  /** The captured group of a match at `i`: the greedy run of non-slash characters. */
  function Capture(path: string, i: nat): string
    requires i + 8 <= |path|
  {
    Strings.BeforeFirst(path[i + 8..], '/')
  }

  /** `getSpaceFromPath`: the capture of the leftmost match, or null. */
  function GetSpaceFromPath(path: string): (r: Option<string>)
    ensures r.None? <==> forall i :: !MatchAt(path, i)
    ensures r.Some? ==> |r.value| > 0 && '/' !in r.value
    ensures r.Some? ==>
      exists i :: (MatchAt(path, i) && (forall k :: 0 <= k < i ==> !MatchAt(path, k)) && r.value == Capture(path, i))
  {
    match FindMatch(path, 0)
    case None => None
    case Some(i) => Some(Capture(path, i))
  }

  /** A space URL `/spaces/<name>` gives back the name. */
  lemma SpaceOfUrl(name: string)
    requires |name| > 0 && '/' !in name
    ensures GetSpaceFromPath(SpacesSegment + name) == Some(name)
  {
    var p := SpacesSegment + name;
    assert p[0..8] == SpacesSegment;
    assert p[8] == name[0];
    assert MatchAt(p, 0);
    assert p[8..] == name;
  }

  // ------------------------------------------------------------ list of spaces

  /** The filter in `loadSpacesList`. */
  predicate IsSpaceFile(f: string) {
    Strings.StartsWith(f, SpacesPrefix) && Strings.EndsWith(f, JsonSuffix)
  }

  /** `name.replace(SPACES_PREFIX, '').replace('.json', '')`: each `replace` removes the first occurrence only. */
  function SpaceNameOf(f: string): string {
    Strings.RemoveFirst(Strings.RemoveFirst(f, SpacesPrefix), JsonSuffix)
  }

  /** The gist file that holds space `name` (`SPACES_PREFIX + currentSpace + '.json'`). */
  function SpaceFileName(name: string): (f: string)
    ensures IsSpaceFile(f)
  {
    SpacesPrefix + name + JsonSuffix
  }

  /** `Object.keys(gist.files).filter(...).map(...)`. */
  function SpaceNames(files: seq<string>): (r: seq<string>)
    ensures |r| <= |files|
  {
    if |files| == 0 then []
    else (if IsSpaceFile(files[0]) then [SpaceNameOf(files[0])] else []) + SpaceNames(files[1..])
  }

  /** A name is listed iff some space file yields it. */
  lemma {:induction false} SpaceNamesMembers(files: seq<string>, n: string)
    ensures n in SpaceNames(files) <==> exists f :: f in files && IsSpaceFile(f) && SpaceNameOf(f) == n
    decreases |files|
  {
    if |files| > 0 {
      SpaceNamesMembers(files[1..], n);
      assert forall f :: f in files <==> f == files[0] || f in files[1..];
    }
  }

  /** Removing a prefix that is there takes exactly it off the front. */
  lemma RemovePrefix(s: string, prefix: string)
    requires prefix <= s
    ensures Strings.RemoveFirst(s, prefix) == s[|prefix|..]
  {
    assert s[..|prefix|] == prefix;
    Strings.IndexOfAt(s, prefix, 0);
  }

  /** A space name without a dot survives the round trip through its file name. */
  lemma SpaceNameRoundTrip(name: string)
    requires '.' !in name
    ensures SpaceNameOf(SpaceFileName(name)) == name
  {
    var f := SpaceFileName(name);
    assert f == SpacesPrefix + (name + JsonSuffix);
    assert SpacesPrefix <= f;
    RemovePrefix(f, SpacesPrefix);
    assert f[|SpacesPrefix|..] == name + JsonSuffix;
    RemoveOwnSuffix(name, JsonSuffix);
  }

  /** Removing the first occurrence of a suffix whose first character the
      text before it lacks takes off exactly that suffix. */
  lemma RemoveOwnSuffix(name: string, suffix: string)
    requires |suffix| > 0 && suffix[0] !in name
    ensures Strings.RemoveFirst(name + suffix, suffix) == name
  {
    var g := name + suffix;
    forall j | 0 <= j < |name| ensures !Strings.MatchAt(g, suffix, j) {
      assert g[j] == name[j];
      if j + |suffix| <= |g| {
        assert g[j..j + |suffix|][0] == g[j];
      }
    }
    assert g[|name|..|name| + |suffix|] == suffix;
    Strings.IndexOfAt(g, suffix, |name|);
    assert g[..|name|] == name;
  }

  // ------------------------------------------------------------ entries

  /** One saved text: `parseInt` of the pixel position may be `NaN` (None). */
  datatype PlacedText = PlacedText(text: string, name: string, size: int, x: Option<int>, y: Option<int>)

  datatype Entry = Entry(date: string, txts: seq<PlacedText>)

  /** What `currentSpaceData` holds: an array of entries, or anything else. */
  datatype SpaceData = NotAnArray | Entries(entries: seq<Entry>)

  /** `a.date.localeCompare(b.date) <= 0`, with the ISO dates ordered as strings. */
  predicate EntryLe(a: Entry, b: Entry) {
    Strings.LexLe(a.date, b.date)
  }

  lemma EntryLeTotalPreorder()
    ensures Sorting.TotalPreorder(EntryLe)
  {
    forall a: Entry, b: Entry ensures EntryLe(a, b) || EntryLe(b, a) {
      Strings.LexTotal(a.date, b.date);
    }
    forall a: Entry, b: Entry, c: Entry | EntryLe(a, b) && EntryLe(b, c) ensures EntryLe(a, c) {
      Strings.LexTransitive(a.date, b.date, c.date);
    }
  }

  /** The entries of `s` for `date`, in their order in `s`. */
  function OnDate(s: seq<Entry>, date: string): seq<Entry> {
    Sorting.EquivClass(s, EntryLe, Entry(date, []))
  }

  /** Entries compare equal exactly when their dates are the same. */
  lemma EntryEquiv(e: Entry, date: string)
    ensures Sorting.Equiv(EntryLe, e, Entry(date, [])) <==> e.date == date
  {
    if Sorting.Equiv(EntryLe, e, Entry(date, [])) {
      Strings.LexAntisymmetric(e.date, date);
    } else {
      Strings.LexTotal(date, date);
    }
  }

  function FindEntry(s: seq<Entry>, date: string): (r: Option<Entry>)
    ensures r.Some? ==> r.value in s && r.value.date == date
    ensures r.None? ==> forall e :: e in s ==> e.date != date
  {
    if |s| == 0 then None
    else if s[0].date == date then Some(s[0])
    else FindEntry(s[1..], date)
  }

  /** `find` returns the first entry of the date. */
  lemma {:induction false} FindEntryFirst(s: seq<Entry>, date: string)
    ensures FindEntry(s, date) == if |OnDate(s, date)| > 0 then Some(OnDate(s, date)[0]) else None
    decreases |s|
  {
    if |s| > 0 {
      EntryEquiv(s[0], date);
      FindEntryFirst(s[1..], date);
    }
  }

  /** `getDateEntry`: null unless the data is an array, then the first entry of the date. */
  function GetDateEntry(data: SpaceData, date: string): (r: Option<Entry>)
    ensures data.NotAnArray? ==> r.None?
    ensures r.Some? ==> r.value in data.entries && r.value.date == date
    ensures data.Entries? && r.None? ==> forall e :: e in data.entries ==> e.date != date
  {
    if data.NotAnArray? then None else FindEntry(data.entries, date)
  }

  /** `getPostCount`: `entry?.txts?.length || 0`. */
  function GetPostCount(data: SpaceData, date: string): (n: nat)
    ensures n > 0 ==> GetDateEntry(data, date).Some?
    ensures GetDateEntry(data, date).Some? ==> n == |GetDateEntry(data, date).value.txts|
  {
    match GetDateEntry(data, date)
    case None => 0
    case Some(e) => |e.txts|
  }

  // ------------------------------------------------------------ rebuilding on save

  /** `newData.filter(entry => entry.date !== selectedDate)`. */
  function DropDate(s: seq<Entry>, date: string): (r: seq<Entry>)
    ensures forall e :: e in r ==> e in s && e.date != date
  {
    if |s| == 0 then []
    else (if s[0].date != date then [s[0]] else []) + DropDate(s[1..], date)
  }

  lemma {:induction false} DropDateOnDate(s: seq<Entry>, date: string, d: string)
    ensures OnDate(DropDate(s, date), d) == if d == date then [] else OnDate(s, d)
    decreases |s|
  {
    if |s| > 0 {
      var head := if s[0].date != date then [s[0]] else [];
      Sorting.EquivClassAppend(head, DropDate(s[1..], date), EntryLe, Entry(d, []));
      DropDateOnDate(s[1..], date, d);
      EntryEquiv(s[0], d);
    }
  }

  /** The entries before sorting: the copy without the selected date, plus the new entry when there are texts. */
  function Unsorted(data: SpaceData, selected: string, visible: seq<PlacedText>): seq<Entry> {
    var kept := DropDate(if data.Entries? then data.entries else [], selected);
    if |visible| > 0 then kept + [Entry(selected, visible)] else kept
  }

  /** The array `saveContent` writes. */
  function Rebuild(data: SpaceData, selected: string, visible: seq<PlacedText>): (r: seq<Entry>)
    ensures multiset(r) == multiset(Unsorted(data, selected, visible))
  {
    Sorting.Sort(Unsorted(data, selected, visible), EntryLe)
  }

  /** The rebuilt array is in ascending date order. */
  lemma RebuildSorted(data: SpaceData, selected: string, visible: seq<PlacedText>)
    ensures Sorting.Sorted(Rebuild(data, selected, visible), EntryLe)
  {
    EntryLeTotalPreorder();
    Sorting.SortSorted(Unsorted(data, selected, visible), EntryLe);
  }

  /** Per date: the selected date has the one new entry when there are texts and none
      otherwise; every other date keeps its entries, in their order. */
  lemma RebuildOnDate(data: SpaceData, selected: string, visible: seq<PlacedText>, d: string)
    ensures OnDate(Rebuild(data, selected, visible), d) ==
      if d != selected then OnDate(if data.Entries? then data.entries else [], d)
      else if |visible| > 0 then [Entry(selected, visible)]
      else []
  {
    var base := if data.Entries? then data.entries else [];
    var kept := DropDate(base, selected);
    EntryLeTotalPreorder();
    Sorting.SortStable(Unsorted(data, selected, visible), EntryLe, Entry(d, []));
    DropDateOnDate(base, selected, d);
    if |visible| > 0 {
      var e := Entry(selected, visible);
      Sorting.EquivClassAppend(kept, [e], EntryLe, Entry(d, []));
      EntryEquiv(e, d);
      assert [e][1..] == [];
    }
  }

  /** After a save the selected date shows exactly the saved texts. */
  lemma PostCountAfterSave(data: SpaceData, selected: string, visible: seq<PlacedText>)
    ensures GetPostCount(Entries(Rebuild(data, selected, visible)), selected) == |visible|
  {
    RebuildOnDate(data, selected, visible, selected);
    FindEntryFirst(Rebuild(data, selected, visible), selected);
  }

  /** After a save every other date looks up the same entry as before. */
  lemma OtherDatesAfterSave(entries: seq<Entry>, selected: string, visible: seq<PlacedText>, d: string)
    requires d != selected
    ensures GetDateEntry(Entries(Rebuild(Entries(entries), selected, visible)), d) ==
      GetDateEntry(Entries(entries), d)
  {
    RebuildOnDate(Entries(entries), selected, visible, d);
    FindEntryFirst(Rebuild(Entries(entries), selected, visible), d);
    FindEntryFirst(entries, d);
  }

  // ------------------------------------------------------------ texts on the page

  /** The rule in `saveContent`: an empty label, or one already equal, takes the entered name. */
  function Relabel(current: string, entered: string): (r: string)
    ensures r == entered || r == current
    ensures r == entered <==> current == "" || current == entered
  {
    if current == "" || current == entered then entered else current
  }

  /** `parseInt(textEl.style.fontSize) || 27`: `NaN` and 0 both fall back to 27. */
  function SizeOf(fontSize: string): (n: int)
    ensures n != 0
    ensures Strings.ParseIntPrefix(fontSize).Some? && Strings.ParseIntPrefix(fontSize).value != 0 ==>
      n == Strings.ParseIntPrefix(fontSize).value
    ensures Strings.ParseIntPrefix(fontSize).None? ==> n == 27
    ensures Strings.ParseIntPrefix(fontSize) == Some(0) ==> n == 27
  {
    match Strings.ParseIntPrefix(fontSize)
    case Some(v) => if v != 0 then v else 27
    case None => 27
  }

  /** A size written as `newSize + 'px'` reads back as the same size. */
  lemma SizeOfPixels(n: nat)
    requires n > 0
    ensures SizeOf(Strings.NatToString(n) + "px") == n
  {
    Strings.ParseIntOfPixels(n);
  }

  /** `Math.round(height / 1.8)` for a whole-pixel height: the nearest integer to
      `10 * height / 18` (never exactly half-way, since `10 * height + 9` is odd). */
  function RoundHeight(height: int): (r: int)
    ensures 18 * r <= 10 * height + 9 < 18 * r + 18
  {
    (10 * height + 9) / 18
  }

  const MinSize: int := 16
  const MaxSize: int := 69

  /** `Math.min(MAX_SIZE, Math.max(MIN_SIZE, Math.round(height / 1.8)))`. */
  function FontSize(height: int): (r: int)
    ensures MinSize <= r <= MaxSize
    ensures MinSize <= RoundHeight(height) <= MaxSize ==> r == RoundHeight(height)
    ensures RoundHeight(height) < MinSize ==> r == MinSize
    ensures RoundHeight(height) > MaxSize ==> r == MaxSize
  {
    var s := RoundHeight(height);
    if s > MaxSize then MaxSize else if s < MinSize then MinSize else s
  }

  /** A taller box never gets a smaller font. */
  lemma FontSizeMonotone(h1: int, h2: int)
    requires h1 <= h2
    ensures FontSize(h1) <= FontSize(h2)
  {
  }

  /** A text box on the page: its contents, its name label and its style strings. */
  datatype TextBox = TextBox(text: string, name: string, fontSize: string, left: string, top: string)

  /** The object `saveContent` reads off one box. */
  function Snapshot(b: TextBox): PlacedText {
    PlacedText(b.text, b.name, SizeOf(b.fontSize), Strings.ParseIntPrefix(b.left), Strings.ParseIntPrefix(b.top))
  }

  /** The texts of the boxes, in page order. */
  function Snapshots(boxes: seq<TextBox>): (r: seq<PlacedText>)
    ensures |r| == |boxes| && forall i :: 0 <= i < |boxes| ==> r[i] == Snapshot(boxes[i])
  {
    seq(|boxes|, i requires 0 <= i < |boxes| => Snapshot(boxes[i]))
  }

  /** Every box after the relabelling loop of `saveContent`. */
  function Relabeled(boxes: seq<TextBox>, entered: string): (r: seq<TextBox>)
    ensures |r| == |boxes|
    ensures forall i :: 0 <= i < |boxes| ==> r[i] == boxes[i].(name := Relabel(boxes[i].name, entered))
  {
    seq(|boxes|, i requires 0 <= i < |boxes| => boxes[i].(name := Relabel(boxes[i].name, entered)))
  }

  /** The relabelling inside the `map` over the text containers in `saveContent`,
      done in place on the boxes. */
  method RelabelAll(boxes: array<TextBox>, name: string)
    modifies boxes
    ensures boxes[..] == Relabeled(old(boxes[..]), name)
  {
    ghost var before := boxes[..];
    ghost var after := Relabeled(before, name);
    var i := 0;
    while i < boxes.Length
      invariant 0 <= i <= boxes.Length
      invariant forall k :: 0 <= k < i ==> boxes[k] == after[k]
      invariant forall k :: i <= k < boxes.Length ==> boxes[k] == before[k]
    {
      var b := boxes[i];
      boxes[i] := b.(name := Relabel(b.name, name));
      i := i + 1;
    }
    assert boxes[..] == after;
  }

  /** The write `saveContent` sends: the space's file name and the rebuilt array. */
  datatype Patch = Patch(filename: string, content: seq<Entry>)

  /** The open space: its name, the loaded data and the date shown. */
  class SpaceView {
    const space: string
    var data: SpaceData
    var selectedDate: string

    constructor (space: string, data: SpaceData, selectedDate: string)
      ensures this.space == space && this.data == data && this.selectedDate == selectedDate
    {
      this.space := space;
      this.data := data;
      this.selectedDate := selectedDate;
    }

    /** `saveContent`: `entered` is the answer to the name prompt (None when cancelled),
        `boxes` the text boxes on the page, `fetchThrew` whether the PATCH request threw.
        Labels are relabelled in place; the data is replaced only when the request went out. */
    method SaveContent(entered: Option<string>, boxes: array<TextBox>, fetchThrew: bool) returns (patch: Option<Patch>)
      modifies this, boxes
      ensures selectedDate == old(selectedDate)
      ensures entered.None? || entered.value == "" ==>
        patch.None? && data == old(data) && boxes[..] == old(boxes[..])
      ensures entered.Some? && entered.value != "" ==>
        boxes[..] == Relabeled(old(boxes[..]), entered.value)
      ensures entered.Some? && entered.value != "" ==>
        patch == Some(Patch(SpaceFileName(space), Rebuild(old(data), selectedDate, Snapshots(boxes[..]))))
      ensures entered.Some? && entered.value != "" ==>
        data == if fetchThrew then old(data) else Entries(patch.value.content)
    {
      if entered.None? || entered.value == "" {
        return None;
      }
      RelabelAll(boxes, entered.value);
      var visible := Snapshots(boxes[..]);
      var content := Rebuild(data, selectedDate, visible);
      patch := Some(Patch(SpaceFileName(space), content));
      if !fetchThrew {
        data := Entries(content);
      }
    }
  }
}

=== FILE: strings.dfy ===
/** String helpers shared by the apps: decimal rendering and parsing, padding,
    the three whitespace sets the sources rely on (JavaScript `trim`, Python
    `str.strip`, Rust `split_whitespace`), ASCII lower-casing, joining and
    searching. */
module Strings {
  import opened Wrappers

  // ---------------------------------------------------------------- affixes

  predicate StartsWith(s: string, prefix: string) {
    prefix <= s
  }

  predicate EndsWith(s: string, suffix: string) {
    |suffix| <= |s| && s[|s| - |suffix|..] == suffix
  }

  /** Rust `strip_prefix`: the rest after the prefix, or None. */
  function StripPrefix(s: string, prefix: string): (r: Option<string>)
    ensures r.Some? <==> prefix <= s
    ensures r.Some? ==> prefix + r.value == s
  {
    if prefix <= s then Some(s[|prefix|..]) else None
  }

  // ---------------------------------------------------------------- decimal

  predicate IsDigit(c: char) {
    '0' <= c <= '9'
  }

  predicate AllDigits(s: string) {
    forall i :: 0 <= i < |s| ==> IsDigit(s[i])
  }

  function DigitChar(d: nat): (c: char)
    requires d < 10
    ensures IsDigit(c)
  {
    ['0', '1', '2', '3', '4', '5', '6', '7', '8', '9'][d]
  }

  function DigitValue(c: char): (d: nat)
    requires IsDigit(c)
    ensures d < 10
  {
    (c as int - '0' as int) as nat
  }

  lemma DigitRoundTrip(d: nat)
    requires d < 10
    ensures DigitValue(DigitChar(d)) == d
  {
  }

  /** The decimal text of `n`, as `String(n)` / `toString()` / `format!("{}")` give it. */
  function NatToString(n: nat): (s: string)
    ensures |s| >= 1 && AllDigits(s)
    ensures n < 10 <==> |s| == 1
    ensures |s| > 1 ==> s[0] != '0'
    decreases n
  {
    if n < 10 then [DigitChar(n)] else NatToString(n / 10) + [DigitChar(n % 10)]
  }

  function IntToString(i: int): (s: string)
    ensures |s| >= 1
  {
    if i < 0 then "-" + NatToString(-i) else NatToString(i)
  }

  /** The value of a run of decimal digits (most significant first). */
  function DigitsValue(s: string): nat
    requires AllDigits(s)
    decreases |s|
  {
    if |s| == 0 then 0 else DigitsValue(s[..|s| - 1]) * 10 + DigitValue(s[|s| - 1])
  }

  /** A non-empty run of decimal digits, or None. */
  function ParseNat(s: string): (r: Option<nat>)
    ensures r.Some? <==> |s| > 0 && AllDigits(s)
  {
    if |s| > 0 && AllDigits(s) then Some(DigitsValue(s)) else None
  }

  lemma {:induction false} DigitsValueOfNatToString(n: nat)
    ensures DigitsValue(NatToString(n)) == n
    decreases n
  {
    if n < 10 {
      DigitRoundTrip(n);
    } else {
      var s := NatToString(n);
      assert s[..|s| - 1] == NatToString(n / 10);
      DigitsValueOfNatToString(n / 10);
      DigitRoundTrip(n % 10);
    }
  }

  /** Parsing the decimal text of a number gives the number back. */
  lemma NatToStringRoundTrip(n: nat)
    ensures ParseNat(NatToString(n)) == Some(n)
  {
    DigitsValueOfNatToString(n);
  }

  /** `String(n).padStart(width, c)`: left-pad to at least `width` characters. */
  function PadStart(s: string, width: nat, c: char): (r: string)
    ensures |r| == if |s| >= width then |s| else width
    ensures r[|r| - |s|..] == s
    ensures forall i :: 0 <= i < |r| - |s| ==> r[i] == c
  {
    if |s| >= width then s else Repeat(c, width - |s|) + s
  }

  /** `String(n).padStart(2, '0')`, written by cases on the number of digits. */
  function Pad2(n: nat): (r: string)
    ensures |r| >= 2
    ensures n < 100 ==> |r| == 2
  {
    if n < 10 then ['0'] + NatToString(n) else NatToString(n)
  }

  /** `Pad2` is the two-wide zero padding of the decimal text. */
  lemma Pad2IsPadStart(n: nat)
    ensures Pad2(n) == PadStart(NatToString(n), 2, '0')
  {
    if n < 10 {
      assert Repeat('0', 1) == ['0'];
    } else {
      assert |NatToString(n / 10)| >= 1;
    }
  }

  /** The padded text is all digits and reads back as `n`. */
  lemma Pad2RoundTrip(n: nat)
    ensures AllDigits(Pad2(n)) && ParseNat(Pad2(n)) == Some(n)
  {
    var s := NatToString(n);
    DigitsValueOfNatToString(n);
    if n < 10 {
      var r := ['0'] + s;
      assert s == [DigitChar(n)];
      DigitRoundTrip(n);
      assert r[..|r| - 1] == ['0'];
      assert ['0'][..0] == [];
      assert DigitsValue(['0']) == 0;
      assert DigitsValue(r) == n;
      assert AllDigits(r);
    }
  }

  // ---------------------------------------------------------------- whitespace

  /** Characters JavaScript's `String.prototype.trim` removes (WhiteSpace and LineTerminator). */
  predicate IsJsSpace(c: char) {
    var n := c as int;
    (0x09 <= n <= 0x0D) || n == 0x20 || n == 0xA0 || n == 0x1680 || (0x2000 <= n <= 0x200A) ||
    n == 0x2028 || n == 0x2029 || n == 0x202F || n == 0x205F || n == 0x3000 || n == 0xFEFF
  }

  /** Characters Python's `str.strip()` removes. */
  predicate IsPySpace(c: char) {
    var n := c as int;
    (0x09 <= n <= 0x0D) || (0x1C <= n <= 0x1F) || n == 0x20 || n == 0x85 || n == 0xA0 ||
    n == 0x1680 || (0x2000 <= n <= 0x200A) || n == 0x2028 || n == 0x2029 || n == 0x202F ||
    n == 0x205F || n == 0x3000
  }

  /** Characters with the Unicode White_Space property, as Rust's `split_whitespace` uses. */
  predicate IsRustSpace(c: char) {
    var n := c as int;
    (0x09 <= n <= 0x0D) || n == 0x20 || n == 0x85 || n == 0xA0 || n == 0x1680 ||
    (0x2000 <= n <= 0x200A) || n == 0x2028 || n == 0x2029 || n == 0x202F || n == 0x205F ||
    n == 0x3000
  }

  function TrimStart(s: string, ws: char -> bool): (r: string)
    ensures |r| <= |s| && r == s[|s| - |r|..]
    ensures forall i :: 0 <= i < |s| - |r| ==> ws(s[i])
    ensures r != [] ==> !ws(r[0])
  {
    if |s| > 0 && ws(s[0]) then TrimStart(s[1..], ws) else s
  }

  function TrimEnd(s: string, ws: char -> bool): (r: string)
    ensures |r| <= |s| && r == s[..|r|]
    ensures forall i :: |r| <= i < |s| ==> ws(s[i])
    ensures r != [] ==> !ws(r[|r| - 1])
  {
    if |s| > 0 && ws(s[|s| - 1]) then TrimEnd(s[..|s| - 1], ws) else s
  }

  /** `r` occurs in `s` starting at index `i`. */
  predicate SliceAt(s: string, i: int, r: string) {
    0 <= i <= |s| - |r| && s[i..i + |r|] == r
  }

  /** A prefix of a suffix of `s` is a slice of `s`. */
  lemma PrefixOfSuffix(s: string, a: string, r: string)
    requires |a| <= |s| && a == s[|s| - |a|..]
    requires |r| <= |a| && r == a[..|r|]
    ensures SliceAt(s, |s| - |a|, r)
  {
    var i := |s| - |a|;
    assert s[i..i + |r|] == s[i..][..|r|];
  }

  lemma TrimSlice(s: string, ws: char -> bool)
    ensures var a := TrimStart(s, ws); var r := TrimEnd(a, ws);
      SliceAt(s, |s| - |a|, r) &&
      (r == [] <==> forall i :: 0 <= i < |s| ==> ws(s[i]))
  {
    var a := TrimStart(s, ws);
    var r := TrimEnd(a, ws);
    PrefixOfSuffix(s, a, r);
    if r == [] {
      forall i | 0 <= i < |s| ensures ws(s[i]) {
        if i >= |s| - |a| { assert s[i] == a[i - (|s| - |a|)]; }
      }
    }
  }

  /** Strip leading and trailing characters of the class `ws`: the result is
      the slice of `s` between its first and last non-`ws` character. */
  function Trim(s: string, ws: char -> bool): (r: string)
    ensures exists i :: SliceAt(s, i, r)
    ensures r != [] ==> !ws(r[0]) && !ws(r[|r| - 1])
    ensures r == [] <==> forall i :: 0 <= i < |s| ==> ws(s[i])
  {
    TrimSlice(s, ws);
    TrimEnd(TrimStart(s, ws), ws)
  }

  function JsTrim(s: string): string { Trim(s, IsJsSpace) }

  /** `str.strip()`, written out on Python's whitespace class. */
  function PyStrip(s: string): string {
    PyStripEnd(PyStripStart(s))
  }

  function PyStripStart(s: string): string
    decreases |s|
  {
    if |s| > 0 && IsPySpace(s[0]) then PyStripStart(s[1..]) else s
  }

  function PyStripEnd(s: string): string
    decreases |s|
  {
    if |s| > 0 && IsPySpace(s[|s| - 1]) then PyStripEnd(s[..|s| - 1]) else s
  }

  /** `str.strip()` is the general trim on Python's whitespace class. */
  lemma PyStripTrim(s: string)
    ensures PyStrip(s) == Trim(s, IsPySpace)
  {
    PyStripStartTrim(s);
    PyStripEndTrim(PyStripStart(s));
  }

  lemma {:induction false} PyStripStartTrim(s: string)
    ensures PyStripStart(s) == TrimStart(s, IsPySpace)
    decreases |s|
  {
    if |s| > 0 && IsPySpace(s[0]) {
      PyStripStartTrim(s[1..]);
    }
  }

  lemma {:induction false} PyStripEndTrim(s: string)
    ensures PyStripEnd(s) == TrimEnd(s, IsPySpace)
    decreases |s|
  {
    if |s| > 0 && IsPySpace(s[|s| - 1]) {
      PyStripEndTrim(s[..|s| - 1]);
    }
  }

  // ---------------------------------------------------------------- case

  /** ASCII lower-casing; `toLowerCase` / `str.lower` are modelled on ASCII letters only. */
  function LowerChar(c: char): char {
    if 'A' <= c <= 'Z' then (c as int + 32) as char else c
  }

  function Lower(s: string): (r: string)
    ensures |r| == |s|
    ensures forall i :: 0 <= i < |s| ==> r[i] == LowerChar(s[i])
  {
    seq(|s|, i requires 0 <= i < |s| => LowerChar(s[i]))
  }

  // ---------------------------------------------------------------- searching

  /** `sub` occurs in `s` starting at index `j`. */
  predicate MatchAt(s: string, sub: string, j: int) {
    0 <= j && j + |sub| <= |s| && s[j..j + |sub|] == sub
  }

  /** `s.includes(sub)`: `sub` occurs somewhere in `s`. */
  predicate Contains(s: string, sub: string) {
    exists j :: 0 <= j <= |s| && MatchAt(s, sub, j)
  }

  /** The first occurrence of `sub` in `s` at index `i` or later. */
  function IndexFrom(s: string, sub: string, i: nat): (r: Option<nat>)
    ensures r.Some? ==> i <= r.value && MatchAt(s, sub, r.value)
    ensures r.Some? ==> forall j :: i <= j < r.value ==> !MatchAt(s, sub, j)
    ensures r.None? ==> forall j :: i <= j ==> !MatchAt(s, sub, j)
    decreases |s| - i
  {
    if i + |sub| > |s| then None
    else if s[i..i + |sub|] == sub then Some(i)
    else IndexFrom(s, sub, i + 1)
  }

  /** `s.indexOf(sub)`: index of the first occurrence of `sub` in `s`. */
  function IndexOf(s: string, sub: string): (r: Option<nat>)
    ensures r.Some? ==> MatchAt(s, sub, r.value)
    ensures r.Some? ==> forall j :: 0 <= j < r.value ==> !MatchAt(s, sub, j)
    ensures r.None? <==> !Contains(s, sub)
  {
    IndexFrom(s, sub, 0)
  }

  /** A match at `k` with none before it is the first occurrence. */
  lemma IndexOfAt(s: string, sub: string, k: nat)
    requires MatchAt(s, sub, k)
    requires forall j :: 0 <= j < k ==> !MatchAt(s, sub, j)
    ensures IndexOf(s, sub) == Some(k)
  {
  }

  /** Index of the first occurrence of the character `c`. */
  function IndexOfChar(s: string, c: char): (r: Option<nat>)
    ensures r.Some? ==> r.value < |s| && s[r.value] == c && c !in s[..r.value]
    ensures r.None? ==> c !in s
  {
    SingleMatches(s, c);
    match IndexOf(s, [c])
    case None => None
    case Some(k) => Some(k)
  }

  /** The index of the last `c`, if any. */
  function LastIndex(s: string, c: char): (r: Option<nat>)
    ensures r.Some? ==> r.value < |s| && s[r.value] == c && c !in s[r.value + 1..]
    ensures r.None? <==> c !in s
    decreases |s|
  {
    if |s| == 0 then None
    else if s[|s| - 1] == c then Some(|s| - 1)
    else
      var r := LastIndex(s[..|s| - 1], c);
      assert s == s[..|s| - 1] + [s[|s| - 1]];
      if r.Some? then assert s[r.value + 1..] == s[..|s| - 1][r.value + 1..] + [s[|s| - 1]]; r else r
  }

  /** The last `c` is at `k` when there is none after it. */
  lemma LastIndexAt(s: string, c: char, k: nat)
    requires k < |s| && s[k] == c && c !in s[k + 1..]
    ensures LastIndex(s, c) == Some(k)
  {
    assert s[k] in s;
    var r := LastIndex(s, c).value;
    NoneAfter(s, c, k);
    NoneAfter(s, c, r);
  }

  lemma NoneAfter(s: string, c: char, k: nat)
    requires k < |s| && c !in s[k + 1..]
    ensures forall j :: k < j < |s| ==> s[j] != c
  {
    forall j | k < j < |s| ensures s[j] != c {
      assert s[j] == s[k + 1..][j - k - 1];
    }
  }

  /** A one-character match is an equal character. */
  lemma SingleMatches(s: string, c: char)
    ensures forall j :: 0 <= j < |s| ==> (MatchAt(s, [c], j) <==> s[j] == c)
  {
    forall j | 0 <= j < |s| ensures MatchAt(s, [c], j) <==> s[j] == c {
      assert s[j..j + 1] == [s[j]];
    }
  }

  /** JavaScript `s.replace(pattern, "")` with a string pattern: only the first occurrence is removed. */
  function RemoveFirst(s: string, pattern: string): (r: string)
    ensures IndexOf(s, pattern).None? ==> r == s
    ensures IndexOf(s, pattern).Some? ==>
      var k := IndexOf(s, pattern).value; r == s[..k] + s[k + |pattern|..]
  {
    match IndexOf(s, pattern)
    case None => s
    case Some(k) => s[..k] + s[k + |pattern|..]
  }

  /** Split at the first occurrence of `c` (Python `split(c, 1)`, Rust `split(c).next()`). */
  function SplitFirst(s: string, c: char): (r: Option<(string, string)>)
    ensures r.None? <==> c !in s
    ensures r.Some? ==> r.value.0 + [c] + r.value.1 == s && c !in r.value.0
  {
    match IndexOfChar(s, c)
    case None => None
    case Some(k) =>
      SplitAround(s, k);
      Some((s[..k], s[k + 1..]))
  }

  /** `s` is the part before index `k`, the character there, and the rest. */
  lemma SplitAround(s: string, k: nat)
    requires k < |s|
    ensures s[..k] + [s[k]] + s[k + 1..] == s
  {
  }

  /** The part before the first `c`, or the whole string when there is none. */
  function BeforeFirst(s: string, c: char): (r: string)
    ensures c !in r && r <= s
    ensures |r| < |s| ==> s[|r|] == c
  {
    match SplitFirst(s, c)
    case None => s
    case Some((a, b)) => assert s[..|a|] == a; a
  }

  /** The part after the last `c`, or the whole string when there is none
      (Python `s.split(c)[-1]`). */
  function AfterLast(s: string, c: char): (r: string)
    ensures c !in r
    ensures |r| <= |s| && s[|s| - |r|..] == r
    ensures |r| < |s| ==> s[|s| - |r| - 1] == c
    decreases |s|
  {
    if |s| == 0 then s
    else if s[|s| - 1] == c then []
    else AfterLast(s[..|s| - 1], c) + [s[|s| - 1]]
  }

  /** `parts.join(sep)`. */
  function Join(parts: seq<string>, sep: string): (r: string)
    ensures |parts| == 0 ==> r == []
    ensures |parts| == 1 ==> r == parts[0]
    decreases |parts|
  {
    if |parts| == 0 then []
    else if |parts| == 1 then parts[0]
    else Join(parts[..|parts| - 1], sep) + sep + parts[|parts| - 1]
  }

  /** `s.repeat(n)` / Python `c * n`. */
  function Repeat(c: char, n: nat): (r: string)
    ensures |r| == n && forall i :: 0 <= i < n ==> r[i] == c
  {
    seq(n, _ => c)
  }

  // ---------------------------------------------------------------- tokens

  predicate NoSpace(w: string, ws: char -> bool) {
    forall j :: 0 <= j < |w| ==> !ws(w[j])
  }

  /** The longest prefix of `s` free of `ws` characters. */
  function TakeWord(s: string, ws: char -> bool): (w: string)
    ensures w <= s && NoSpace(w, ws)
    ensures |w| < |s| ==> ws(s[|w|])
    ensures |s| > 0 && !ws(s[0]) ==> |w| > 0
  {
    if |s| == 0 || ws(s[0]) then [] else [s[0]] + TakeWord(s[1..], ws)
  }

  predicate Token(w: string, ws: char -> bool) {
    |w| > 0 && NoSpace(w, ws)
  }

  /** Rust `split_whitespace` / Python `split()`: the maximal runs of non-`ws` characters. */
  function SplitWhitespace(s: string, ws: char -> bool): (r: seq<string>)
    decreases |s|
  {
    var t := TrimStart(s, ws);
    if t == [] then []
    else
      var w := TakeWord(t, ws);
      assert |w| > 0;
      [w] + SplitWhitespace(t[|w|..], ws)
  }

  /** Every piece `split_whitespace` yields is a non-empty run free of whitespace. */
  lemma {:induction false} SplitWhitespaceTokens(s: string, ws: char -> bool)
    ensures forall k :: 0 <= k < |SplitWhitespace(s, ws)| ==> Token(SplitWhitespace(s, ws)[k], ws)
    decreases |s|
  {
    var t := TrimStart(s, ws);
    if t != [] {
      var w := TakeWord(t, ws);
      SplitWhitespaceTokens(t[|w|..], ws);
      var r := SplitWhitespace(s, ws);
      assert r == [w] + SplitWhitespace(t[|w|..], ws);
      forall k | 0 <= k < |r| ensures Token(r[k], ws) {
        if k > 0 { assert r[k] == SplitWhitespace(t[|w|..], ws)[k - 1]; }
      }
    }
  }

  function Concat(parts: seq<string>): string {
    if |parts| == 0 then [] else parts[0] + Concat(parts[1..])
  }

  /** The characters of `s` outside the class `ws`, in order. */
  function Unspaced(s: string, ws: char -> bool): string {
    if |s| == 0 then [] else (if ws(s[0]) then [] else [s[0]]) + Unspaced(s[1..], ws)
  }

  lemma {:induction false} UnspacedAppend(a: string, b: string, ws: char -> bool)
    ensures Unspaced(a + b, ws) == Unspaced(a, ws) + Unspaced(b, ws)
    decreases |a|
  {
    if |a| == 0 {
      assert a + b == b;
    } else {
      assert (a + b)[1..] == a[1..] + b;
      UnspacedAppend(a[1..], b, ws);
    }
  }

  lemma {:induction false} UnspacedAllSpace(a: string, ws: char -> bool)
    requires forall j :: 0 <= j < |a| ==> ws(a[j])
    ensures Unspaced(a, ws) == []
    decreases |a|
  {
    if |a| > 0 { UnspacedAllSpace(a[1..], ws); }
  }

  lemma {:induction false} UnspacedNoSpace(a: string, ws: char -> bool)
    requires NoSpace(a, ws)
    ensures Unspaced(a, ws) == a
    decreases |a|
  {
    if |a| > 0 { UnspacedNoSpace(a[1..], ws); }
  }

  /** Splitting loses exactly the whitespace: the tokens put back together are
      the non-whitespace characters of the input, in order. */
  lemma {:induction false} SplitWhitespaceKeepsText(s: string, ws: char -> bool)
    ensures Concat(SplitWhitespace(s, ws)) == Unspaced(s, ws)
    decreases |s|
  {
    var t := TrimStart(s, ws);
    var skipped := s[..|s| - |t|];
    assert s == skipped + t;
    UnspacedAppend(skipped, t, ws);
    UnspacedAllSpace(skipped, ws);
    if t != [] {
      var w := TakeWord(t, ws);
      assert t == w + t[|w|..];
      UnspacedAppend(w, t[|w|..], ws);
      UnspacedNoSpace(w, ws);
      SplitWhitespaceKeepsText(t[|w|..], ws);
      var r := SplitWhitespace(s, ws);
      assert r == [w] + SplitWhitespace(t[|w|..], ws);
      assert r[1..] == SplitWhitespace(t[|w|..], ws);
    }
  }

  /** A run free of `ws` followed by `ws` or the end is taken whole. */
  lemma {:induction false} TakeWordOfToken(w: string, rest: string, ws: char -> bool)
    requires NoSpace(w, ws) && (rest == [] || ws(rest[0]))
    ensures TakeWord(w + rest, ws) == w
    decreases |w|
  {
    if |w| == 0 {
      assert w + rest == rest;
    } else {
      assert (w + rest)[0] == w[0];
      assert (w + rest)[1..] == w[1..] + rest;
      TakeWordOfToken(w[1..], rest, ws);
      assert [w[0]] + w[1..] == w;
    }
  }

  /** A token followed by whitespace or the end is the first piece. */
  lemma SplitWhitespaceToken(w: string, rest: string, ws: char -> bool)
    requires Token(w, ws) && (rest == [] || ws(rest[0]))
    ensures SplitWhitespace(w + rest, ws) == [w] + SplitWhitespace(rest, ws)
  {
    var s := w + rest;
    assert s[0] == w[0];
    assert TrimStart(s, ws) == s;
    TakeWordOfToken(w, rest, ws);
    assert s[|w|..] == rest;
  }

  /** Leading whitespace yields no piece. */
  lemma SplitWhitespaceSpace(c: char, rest: string, ws: char -> bool)
    requires ws(c)
    ensures SplitWhitespace([c] + rest, ws) == SplitWhitespace(rest, ws)
  {
    assert ([c] + rest)[1..] == rest;
    assert TrimStart([c] + rest, ws) == TrimStart(rest, ws);
  }

  // ---------------------------------------------------------------- order

  /** Code-unit lexicographic order, `a <= b`; `localeCompare` on the ISO
      date strings the apps sort is modelled by it. */
  predicate LexLe(a: string, b: string)
    decreases |a|
  {
    |a| == 0 || (|b| > 0 && (a[0] < b[0] || (a[0] == b[0] && LexLe(a[1..], b[1..]))))
  }

  lemma {:induction false} LexTotal(a: string, b: string)
    ensures LexLe(a, b) || LexLe(b, a)
    decreases |a|
  {
    if |a| > 0 && |b| > 0 && a[0] == b[0] {
      LexTotal(a[1..], b[1..]);
    }
  }

  lemma {:induction false} LexTransitive(a: string, b: string, c: string)
    requires LexLe(a, b) && LexLe(b, c)
    ensures LexLe(a, c)
    decreases |a|
  {
    if |a| > 0 && a[0] == b[0] && b[0] == c[0] {
      LexTransitive(a[1..], b[1..], c[1..]);
    }
  }

  lemma {:induction false} LexAntisymmetric(a: string, b: string)
    requires LexLe(a, b) && LexLe(b, a)
    ensures a == b
    decreases |a|
  {
    if |a| > 0 {
      LexAntisymmetric(a[1..], b[1..]);
      assert a == [a[0]] + a[1..] && b == [b[0]] + b[1..];
    }
  }

  // ---------------------------------------------------------------- parseInt

  /** The longest run of decimal digits at the start of `s`. */
  function LeadingDigits(s: string): (r: string)
    ensures r <= s && AllDigits(r)
    ensures |r| < |s| ==> !IsDigit(s[|r|])
  {
    if |s| > 0 && IsDigit(s[0]) then [s[0]] + LeadingDigits(s[1..]) else []
  }

  /** JavaScript `parseInt(s)` in base 10: leading whitespace, an optional sign,
      then the longest digit run; None stands for `NaN`. */
  function ParseIntPrefix(s: string): (r: Option<int>)
    ensures r.Some? <==> |LeadingDigits(SignFree(TrimStart(s, IsJsSpace)))| > 0
  {
    var t := TrimStart(s, IsJsSpace);
    var negative := |t| > 0 && t[0] == '-';
    var digits := LeadingDigits(SignFree(t));
    if |digits| == 0 then None
    else
      var v: int := DigitsValue(digits);
      Some(if negative then -v else v)
  }

  /** The text after an optional leading `+` or `-`. */
  function SignFree(t: string): string {
    if |t| > 0 && (t[0] == '-' || t[0] == '+') then t[1..] else t
  }

  /** A pixel length written as `n + 'px'` parses back to `n`. */
  lemma ParseIntOfPixels(n: nat)
    ensures ParseIntPrefix(NatToString(n) + "px") == Some(n)
  {
    ParseIntOfDigits(NatToString(n), "px");
    DigitsValueOfNatToString(n);
  }

  /** A digit run followed by a non-digit parses to the run's value. */
  lemma ParseIntOfDigits(d: string, rest: string)
    requires |d| > 0 && AllDigits(d) && (|rest| == 0 || !IsDigit(rest[0]))
    ensures ParseIntPrefix(d + rest) == Some(DigitsValue(d))
  {
    var s := d + rest;
    assert s[0] == d[0];
    DigitStart(s);
    LeadingDigitsOfNumber(d, rest);
  }

  /** Text that starts with a digit has no leading space and no sign. */
  lemma DigitStart(s: string)
    requires |s| > 0 && IsDigit(s[0])
    ensures TrimStart(s, IsJsSpace) == s && SignFree(s) == s
  {
    assert !IsJsSpace(s[0]);
  }

  lemma {:induction false} LeadingDigitsOfNumber(d: string, rest: string)
    requires AllDigits(d) && (|rest| == 0 || !IsDigit(rest[0]))
    ensures LeadingDigits(d + rest) == d
    decreases |d|
  {
    if |d| > 0 {
      assert (d + rest)[1..] == d[1..] + rest;
      LeadingDigitsOfNumber(d[1..], rest);
      assert [d[0]] + d[1..] == d;
    } else {
      assert d + rest == rest;
    }
  }
}

=== FILE: tally.dfy ===
/** Counting occurrences in an insertion-ordered map: the
    `counts[k] = (counts[k] || 0) + 1` and `new Map()` + `trackCount++` loops
    of the front ends. */
module Tally {

  /** The distinct elements of `s` in order of first appearance. */
  function Dedup<K(==,!new)>(s: seq<K>): (r: seq<K>)
    ensures forall k :: k in r <==> k in s
    decreases |s|
  {
    if |s| == 0 then []
    else
      var d := Dedup(s[..|s| - 1]);
      assert s == s[..|s| - 1] + [s[|s| - 1]];
      if s[|s| - 1] in d then d else d + [s[|s| - 1]]
  }

  /** One more element adds itself at the end iff it is new. */
  lemma DedupSnoc<K(!new)>(s: seq<K>, x: K)
    ensures Dedup(s + [x]) == Dedup(s) + (if x in s then [] else [x])
  {
    assert (s + [x])[..|s|] == s;
  }

  /** The position of the first occurrence of `k` in `s`. */
  function FirstIndex<K(==)>(s: seq<K>, k: K): (r: nat)
    requires k in s
    ensures r < |s| && s[r] == k
    ensures forall i :: 0 <= i < r ==> s[i] != k
    decreases |s|
  {
    if s[0] == k then 0 else 1 + FirstIndex(s[1..], k)
  }

  /** Appending leaves the first occurrence of an element already present where it was. */
  lemma FirstIndexSnoc<K>(s: seq<K>, x: K, k: K)
    requires k in s
    ensures FirstIndex(s + [x], k) == FirstIndex(s, k)
  {
    var a := FirstIndex(s, k);
    var b := FirstIndex(s + [x], k);
    assert (s + [x])[a] == k;
    assert b <= a;
    assert s[b] == k;
  }

  /** First-seen order: the distinct elements are listed by the position
      where each first occurs. */
  lemma {:induction false} DedupFirstSeen<K(!new)>(s: seq<K>)
    ensures forall i, j :: 0 <= i < j < |Dedup(s)| ==> FirstIndex(s, Dedup(s)[i]) < FirstIndex(s, Dedup(s)[j])
    decreases |s|
  {
    if |s| > 0 {
      var p := s[..|s| - 1];
      var x := s[|s| - 1];
      assert s == p + [x];
      DedupFirstSeen(p);
      DedupSnoc(p, x);
      var d := Dedup(p);
      forall i, j | 0 <= i < j < |Dedup(s)|
        ensures FirstIndex(s, Dedup(s)[i]) < FirstIndex(s, Dedup(s)[j])
      {
        assert Dedup(s)[i] == d[i];
        FirstIndexSnoc(p, x, d[i]);
        if j < |d| {
          assert Dedup(s)[j] == d[j];
          FirstIndexSnoc(p, x, d[j]);
        } else {
          assert Dedup(s)[j] == x && x !in p;
        }
      }
    }
  }

  predicate Distinct<K(==)>(s: seq<K>) {
    forall i, j :: 0 <= i < j < |s| ==> s[i] != s[j]
  }

  /** A new element appended keeps a list free of duplicates. */
  lemma DistinctAppend<K>(s: seq<K>, x: K)
    requires Distinct(s) && x !in s
    ensures Distinct(s + [x])
  {
    var t := s + [x];
    forall i, j | 0 <= i < j < |t| ensures t[i] != t[j] {
      assert t[i] == s[i];
    }
  }

  lemma {:induction false} DedupDistinct<K(!new)>(s: seq<K>)
    ensures Distinct(Dedup(s))
    decreases |s|
  {
    if |s| > 0 {
      DedupDistinct(s[..|s| - 1]);
    }
  }

  /** Sum of the multiplicities in `m` of the elements listed in `order`. */
  function SumCounts<K>(order: seq<K>, m: multiset<K>): nat {
    if |order| == 0 then 0 else m[order[0]] + SumCounts(order[1..], m)
  }

  lemma {:induction false} SumCountsBump<K>(order: seq<K>, m: multiset<K>, x: K)
    requires Distinct(order)
    ensures SumCounts(order, m + multiset{x}) == SumCounts(order, m) + (if x in order then 1 else 0)
    decreases |order|
  {
    if |order| > 0 {
      SumCountsBump(order[1..], m, x);
      assert x in order <==> x == order[0] || x in order[1..];
    }
  }

  lemma {:induction false} SumCountsAppend<K>(order: seq<K>, y: K, m: multiset<K>)
    ensures SumCounts(order + [y], m) == SumCounts(order, m) + m[y]
    decreases |order|
  {
    if |order| == 0 {
      assert ([y])[1..] == [];
    } else {
      assert (order + [y])[1..] == order[1..] + [y];
      SumCountsAppend(order[1..], y, m);
    }
  }

  /** The counts of the distinct keys add up to the number of keys counted. */
  lemma {:induction false} SumOfCounts<K(!new)>(s: seq<K>)
    ensures SumCounts(Dedup(s), multiset(s)) == |s|
    decreases |s|
  {
    if |s| > 0 {
      var p := s[..|s| - 1];
      var x := s[|s| - 1];
      assert s == p + [x];
      SumOfCounts(p);
      DedupDistinct(p);
      SumCountsBump(Dedup(p), multiset(p), x);
      if x !in Dedup(p) {
        SumCountsAppend(Dedup(p), x, multiset(s));
        assert multiset(p)[x] == 0;
      }
    }
  }

  /** One pass over `keys`: `order` lists each key once, in the order it was
      first seen (`Dedup`, whose order `DedupFirstSeen` and `DedupDistinct`
      state), and `counts` maps it to the number of times it occurs. */
  method CountKeys<K(==,!new)>(keys: seq<K>) returns (order: seq<K>, counts: map<K, nat>)
    ensures order == Dedup(keys)
    ensures forall k :: k in counts <==> k in keys
    ensures forall k :: k in counts ==> counts[k] == multiset(keys)[k]
  {
    order := [];
    counts := map[];
    var i := 0;
    while i < |keys|
      invariant 0 <= i <= |keys|
      invariant order == Dedup(keys[..i])
      invariant forall k :: k in counts <==> k in keys[..i]
      invariant forall k :: k in counts ==> counts[k] == multiset(keys[..i])[k]
    {
      var k := keys[i];
      assert keys[..i + 1] == keys[..i] + [k];
      if k in counts {
        counts := counts[k := counts[k] + 1];
      } else {
        order := order + [k];
        counts := counts[k := 1];
      }
      i := i + 1;
    }
    assert keys[..i] == keys;
  }

  /** A key occurs at most once in a sequence without repeats. */
  lemma {:induction false} DistinctCount<K>(s: seq<K>, x: K)
    requires Distinct(s)
    ensures multiset(s)[x] <= 1
    decreases |s|
  {
    if |s| > 0 {
      assert s == [s[0]] + s[1..];
      DistinctCount(s[1..], x);
      if x == s[0] {
        assert forall j :: 0 <= j < |s[1..]| ==> s[1..][j] == s[j + 1];
        assert x !in s[1..];
      }
    }
  }

  /** Reordering a sequence without repeats leaves it without repeats. */
  lemma PermutedDistinct<K>(s: seq<K>, t: seq<K>)
    requires multiset(s) == multiset(t) && Distinct(s)
    ensures Distinct(t)
  {
    forall i, j | 0 <= i < j < |t| ensures t[i] != t[j] {
      TwiceCounted(t, i, j);
      DistinctCount(s, t[i]);
    }
  }

  /** Two equal entries at different places count twice. */
  lemma TwiceCounted<K>(t: seq<K>, i: nat, j: nat)
    requires i < j < |t|
    ensures t[i] == t[j] ==> multiset(t)[t[i]] >= 2
  {
    assert t == t[..j] + t[j..];
    assert t[i] == t[..j][i] && t[j] == t[j..][0];
    assert multiset(t) == multiset(t[..j]) + multiset(t[j..]);
  }

  /** Concatenation is associative (stated once, for proofs whose context
      makes the solver's own extensionality step expensive). */
  lemma SeqAssoc<T>(a: seq<T>, b: seq<T>, c: seq<T>)
    ensures a + b + c == a + (b + c)
  {
  }
}

=== FILE: tunes.dfy ===
/** The Spotify library browser (tunes/src/App.jsx): collecting the library
    from several sources without duplicates, the URL parameters that mirror
    the filters, filtering, sorting, per-artist and per-album counts, and the
    top-50 playlist sync. The Spotify requests are left out; their replies are
    parameters. */
module Tunes {
  import opened Wrappers
  import opened Strings
  import UrlParams
  import Sorting
  import Tally
  import Batching

  datatype Artist = Artist(id: string, name: string)
  datatype Album = Album(id: string, name: string)

  /** A Spotify track object; a missing `popularity` or `duration_ms` reads as 0. */
  datatype Track = Track(id: string, name: string, artists: seq<Artist>, album: Option<Album>,
                         popularity: nat, durationMs: nat)

  // ------------------------------------------------------------ library

  /** The ids of a list of tracks. */
  function IdsOf(s: seq<Track>): (r: set<string>)
    ensures forall i :: 0 <= i < |s| ==> s[i].id in r
    decreases |s|
  {
    if |s| == 0 then {} else IdsOf(s[..|s| - 1]) + {s[|s| - 1].id}
  }

  /** The ids of the tracks of a page; null entries have none. */
  function PageIds(page: seq<Option<Track>>): (r: set<string>)
    ensures forall i :: 0 <= i < |page| && page[i].Some? ==> page[i].value.id in r
    decreases |page|
  {
    if |page| == 0 then {}
    else
      var prev := PageIds(page[..|page| - 1]);
      match page[|page| - 1]
      case None => prev
      case Some(t) => prev + {t.id}
  }

  predicate DistinctIds(s: seq<Track>) {
    forall i, j :: 0 <= i < j < |s| ==> s[i].id != s[j].id
  }

  /** The first track of `page` with id `id`, if any. */
  function FirstWithId(page: seq<Option<Track>>, id: string): (r: Option<Track>)
    ensures r.Some? <==> id in PageIds(page)
    ensures r.Some? ==> r.value.id == id && Some(r.value) in page
    decreases |page|
  {
    if |page| == 0 then None
    else
      var prev := FirstWithId(page[..|page| - 1], id);
      if prev.Some? then prev
      else if page[|page| - 1].Some? && page[|page| - 1].value.id == id then page[|page| - 1]
      else None
  }

  /** The tracks of `page` that `addTracks` lists: null entries skipped, and each
      id only at its first appearance and only when not `seen` before. */
  function FirstSeen(page: seq<Option<Track>>, seen: set<string>): (r: seq<Track>)
    decreases |page|
  {
    if |page| == 0 then []
    else
      var init := page[..|page| - 1];
      var prev := FirstSeen(init, seen);
      match page[|page| - 1]
      case None => prev
      case Some(t) => if t.id in seen || t.id in PageIds(init) then prev else prev + [t]
  }

  /** The listed tracks carry distinct ids: exactly the ids of the page not seen before. */
  lemma {:induction false} FirstSeenIds(page: seq<Option<Track>>, seen: set<string>)
    ensures var r := FirstSeen(page, seen);
      DistinctIds(r) && IdsOf(r) == PageIds(page) - seen
    decreases |page|
  {
    if |page| > 0 {
      FirstSeenIds(page[..|page| - 1], seen);
      FirstSeenIdsStep(page[..|page| - 1], page[|page| - 1], seen);
      assert page[..|page| - 1] + [page[|page| - 1]] == page;
    }
  }

  lemma FirstSeenIdsStep(init: seq<Option<Track>>, x: Option<Track>, seen: set<string>)
    requires var r := FirstSeen(init, seen);
      DistinctIds(r) && IdsOf(r) == PageIds(init) - seen
    ensures var r := FirstSeen(init + [x], seen);
      DistinctIds(r) && IdsOf(r) == PageIds(init + [x]) - seen
  {
    FirstSeenSnoc(init, x, seen);
    var prev := FirstSeen(init, seen);
    if x.Some? && x.value.id !in seen + PageIds(init) {
      IdsAppend(prev, x.value);
      NewIdDistinct(prev, x.value);
    }
  }

  lemma FirstSeenSnoc(init: seq<Option<Track>>, x: Option<Track>, seen: set<string>)
    ensures PageIds(init + [x]) == PageIds(init) + (if x.Some? then {x.value.id} else {})
    ensures FirstSeen(init + [x], seen) == FirstSeen(init, seen) +
      if x.Some? && x.value.id !in seen + PageIds(init) then [x.value] else []
  {
    assert (init + [x])[..|init|] == init;
  }

  /** Each listed track is the first track on the page with its id. */
  lemma {:induction false} FirstSeenFirst(page: seq<Option<Track>>, seen: set<string>)
    ensures forall t :: t in FirstSeen(page, seen) ==> FirstWithId(page, t.id) == Some(t)
    decreases |page|
  {
    if |page| > 0 {
      var init := page[..|page| - 1];
      FirstSeenFirst(init, seen);
      forall u | u in FirstSeen(init, seen) ensures FirstWithId(page, u.id) == Some(u) {
        assert FirstWithId(init, u.id) == Some(u);
      }
    }
  }

  lemma NewIdDistinct(s: seq<Track>, t: Track)
    requires DistinctIds(s) && t.id !in IdsOf(s)
    ensures DistinctIds(s + [t])
  {
  }

  lemma IdsAppend(s: seq<Track>, t: Track)
    ensures IdsOf(s + [t]) == IdsOf(s) + {t.id}
  {
    assert (s + [t])[..|s|] == s;
  }

  /** `if (!list.includes(x)) list.push(x)`. */
  function AddOnce(s: seq<string>, x: string): (r: seq<string>)
    ensures x in r && forall y :: y in r <==> y in s || y == x
  {
    if x in s then s else s + [x]
  }

  function SourcesOf(m: map<string, seq<string>>, id: string): seq<string> {
    if id in m then m[id] else []
  }

  /** The state `fetchLibrary` keeps while it walks the sources: the ids seen,
      each id's source names (`trackSources`, shared with the listed track as
      its `_sources`), and the tracks it has appended to the library. */
  class LibraryFetch {
    var seen: set<string>
    var sources: map<string, seq<string>>
    var added: seq<Track>

    /** Every listed id once, every id met has a source list, and a source
        list names each source once. */
    ghost predicate Valid()
      reads this
    {
      ValidState(seen, sources, added)
    }

    constructor ()
      ensures Valid() && seen == {} && sources == map[] && added == []
    {
      seen := {};
      sources := map[];
      added := [];
    }

    /** One non-null track of a page. */
    method AddOne(t: Track, name: string) returns (isNew: bool)
      requires Valid()
      modifies this
      ensures Valid()
      ensures isNew <==> t.id !in old(seen)
      ensures seen == old(seen) + {t.id}
      ensures added == old(added) + (if isNew then [t] else [])
      ensures sources == Visit(old(sources), t, name)
    {
      isNew := t.id !in seen;
      VisitKeepsValid(seen, sources, added, t, name);
      sources := Visit(sources, t, name);
      added := if t.id in seen then added else added + [t];
      seen := seen + {t.id};
    }

    /** `addTracks(tracks, sourceName)`: returns the tracks it lists. */
    method AddTracks(page: seq<Option<Track>>, name: string) returns (unique: seq<Track>)
      requires Valid()
      modifies this
      ensures Valid()
      ensures unique == FirstSeen(page, old(seen))
      ensures added == old(added) + unique
      ensures seen == old(seen) + PageIds(page)
      ensures sources == SourcesAfter(old(sources), page, name)
    {
      unique := [];
      var i := 0;
      while i < |page|
        invariant 0 <= i <= |page|
        invariant Valid()
        invariant unique == FirstSeen(page[..i], old(seen))
        invariant added == old(added) + unique
        invariant seen == old(seen) + PageIds(page[..i])
        invariant sources == SourcesAfter(old(sources), page[..i], name)
      {
        unique := AddEntry(page, i, name, old(seen), old(sources), old(added), unique);
        i := i + 1;
      }
      assert page[..i] == page;
    }

    /** The body of the `forEach` in `addTracks`, at entry `i` of the page. */
    method AddEntry(page: seq<Option<Track>>, i: nat, name: string, ghost seen0: set<string>,
                    ghost sources0: map<string, seq<string>>, ghost added0: seq<Track>, unique: seq<Track>)
      returns (unique': seq<Track>)
      requires i < |page| && Valid()
      requires unique == FirstSeen(page[..i], seen0) && added == added0 + unique
      requires seen == seen0 + PageIds(page[..i]) && sources == SourcesAfter(sources0, page[..i], name)
      modifies this
      ensures Valid()
      ensures unique' == FirstSeen(page[..i + 1], seen0) && added == added0 + unique'
      ensures seen == seen0 + PageIds(page[..i + 1]) && sources == SourcesAfter(sources0, page[..i + 1], name)
    {
      PageStep(page, i, seen0, sources0, name);
      unique' := unique;
      if page[i].Some? {
        var t := page[i].value;
        var isNew := AddOne(t, name);
        if isNew {
          unique' := unique + [t];
        }
      }
    }
  }

  /** How the page-prefix functions grow by one entry. */
  lemma PageStep(page: seq<Option<Track>>, i: nat, seen: set<string>, m: map<string, seq<string>>, name: string)
    requires i < |page|
    ensures PageIds(page[..i + 1]) == PageIds(page[..i]) + (if page[i].Some? then {page[i].value.id} else {})
    ensures SourcesAfter(m, page[..i + 1], name) ==
      if page[i].Some? then Visit(SourcesAfter(m, page[..i], name), page[i].value, name)
      else SourcesAfter(m, page[..i], name)
    ensures FirstSeen(page[..i + 1], seen) == FirstSeen(page[..i], seen) +
      if page[i].Some? && page[i].value.id !in seen + PageIds(page[..i]) then [page[i].value] else []
  {
    assert page[..i + 1][..i] == page[..i];
  }

  ghost predicate ValidState(seen: set<string>, sources: map<string, seq<string>>, added: seq<Track>) {
    sources.Keys == seen && IdsOf(added) == seen && DistinctIds(added) &&
    forall id :: id in sources ==> Tally.Distinct(sources[id])
  }

  /** The source lists after one more visit of `t` under `name`. */
  function Visit(m: map<string, seq<string>>, t: Track, name: string): map<string, seq<string>> {
    m[t.id := AddOnce(SourcesOf(m, t.id), name)]
  }

  lemma VisitKeepsValid(seen: set<string>, sources: map<string, seq<string>>, added: seq<Track>,
                        t: Track, name: string)
    requires ValidState(seen, sources, added)
    ensures ValidState(seen + {t.id}, Visit(sources, t, name), if t.id in seen then added else added + [t])
  {
    AddOnceDistinct(SourcesOf(sources, t.id), name);
    if t.id !in seen {
      IdsAppend(added, t);
      NewIdDistinct(added, t);
    }
  }

  lemma AddOnceDistinct(s: seq<string>, x: string)
    requires Tally.Distinct(s)
    ensures Tally.Distinct(AddOnce(s, x))
  {
  }

  /** The source lists after a whole page under `name`. */
  function SourcesAfter(m: map<string, seq<string>>, page: seq<Option<Track>>, name: string): map<string, seq<string>>
    decreases |page|
  {
    if |page| == 0 then m
    else
      var prev := SourcesAfter(m, page[..|page| - 1], name);
      match page[|page| - 1]
      case None => prev
      case Some(t) => Visit(prev, t, name)
  }

  /** After a page, every id on it has `name` in its source list once, added at
      the end if it was new; other ids keep their lists. */
  lemma {:induction false} SourcesAfterSpec(m: map<string, seq<string>>, page: seq<Option<Track>>, name: string)
    ensures var r := SourcesAfter(m, page, name);
      (forall id :: id in r <==> id in m || id in PageIds(page)) &&
      forall id :: id in r ==>
        r[id] == if id in PageIds(page) then AddOnce(SourcesOf(m, id), name) else m[id]
    decreases |page|
  {
    if |page| > 0 {
      SourcesAfterSpec(m, page[..|page| - 1], name);
      if page[|page| - 1].Some? {
        AddOnceTwice(SourcesOf(m, page[|page| - 1].value.id), name);
      }
    }
  }

  lemma AddOnceTwice(s: seq<string>, x: string)
    ensures AddOnce(AddOnce(s, x), x) == AddOnce(s, x)
  {
  }


  // ------------------------------------------------------------ URL parameters

  /** A value given to `updateUrlParams`: null, a string, or an array of strings. */
  datatype UrlValue = NullValue | Text(text: string) | List(items: seq<string>)

  /** Null, the empty string and the empty array remove the parameter. */
  predicate Clears(v: UrlValue) {
    v == NullValue || v == Text("") || v == List([])
  }

  /** One entry of `updateUrlParams`: delete, comma-join an array, or set the string. */
  function ApplyUpdate(p: UrlParams.Params, k: string, v: UrlValue): UrlParams.Params {
    if Clears(v) then UrlParams.Delete(p, k)
    else match v
      case List(xs) => UrlParams.Set(p, k, Join(xs, ","))
      case Text(x) => UrlParams.Set(p, k, x)
      case NullValue => p
  }

  /** What `params.get(k)` reads after the entry for `k` was applied. */
  function Expected(v: UrlValue): Option<string> {
    if Clears(v) then None
    else match v
      case List(xs) => Some(Join(xs, ","))
      case Text(x) => Some(x)
      case NullValue => None
  }

  /** Reading the key back gives what the value stands for, and the pairs of
      every other key are as before. */
  lemma ApplyUpdateSpec(p: UrlParams.Params, k: string, v: UrlValue)
    ensures UrlParams.Get(ApplyUpdate(p, k, v), k) == Expected(v)
    ensures forall j :: j != k ==> UrlParams.Named(ApplyUpdate(p, k, v), j) == UrlParams.Named(p, j)
  {
    if Clears(v) {
      UrlParams.DeleteGet(p, k);
      forall j | j != k ensures UrlParams.Named(ApplyUpdate(p, k, v), j) == UrlParams.Named(p, j) {
        UrlParams.DeleteNamedOther(p, k, j);
      }
    } else {
      var x := if v.List? then Join(v.items, ",") else v.text;
      assert ApplyUpdate(p, k, v) == UrlParams.Set(p, k, x);
      UrlParams.SetGet(p, k, x);
      forall j | j != k ensures UrlParams.Named(ApplyUpdate(p, k, v), j) == UrlParams.Named(p, j) {
        UrlParams.SetNamedOther(p, k, x, j);
      }
    }
  }

  /** The entries of the `updates` object applied in order. */
  function ApplyAll(p: UrlParams.Params, updates: seq<(string, UrlValue)>): UrlParams.Params
    decreases |updates|
  {
    if |updates| == 0 then p
    else ApplyAll(ApplyUpdate(p, updates[0].0, updates[0].1), updates[1..])
  }

  /** `updateUrlParams(updates)`: the query string it writes back to the address bar. */
  method UpdateUrlParams(p: UrlParams.Params, updates: seq<(string, UrlValue)>) returns (r: UrlParams.Params)
    ensures r == ApplyAll(p, updates)
  {
    r := p;
    var i := 0;
    while i < |updates|
      invariant 0 <= i <= |updates|
      invariant ApplyAll(r, updates[i..]) == ApplyAll(p, updates)
    {
      assert updates[i..][1..] == updates[i + 1..];
      r := ApplyUpdate(r, updates[i].0, updates[i].1);
      i := i + 1;
    }
  }

  /** The keys of an object are distinct. */
  predicate DistinctKeys(updates: seq<(string, UrlValue)>) {
    forall i, j :: 0 <= i < j < |updates| ==> updates[i].0 != updates[j].0
  }

  /** Every key of the update reads back as its value; every other key is untouched. */
  lemma {:induction false} ApplyAllSpec(p: UrlParams.Params, updates: seq<(string, UrlValue)>)
    requires DistinctKeys(updates)
    ensures forall i :: 0 <= i < |updates| ==> UrlParams.Get(ApplyAll(p, updates), updates[i].0) == Expected(updates[i].1)
    ensures forall j :: (forall i :: 0 <= i < |updates| ==> updates[i].0 != j) ==>
      UrlParams.Named(ApplyAll(p, updates), j) == UrlParams.Named(p, j)
    decreases |updates|
  {
    if |updates| > 0 {
      var (k, v) := updates[0];
      var q := ApplyUpdate(p, k, v);
      var rest := updates[1..];
      ApplyAllSpec(q, rest);
      ApplyUpdateSpec(p, k, v);
      assert forall i :: 0 <= i < |rest| ==> rest[i].0 != k;
      UrlParams.SameNamedGet(ApplyAll(q, rest), q, k);
      forall i | 0 <= i < |updates|
        ensures UrlParams.Get(ApplyAll(p, updates), updates[i].0) == Expected(updates[i].1)
      {
        if i > 0 {
          assert updates[i] == rest[i - 1];
        }
      }
      forall j | (forall i :: 0 <= i < |updates| ==> updates[i].0 != j)
        ensures UrlParams.Named(ApplyAll(p, updates), j) == UrlParams.Named(p, j)
      {
        assert updates[0].0 != j;
        assert forall i :: 0 <= i < |rest| ==> rest[i].0 == updates[i + 1].0;
      }
    }
  }

  // ------------------------------------------------------------ filters

  datatype FilterKey = ArtistKey | AlbumKey | GenreKey | SortByKey | SortDirKey | ViewKey

  datatype Filters = Filters(artist: string, album: string, genre: string,
                             sortBy: string, sortDir: string, view: string)

  /** The URL parameter name of a filter. */
  function KeyName(k: FilterKey): string {
    match k
    case ArtistKey => "artist"
    case AlbumKey => "album"
    case GenreKey => "genre"
    case SortByKey => "sortBy"
    case SortDirKey => "sortDir"
    case ViewKey => "view"
  }

  /** The value a filter takes when the URL has none. */
  function Default(k: FilterKey): string {
    match k
    case ArtistKey => ""
    case AlbumKey => ""
    case GenreKey => ""
    case SortByKey => "name"
    case SortDirKey => "asc"
    case ViewKey => "tracks"
  }

  function Field(f: Filters, k: FilterKey): string {
    match k
    case ArtistKey => f.artist
    case AlbumKey => f.album
    case GenreKey => f.genre
    case SortByKey => f.sortBy
    case SortDirKey => f.sortDir
    case ViewKey => f.view
  }

  /** `{ ...prev, [key]: value }`. */
  function WithField(f: Filters, k: FilterKey, v: string): (r: Filters)
    ensures Field(r, k) == v
    ensures forall j :: j != k ==> Field(r, j) == Field(f, j)
  {
    match k
    case ArtistKey => f.(artist := v)
    case AlbumKey => f.(album := v)
    case GenreKey => f.(genre := v)
    case SortByKey => f.(sortBy := v)
    case SortDirKey => f.(sortDir := v)
    case ViewKey => f.(view := v)
  }

  /** `params.get(key) || default`. */
  function FromUrl(p: UrlParams.Params, k: FilterKey): string {
    match UrlParams.Get(p, KeyName(k))
    case Some(v) => if v == "" then Default(k) else v
    case None => Default(k)
  }

  /** `getFiltersFromUrl()`. */
  function FiltersFromUrl(p: UrlParams.Params): (f: Filters)
    ensures forall k :: Field(f, k) == FromUrl(p, k)
  {
    Filters(FromUrl(p, ArtistKey), FromUrl(p, AlbumKey), FromUrl(p, GenreKey),
            FromUrl(p, SortByKey), FromUrl(p, SortDirKey), FromUrl(p, ViewKey))
  }

  /** `updateFilter(key, value)`: the new filters and the new query string. */
  method UpdateFilter(f: Filters, p: UrlParams.Params, k: FilterKey, v: string)
    returns (f': Filters, p': UrlParams.Params)
    ensures f' == WithField(f, k, v)
    ensures p' == ApplyAll(p, [(KeyName(k), Text(v))])
  {
    f' := WithField(f, k, v);
    p' := UpdateUrlParams(p, [(KeyName(k), Text(v))]);
  }

  /** The address bar keeps up with the filters: reloading the page after
      `updateFilter(k, v)` gives `v` for `k` (its default when `v` is empty)
      and every other filter as before. */
  lemma UpdateFilterReload(p: UrlParams.Params, k: FilterKey, v: string)
    ensures var p' := ApplyAll(p, [(KeyName(k), Text(v))]);
      FromUrl(p', k) == (if v == "" then Default(k) else v) &&
      forall j :: j != k ==> FromUrl(p', j) == FromUrl(p, j)
  {
    var u := [(KeyName(k), Text(v))];
    ApplyAllSpec(p, u);
    forall j | j != k ensures FromUrl(ApplyAll(p, u), j) == FromUrl(p, j) {
      assert KeyName(j) != KeyName(k);
      UrlParams.SameNamedGet(ApplyAll(p, u), p, KeyName(j));
    }
  }

  /** What `clearFilters` sets. */
  const Cleared := Filters("", "", "", "name", "asc", "tracks")

  function ClearUpdates(): seq<(string, UrlValue)> {
    [("artist", Text("")), ("album", Text("")), ("genre", Text("")),
     ("sortBy", Text("name")), ("sortDir", Text("asc")), ("view", Text("tracks"))]
  }

  /** After `clearFilters`, reloading the page reads back the cleared filters. */
  lemma ClearFiltersReload(p: UrlParams.Params)
    ensures FiltersFromUrl(ApplyAll(p, ClearUpdates())) == Cleared
  {
    var u := ClearUpdates();
    ClearKeys();
    ApplyAllSpec(p, u);
    var q := ApplyAll(p, u);
    ReadBack(q, u, 0, ArtistKey);
    ReadBack(q, u, 1, AlbumKey);
    ReadBack(q, u, 2, GenreKey);
    ReadBack(q, u, 3, SortByKey);
    ReadBack(q, u, 4, SortDirKey);
    ReadBack(q, u, 5, ViewKey);
  }

  lemma ClearKeys()
    ensures DistinctKeys(ClearUpdates())
    ensures forall i :: 0 <= i < 6 ==> ClearUpdates()[i].1.Text?
    ensures |ClearUpdates()| == 6
    ensures ClearUpdates()[0].0 == KeyName(ArtistKey) && ClearUpdates()[1].0 == KeyName(AlbumKey)
    ensures ClearUpdates()[2].0 == KeyName(GenreKey) && ClearUpdates()[3].0 == KeyName(SortByKey)
    ensures ClearUpdates()[4].0 == KeyName(SortDirKey) && ClearUpdates()[5].0 == KeyName(ViewKey)
  {
  }

  /** A filter whose key was just written reads back as the written text. */
  lemma ReadBack(q: UrlParams.Params, u: seq<(string, UrlValue)>, i: nat, k: FilterKey)
    requires i < |u| && u[i].0 == KeyName(k) && u[i].1.Text?
    requires UrlParams.Get(q, u[i].0) == Expected(u[i].1)
    ensures FromUrl(q, k) == if u[i].1.text == "" then Default(k) else u[i].1.text
  {
  }

  // ------------------------------------------------------------ filtering

  /** `hay.toLowerCase().includes(needle.toLowerCase())`. */
  predicate Matches(hay: string, needle: string) {
    Contains(Lower(hay), Lower(needle))
  }

  /** `getTrackGenres`: the genres of the track's artists, from the artist data fetched so far. */
  function TrackGenres(artists: seq<Artist>, genres: map<string, seq<string>>): seq<string>
    decreases |artists|
  {
    if |artists| == 0 then []
    else (if artists[0].id in genres then genres[artists[0].id] else []) + TrackGenres(artists[1..], genres)
  }

  /** The test `filterTracks` applies to one track: every non-empty filter must
      match some artist name, the album name, or some genre respectively. */
  predicate Keep(t: Track, f: Filters, genres: map<string, seq<string>>) {
    (f.artist == "" || exists a :: a in t.artists && Matches(a.name, f.artist)) &&
    (f.album == "" || (t.album.Some? && Matches(t.album.value.name, f.album))) &&
    (f.genre == "" || exists g :: g in TrackGenres(t.artists, genres) && Matches(g, f.genre))
  }

  /** `filterTracks(tracks)`. */
  function FilterTracks(ts: seq<Track>, f: Filters, genres: map<string, seq<string>>): (r: seq<Track>)
    ensures |r| <= |ts|
    ensures forall t :: t in r <==> t in ts && Keep(t, f, genres)
    decreases |ts|
  {
    if |ts| == 0 then []
    else (if Keep(ts[0], f, genres) then [ts[0]] else []) + FilterTracks(ts[1..], f, genres)
  }

  /** With no filter set, every track is kept, in order. */
  lemma {:induction false} FilterNothing(ts: seq<Track>, f: Filters, genres: map<string, seq<string>>)
    requires f.artist == "" && f.album == "" && f.genre == ""
    ensures FilterTracks(ts, f, genres) == ts
    decreases |ts|
  {
    if |ts| > 0 {
      FilterNothing(ts[1..], f, genres);
    }
  }

  // ------------------------------------------------------------ sorting

  /** The value a track is compared on. */
  datatype SortValue = Str(s: string) | Num(n: int)

  /** The `switch (filters.sortBy)`: None for a key it does not know. */
  function SortKeyOf(t: Track, sortBy: string): Option<SortValue> {
    if sortBy == "name" then Some(Str(Lower(t.name)))
    else if sortBy == "artist" then Some(Str(if |t.artists| > 0 then Lower(t.artists[0].name) else ""))
    else if sortBy == "album" then Some(Str(if t.album.Some? then Lower(t.album.value.name) else ""))
    else if sortBy == "popularity" then Some(Num(t.popularity))
    else if sortBy == "duration" then Some(Num(t.durationMs))
    else None
  }

  predicate Known(sortBy: string) {
    sortBy == "name" || sortBy == "artist" || sortBy == "album" || sortBy == "popularity" || sortBy == "duration"
  }

  /** JavaScript `<` on two values of one kind. */
  predicate Less(x: SortValue, y: SortValue) {
    match (x, y)
    case (Str(a), Str(b)) => LexLe(a, b) && a != b
    case (Num(a), Num(b)) => a < b
    case _ => false
  }

  /** The comparator of `sortTracks`. */
  function Compare(a: Track, b: Track, sortBy: string, sortDir: string): int {
    match (SortKeyOf(a, sortBy), SortKeyOf(b, sortBy))
    case (Some(va), Some(vb)) =>
      if Less(va, vb) then (if sortDir == "asc" then -1 else 1)
      else if Less(vb, va) then (if sortDir == "asc" then 1 else -1)
      else 0
    case _ => 0
  }

  function Order(sortBy: string, sortDir: string): (Track, Track) -> bool {
    (a: Track, b: Track) => Compare(a, b, sortBy, sortDir) <= 0
  }

  /** `sortTracks(tracks)`: a stable sort of a copy. */
  function SortTracks(ts: seq<Track>, sortBy: string, sortDir: string): (r: seq<Track>)
    ensures multiset(r) == multiset(ts)
  {
    Sorting.Sort(ts, Order(sortBy, sortDir))
  }

  /** One kind of value per key. */
  lemma SameKind(a: Track, b: Track, sortBy: string)
    requires Known(sortBy)
    ensures SortKeyOf(a, sortBy).Some? && SortKeyOf(b, sortBy).Some?
    ensures SortKeyOf(a, sortBy).value.Str? == SortKeyOf(b, sortBy).value.Str?
  {
  }

  /** Less-or-equal on the compared values. */
  predicate AtMost(x: SortValue, y: SortValue) {
    match (x, y)
    case (Str(a), Str(b)) => LexLe(a, b)
    case (Num(a), Num(b)) => a <= b
    case _ => true
  }

  /** On values of one kind `<` is strict and total: not `y < x` is `x <= y`. */
  lemma LessTotal(x: SortValue, y: SortValue)
    requires x.Str? == y.Str?
    ensures !(Less(x, y) && Less(y, x))
    ensures !Less(y, x) <==> AtMost(x, y)
  {
    if x.Str? {
      LexTotal(x.s, y.s);
      if LexLe(x.s, y.s) && LexLe(y.s, x.s) {
        LexAntisymmetric(x.s, y.s);
      }
    }
  }

  /** For a known key the comparator orders by the value, ascending for
      `asc` and descending for anything else. */
  lemma OrderMeans(a: Track, b: Track, sortBy: string, sortDir: string)
    requires Known(sortBy)
    ensures var va := SortKeyOf(a, sortBy).value; var vb := SortKeyOf(b, sortBy).value;
      Order(sortBy, sortDir)(a, b) <==> if sortDir == "asc" then AtMost(va, vb) else AtMost(vb, va)
  {
    SameKind(a, b, sortBy);
    var va := SortKeyOf(a, sortBy).value;
    var vb := SortKeyOf(b, sortBy).value;
    LessTotal(va, vb);
    LessTotal(vb, va);
  }

  lemma AtMostTransitive(x: SortValue, y: SortValue, z: SortValue)
    requires x.Str? == y.Str? == z.Str? && AtMost(x, y) && AtMost(y, z)
    ensures AtMost(x, z)
  {
    if x.Str? {
      LexTransitive(x.s, y.s, z.s);
    }
  }

  /** The comparator is consistent, so the sort is well defined. */
  lemma OrderTotalPreorder(sortBy: string, sortDir: string)
    ensures Sorting.TotalPreorder(Order(sortBy, sortDir))
  {
    var le := Order(sortBy, sortDir);
    if Known(sortBy) {
      forall a: Track, b: Track ensures le(a, b) || le(b, a) {
        OrderMeans(a, b, sortBy, sortDir);
        OrderMeans(b, a, sortBy, sortDir);
        SameKind(a, b, sortBy);
        LessTotal(SortKeyOf(a, sortBy).value, SortKeyOf(b, sortBy).value);
        LessTotal(SortKeyOf(b, sortBy).value, SortKeyOf(a, sortBy).value);
      }
      forall a: Track, b: Track, c: Track | le(a, b) && le(b, c) ensures le(a, c) {
        OrderMeans(a, b, sortBy, sortDir);
        OrderMeans(b, c, sortBy, sortDir);
        OrderMeans(a, c, sortBy, sortDir);
        SameKind(a, b, sortBy);
        SameKind(b, c, sortBy);
        var va, vb, vc := SortKeyOf(a, sortBy).value, SortKeyOf(b, sortBy).value, SortKeyOf(c, sortBy).value;
        if sortDir == "asc" {
          AtMostTransitive(va, vb, vc);
        } else {
          AtMostTransitive(vc, vb, va);
        }
      }
    }
  }

  /** The sorted copy is in order: ascending by the key for `asc`, descending otherwise. */
  lemma SortTracksOrdered(ts: seq<Track>, sortBy: string, sortDir: string)
    requires Known(sortBy)
    ensures var r := SortTracks(ts, sortBy, sortDir);
      forall i, j :: 0 <= i < j < |r| ==>
        var vi := SortKeyOf(r[i], sortBy).value; var vj := SortKeyOf(r[j], sortBy).value;
        if sortDir == "asc" then AtMost(vi, vj) else AtMost(vj, vi)
  {
    OrderTotalPreorder(sortBy, sortDir);
    Sorting.SortSorted(ts, Order(sortBy, sortDir));
    var r := SortTracks(ts, sortBy, sortDir);
    forall i, j | 0 <= i < j < |r|
      ensures var vi := SortKeyOf(r[i], sortBy).value; var vj := SortKeyOf(r[j], sortBy).value;
        if sortDir == "asc" then AtMost(vi, vj) else AtMost(vj, vi)
    {
      OrderMeans(r[i], r[j], sortBy, sortDir);
    }
  }

  /** An unknown key compares every pair as equal, and the stable sort keeps the order. */
  lemma SortUnknownKey(ts: seq<Track>, sortBy: string, sortDir: string)
    requires !Known(sortBy)
    ensures SortTracks(ts, sortBy, sortDir) == ts
  {
    assert Sorting.Sorted(ts, Order(sortBy, sortDir));
    Sorting.SortOfSorted(ts, Order(sortBy, sortDir));
  }

  /** Tracks with equal keys keep their relative order. */
  lemma SortTracksStable(ts: seq<Track>, sortBy: string, sortDir: string, a: Track)
    ensures var le := Order(sortBy, sortDir);
      Sorting.EquivClass(SortTracks(ts, sortBy, sortDir), le, a) == Sorting.EquivClass(ts, le, a)
  {
    OrderTotalPreorder(sortBy, sortDir);
    Sorting.SortStable(ts, Order(sortBy, sortDir), a);
  }

  // ------------------------------------------------------------ artist and album counts

  /** An entry of `getUniqueArtists` / `getUniqueAlbums`: the first object seen
      with its id, and `trackCount`. */
  datatype Counted<T> = Counted(item: T, trackCount: nat)

  /** What `getUniqueAlbums` stores per album: the album and the first
      artist's name of the track that introduced it (`artists[0]?.name`). */
  datatype AlbumEntry = AlbumEntry(album: Album, artistName: Option<string>)

  function KeyList<T>(items: seq<T>, key: T -> string): (r: seq<string>)
    ensures |r| == |items|
    ensures forall i :: 0 <= i < |items| ==> r[i] == key(items[i])
  {
    seq(|items|, i requires 0 <= i < |items| => key(items[i]))
  }

  function CountedKeys<T>(r: seq<Counted<T>>, key: T -> string): seq<string> {
    KeyList(seq(|r|, i requires 0 <= i < |r| => r[i].item), key)
  }

  /** The first item with key `k`: the one `map.set` stored. */
  function FirstWithKey<T>(items: seq<T>, key: T -> string, k: string): (r: Option<T>)
    ensures r.Some? ==> r.value in items && key(r.value) == k
    ensures r.None? <==> forall x :: x in items ==> key(x) != k
  {
    if |items| == 0 then None
    else if key(items[0]) == k then Some(items[0])
    else FirstWithKey(items[1..], key, k)
  }

  /** `b.trackCount - a.trackCount` as a comparator: most tracks first. */
  function ByCount<T>(): (Counted<T>, Counted<T>) -> bool {
    (a: Counted<T>, b: Counted<T>) => a.trackCount >= b.trackCount
  }

  lemma ByCountTotalPreorder<T(!new)>()
    ensures Sorting.TotalPreorder(ByCount<T>())
  {
  }

  /** The `forEach` + `Map` count shared by both functions: one entry per
      distinct key holding the first item with that key and the number of
      items with it, most frequent first. */
  method CountByKey<T(==,!new)>(items: seq<T>, key: T -> string) returns (r: seq<Counted<T>>)
    ensures forall e :: e in r ==> Tallied(e, items, key)
    ensures Tally.Distinct(CountedKeys(r, key))
    ensures forall k :: k in CountedKeys(r, key) <==> k in KeyList(items, key)
    ensures forall i, j :: 0 <= i < j < |r| ==> r[i].trackCount >= r[j].trackCount
  {
    var keys := KeyList(items, key);
    var order, counts := Tally.CountKeys(keys);
    var entries: seq<Counted<T>> := [];
    var i := 0;
    while i < |order|
      invariant 0 <= i <= |order| && |entries| == i
      invariant forall n :: 0 <= n < i ==> key(entries[n].item) == order[n] && Tallied(entries[n], items, key)
    {
      var k := order[i];
      KeyFound(items, key, k);
      var first := FirstWithKey(items, key, k);
      entries := entries + [Counted(first.value, counts[k])];
      i := i + 1;
    }
    Tally.DedupDistinct(keys);
    assert CountedKeys(entries, key) == order;
    r := Sorting.Sort(entries, ByCount());
    SortTallied(entries, items, key);
  }

  /** Sorting the first-seen entries by count keeps what each entry says and
      which keys there are, and puts the most frequent first. */
  lemma SortTallied<T(!new)>(entries: seq<Counted<T>>, items: seq<T>, key: T -> string)
    requires Tally.Distinct(CountedKeys(entries, key))
    requires forall n :: 0 <= n < |entries| ==> Tallied(entries[n], items, key)
    requires forall k :: k in CountedKeys(entries, key) <==> k in KeyList(items, key)
    ensures var r := Sorting.Sort(entries, ByCount());
      (forall e :: e in r ==> Tallied(e, items, key)) &&
      Tally.Distinct(CountedKeys(r, key)) &&
      (forall k :: k in CountedKeys(r, key) <==> k in KeyList(items, key)) &&
      (forall i, j :: 0 <= i < j < |r| ==> r[i].trackCount >= r[j].trackCount)
  {
    var r := Sorting.Sort(entries, ByCount());
    TalliedPermuted(entries, r, items, key);
    ByCountTotalPreorder<T>();
    Sorting.SortSorted(entries, ByCount());
    SortedByCount(r);
    KeysOfPermutation(entries, r, key);
    EntriesDistinct(entries, key);
    Tally.PermutedDistinct(entries, r);
    KeysOfDistinctEntries(r, items, key);
  }

  /** An entry holds the first item with its key and the number of items with that key. */
  ghost predicate Tallied<T>(e: Counted<T>, items: seq<T>, key: T -> string) {
    FirstWithKey(items, key, key(e.item)) == Some(e.item) &&
    e.trackCount == multiset(KeyList(items, key))[key(e.item)]
  }

  lemma TalliedPermuted<T>(s: seq<Counted<T>>, t: seq<Counted<T>>, items: seq<T>, key: T -> string)
    requires multiset(s) == multiset(t)
    requires forall n :: 0 <= n < |s| ==> Tallied(s[n], items, key)
    ensures forall e :: e in t ==> Tallied(e, items, key)
  {
    forall e | e in t ensures Tallied(e, items, key) {
      assert e in multiset(s);
      var n :| 0 <= n < |s| && s[n] == e;
    }
  }

  /** A key in the list has a first item. */
  lemma KeyFound<T>(items: seq<T>, key: T -> string, k: string)
    requires k in KeyList(items, key)
    ensures FirstWithKey(items, key, k).Some?
  {
    var j :| 0 <= j < |items| && KeyList(items, key)[j] == k;
    assert items[j] in items;
  }

  lemma SortedByCount<T>(r: seq<Counted<T>>)
    requires Sorting.Sorted(r, ByCount())
    ensures forall i, j :: 0 <= i < j < |r| ==> r[i].trackCount >= r[j].trackCount
  {
    forall i, j | 0 <= i < j < |r| ensures r[i].trackCount >= r[j].trackCount {
      assert ByCount()(r[i], r[j]);
    }
  }

  /** Reordering the entries does not change which keys they carry. */
  lemma KeysOfPermutation<T>(s: seq<Counted<T>>, t: seq<Counted<T>>, key: T -> string)
    requires multiset(s) == multiset(t)
    ensures forall k :: k in CountedKeys(t, key) <==> k in CountedKeys(s, key)
  {
    forall k ensures k in CountedKeys(t, key) ==> k in CountedKeys(s, key) {
      if k in CountedKeys(t, key) {
        var i :| 0 <= i < |t| && CountedKeys(t, key)[i] == k;
        assert t[i] in multiset(s);
        var j :| 0 <= j < |s| && s[j] == t[i];
        assert CountedKeys(s, key)[j] == k;
      }
    }
    forall k ensures k in CountedKeys(s, key) ==> k in CountedKeys(t, key) {
      if k in CountedKeys(s, key) {
        var i :| 0 <= i < |s| && CountedKeys(s, key)[i] == k;
        assert s[i] in multiset(t);
        var j :| 0 <= j < |t| && t[j] == s[i];
        assert CountedKeys(t, key)[j] == k;
      }
    }
  }

  /** Entries with distinct keys are distinct. */
  lemma EntriesDistinct<T>(s: seq<Counted<T>>, key: T -> string)
    requires Tally.Distinct(CountedKeys(s, key))
    ensures Tally.Distinct(s)
  {
    forall i, j | 0 <= i < j < |s| ensures s[i] != s[j] {
      assert CountedKeys(s, key)[i] != CountedKeys(s, key)[j];
    }
  }

  /** Distinct entries, each fixed by its key, have distinct keys. */
  lemma KeysOfDistinctEntries<T>(r: seq<Counted<T>>, items: seq<T>, key: T -> string)
    requires Tally.Distinct(r)
    requires forall e :: e in r ==> Tallied(e, items, key)
    ensures Tally.Distinct(CountedKeys(r, key))
  {
    forall i, j | 0 <= i < j < |r| ensures CountedKeys(r, key)[i] != CountedKeys(r, key)[j] {
      assert r[i] in r && r[j] in r;
    }
  }

  /** Every (track, artist) pair, in library order: `flatMap` of the artists. */
  function AllArtists(ts: seq<Track>): (r: seq<Artist>)
    ensures forall a :: a in r <==> exists t :: t in ts && a in t.artists
    decreases |ts|
  {
    if |ts| == 0 then [] else ts[0].artists + AllArtists(ts[1..])
  }

  function ArtistId(a: Artist): string { a.id }

  /** One entry per track that has an album. */
  function AlbumEntries(ts: seq<Track>): (r: seq<AlbumEntry>)
    ensures |r| <= |ts|
    ensures forall e :: e in r ==> exists t :: t in ts && t.album == Some(e.album)
    decreases |ts|
  {
    if |ts| == 0 then []
    else
      var first := if |ts[0].artists| > 0 then Some(ts[0].artists[0].name) else None;
      (if ts[0].album.Some? then [AlbumEntry(ts[0].album.value, first)] else []) + AlbumEntries(ts[1..])
  }

  function AlbumId(e: AlbumEntry): string { e.album.id }

  /** `getUniqueArtists()`: each artist id once, counted once per track it is
      credited on, holding the first artist object seen, most tracks first. */
  method UniqueArtists(ts: seq<Track>) returns (r: seq<Counted<Artist>>)
    ensures forall e :: e in r ==>
      FirstWithKey(AllArtists(ts), ArtistId, e.item.id) == Some(e.item) &&
      e.trackCount == multiset(KeyList(AllArtists(ts), ArtistId))[e.item.id]
    ensures Tally.Distinct(CountedKeys(r, ArtistId))
    ensures forall id :: id in CountedKeys(r, ArtistId) <==> exists a :: a in AllArtists(ts) && a.id == id
    ensures forall i, j :: 0 <= i < j < |r| ==> r[i].trackCount >= r[j].trackCount
  {
    r := CountByKey(AllArtists(ts), ArtistId);
    forall id ensures id in KeyList(AllArtists(ts), ArtistId) <==> exists a :: a in AllArtists(ts) && a.id == id {
      KeyListMembers(AllArtists(ts), ArtistId, id);
    }
  }

  /** `getUniqueAlbums()`: each album id once, counted once per track on it,
      holding the album and artist name of the first such track, most tracks first. */
  method UniqueAlbums(ts: seq<Track>) returns (r: seq<Counted<AlbumEntry>>)
    ensures forall e :: e in r ==>
      FirstWithKey(AlbumEntries(ts), AlbumId, e.item.album.id) == Some(e.item) &&
      e.trackCount == multiset(KeyList(AlbumEntries(ts), AlbumId))[e.item.album.id]
    ensures Tally.Distinct(CountedKeys(r, AlbumId))
    ensures forall id :: id in CountedKeys(r, AlbumId) <==> exists e :: e in AlbumEntries(ts) && e.album.id == id
    ensures forall i, j :: 0 <= i < j < |r| ==> r[i].trackCount >= r[j].trackCount
  {
    r := CountByKey(AlbumEntries(ts), AlbumId);
    forall id ensures id in KeyList(AlbumEntries(ts), AlbumId) <==> exists e :: e in AlbumEntries(ts) && e.album.id == id {
      KeyListMembers(AlbumEntries(ts), AlbumId, id);
    }
  }

  lemma KeyListMembers<T>(items: seq<T>, key: T -> string, k: string)
    ensures k in KeyList(items, key) <==> exists x :: x in items && key(x) == k
  {
    if k in KeyList(items, key) {
      var j :| 0 <= j < |items| && KeyList(items, key)[j] == k;
      assert items[j] in items;
    }
    if exists x :: x in items && key(x) == k {
      var x :| x in items && key(x) == k;
      var j :| 0 <= j < |items| && items[j] == x;
      assert KeyList(items, key)[j] == k;
    }
  }

  /** The album counts add up to the number of tracks that have an album. */
  lemma AlbumCountsTotal(ts: seq<Track>)
    ensures var keys := KeyList(AlbumEntries(ts), AlbumId);
      Tally.SumCounts(Tally.Dedup(keys), multiset(keys)) == |AlbumEntries(ts)|
  {
    Tally.SumOfCounts(KeyList(AlbumEntries(ts), AlbumId));
  }

  // ------------------------------------------------------------ artist data and playlist sync

  /** `[...new Set(uniqueTracks.flatMap(t => t.artists.map(a => a.id)))]`:
      the artist ids of newly added tracks, each once, in first-seen order. */
  function NewArtistIds(unique: seq<Track>): (r: seq<string>)
    ensures Tally.Distinct(r)
    ensures forall id :: id in r <==> exists a :: a in AllArtists(unique) && a.id == id
  {
    var ids := KeyList(AllArtists(unique), ArtistId);
    Tally.DedupDistinct(ids);
    forall id ensures id in ids <==> exists a :: a in AllArtists(unique) && a.id == id {
      KeyListMembers(AllArtists(unique), ArtistId, id);
    }
    Tally.Dedup(ids)
  }

  /** `artistIds.filter(id => !artistData[id])`. */
  function UnknownIds(ids: seq<string>, known: map<string, seq<string>>): (r: seq<string>)
    ensures |r| <= |ids|
    ensures forall id :: id in r <==> id in ids && id !in known
    decreases |ids|
  {
    if |ids| == 0 then []
    else (if ids[0] in known then [] else [ids[0]]) + UnknownIds(ids[1..], known)
  }

  /** The filter distributes over concatenation: unknown ids keep their order
      and their repeats. */
  lemma {:induction false} UnknownIdsAppend(a: seq<string>, b: seq<string>, known: map<string, seq<string>>)
    ensures UnknownIds(a + b, known) == UnknownIds(a, known) + UnknownIds(b, known)
    decreases |a|
  {
    if |a| == 0 {
      assert a + b == b;
    } else {
      var ab := a + b;
      assert ab[0] == a[0] && ab[1..] == a[1..] + b;
      UnknownIdsAppend(a[1..], b, known);
      var head := if a[0] in known then [] else [a[0]];
      assert UnknownIds(a, known) == head + UnknownIds(a[1..], known);
      assert UnknownIds(ab, known) == head + UnknownIds(a[1..] + b, known);
      Tally.SeqAssoc(head, UnknownIds(a[1..], known), UnknownIds(b, known));
    }
  }

  /** The id lists `fetchArtistData` requests: nothing for an empty list or
      when every id is already known; otherwise the unknown ids, in order, in
      batches of at most 50. */
  method ArtistRequests(ids: seq<string>, known: map<string, seq<string>>) returns (batches: seq<seq<string>>)
    ensures Batching.Flatten(batches) == UnknownIds(ids, known)
    ensures Batching.WellSized(batches, 50)
    ensures forall b, id :: b in batches && id in b ==> id in ids && id !in known
  {
    if |ids| == 0 {
      return [];
    }
    var newIds := UnknownIds(ids, known);
    if |newIds| == 0 {
      return [];
    }
    batches := Batching.Batches(newIds, 50);
    FlattenMembers(batches);
  }

  /** Every element of a batch is in the concatenation. */
  lemma {:induction false} FlattenMembers<T>(bs: seq<seq<T>>)
    ensures forall b, x :: b in bs && x in b ==> x in Batching.Flatten(bs)
    decreases |bs|
  {
    if |bs| > 0 {
      FlattenMembers(bs[1..]);
      assert Batching.Flatten(bs) == bs[0] + Batching.Flatten(bs[1..]);
      forall b, x | b in bs && x in b ensures x in Batching.Flatten(bs) {
        if b != bs[0] {
          assert b in bs[1..];
        }
      }
    }
  }

  /** `topTracks.filter(t => !existingTrackIds.has(t.id))`. */
  function TracksToAdd(top: seq<Track>, existing: set<string>): (r: seq<Track>)
    ensures |r| <= |top|
    ensures forall t :: t in r <==> t in top && t.id !in existing
    decreases |top|
  {
    if |top| == 0 then []
    else (if top[0].id in existing then [] else [top[0]]) + TracksToAdd(top[1..], existing)
  }

  /** The filter distributes over concatenation: the tracks to add keep the
      order of the top tracks. */
  lemma {:induction false} TracksToAddAppend(a: seq<Track>, b: seq<Track>, existing: set<string>)
    ensures TracksToAdd(a + b, existing) == TracksToAdd(a, existing) + TracksToAdd(b, existing)
    decreases |a|
  {
    if |a| == 0 {
      assert a + b == b;
    } else {
      var head := if a[0].id in existing then [] else [a[0]];
      assert (a + b)[0] == a[0] && (a + b)[1..] == a[1..] + b;
      assert TracksToAdd(a + b, existing) == head + TracksToAdd(a[1..] + b, existing);
      TracksToAddAppend(a[1..], b, existing);
    }
  }

  /** Once the added tracks are in the playlist, syncing the same top tracks
      again adds nothing. */
  lemma {:induction false} SyncAgainAddsNothing(top: seq<Track>, existing: set<string>)
    ensures TracksToAdd(top, existing + IdsOf(TracksToAdd(top, existing))) == []
  {
    var added := IdsOf(TracksToAdd(top, existing));
    forall t | t in top ensures t.id in existing + added {
      if t.id !in existing {
        var r := TracksToAdd(top, existing);
        assert t in r;
        var i :| 0 <= i < |r| && r[i] == t;
      }
    }
    NothingLeft(top, existing + added);
  }

  lemma {:induction false} NothingLeft(top: seq<Track>, ids: set<string>)
    requires forall t :: t in top ==> t.id in ids
    ensures TracksToAdd(top, ids) == []
    decreases |top|
  {
    if |top| > 0 {
      assert top[0] in top;
      forall t | t in top[1..] ensures t.id in ids {
        assert t in top;
      }
      NothingLeft(top[1..], ids);
    }
  }

  /** `spotify:track:${id}`. */
  function TrackUri(id: string): (r: string)
    ensures StripPrefix(r, "spotify:track:") == Some(id)
  {
    var r := "spotify:track:" + id;
    assert r[..14] == "spotify:track:" && r[14..] == id;
    r
  }

  function TrackUris(ts: seq<Track>): (r: seq<string>)
    ensures |r| == |ts|
    ensures forall i :: 0 <= i < |ts| ==> r[i] == TrackUri(ts[i].id)
  {
    seq(|ts|, i requires 0 <= i < |ts| => TrackUri(ts[i].id))
  }

  /** `addTracksToPlaylist`: the POST bodies, at most 100 URIs each, covering
      all of them in order. */
  method PlaylistRequests(uris: seq<string>) returns (batches: seq<seq<string>>)
    ensures Batching.Flatten(batches) == uris
    ensures Batching.WellSized(batches, 100)
    ensures |batches| == (|uris| + 99) / 100
  {
    batches := Batching.Batches(uris, 100);
  }

  /** The status line after a sync. */
  function SyncStatus(added: nat): (r: string)
    ensures added == 0 <==> r == "playlist up to date"
    ensures added > 0 ==> StartsWith(r, "added " + NatToString(added) + " new track")
    ensures added > 0 ==> (EndsWith(r, "tracks") <==> added > 1)
  {
    if added > 0 then
      var head := "added " + NatToString(added) + " new track";
      var r := head + (if added > 1 then "s" else "");
      assert r[0] == 'a' && r[..|head|] == head;
      assert r[|r| - 6..] == if added > 1 then "tracks" else " track";
      r
    else "playlist up to date"
  }
}

=== FILE: url_params.dfy ===
/** `URLSearchParams` as the front ends use it: an ordered list of name/value
    pairs where `get` reads the first pair with a name, `set` overwrites the
    first such pair and drops the others (or appends when there is none), and
    `delete` drops every pair with the name. */
module UrlParams {
  import opened Wrappers

  type Params = seq<(string, string)>

  /** `params.get(k)`: the value of the first pair named `k`. */
  function Get(p: Params, k: string): (r: Option<string>)
    ensures r.Some? ==> (k, r.value) in p
    ensures r.None? <==> k !in Keys(p)
  {
    if |p| == 0 then None
    else if p[0].0 == k then Some(p[0].1)
    else Get(p[1..], k)
  }

  function Keys(p: Params): set<string> {
    set e | e in p :: e.0
  }

  /** The pairs named `k`, in order. */
  function Named(p: Params, k: string): (r: Params)
    ensures forall e :: e in r <==> e in p && e.0 == k
  {
    if |p| == 0 then []
    else if p[0].0 == k then [p[0]] + Named(p[1..], k)
    else Named(p[1..], k)
  }

  /** `params.delete(k)`. */
  function Delete(p: Params, k: string): (r: Params)
    ensures forall e :: e in r <==> e in p && e.0 != k
  {
    if |p| == 0 then []
    else if p[0].0 == k then Delete(p[1..], k)
    else [p[0]] + Delete(p[1..], k)
  }

  /** `params.set(k, v)`. */
  function Set(p: Params, k: string, v: string): (r: Params)
    ensures (k, v) in r
    ensures forall e :: e in r && e.0 != k ==> e in p
  {
    if |p| == 0 then [(k, v)]
    else if p[0].0 == k then [(k, v)] + Delete(p[1..], k)
    else [p[0]] + Set(p[1..], k, v)
  }

  /** `get` sees the first pair of `Named`. */
  lemma {:induction false} GetNamed(p: Params, k: string)
    ensures Get(p, k) == if Named(p, k) == [] then None else Some(Named(p, k)[0].1)
    decreases |p|
  {
    if |p| > 0 && p[0].0 != k {
      GetNamed(p[1..], k);
    }
  }

  /** After `set(k, v)` there is exactly the one pair `(k, v)` named `k`. */
  lemma {:induction false} SetNamedSame(p: Params, k: string, v: string)
    ensures Named(Set(p, k, v), k) == [(k, v)]
    decreases |p|
  {
    if |p| == 0 {
    } else if p[0].0 == k {
      DeleteNamedSame(p[1..], k);
    } else {
      SetNamedSame(p[1..], k, v);
    }
  }

  /** `set(k, v)` leaves the pairs of every other name as they were, in order. */
  lemma {:induction false} SetNamedOther(p: Params, k: string, v: string, j: string)
    requires j != k
    ensures Named(Set(p, k, v), j) == Named(p, j)
    decreases |p|
  {
    if |p| == 0 {
    } else if p[0].0 == k {
      DeleteNamedOther(p[1..], k, j);
    } else {
      SetNamedOther(p[1..], k, v, j);
    }
  }

  lemma {:induction false} DeleteNamedSame(p: Params, k: string)
    ensures Named(Delete(p, k), k) == []
    decreases |p|
  {
    if |p| > 0 {
      DeleteNamedSame(p[1..], k);
      if p[0].0 != k {
        var d := Delete(p, k);
        assert d[0] == p[0] && d[1..] == Delete(p[1..], k);
      }
    }
  }

  /** `delete(k)` leaves the pairs of every other name as they were, in order. */
  lemma {:induction false} DeleteNamedOther(p: Params, k: string, j: string)
    requires j != k
    ensures Named(Delete(p, k), j) == Named(p, j)
    decreases |p|
  {
    if |p| > 0 {
      DeleteNamedOther(p[1..], k, j);
      if p[0].0 != k {
        var d := Delete(p, k);
        assert d[0] == p[0] && d[1..] == Delete(p[1..], k);
      }
    }
  }

  lemma SetGet(p: Params, k: string, v: string)
    ensures Get(Set(p, k, v), k) == Some(v)
  {
    SetNamedSame(p, k, v);
    GetNamed(Set(p, k, v), k);
  }

  lemma DeleteGet(p: Params, k: string)
    ensures Get(Delete(p, k), k) == None
  {
    DeleteNamedSame(p, k);
    GetNamed(Delete(p, k), k);
  }

  /** Pairs with the same name-list read the same. */
  lemma SameNamedGet(p: Params, q: Params, k: string)
    requires Named(p, k) == Named(q, k)
    ensures Get(p, k) == Get(q, k)
  {
    GetNamed(p, k);
    GetNamed(q, k);
  }
}

=== FILE: wrappers.dfy ===
/** Option and Result: the shapes every module uses for "absent" and for an
    operation that can fail (an exception, an `Err`, a rejected request). */
module Wrappers {

  datatype Option<+T> = None | Some(value: T) {
    function GetOr(default: T): T {
      match this
      case Some(v) => v
      case None => default
    }
  }

  datatype Result<+T, +E> = Ok(value: T) | Err(error: E)
}
